=== FILE: README.md ===
# WizardJS playground core, modelled in Dafny

WizardJS is a JavaScript/TypeScript playground. Before the user's code is evaluated, it goes through the pipeline modelled here:

1. **Readiness and denylist guards.** These decide whether the code is worth running at all:
   - a quote-aware and comment-aware bracket matcher;
   - the "incomplete statement" and "incomplete typing" pattern lists;
   - the list of dangerous APIs.
2. **Source rewriting passes:**
   - `//?` magic-comment probes: extracted, stripped and instrumented;
   - console calls tagged with their 1-based line;
   - `for (x of e)` normalised to `for (let x of e)`;
   - loop guards injected into `while`, `for … in/of` and classic `for` loops;
   - the code wrapped in a fixed prologue and epilogue.
3. **Run session.** The recorders and the console substitute share a log buffer, a line counter with a ceiling of 1000 entries, a 5000 ms time budget and an abort controller. After the program:
   - the buffer is flushed in order, unless the run was aborted;
   - an error is turned into a "friendly" report.
4. **Error location and classification:**
   - the wrapped-to-raw line mapping and the location validity check;
   - the first-loop, first-use, last-declaration and syntax-error locators;
   - the ordered classification cascade;
   - the pre-flight detection of loops written without a body.

Alongside the pipeline the model covers:
- the ES `import`/`export` rewriter and extractors;
- the module registry that rewritten imports resolve against;
- the tab table;
- the per-tab "line → output items" grouping behind the output panel.

Two engines exist side by side. The app uses `src/renderer/core/executionEngine.ts`, called `Current` here. The older class `src/renderer/core/ExecutionEngine.ts` is called `Legacy`. Where the two differ, the model takes the engine as a parameter. The differences are:
- how console calls are tagged;
- which entries count toward the ceiling;
- whether `undefined` results are filtered;
- the `userStartLine` passed to `friendly`.

`src/renderer/core/CodeInstrumentation.ts` repeats the same passes under other recorder names. Its magic-comment and console passes are modelled by the same members as the current engine's, parameterised by the recorder name. The rows below cite the current engine's lines.

Regular expressions are modelled as explicit scanners over `seq<char>`; the project has no general regular-expression semantics. Each scanner follows by hand the leftmost match a backtracking engine finds. Where a greedy class can give text back, the scanner models the give-back: in `export const x = v`, `\s*` before `[^;]+` (`SyntaxTransformer.DeclValue`), and in `export default e`, `\s+` before `.+` (`SyntaxTransformer.ExportDefault`). Five lemmas relate a scanner to an independent definition of its match: `MagicComments.ProbeTextIsLazyMatch`, `MagicComments.RemoveMarkerIsLeftmostReplace`, `ConsoleTagging.NextConsoleIsLeftmost`, `EngineChecks.SimpleCallIff` and `EngineChecks.MethodCallIff`. A few more (`LoopGuards.UndeclaredHeaderMatches`, `LoopGuards.WhileHeadMatches`, `LoopGuards.ClassicForHeaderMatches`) give the spans a scanner returns on text of the pattern's shape. Every other scanner is its own definition, and the rewrite lemmas state what it does on one statement of each form. Whitespace is JavaScript's `\s` and `trim()` set, including the line terminators U+2028/2029, NBSP, BOM and the `Zs` spaces. `.` excludes the four line terminators, and `\w` is ASCII only. Lines come from splitting on `'\n'`.

Where the code does its work step by step, the model is imperative Dafny:
- **Loops** are methods proved against a specification function: `AreBracketsBalanced`, `ExtractMagicComments`, `InstrumentMagicComments`, `TagLine`, `InjectForInOfGuards`, the locators and `DetectLoopWithoutBody`.
- **Objects with mutable state** are classes:
  - `ExecutionEngine` owns `abortCtrl`.
  - `RunSession` owns the `logs`, `lines` and controller that `run`'s closures share.
  - `ModuleSystem`, `TabsManager` and `OutputPanel` each own their maps.
  - JavaScript `Map` is modelled by `OrderedMaps.OrderedMap`, which remembers insertion order.

Several quirks of the source are modelled as written:
- The current engine's `run` passes `0` as `userStartLine` to `friendly`, so on that path the wrapped-to-raw mapping is skipped (`ErrorLocator.UnmappedFrame`).
- The current engine's console substitute never checks the ceiling, the abort flag or the clock; console entries are buffered and not counted (`Session.ConsoleKeepsSound`).
- `userStartLine` is 10, because the untrimmed prefix splits into 10 pieces. The wrapped text is trimmed, however, so user line `k` sits at wrapped line `k + 8` (`Wrapping.WrappedLines`).
- `export default X;` becomes `__exports.default = X;;`, because `.+` takes the `;` (`SyntaxTransformer.ExportDefaultRewrite`).
- The "function-closing" export pass never changes anything (`SyntaxTransformer.FunctionPassIsIdentity`), so exported functions are not added to `__exports`.
- The denylist pattern `Function\s*\(`, matched case-insensitively, also flags every anonymous `function (` expression.

## Model

| member | source | states |
|---|---|---|
| CodeGuards.AreBracketsBalanced | src/renderer/utils/codeGuards.ts:1-37 | The stack-and-flags loop returns exactly `Balanced(code)`: the look-ahead-free reference matcher ends with no mismatch and an empty stack |
| CodeGuards.Balanced | src/renderer/utils/codeGuards.ts:1-37 | Reference definition, without the loop: the text read left to right through comment and string states, the openers on a stack; `AreBracketsBalanced` is proved equal to it |
| CodeGuards.MismatchIsFinal | src/renderer/utils/codeGuards.ts:30-34 | Once a closer has failed, no continuation makes the text balanced (the early `return false`) |
| CodeGuards.CloserMismatchRejects | src/renderer/utils/codeGuards.ts:30-36 | A closer read in code, when the stack is empty or its top is another kind of opener, makes the verdict false, whatever follows |
| CodeGuards.DocumentedBracketExamples | src/renderer/utils/codeGuards.ts:10-36 | A commented bracket and a quoted bracket are ignored; `(()` is unbalanced |
| CodeGuards.InsertionInsideString | src/renderer/utils/codeGuards.ts:19-29 | Inserting text (brackets included) inside a string literal leaves the verdict unchanged, if the text holds neither the opening quote nor a backslash and does not follow a backslash |
| CodeGuards.InsertionInsideComment | src/renderer/utils/codeGuards.ts:10-18 | Inserting text without a newline inside a `//` comment leaves the verdict unchanged |
| CodeGuards.StringClosesOnlyOnUnescapedQuote | src/renderer/utils/codeGuards.ts:24-28 | A string is closed by its own quote exactly when the preceding character is not a backslash; other quote kinds never close it, and the stack is untouched |
| CodeGuards.IdentifierThenOperatorIsIncomplete | src/renderer/utils/codeGuards.ts:54-56 | Trimmed text ending in an identifier, optional spaces and then `=`, `(` or `.` is an incomplete statement |
| CodeGuards.HasIncompleteStatement | src/renderer/utils/codeGuards.ts:39-65 | Definition: some one of the 21 patterns matches the trimmed text; the lemmas beside it state its cases |
| CodeGuards.DanglingDeclarationIsIncomplete | src/renderer/utils/codeGuards.ts:52 | `const x =` is an incomplete statement |
| CodeGuards.LooksLikeIncompleteTyping | src/renderer/utils/codeGuards.ts:67-80 | Definition: some one of the 8 anchored patterns matches the trimmed last line; `TypingDependsOnLastLineOnly` and `LoneIdentifierIsIncomplete` state its behaviour |
| CodeGuards.TypingDependsOnLastLineOnly | src/renderer/utils/codeGuards.ts:67-80 | `looksLikeIncompleteTyping(a + "\n" + b)` equals `looksLikeIncompleteTyping(b)`: only the last line matters |
| CodeGuards.LoneIdentifierIsIncomplete | src/renderer/utils/codeGuards.ts:68-70 | A last line made only of word characters counts as typing in progress, whatever comes before it |
| CodeGuards.DangerIsMonotone | src/renderer/utils/codeGuards.ts:82-92 | If the denylist matches `a`, it matches `a + b` |
| CodeGuards.ContainsDangerousCode | src/renderer/utils/codeGuards.ts:82-92 | Definition: one of the seven case-insensitive denylist patterns matches somewhere; `DangerIsMonotone` states it |
| EngineChecks.IsReady | src/renderer/core/executionEngine.ts:53-60 | `isReady` runs the four checks in order on the trimmed text, and returns the reference verdict `Ready` |
| EngineChecks.BlankIsNotReady | src/renderer/core/executionEngine.ts:54-55 | Blank text is never ready |
| EngineChecks.DanglingOperatorIsNotReady | src/renderer/core/executionEngine.ts:56-59 | Text ending in an identifier followed by `=`, `(` or `.` is never ready |
| EngineChecks.ReadyIsBalanced | src/renderer/core/executionEngine.ts:53-60 | Ready text is non-blank, and its brackets are balanced once trimmed |
| EngineChecks.IsVoidFunctionCall | src/renderer/core/ExecutionEngine.ts:186-198 | True exactly when the text splits as `IDENT \s* (` or as `IDENT \s* . \s* IDENT \s* (` and no exception prefix starts it; a positive answer starts with an identifier character |
| EngineChecks.SimpleCallIff | src/renderer/core/ExecutionEngine.ts:187-190 | The greedy scan accepts a text exactly when `^[a-zA-Z_$][a-zA-Z0-9_$]*\s*\(` has a match on it: an identifier, spaces, `(` |
| EngineChecks.MethodCallIff | src/renderer/core/ExecutionEngine.ts:188-190 | The staged scan accepts a text exactly when `^[a-zA-Z_$][a-zA-Z0-9_$]*\s*\.\s*[a-zA-Z_$][a-zA-Z0-9_$]*\s*\(` has a match on it: an identifier, spaces, `.`, spaces, an identifier, spaces, `(` |
| EngineChecks.PlainCallIsVoid | src/renderer/core/ExecutionEngine.ts:186-198 | `foo(1)` is a void call |
| EngineChecks.MethodCallIsVoid | src/renderer/core/ExecutionEngine.ts:186-198 | `arr.push(2)` is a void call |
| EngineChecks.NonVoidExamples | src/renderer/core/ExecutionEngine.ts:190-196 | `Math.max(1)` (an exception prefix) and `x + 1` (no call) are not void calls |
| MagicComments.ProbeTextIsLazyMatch | src/renderer/core/executionEngine.ts:76-78 | `ProbeText` is the lazy `^(.+?)\s*//\?\s*$` group: the shortest non-empty prefix followed by the marker tail, or none when no prefix without a line terminator is |
| MagicComments.ProbeText | src/renderer/core/executionEngine.ts:76-78 | A captured probe text is non-empty and holds no line terminator |
| MagicComments.MarkerAt | src/renderer/core/executionEngine.ts:76 | A marker found means `//?` at that index, followed only by spaces |
| MagicComments.DeclaredName | src/renderer/core/executionEngine.ts:80-85 | A captured name is a non-empty identifier with no line terminator |
| MagicComments.DeclarationShowsName | src/renderer/core/executionEngine.ts:80-85 | The probe expression of `let/const/var NAME = value` is just `NAME` |
| MagicComments.ProbeExpression | src/renderer/core/executionEngine.ts:76-86 | A line yields a shown expression exactly when it has probe text |
| MagicComments.ExtractMagicComments | src/renderer/core/executionEngine.ts:68-96 | The loop returns the reference list. It has one probe per matching line, with its 1-based line and shown expression, in strictly increasing line order, with no line missed and nothing else |
| MagicComments.ProbesUpToSound | src/renderer/core/executionEngine.ts:72-93 | Every probe names a matching line and carries that line's expression |
| MagicComments.ProbesUpToIncreasing | src/renderer/core/executionEngine.ts:72-93 | Probe lines strictly increase |
| MagicComments.ProbesUpToComplete | src/renderer/core/executionEngine.ts:72-93 | Every matching line has a probe |
| MagicComments.RemoveMarker | src/renderer/core/executionEngine.ts:101 | A cleaned line is a prefix of the original and has no trailing space |
| MagicComments.RemoveMarkerIsLeftmostReplace | src/renderer/core/executionEngine.ts:101 | The cleaned line is the original cut at the leftmost place where the marker tail matches, then end-trimmed; with no match it is just end-trimmed |
| MagicComments.RemovedLineIsProbeText | src/renderer/core/executionEngine.ts:76-102 | On a probe line, the text kept is the probe text itself, unless that text is one blank character |
| MagicComments.RemoveMagicComments | src/renderer/core/executionEngine.ts:98-103 | The line count is kept; each line is its cleaned original, and no line ends in a space |
| MagicComments.InstrumentMagicComments | src/renderer/core/executionEngine.ts:105-121 | No probes means the code is returned unchanged. With probes inside the text, the line count is kept and each line is the original plus `; REC((E), L);` for every probe naming it |
| MagicComments.CallsForUntouched | src/renderer/core/executionEngine.ts:113-118 | A line that no probe names gets nothing appended |
| MagicComments.CallsForIncreasing | src/renderer/core/executionEngine.ts:113-118 | With strictly increasing probe lines, a probe's line gets exactly that probe's call |
| ConsoleTagging.TagText | src/renderer/core/executionEngine.ts:203 | The inserted tag is a non-empty run of digits (current engine) or `{__line:N}` (older engine); it contains no newline |
| ConsoleTagging.ConsoleAt | src/renderer/core/executionEngine.ts:185 | A match at `m` is the word `console` at a word boundary, followed later by `(` |
| ConsoleTagging.NextConsoleIsLeftmost | src/renderer/core/executionEngine.ts:190 | `exec` from `p` finds the leftmost match at or after `p`; when it finds none, there is none |
| ConsoleTagging.ScanClose | src/renderer/core/executionEngine.ts:193-199 | The depth loop stops at the end of the line or at depth 0, and at depth 0 it stands just past a `)` |
| ConsoleTagging.TagLine | src/renderer/core/executionEngine.ts:183-215 | The `exec` loop, which rewrites `result` through the running `offset`, produces the reference left-to-right tagging of the line |
| ConsoleTagging.FindClose | src/renderer/core/executionEngine.ts:193-199 | The depth loop computes `ScanClose` |
| ConsoleTagging.RewriteCall | src/renderer/core/executionEngine.ts:190-212 | One iteration splices the tagged call into `result` at the place `offset` says the original text now sits |
| ConsoleTagging.InstrumentConsoleCalls | src/renderer/core/executionEngine.ts:175-218 | When line numbers are off, the code comes back unchanged. When they are on, the line count is kept and line `k` is tagged with `k` |
| ConsoleTagging.LegacyInstrumentConsoleCalls | src/renderer/core/ExecutionEngine.ts:102-140 | The older pass always tags, with `{__line:N}`, and keeps the line count |
| ConsoleTagging.TagFromNoNewline | src/renderer/core/executionEngine.ts:183-215 | Tagging a line adds no line break |
| ConsoleTagging.TagFromNoConsole | src/renderer/core/executionEngine.ts:185-215 | A line without `console` is left as it is |
| ConsoleTagging.TagSingleCall | src/renderer/core/executionEngine.ts:201-211 | `console.M(ARGS)`, with non-blank, parenthesis-free arguments that close on the line, becomes `console.M(N, ARGS)`; the text around it is kept |
| ConsoleTagging.NoMatchAfter | src/renderer/core/executionEngine.ts:185-190 | Text free of `console` holds no match |
| LoopGuards.LoopVarHeaderAt | src/renderer/core/executionEngine.ts:123-133 | A recognised `for (NAME in/of REST)` header starts with `for`, has an identifier name and ends at a `)` |
| LoopGuards.NormalizeForDeclarations | src/renderer/core/executionEngine.ts:123-133 | Definition: the `of` pass, then the `in` pass, each a global replace; `UndeclaredHeaderMatches`, `LetHeaderOf`, `LetHeaderIsFinal` and `NormalizeWithoutFor` state it |
| LoopGuards.UndeclaredHeaderMatches | src/renderer/core/executionEngine.ts:125-131 | `for (NAME KW REST)` with no declaration keyword matches, with its pieces where they were written |
| LoopGuards.LetHeaderOf | src/renderer/core/executionEngine.ts:125-131 | The rewrite of such a match is `for (let NAME KW REST)` |
| LoopGuards.LetHeaderIsFinal | src/renderer/core/executionEngine.ts:126-131 | A header that already declares its variable is not matched again |
| LoopGuards.NormalizeWithoutFor | src/renderer/core/executionEngine.ts:123-133 | Text without `for` is left as it is |
| LoopGuards.NextFor | src/renderer/core/executionEngine.ts:136-141 | `exec` from `q` gives the leftmost `for(` header at or after `q`, or nothing when there is none |
| LoopGuards.VisitAt | src/renderer/core/executionEngine.ts:141-168 | Each header visit moves the search forward. A guard is placed only just after a `{` |
| LoopGuards.GuardsFollowBraces | src/renderer/core/executionEngine.ts:141-169 | The guard positions increase, start after the search start, and each follows a `{` |
| LoopGuards.RemoveInsertedGuards | src/renderer/core/executionEngine.ts:162-166 | Deleting the inserted ` __loopGuard();` texts gives back the input |
| LoopGuards.ForInOfGuardsOnlyInsert | src/renderer/core/executionEngine.ts:135-173 | What `injectForInOfGuards` returns, with its guards deleted, is its input |
| LoopGuards.InjectForInOfGuards | src/renderer/core/executionEngine.ts:135-173 | The regex-and-depth-scan loop inserts ` __loopGuard();` exactly at the reference positions |
| LoopGuards.InOfBodyGuarded | src/renderer/core/executionEngine.ts:141-168 | Completeness: a `for (` header, next after the search point, whose bracket-free contents hold `in`/`of` and no `;`, and whose `)` is followed after spaces by `{`, gets ` __loopGuard();` just after that `{`, and the search resumes there |
| LoopGuards.ScanNest | src/renderer/core/executionEngine.ts:144-151 | The bracket-depth loop stops where the reference `NestEnd` says |
| LoopGuards.SkipBlank | src/renderer/core/executionEngine.ts:159-160 | The blank-skipping loop stops at the first non-space |
| LoopGuards.Visit | src/renderer/core/executionEngine.ts:142-168 | One iteration gives the reference visit: whether to guard, and where the search resumes |
| LoopGuards.NoForNoGuards | src/renderer/core/executionEngine.ts:135-173 | Text without `for` gets no guard |
| LoopGuards.WhileHeadAt | src/renderer/core/executionEngine.ts:269-276 | A `while(C)` head has a `)`-free condition, its `)`, and the first non-space after it |
| LoopGuards.WhileHeadMatches | src/renderer/core/executionEngine.ts:269-276 | `while(C)` at a word boundary is recognised with `C` as its condition |
| LoopGuards.GuardWhileLoops | src/renderer/core/executionEngine.ts:269-276 | Definition: the two `while` replaces, in source order; the two rewrite lemmas below state what each does at a match |
| LoopGuards.WhileWithBodyRewrite | src/renderer/core/executionEngine.ts:269-272 | At a `while(C)` head followed after spaces by a character other than `;`, the first pass writes `while((__loopGuard()) && (C)) B` and goes on after `B` |
| LoopGuards.EmptyWhileRewrite | src/renderer/core/executionEngine.ts:269-276 | At a `while(C)` head followed after spaces by `;`, the first pass does not match, and the second writes `while((__loopGuard()) && (C));` and goes on after the `;` |
| LoopGuards.WhileHeadAtEndUnguarded | src/renderer/core/executionEngine.ts:269-276 | A `while(C)` head at the very end of the text, with no character after it, is matched by neither pass |
| LoopGuards.GuardedWhileIsFinal | src/renderer/core/executionEngine.ts:269-276 | The second `while` pass never matches what the first one produced |
| LoopGuards.ClassicForAt | src/renderer/core/executionEngine.ts:280-288 | A recognised `for(I;C;N)` has a non-empty initialiser, two `;` and a closing `)` in order |
| LoopGuards.ClassicForHeaderMatches | src/renderer/core/executionEngine.ts:280-288 | `for(I;C;N)` at a word boundary, with a non-empty `I`, is recognised with its pieces |
| LoopGuards.ClassicForGuarded | src/renderer/core/executionEngine.ts:280-288 | A header whose initialiser has no word `in`/`of` becomes `for(I; G; N)`, and the search resumes after its `)` |
| LoopGuards.GuardClassicFor | src/renderer/core/executionEngine.ts:280-288 | Definition of the corrected classic-`for` pass (an `in`/`of` initialiser is passed over by one character); `ClassicForGuarded` and `CorrectedPassesOverInOf` state it |
| LoopGuards.GuardClassicForAsWritten | src/renderer/core/executionEngine.ts:280-288 | Definition of the pass as written (the whole match copied back); `AsWrittenCopiesInOfMatch` states it |
| LoopGuards.PassesAgreeWithoutInOfInit | src/renderer/core/executionEngine.ts:280-288 | When no classic header of the text has `in`/`of` in its initialiser, the pass as written and the corrected one give the same text |
| LoopGuards.GuardedConditionCases | src/renderer/core/executionEngine.ts:284-285 | The guard is conjoined with the trimmed condition; a blank condition gives `(__loopGuard()) && true` |
| LoopGuards.EmptyInitNotGuarded | src/renderer/core/executionEngine.ts:281 | `for(;;)` is not matched, so it gets no guard |
| LoopGuards.AsWrittenCopiesInOfMatch | src/renderer/core/executionEngine.ts:281-283 | As written, a header whose initialiser holds `in`/`of` is copied unchanged up to the `)` the pattern reached |
| LoopGuards.CorrectedPassesOverInOf | src/renderer/core/executionEngine.ts:281-283 | Corrected, such a header is passed over by one character, so headers inside it are still visited |
| LoopGuards.AsWrittenLeavesLaterHeaderUnguarded | src/renderer/core/executionEngine.ts:280-288 | As written, `for(x of y);for(i;c;n)` comes back unchanged: the second loop is never guarded |
| LoopGuards.CorrectedGuardsLaterHeader | src/renderer/core/executionEngine.ts:280-288 | Corrected, the second header of `for(x of y);for(i;c;n)` is guarded |
| LoopGuards.CorrectedDiffersFromInput | src/renderer/core/executionEngine.ts:280-288 | The corrected pass changes that input, while the pass as written does not |
| Wrapping.InjectLoopGuards | src/renderer/core/CodeInstrumentation.ts:228-256 | The four guard passes run in order: `while` with a body, then `while(…);`, then the `for … in/of` bodies, then the classic `for` headers (corrected). The result equals the as-written chain whenever no remaining classic header has an `in`/`of` initialiser |
| Wrapping.LoopGuarded | src/renderer/core/executionEngine.ts:267-288 | Definition: the `while` passes, the `for … in/of` guards, then the corrected classic-`for` pass; `InjectLoopGuards` is proved to compute it |
| Wrapping.ChainsAgreeWithoutInOfInit | src/renderer/core/executionEngine.ts:267-288 | When no classic header left after the first three passes has `in`/`of` in its initialiser, the whole guard chain as written equals the corrected one |
| Wrapping.LoopFreeCodeUnguarded | src/renderer/core/executionEngine.ts:269-288 | Code without `while` and `for` comes through the guard passes unchanged |
| Wrapping.PrologueLines | src/renderer/core/executionEngine.ts:290-299 | The prologue has 8 lines and ends with the user-code marker line |
| Wrapping.EpilogueLines | src/renderer/core/executionEngine.ts:300-303 | The epilogue ends with the `sourceURL` line |
| Wrapping.Wrap | src/renderer/core/executionEngine.ts:263-308 | `wrapped` is the normalised, guarded code inside the template, and `userStartLine` is 10 whatever the code |
| Wrapping.UserStartLineIsTen | src/renderer/core/executionEngine.ts:306 | The untrimmed prefix splits into an empty piece, the eight prologue lines and an empty piece |
| Wrapping.WrappedLines | src/renderer/core/executionEngine.ts:305 | The lines of the trimmed wrapped text are the prologue lines, the guarded code's lines, one empty line and the epilogue lines, so user line `k` is wrapped line `k + 8` |
| ErrorLocator.MapWrappedToRaw | src/renderer/core/executionEngine.ts:684-694 | A result exists exactly when both numbers are present and non-zero and the line is at least `userStartLine`. It is `line - userStartLine + 1` (at least 1), with the column unchanged |
| ErrorLocator.MapRoundTrip | src/renderer/core/executionEngine.ts:684-694 | User line `k`, shifted into the wrapped program and mapped back, is line `k` again |
| ErrorLocator.IsValidLocation | src/renderer/core/executionEngine.ts:576-586 | Valid exactly when the line is present and between 1 and the raw line count, and the column is present and non-zero |
| ErrorLocator.MappedValidIffInsideUserCode | src/renderer/core/ExecutionEngine.ts:380-384 | A mapped location is valid exactly when the wrapped line lies inside the user's block |
| ErrorLocator.FindFirstLocation | src/renderer/core/executionEngine.ts:588-613 | `findLoopLocation` and `findVariableUsage`: the line loop returns the first line with a match, at its leftmost match |
| ErrorLocator.FirstLocationIsFirst | src/renderer/core/executionEngine.ts:599-613 | A reported position is a match on its line, and no earlier line has one; with no report, no line has one |
| ErrorLocator.FindLastLocation | src/renderer/core/executionEngine.ts:615-627 | `findLastDeclaration`: every line is searched, and the last hit is kept |
| ErrorLocator.LastLocationIsLast | src/renderer/core/executionEngine.ts:615-627 | A reported position is a match on its line, and no later line has one; with no report, no line has one |
| ErrorLocator.LocatorsFindValidLocations | src/renderer/core/executionEngine.ts:588-627 | Every position a locator reports passes `isValidLocation` on the same code |
| ErrorLocator.AsWrittenMissesDollarDeclarations | src/renderer/core/executionEngine.ts:615-627 | As written, the declaration of a name such as `$x` is never found, in any code |
| ErrorLocator.DollarDeclarationFound | src/renderer/core/executionEngine.ts:615-627 | With the name taken literally, `let $x;` is found at 1:1, where the pattern as written finds nothing |
| ErrorLocator.DollarFreeLookupsAgree | src/renderer/core/executionEngine.ts:615-627 | For a name without `$`, the declaration lookup as written and the literal one find the same last declaration in any code |
| ErrorLocator.TrailingDollarMissesBoundary | src/renderer/core/executionEngine.ts:615-627 | The declaration pattern's trailing `\b` still rejects `let x$ = 1` for the name `x$`, with the name read literally |
| ErrorLocator.MessageLocation | src/renderer/core/executionEngine.ts:633-636 | The `(L:C)` numbers read from a message are non-negative |
| ErrorLocator.LastNonBlank | src/renderer/core/executionEngine.ts:638-643 | The index found is a non-blank line, and every later line is blank |
| ErrorLocator.FindSyntaxErrorLocation | src/renderer/core/executionEngine.ts:629-645 | Always gives an answer: `(L:C)` from the message, or else the last non-blank line at column 1, or else line 1 |
| ErrorLocator.FallbackIsOnALine | src/renderer/core/executionEngine.ts:638-644 | The fallback is on one of the lines, at column 1, and every line after it is blank |
| ErrorLocator.ExtractLocation | src/renderer/core/executionEngine.ts:647-682 | Both numbers or neither. The named script's frame comes first; there is no location only when every source is missing |
| ErrorLocator.ResolvedFrame | src/renderer/core/ExecutionEngine.ts:380-382 | A frame at wrapped line `k + userStartLine - 1` resolves to user line `k` |
| ErrorLocator.ResolvedLocation | src/renderer/core/executionEngine.ts:460-463 | Both numbers or neither, present exactly when extracted; with `userStartLine` 0 the extracted location itself; a mapped location keeps the column and has a line of at least 1 |
| ErrorLocator.UnmappedFrame | src/renderer/core/executionEngine.ts:461-463 | With `userStartLine` 0, a frame is checked at its wrapped line as it stands |
| ErrorLocator.LoopReport | src/renderer/core/executionEngine.ts:488-503 | The report is framed exactly when the code has a loop header, with one line of context; otherwise it is plain `Name: message` |
| ErrorLocator.GuardErrorIsLoopReport | src/renderer/core/executionEngine.ts:453-458 | The loop guard's own error is always reported as a loop, wherever the error says it happened |
| ErrorLocator.ValidLocationFramed | src/renderer/core/executionEngine.ts:460-467 | Second in the cascade: a valid location wins over every message branch in both engines, framed with two lines of context at a column of at least 1 |
| ErrorLocator.UndefinedAtFirstUse | src/renderer/core/executionEngine.ts:505-522 | Third in the cascade: a name that "is not defined" is reported at its first whole-word use, by both engines |
| ErrorLocator.RedeclaredAtLastDeclaration | src/renderer/core/executionEngine.ts:524-543 | Fourth in the cascade: a redeclared name that the code declares (looked up literally) is reported at its last declaration, with one line of context, by both engines |
| ErrorLocator.UnexpectedAtSyntaxLocation | src/renderer/core/executionEngine.ts:545-556 | Fifth in the cascade: an "Unexpected token/end" error with neither name pattern is framed at `findSyntaxErrorLocation`'s answer, with one line of context |
| ErrorLocator.FallbackReport | src/renderer/core/executionEngine.ts:469-485 | Last in the cascade: with no location and no recognised phrase, the report is `Name: message` |
| ErrorLocator.Friendly | src/renderer/core/executionEngine.ts:445-486 | Definition of the cascade (loop message, valid location, message branches) on the shown text `Shown(e)`, while the location is read from the message alone; each branch is stated by one of the lemmas above |
| ErrorLocator.Shown | src/renderer/core/executionEngine.ts:450 | Definition of `error.message \|\| String(error)`: the message, or the error's string form when the message is empty or missing |
| ErrorLocator.EmptyMessageShowsString | src/renderer/core/executionEngine.ts:450-485 | An error with an empty message and no location is shown as `Name: <String(error)>` when that string holds none of the recognised phrases, in both engines |
| ErrorLocator.EmptyTypeErrorExample | src/renderer/core/ExecutionEngine.ts:362-363 | A `TypeError` with an empty message is reported as `TypeError: TypeError` |
| ErrorLocator.ThrownStringExample | src/renderer/core/executionEngine.ts:450-451 | A thrown string `boom`, with no name or message, is reported as `Error: boom` |
| ErrorLocator.MessageReport | src/renderer/core/executionEngine.ts:469-485 | Definition of the message-based branches for each engine, with the declaration looked up by the name taken literally; the lemmas above state each branch |
| ErrorLocator.UndefinedReport | src/renderer/core/executionEngine.ts:505-522 | Framed exactly when the name has a whole-word use, at its first use, with one line of context |
| ErrorLocator.UndefinedName | src/renderer/core/executionEngine.ts:506 | A captured undefined name is a non-empty word |
| ErrorLocator.RedeclaredName | src/renderer/core/executionEngine.ts:525-527 | A captured redeclared name starts with an identifier character |
| ErrorLocator.DetectLoopWithoutBody | src/renderer/core/executionEngine.ts:696-725 | The line loop returns the reference detection |
| ErrorLocator.LoopWithoutBodyIsFirst | src/renderer/core/executionEngine.ts:696-725 | The reported loop is on the first line that reports one; when nothing is reported, no line reports one |
| ErrorLocator.DetectionPointsAtKeyword | src/renderer/core/executionEngine.ts:703-721 | The reported column is where the `while`/`for` keyword starts, after the indentation only |
| ErrorLocator.LoopErrorReport | src/renderer/core/executionEngine.ts:727-740 | The report is framed at the detection, with one line of context, under a heading naming the kind of loop |
| Session.Untag | src/renderer/core/ExecutionEngine.ts:303-306 | The older console turns a leading `{__line:N}` into `N` and keeps the other arguments |
| Session.CountedSnoc | src/renderer/core/executionEngine.ts:375-410 | `lines` counts every entry in the older engine, but only results and probes in the current one |
| Session.AdmitKeepsSound | src/renderer/core/executionEngine.ts:376-391 | The recorders' ceiling, clock and push steps keep a run sound |
| Session.ConsoleKeepsSound | src/renderer/core/executionEngine.ts:359-373 | The current console pushes unconditionally, without counting, and keeps the run sound |
| Session.StepKeepsSound | src/renderer/core/executionEngine.ts:359-410 | Every call keeps the run sound: the ceiling is never passed, `lines` matches the counted entries, and the sink has heard at most the one alarm |
| Session.ExecuteKeepsSound | src/renderer/core/executionEngine.ts:421-429 | Every sequence of calls from a fresh run leaves it sound |
| Session.CeilingAborts | src/renderer/core/executionEngine.ts:378-383 | At `MAX_OUTPUT_LINES`, a counted call sends one security event and aborts |
| Session.AcceptedAddsOne | src/renderer/core/executionEngine.ts:375-392 | Below the ceiling and in time, a counted call buffers one entry and adds exactly 1 to `lines` |
| Session.AbortedFreezes | src/renderer/core/executionEngine.ts:376 | Once aborted, the recorders do nothing; only the current console still buffers |
| Session.UndefinedFilteredOnlyByCurrent | src/renderer/core/ExecutionEngine.ts:315-331 | The current engine drops `undefined` results unless `showUndefined` is set; the older one buffers them |
| Session.LegacyTagBecomesNumber | src/renderer/core/ExecutionEngine.ts:285-310 | An older console call with a line tag buffers the number and then the other arguments |
| Session.ReturnedRunFlushesInOrder | src/renderer/core/executionEngine.ts:431-435 | A run that returns without being aborted sends the sink exactly its buffer, in order |
| Session.AbortedRunShowsOnlyTheAlarm | src/renderer/core/executionEngine.ts:431 | An aborted run shows the one security event and nothing it buffered |
| Session.ThrownRunReportsError | src/renderer/core/executionEngine.ts:438-439 | A throwing program shows nothing it buffered: at most the alarm, then the friendly report |
| Session.DangerousCodeNeverRuns | src/renderer/core/executionEngine.ts:319-322 | Denylisted code, and any extension of it, produces only the security event |
| Session.ThrowLeavesTimerArmed | src/renderer/core/executionEngine.ts:412-439 | As written, a throwing program whose steps did not abort the run is followed, `EXECUTION_TIMEOUT` later, by a spurious timeout event after its error report; one whose steps hit the ceiling or the clock gets none, as the callback checks `aborted`; a program that throws at once sends exactly the report and the timeout event |
| Session.ClearedTimerStaysSilent | src/renderer/core/ExecutionEngine.ts:352-358 | With the timer cleared on every path, the error report is the last thing the sink hears |
| Session.CheckBeforeRun | src/renderer/core/executionEngine.ts:319-328 | The pre-flight checks: the denylist first, then loops written without a body |
| Session.Preflight | src/renderer/core/executionEngine.ts:319-328 | Definition of the pre-flight result; `CheckBeforeRun` and `DangerousCodeNeverRuns` state it |
| Session.Execute | src/renderer/core/executionEngine.ts:359-429 | Definition: the program's calls applied in order by the engine's step function; `ExecuteKeepsSound` states the invariant it keeps |
| Session.Settle | src/renderer/core/executionEngine.ts:431-439 | Keeps the buffer, the counter and the abort flag; what was already sent stays a prefix; a thrown error adds exactly one `error` event |
| Session.RunSpec | src/renderer/core/ExecutionEngine.ts:255-359 | Definition of a whole run with the timer cleared on every path; the `Returned…`, `Aborted…`, `Thrown…` and `Dangerous…` lemmas state it |
| Session.CurrentRunAsWritten | src/renderer/core/executionEngine.ts:412-439 | Definition of the current engine's run as written: `RunSpec`'s output, with the timer left armed unless the buffer was flushed; `ThrowLeavesTimerArmed` states the consequence |
| Session.Eventually | src/renderer/core/executionEngine.ts:412-419 | The output gains at most one event, the timeout alarm, and only when the timer is armed and the run not aborted; what was sent stays a prefix |
| Session.Controller.Abort | src/renderer/core/executionEngine.ts:46-51 | The controller's `aborted` flag is set |
| Session.RunSession.constructor | src/renderer/core/executionEngine.ts:355-357 | A run starts with an empty buffer, `lines` at 0 and a live controller |
| Session.RunSession.Admit | src/renderer/core/executionEngine.ts:376-391 | The shared tail of the recorders, as a state change |
| Session.RunSession.Console | src/renderer/core/executionEngine.ts:359-373 | The console substitute changes the state exactly as the engine's step function says |
| Session.RunSession.RecordResult | src/renderer/core/executionEngine.ts:375-392 | `recordResult` changes the state exactly as the step function says |
| Session.RunSession.RecordMagic | src/renderer/core/executionEngine.ts:394-410 | `recordMagic` changes the state exactly as the step function says |
| Session.RunSession.Perform | src/renderer/core/executionEngine.ts:421-429 | The program's calls, in order, give `Execute` |
| Session.RunSession.Conclude | src/renderer/core/executionEngine.ts:431-439 | The catch branch, or a flush unless aborted |
| Session.RunSession.Flush | src/renderer/core/executionEngine.ts:433-435 | The sink receives the buffer, in order |
| Session.ExecutionEngine.constructor | src/renderer/core/executionEngine.ts:43-44 | No controller at first |
| Session.ExecutionEngine.Abort | src/renderer/core/executionEngine.ts:46-51 | The running controller, if any, is aborted and forgotten |
| Session.ExecutionEngine.Run | src/renderer/core/executionEngine.ts:310-443 | The outcome is `CurrentRunAsWritten` for the current engine (timer armed after a throw or an abort) and `RunSpec` for the older one; what the sink hears is `RunSpec`'s in both. The previous controller is aborted once the pre-flight checks pass, and none is left behind |
| SyntaxTransformer.ImportFreeUnchanged | src/renderer/core/syntaxTransformer.ts:16-57 | Code without `import` comes through `transformImports` unchanged |
| SyntaxTransformer.TransformImports | src/renderer/core/syntaxTransformer.ts:16-57 | Definition: the named, namespace, default and bare import replaces, in source order; `NamedImportRewrite`, `NamespaceImportRewrite`, `DefaultImportRewrite` and `BareImportRewrite` state each rewrite |
| SyntaxTransformer.NamedImportRewrite | src/renderer/core/syntaxTransformer.ts:20-30 | `import {NAMES} from 'm'` becomes `const { a, b } = __moduleSystem.resolve('m');`, with the names trimmed and empty names dropped |
| SyntaxTransformer.NamespaceImportRewrite | src/renderer/core/syntaxTransformer.ts:33-38 | `import * as N from 'm'` becomes `const N = __moduleSystem.resolve('m');` |
| SyntaxTransformer.DefaultImportRewrite | src/renderer/core/syntaxTransformer.ts:41-46 | `import X from 'm'` becomes `const X = __moduleSystem.resolve('m').default \|\| __moduleSystem.resolve('m');` |
| SyntaxTransformer.BareImportRewrite | src/renderer/core/syntaxTransformer.ts:49-54 | `import 'm'` becomes `__moduleSystem.resolve('m');` |
| SyntaxTransformer.ExportFreeUnchanged | src/renderer/core/syntaxTransformer.ts:62-124 | Code without `export` comes through `transformExports` unchanged |
| SyntaxTransformer.TransformExports | src/renderer/core/syntaxTransformer.ts:62-124 | Definition: the six export replaces in source order; `ExportDeclRewrite`, `ExportFunctionRewrite`, `FunctionPassIsIdentity`, `ExportClassRewrite`, `ExportListRewrite` and `ExportDefaultRewrite` state each pass |
| SyntaxTransformer.ExportDeclRewrite | src/renderer/core/syntaxTransformer.ts:66-71 | `export KW x = v;` becomes `KW x = v; __exports.x = x;` |
| SyntaxTransformer.ExportFunctionRewrite | src/renderer/core/syntaxTransformer.ts:74-79 | `export function f(ps) {` becomes `function f(ps) {`, name and parameters kept |
| SyntaxTransformer.ExportClassRewrite | src/renderer/core/syntaxTransformer.ts:93-98 | `export class C {` becomes `class C {` |
| SyntaxTransformer.FunctionPassIsIdentity | src/renderer/core/syntaxTransformer.ts:82-90 | The function-closing pass never changes the text |
| SyntaxTransformer.ExportListRewrite | src/renderer/core/syntaxTransformer.ts:101-113 | `export {NAMES}` becomes one `__exports.n = n;` per name, joined by newlines |
| SyntaxTransformer.Assignments | src/renderer/core/syntaxTransformer.ts:109-111 | One `__exports.n = n;` per name, in order |
| SyntaxTransformer.TrimmedNonEmpty | src/renderer/core/syntaxTransformer.ts:23-26 | The names kept are trimmed, non-empty and no more than the pieces |
| SyntaxTransformer.SplitJoin | src/renderer/core/syntaxTransformer.ts:24-26 | Splitting on `,` and joining with `,` gives back the text |
| SyntaxTransformer.ExportDefaultRewrite | src/renderer/core/syntaxTransformer.ts:116-121 | `export default X` becomes `__exports.default = X;` |
| SyntaxTransformer.TransformFlags | src/renderer/core/syntaxTransformer.ts:129-141 | Imports, then exports; each is skipped only when its flag is exactly `false` |
| SyntaxTransformer.Transform | src/renderer/core/syntaxTransformer.ts:129-141 | Definition: imports then exports, each unless its flag is `false`; `TransformFlags` and `PlainScriptUnchanged` state it |
| SyntaxTransformer.PlainScriptUnchanged | src/renderer/core/syntaxTransformer.ts:129-141 | Code with neither `import` nor `export` is left as it is |
| SyntaxTransformer.ExecAll | src/renderer/core/syntaxTransformer.ts:148-154 | The `exec` loop collects one capture per match, in order |
| SyntaxTransformer.ExtractImports | src/renderer/core/syntaxTransformer.ts:146-157 | The module names, in source order |
| SyntaxTransformer.ImportedAreNames | src/renderer/core/syntaxTransformer.ts:148-154 | Every extracted module name is non-empty and contains no quote |
| SyntaxTransformer.NoImportNoModules | src/renderer/core/syntaxTransformer.ts:146-157 | Code without `import` imports nothing |
| SyntaxTransformer.ExtractExports | src/renderer/core/syntaxTransformer.ts:162-199 | The names: the variables, then the functions, then the classes, then the named groups, then `default` |
| SyntaxTransformer.DefaultListedLast | src/renderer/core/syntaxTransformer.ts:193-196 | `default` is listed, last and once, exactly when the code has `export default` |
| SyntaxTransformer.DeclaredAreWords | src/renderer/core/syntaxTransformer.ts:164-181 | Every declared name is a non-empty word |
| Modules.ResolveIn | src/renderer/core/ModuleSystem.ts:87-103 | A truthy local module wins. The lookup fails with "Cannot find module '…'" exactly when neither map gives a truthy value |
| Modules.ModuleIn | src/renderer/core/ModuleSystem.ts:37-40 | `getModule` gives a result exactly when the id is registered with a truthy (object) export value, and the result is that value |
| Modules.LocalShadowsPackage | src/renderer/core/ModuleSystem.ts:87-98 | A registered module shadows a package of the same name |
| Modules.ClearedFallsBack | src/renderer/core/ModuleSystem.ts:45-47 | A cleared id resolves as if it had never been registered |
| Modules.ReregisterOverwrites | src/renderer/core/ModuleSystem.ts:25-32 | Registering again replaces the exports and keeps the id's place in the listing |
| Modules.ModuleSystem.RegisterModule | src/renderer/core/ModuleSystem.ts:25-32 | Stores a loaded record; `getModule` then gives the exports (when truthy), and `isModuleLoaded` is true |
| Modules.ModuleSystem.GetModule | src/renderer/core/ModuleSystem.ts:37-40 | A result is a truthy, registered module |
| Modules.ModuleSystem.ClearModule | src/renderer/core/ModuleSystem.ts:45-47 | Only that id goes; the other modules and every package stay |
| Modules.ModuleSystem.ClearAllModules | src/renderer/core/ModuleSystem.ts:52-54 | `listModules` is empty, and the packages stay |
| Modules.ModuleSystem.IsModuleLoaded | src/renderer/core/ModuleSystem.ts:59-61 | True exactly for the listed ids |
| Modules.ModuleSystem.ListModules | src/renderer/core/ModuleSystem.ts:66-68 | Exactly the registered ids, each once |
| Modules.ModuleSystem.RegisterExternalPackage | src/renderer/core/ModuleSystem.ts:73-75 | Sets the package; the modules stay |
| Modules.ModuleSystem.GetExternalPackage | src/renderer/core/ModuleSystem.ts:80-82 | A result is a truthy, stored package |
| Modules.ModuleSystem.Resolve | src/renderer/core/ModuleSystem.ts:87-103 | The local module first, then the package; the error exactly when both are missing |
| OrderedMaps.SetGet | src/renderer/core/ModuleSystem.ts:25-40 | `Map.set` then `get` gives the value set; other keys read as before |
| OrderedMaps.SetKeys | src/renderer/core/ModuleSystem.ts:66-68 | A new key goes last in `keys()`; an existing one keeps its place |
| OrderedMaps.DeleteValid | src/renderer/core/ModuleSystem.ts:45-47 | `Map.delete` removes exactly that key |
| OrderedMaps.DeleteSize | src/renderer/core/TabsManager.ts:44-49 | `size` drops by one when the key was there; otherwise nothing changes |
| Tabs.Merge | src/renderer/core/TabsManager.ts:26-29 | Each field the patch carries replaces the current one |
| Tabs.MergeIdempotent | src/renderer/core/TabsManager.ts:26-29 | Merging a patch twice is merging it once; an empty patch changes nothing |
| Tabs.TabIdInjective | src/renderer/core/TabsManager.ts:33-43 | Different counters give different ids |
| Tabs.NextIsFresh | src/renderer/core/TabsManager.ts:33-43 | The next id has not been handed out yet |
| Tabs.CreatedIsNotFirst | src/renderer/core/TabsManager.ts:33-43 | No created id is `tab-1` |
| Tabs.TabsManager.constructor | src/renderer/core/TabsManager.ts:4-6 | Counter 1, active `tab-1`, empty table |
| Tabs.TabsManager.InitFirstTab | src/renderer/core/TabsManager.ts:8-16 | `tab-1` holds a clean `Untitled-1` with no file; the counter stays |
| Tabs.TabsManager.SetActive | src/renderer/core/TabsManager.ts:17-22 | `active()` is the id just set, with no validation |
| Tabs.TabsManager.GetTab | src/renderer/core/TabsManager.ts:23-25 | A result exactly for stored ids |
| Tabs.TabsManager.SetTab | src/renderer/core/TabsManager.ts:26-29 | A known id gets the merged data; an unknown id changes nothing |
| Tabs.TabsManager.AllIds | src/renderer/core/TabsManager.ts:30-32 | Exactly the stored ids, each once |
| Tabs.TabsManager.Create | src/renderer/core/TabsManager.ts:33-43 | The counter moves on. The new `tab-N` holds `Untitled-N`, was not in the table, is not `tab-1`, and goes last |
| Tabs.TabsManager.Remove | src/renderer/core/TabsManager.ts:44-46 | Only that id goes, and `size` drops by one when it was there |
| OutputView.GetValueType | src/renderer/ui/Output.ts:9-17 | Each of `null`, `undefined`, `string`, `number`, `boolean` and `function` is given exactly for its kind of value; objects are `object` |
| OutputView.StringifyWithType | src/renderer/ui/Output.ts:19-38 | Strings in single quotes, `null`, `undefined`, `[Function]` and `true`/`false`, with the kind from `getValueType` |
| OutputView.QuotedInjective | src/renderer/ui/Output.ts:19-38 | Different strings stay different once quoted |
| OutputView.TargetLine | src/renderer/ui/Output.ts:87 | The console line when it is non-zero, else the last result line when it is non-zero, else 1 |
| OutputView.AppendConsistent | src/renderer/ui/Output.ts:44-99 | Every event keeps both maps well formed, over the same tabs |
| OutputView.Append | src/renderer/ui/Output.ts:44-99 | Definition of one `appendOutput` event on the tables; `AppendConsistent`, `AppendTouchesOneTab`, `ResultAppendsOne` and `ConsoleAppendsEach` state it |
| OutputView.AppendTouchesOneTab | src/renderer/ui/Output.ts:45-54 | An `error` event or a missing container leaves the table unchanged; other tabs never change |
| OutputView.ResultAppendsOne | src/renderer/ui/Output.ts:64-76 | A numbered `result` appends exactly one item to its line and sets the last result line |
| OutputView.ConsoleAppendsEach | src/renderer/ui/Output.ts:79-96 | Other events append one item per shown argument to the target line, and leave the last result line alone |
| OutputView.ClearTabKeeps | src/renderer/ui/Output.ts:172-181 | That tab leaves both maps; the other tabs stay |
| OutputView.ClearTab | src/renderer/ui/Output.ts:172-181 | Definition: both maps lose the tab; `ClearTabKeeps` states it |
| OutputView.RowsShowEveryLine | src/renderer/ui/Output.ts:131-170 | Rows 1 to the largest line, in order, each with its stored items; empty lines give empty rows |
| OutputView.Rows | src/renderer/ui/Output.ts:131-170 | Definition: one row per line from 1 to the largest; `RowsShowEveryLine` states it |
| OutputView.PushEach | src/renderer/ui/Output.ts:94-96 | One item per value is pushed, in order |
| OutputView.OutputPanel.AppendOutput | src/renderer/ui/Output.ts:44-99 | The tables change exactly as `Append` says |
| OutputView.OutputPanel.ClearOutput | src/renderer/ui/Output.ts:172-181 | The tables change exactly as `ClearTab` says |
| OutputView.OutputPanel.RenderOutput | src/renderer/ui/Output.ts:131-170 | No rows for a tab without a table; otherwise `Rows` of its table |

## Left out

- Actual execution is modelled as a `Program`: a list of recorder and console calls, each with its elapsed time, plus an optional thrown error. This covers `new Function`, `setTimeout`/`clearTimeout`, `Date.now` and the browser's `AbortController`. The timer is an `armed` flag in the outcome, and `Eventually` says what it adds when it fires.
- TypeScript transpilation (`isTS`, `transpileTS`), `instrumentTopLevelExpressions` and `isInsideCallback` need the TypeScript compiler's parser, so they are not modelled. The instrumented code is taken as it is.
- `codeFrameColumns` is not modelled. `Report.Framed` keeps its heading, its position and its number of context lines, not the rendered excerpt.
- Stack-trace parsing in `extractLocation` is not modelled. `ErrorReport` holds the already-parsed candidates: the named frame, the line and column properties, the message and any frame.
- `JSON.stringify` of objects is not modelled: an object value carries its text. Numbers are integers, so floating point, `NaN`, `bigint` and `symbol` values are not modelled.
- The DOM is not modelled: element creation, `renderError`, `appendSecurity`, the output container elements and the two-space join of items on a row. Only the `lineOutputs`/`lastResultLine` bookkeeping is.
- Session.ExecutionEngine.Run: calls to `recordMagic` are not allowed for the older engine (`LegacyProgram`), because that engine passes no such function.
- Session.ExecutionEngine.Run: every thrown error is taken to come from the program, after the timer is armed. A throw from the rewriting passes or the TypeScript transpiler, before `setTimeout`, leaves no timer in the source, so `ThrowLeavesTimerArmed` covers only errors thrown by the user's code or by `new Function`.
- A `Partial<TabData>` field given explicitly as `undefined` in a partial is treated as absent. Plain JavaScript spread would copy it.
- The `error` field of module metadata is never set by the source, so it is not modelled.
- The copies in `src/renderer/core/CodeInstrumentation.ts` are modelled once, together with the current engine's passes. They are parameterised by the recorder name (`__recordMagic`) and the tag style.
- MagicComments.InstrumentMagicComments: line content is stated only when every probe names an existing line and nothing contains a newline. Probes past the end or below 1 (the array holes JavaScript leaves) are covered only by the no-probe identity.
- `src/renderer/config/constants.ts` is not part of this model; its two constants are the numbers `MaxOutputLines` (1000) and `ExecutionTimeout` (5000).
- Wrapping.InjectLoopGuards: it ends with the corrected classic-`for` pass (`LoopGuards.GuardClassicFor`), not the pass as written, so on text such as `for(x of y);for(i;c;n)` it guards a header the source leaves unguarded. The two chains are proved equal whenever no classic header left after the first three passes has an `in`/`of` initialiser (`Wrapping.ChainsAgreeWithoutInOfInit`); the difference itself is the first row under Findings.
- Wrapping.Wrap: `wrapped` is built from that corrected chain, with the same agreement and the same exception.
- ErrorLocator.Friendly: the redeclaration branch looks the declaration up with the name taken literally (`Declaration`), not with the name spliced into a pattern as written (`DeclarationAsWritten`). The two agree for every name without `$` (`ErrorLocator.DollarFreeLookupsAgree`); the difference is the second row under Findings. `MessageReport` and the session members built on `Friendly` inherit this.
- ErrorLocator.RedeclaredAtLastDeclaration: stated for the literal lookup, as `Friendly` uses it; for names with a `$` the source as written finds no declaration, so the current engine shows the plain `SyntaxError` message and the older one falls through to the later branches.
- ErrorLocator.RedeclaredAtLastDeclaration: the literal lookup (`Declaration`) keeps the pattern's trailing `\b`, which needs a word character on one side. A name ending in `$` followed by a space, as in `let x$ = 1`, is therefore still not found for `x$` (`ErrorLocator.TrailingDollarMissesBoundary`); only the unescaped splice is corrected, not this boundary.
- Strings are sequences of Unicode scalar values, while JavaScript strings are sequences of UTF-16 code units. A character outside the Basic Multilingual Plane is one element here and two code units there, and a lone surrogate cannot be represented at all.
- ErrorLocator.FindFirstLocation: a reported column counts scalar values, so it is smaller than the source's by one for each astral character before it on its line.
- ErrorLocator.FindLastLocation: the same column difference as `FindFirstLocation`.
- ErrorLocator.DetectLoopWithoutBody: its column counts only the indentation before the keyword, and whitespace is never astral, so it agrees with the source's; the line text it scans is still scalar values, not code units.

## Findings

| source | as written | input that shows it | evidently intended | confidence | as-written member | corrected member |
|---|---|---|---|---|---|---|
| src/renderer/core/executionEngine.ts:280-288 | A classic-`for` match whose initialiser holds `in`/`of` is returned unchanged, but the pattern has already consumed text up to a later `)`, so a classic `for` header inside that span is never guarded | `for(x of y);for(i;c;n)` | Skip only the `for … of` header and still guard `for(i;c;n)` | medium, not executed | LoopGuards.AsWrittenLeavesLaterHeaderUnguarded | LoopGuards.CorrectedGuardsLaterHeader |
| src/renderer/core/executionEngine.ts:615-627 | The variable name is spliced unescaped into a `RegExp`, so a `$` in it acts as an end anchor and the declaration is never found | name `$x`, code `let $x;` | Find the declaration at 1:1 | high, not executed | ErrorLocator.AsWrittenMissesDollarDeclarations | ErrorLocator.DollarDeclarationFound |
| src/renderer/core/executionEngine.ts:412-439 | `clearTimeout` is reached only on the success path, so after a thrown error the still-armed timer later emits a timeout security event for a finished run | a program that throws at once | Clear the timer on every path, as the older engine does in `finally` | high, not executed | Session.ThrowLeavesTimerArmed | Session.ClearedTimerStaysSilent |

=== FILE: code_guards.dfy ===
/**
 * The readiness and denylist guards (src/renderer/utils/codeGuards.ts): the
 * string-, template- and comment-aware bracket matcher, and the three
 * fixed-pattern predicates that gate auto-run and reject dangerous code.
 */
module CodeGuards {
  import opened Lex

  // ======================================================= bracket matcher

  /**
   * Where the matcher stands.  In code it remembers whether the previous
   * character was a '/', inside a string which quote opened it and whether
   * the previous character was a backslash.
   */
  datatype Mode = InCode(afterSlash: bool) | InString(quote: char, afterBackslash: bool) | InComment

  /** The matcher's state: a mode and the stack of open brackets, or a mismatch (the scan has failed). */
  datatype ScanState = Open(mode: Mode, stack: seq<char>) | Mismatched

  const Start: ScanState := Open(InCode(false), [])

  predicate IsOpener(c: char) { c == '(' || c == '[' || c == '{' }

  predicate IsCloser(c: char) { c == ')' || c == ']' || c == '}' }

  predicate IsQuote(c: char) { c == '"' || c == '\'' || c == '`' }

  function CloserOf(o: char): char {
    if o == '(' then ')' else if o == '[' then ']' else '}'
  }

  /**
   * One character of the matcher, written without look-ahead: `//` opens a
   * comment once its second '/' is seen, and a quote closes its string when
   * it is the opening quote and the character before it is not a backslash.
   */
  function Step(st: ScanState, c: char): ScanState {
    match st
    case Mismatched => Mismatched
    case Open(mode, stack) =>
      match mode
      case InComment => if c == '\n' then Open(InCode(false), stack) else st
      case InString(q, esc) =>
        if c == q && !esc then Open(InCode(false), stack) else Open(InString(q, c == '\\'), stack)
      case InCode(slash) =>
        if c == '/' then Open(if slash then InComment else InCode(true), stack)
        else if IsQuote(c) then Open(InString(c, false), stack)
        else if IsOpener(c) then Open(InCode(false), stack + [c])
        else if IsCloser(c) then
          if stack != [] && CloserOf(stack[|stack| - 1]) == c then Open(InCode(false), stack[..|stack| - 1])
          else Mismatched
        else Open(InCode(false), stack)
  }

  /** The state after reading `s` from `st`. */
  function RunFrom(st: ScanState, s: string): ScanState {
    if s == [] then st else Step(RunFrom(st, s[..|s| - 1]), s[|s| - 1])
  }

  function ScanOf(s: string): ScanState { RunFrom(Start, s) }

  /** The reference meaning of `areBracketsBalanced`: no mismatch, and nothing left open. */
  predicate Balanced(code: string) {
    ScanOf(code).Open? && ScanOf(code).stack == []
  }

  /** How the source's look-ahead flags at index `i` stand to the reference state after `code[..i]`. */
  ghost predicate Agrees(code: string, i: nat, stack: seq<char>, inStr: bool, quote: char, inComment: bool)
    requires i <= |code|
  {
    var st := ScanOf(code[..i]);
    st.Open? && st.stack == stack &&
    match st.mode
    case InCode(slash) => !inStr && inComment == (slash && i < |code| && code[i] == '/')
    case InString(q, esc) => inStr && !inComment && quote == q && esc == (i > 0 && code[i - 1] == '\\')
    case InComment => inComment && !inStr
  }

  lemma ScanOfSnoc(code: string, i: nat)
    requires i < |code|
    ensures ScanOf(code[..i + 1]) == Step(ScanOf(code[..i]), code[i])
  {
    assert code[..i + 1][..i] == code[..i];
  }

  /**
   * `areBracketsBalanced`: a left-to-right scan with a stack of open
   * brackets and the flags `inStr`, `str` and `inComment`; it gives up at the
   * first closer that meets an empty stack or a different opener.
   */
  method AreBracketsBalanced(code: string) returns (ok: bool)
    ensures ok == Balanced(code)
  {
    var stack: seq<char> := [];
    var inStr := false;
    var quote := ' ';
    var inComment := false;
    var i := 0;
    assert code[..0] == [];
    while i < |code|
      invariant 0 <= i <= |code|
      invariant Agrees(code, i, stack, inStr, quote, inComment)
    {
      var c := code[i];
      ScanOfSnoc(code, i);
      if !inStr && c == '/' && i + 1 < |code| && code[i + 1] == '/' {
        inComment := true;
      } else if inComment && c == '\n' {
        inComment := false;
      } else if inComment {
      } else if !inStr && IsQuote(c) {
        inStr := true;
        quote := c;
      } else if inStr && c == quote && (i == 0 || code[i - 1] != '\\') {
        inStr := false;
      } else if inStr {
      } else if IsOpener(c) {
        stack := stack + [c];
      } else if IsCloser(c) {
        if stack == [] || CloserOf(stack[|stack| - 1]) != c {
          MismatchIsFinal(code[..i + 1], code[i + 1..]);
          assert code[..i + 1] + code[i + 1..] == code;
          return false;
        }
        stack := stack[..|stack| - 1];
      }
      i := i + 1;
    }
    assert code[..i] == code;
    ok := stack == [];
  }

  // ------------------------------------------------------------ its laws

  lemma {:induction false} RunFromAppend(st: ScanState, a: string, b: string)
    ensures RunFrom(st, a + b) == RunFrom(RunFrom(st, a), b)
    decreases |b|
  {
    if b == [] {
      assert a + b == a;
    } else {
      assert (a + b)[..|a + b| - 1] == a + b[..|b| - 1];
      RunFromAppend(st, a, b[..|b| - 1]);
    }
  }

  lemma {:induction false} MismatchedStays(s: string)
    ensures RunFrom(Mismatched, s) == Mismatched
    decreases |s|
  {
    if s != [] { MismatchedStays(s[..|s| - 1]); }
  }

  /** Once the scan has failed, no continuation makes the text balanced. */
  lemma MismatchIsFinal(a: string, b: string)
    requires ScanOf(a) == Mismatched
    ensures !Balanced(a + b)
  {
    RunFromAppend(Start, a, b);
    MismatchedStays(b);
  }

  /**
   * A closer read in code, when the stack is empty or its top is a different
   * kind of opener, makes the result false whatever follows.
   */
  lemma CloserMismatchRejects(a: string, c: char, b: string)
    requires ScanOf(a).Open? && ScanOf(a).mode.InCode? && IsCloser(c)
    requires var stk := ScanOf(a).stack; stk == [] || CloserOf(stk[|stk| - 1]) != c
    ensures !Balanced(a + [c] + b)
  {
    assert ScanOf(a + [c]) == Step(ScanOf(a), c) by {
      assert (a + [c])[..|a + [c]| - 1] == a;
    }
    MismatchIsFinal(a + [c], b);
  }

  /** The three documented cases: a commented or quoted bracket is ignored, an unclosed one is not. */
  lemma DocumentedBracketExamples()
    ensures Balanced("// (") && Balanced("'('") && !Balanced("(()")
  {
    assert "// ("[..3] == "// " && "// "[..2] == "//" && "//"[..1] == "/" && "/"[..0] == [];
    assert "'('"[..2] == "'(" && "'("[..1] == "'" && "'"[..0] == [];
    assert "(()"[..2] == "((" && "(("[..1] == "(" && "("[..0] == [];
  }

  /** Characters inside a string other than its quote and backslash leave the state as it was. */
  lemma {:induction false} StringBodyInert(q: char, stk: seq<char>, x: string)
    requires forall k :: 0 <= k < |x| ==> x[k] != q && x[k] != '\\'
    ensures RunFrom(Open(InString(q, false), stk), x) == Open(InString(q, false), stk)
    decreases |x|
  {
    if x != [] { StringBodyInert(q, stk, x[..|x| - 1]); }
  }

  /** Characters inside a line comment other than '\n' leave the state as it was. */
  lemma {:induction false} CommentBodyInert(stk: seq<char>, x: string)
    requires '\n' !in x
    ensures RunFrom(Open(InComment, stk), x) == Open(InComment, stk)
    decreases |x|
  {
    if x != [] {
      assert x[|x| - 1] != '\n';
      CommentBodyInert(stk, x[..|x| - 1]);
    }
  }

  /**
   * Inserting text (for instance bracket characters) inside a string literal
   * changes nothing, as long as it holds neither the opening quote nor a
   * backslash and is not inserted right after a backslash.
   */
  lemma InsertionInsideString(a: string, x: string, b: string)
    requires ScanOf(a).Open? && ScanOf(a).mode.InString? && !ScanOf(a).mode.afterBackslash
    requires forall k :: 0 <= k < |x| ==> x[k] != ScanOf(a).mode.quote && x[k] != '\\'
    ensures Balanced(a + x + b) == Balanced(a + b)
  {
    var st := ScanOf(a);
    StringBodyInert(st.mode.quote, st.stack, x);
    RunFromAppend(Start, a, x);
    RunFromAppend(Start, a + x, b);
    RunFromAppend(Start, a, b);
  }

  /** Inserting text without a newline inside a `//` comment changes nothing. */
  lemma InsertionInsideComment(a: string, x: string, b: string)
    requires ScanOf(a).Open? && ScanOf(a).mode.InComment?
    requires '\n' !in x
    ensures Balanced(a + x + b) == Balanced(a + b)
  {
    CommentBodyInert(ScanOf(a).stack, x);
    RunFromAppend(Start, a, x);
    RunFromAppend(Start, a + x, b);
    RunFromAppend(Start, a, b);
  }

  lemma {:induction false} StringBodyEscapeFlag(q: char, stk: seq<char>, s: string)
    requires q !in s
    ensures RunFrom(Open(InString(q, false), stk), s) == Open(InString(q, s != [] && s[|s| - 1] == '\\'), stk)
    decreases |s|
  {
    if s != [] {
      assert q !in s[..|s| - 1];
      StringBodyEscapeFlag(q, stk, s[..|s| - 1]);
    }
  }

  /**
   * A string opened by `q` is closed by the next `q` exactly when the
   * character before that `q` is not a backslash; the other quote kinds in
   * between never close it, and the stack is untouched.
   */
  lemma StringClosesOnlyOnUnescapedQuote(q: char, stk: seq<char>, s: string)
    requires IsQuote(q) && q !in s
    ensures var st := RunFrom(Open(InString(q, false), stk), s + [q]);
            st.Open? && st.stack == stk && (st.mode.InCode? <==> (s == [] || s[|s| - 1] != '\\'))
  {
    StringBodyEscapeFlag(q, stk, s);
    assert (s + [q])[..|s + [q]| - 1] == s;
  }

  // ================================================ fixed-pattern predicates

  /** `\(.*\)\s*$` at `j`: a '(' and, later, a ')' followed only by spaces, with no line break between. */
  predicate ParenLineToEnd(t: string, j: nat) {
    j < |t| && t[j] == '(' &&
    exists k: nat :: j < k < |t| && t[k] == ')' && NoLineTerminator(t[j + 1..k]) && AllSpaces(t[k + 1..])
  }

  /** `\([^)]*\)\s*$` at `j`: a '(' whose first following ')' is followed only by spaces. */
  predicate ParenGroupToEnd(t: string, j: nat)
    requires j <= |t|
  {
    j < |t| && t[j] == '(' &&
    var k := FindChar(t, j + 1, ')');
    k < |t| && AllSpaces(t[k + 1..])
  }

  /** `\bKW\s*\(.*\)\s*$` */
  predicate KeywordParenAtEnd(t: string, kw: string) {
    exists i: nat :: i <= |t| && KeywordAt(t, i, kw) && ParenLineToEnd(t, SkipSpaces(t, i + |kw|))
  }

  /** `\bKW\s*$` */
  predicate KeywordAtEnd(t: string, kw: string) {
    exists i: nat :: i <= |t| && KeywordAt(t, i, kw) && AllSpaces(t[i + |kw|..])
  }

  /** `\bKW\s*\(?[^)]*$`: the keyword with no ')' anywhere after it. */
  predicate KeywordUnclosed(t: string, kw: string) {
    exists i: nat :: i <= |t| && KeywordAt(t, i, kw) && ')' !in t[i + |kw|..]
  }

  /** `\bfunction\s+\w*\s*\([^)]*\)\s*$` */
  predicate FunctionHeaderAtEnd(t: string) {
    exists i: nat :: i <= |t| && KeywordAt(t, i, "function") && i + 8 < |t| && IsSpace(t[i + 8]) &&
      ParenGroupToEnd(t, SkipSpaces(t, SkipWord(t, SkipSpaces(t, i + 8))))
  }

  /** `\bKW\s+\w+\s*=\s*$` */
  predicate KeywordNameAssignAtEnd(t: string, kw: string) {
    exists i: nat :: i <= |t| && KeywordAt(t, i, kw) && i + |kw| < |t| && IsSpace(t[i + |kw|]) &&
      var j := SkipSpaces(t, i + |kw|);
      var w := SkipWord(t, j);
      w > j && var e := SkipSpaces(t, w); e < |t| && t[e] == '=' && AllSpaces(t[e + 1..])
  }

  /** `\bKW\s+\w*\s*$` */
  predicate KeywordNameAtEnd(t: string, kw: string) {
    exists i: nat :: i <= |t| && KeywordAt(t, i, kw) && i + |kw| < |t| && IsSpace(t[i + |kw|]) &&
      AllSpaces(t[SkipWord(t, SkipSpaces(t, i + |kw|))..])
  }

  /** `\w+\s*OP\s*$` (no word boundary required). */
  predicate WordThenAtEnd(t: string, op: char) {
    exists i: nat :: i < |t| && IsWordChar(t[i]) &&
      var e := SkipSpaces(t, SkipWord(t, i)); e < |t| && t[e] == op && AllSpaces(t[e + 1..])
  }

  /** `hasIncompleteStatement`: one of the 21 patterns matches the trimmed text. */
  predicate HasIncompleteStatement(code: string) {
    var t := Trim(code);
    KeywordParenAtEnd(t, "if") || KeywordAtEnd(t, "else") ||
    KeywordParenAtEnd(t, "for") || KeywordUnclosed(t, "for") || KeywordAtEnd(t, "for") ||
    KeywordParenAtEnd(t, "while") || KeywordUnclosed(t, "while") || KeywordAtEnd(t, "while") ||
    FunctionHeaderAtEnd(t) || KeywordAtEnd(t, "function") ||
    KeywordNameAssignAtEnd(t, "const") || KeywordNameAssignAtEnd(t, "let") || KeywordNameAssignAtEnd(t, "var") ||
    KeywordAtEnd(t, "const") || KeywordAtEnd(t, "let") || KeywordAtEnd(t, "var") ||
    WordThenAtEnd(t, '=') || WordThenAtEnd(t, '(') || WordThenAtEnd(t, '.') ||
    KeywordNameAtEnd(t, "interface") || KeywordNameAssignAtEnd(t, "type") || KeywordNameAtEnd(t, "class") ||
    KeywordUnclosed(t, "switch") || KeywordAtEnd(t, "try") || KeywordUnclosed(t, "catch")
  }

  /** `^\w+\s*OP$` */
  predicate WordThenOnly(last: string, op: char) {
    var w := SkipWord(last, 0);
    w > 0 && var e := SkipSpaces(last, w); e == |last| - 1 && last[e] == op
  }

  /** `^(while|for|if)\s*\([^)]*\)\s*$` */
  predicate HeaderWithoutBody(last: string, kw: string) {
    LitAt(last, 0, kw) && ParenGroupToEnd(last, SkipSpaces(last, |kw|))
  }

  /** The eight patterns of `looksLikeIncompleteTyping`, tried on one trimmed line. */
  predicate TypingPattern(last: string) {
    (last != [] && AllWord(last)) ||
    WordThenOnly(last, '.') || WordThenOnly(last, '(') || WordThenOnly(last, '[') || WordThenOnly(last, '{') ||
    (var w := SkipWord(last, 0);
     w > 0 && var e := SkipSpaces(last, w); e < |last| && last[e] == ':' && AllSpaces(last[e + 1..])) ||
    (var j := SkipSpaces(last, 0); j < |last| && last[j] == '.' && AllWord(last[j + 1..])) ||
    HeaderWithoutBody(last, "while") || HeaderWithoutBody(last, "for") || HeaderWithoutBody(last, "if")
  }

  /** `looksLikeIncompleteTyping`: the patterns tried on the trimmed last line. */
  predicate LooksLikeIncompleteTyping(code: string) {
    TypingPattern(Trim(LastLine(code)))
  }

  /** The lower-cased ASCII text `lit` occurs at `i`, ignoring case. */
  predicate CaseFoldAt(s: string, i: nat, lit: string) {
    i + |lit| <= |s| && forall k :: 0 <= k < |lit| ==> Lower(s[i + k]) == lit[k]
  }

  predicate CaseFoldContains(s: string, lit: string) {
    exists i: nat :: i <= |s| && CaseFoldAt(s, i, lit)
  }

  /** `NAME\s*\(` ignoring case. */
  predicate CaseFoldCall(s: string, lit: string) {
    exists i: nat :: i <= |s| && CaseFoldAt(s, i, lit) &&
      var j := SkipSpaces(s, i + |lit|); j < |s| && s[j] == '('
  }

  /** `import\s` ignoring case. */
  predicate CaseFoldImport(s: string) {
    exists i: nat :: i <= |s| && CaseFoldAt(s, i, "import") && i + 6 < |s| && IsSpace(s[i + 6])
  }

  /** `containsDangerousCode`: one of the denylisted patterns occurs, ignoring case. */
  predicate ContainsDangerousCode(code: string) {
    CaseFoldContains(code, "setinterval") || CaseFoldContains(code, "settimeout") ||
    CaseFoldContains(code, "xmlhttprequest") || CaseFoldContains(code, "fetch") ||
    CaseFoldContains(code, "localstorage") || CaseFoldContains(code, "sessionstorage") ||
    CaseFoldContains(code, "document.") || CaseFoldContains(code, "window.") || CaseFoldContains(code, "global.") ||
    CaseFoldCall(code, "eval") || CaseFoldCall(code, "function") ||
    CaseFoldImport(code) || CaseFoldCall(code, "require")
  }

  // ----------------------------------------------------- their laws

  /**
   * Text whose trimmed form ends in an identifier followed (possibly after
   * spaces) by `=`, `(` or `.` is always reported incomplete.
   */
  lemma IdentifierThenOperatorIsIncomplete(code: string, p: string, w: string, sp: string, op: char)
    requires Trim(code) == p + w + sp + [op]
    requires w != [] && AllWord(w) && AllSpaces(sp)
    requires op == '=' || op == '(' || op == '.'
    ensures HasIncompleteStatement(code)
  {
    var t := Trim(code);
    var i, n, m := |p|, |w|, |sp|;
    assert t[i..i + n] == w;
    assert t[i + n..i + n + m] == sp;
    WordThenOperator(t, i, n, m, op);
    if op == '=' {
      assert WordThenAtEnd(t, '=');
    } else if op == '(' {
      assert WordThenAtEnd(t, '(');
    } else {
      assert WordThenAtEnd(t, '.');
    }
  }

  lemma WordThenOperator(t: string, i: nat, n: nat, m: nat, op: char)
    requires n > 0 && i + n + m + 1 == |t| && t[i + n + m] == op
    requires AllWord(t[i..i + n]) && AllSpaces(t[i + n..i + n + m])
    requires op == '=' || op == '(' || op == '.'
    ensures WordThenAtEnd(t, op)
  {
    assert t[i..i + n][0] == t[i];
    assert m > 0 ==> t[i + n..i + n + m][0] == t[i + n];
    SkipWordTo(t, i, n);
    SkipSpacesTo(t, i + n, m);
    assert t[i + n + m + 1..] == [];
    assert IsWordChar(t[i]) && SkipSpaces(t, SkipWord(t, i)) == i + n + m;
  }

  /** Empty or blank text and a dangling declaration are reported incomplete. */
  lemma DanglingDeclarationIsIncomplete()
    ensures HasIncompleteStatement("const x =")
  {
    TrimKeeps("const x =");
    IdentifierThenOperatorIsIncomplete("const x =", "const ", "x", " ", '=');
  }

  /** The verdict depends on the last line only: earlier lines never matter. */
  lemma TypingDependsOnLastLineOnly(a: string, b: string)
    ensures LooksLikeIncompleteTyping(a + "\n" + b) == LooksLikeIncompleteTyping(b)
  {
    LastLineAppend(a, b);
  }

  /** A last line that is a lone identifier is reported as typing in progress, whatever precedes it. */
  lemma LoneIdentifierIsIncomplete(a: string, w: string)
    requires w != [] && AllWord(w)
    ensures LooksLikeIncompleteTyping(a + "\n" + w)
  {
    TypingDependsOnLastLineOnly(a, w);
    assert '\n' !in w by {
      forall k | 0 <= k < |w| ensures w[k] != '\n' { assert IsWordChar(w[k]); }
    }
    LinesOfLine(w);
    assert LastLine(w) == w;
    TrimWord(w);
    assert TypingPattern(w);
  }

  lemma TrimWord(w: string)
    requires AllWord(w)
    ensures Trim(w) == w
  {
  }

  /** The denylist is monotone: appending text never makes dangerous code safe. */
  lemma DangerIsMonotone(a: string, b: string)
    requires ContainsDangerousCode(a)
    ensures ContainsDangerousCode(a + b)
  {
    ContainsIsMonotone(a, b, "setinterval");
    ContainsIsMonotone(a, b, "settimeout");
    ContainsIsMonotone(a, b, "xmlhttprequest");
    ContainsIsMonotone(a, b, "fetch");
    ContainsIsMonotone(a, b, "localstorage");
    ContainsIsMonotone(a, b, "sessionstorage");
    ContainsIsMonotone(a, b, "document.");
    ContainsIsMonotone(a, b, "window.");
    ContainsIsMonotone(a, b, "global.");
    CallIsMonotone(a, b, "eval");
    CallIsMonotone(a, b, "function");
    CallIsMonotone(a, b, "require");
    ImportIsMonotone(a, b);
  }

  lemma CaseFoldAtAppend(a: string, b: string, i: nat, lit: string)
    requires CaseFoldAt(a, i, lit)
    ensures CaseFoldAt(a + b, i, lit)
  {
    forall k | 0 <= k < |lit| ensures Lower((a + b)[i + k]) == lit[k] {
      assert (a + b)[i + k] == a[i + k];
    }
  }

  lemma ContainsIsMonotone(a: string, b: string, lit: string)
    ensures CaseFoldContains(a, lit) ==> CaseFoldContains(a + b, lit)
  {
    if CaseFoldContains(a, lit) {
      var i: nat :| i <= |a| && CaseFoldAt(a, i, lit);
      CaseFoldAtAppend(a, b, i, lit);
    }
  }

  lemma CallIsMonotone(a: string, b: string, lit: string)
    ensures CaseFoldCall(a, lit) ==> CaseFoldCall(a + b, lit)
  {
    if CaseFoldCall(a, lit) {
      var i: nat :| i <= |a| && CaseFoldAt(a, i, lit) && var j := SkipSpaces(a, i + |lit|); j < |a| && a[j] == '(';
      SkipSpacesAppend(a, b, i + |lit|);
      CaseFoldAtAppend(a, b, i, lit);
    }
  }

  lemma ImportIsMonotone(a: string, b: string)
    ensures CaseFoldImport(a) ==> CaseFoldImport(a + b)
  {
    if CaseFoldImport(a) {
      var i: nat :| i <= |a| && CaseFoldAt(a, i, "import") && i + 6 < |a| && IsSpace(a[i + 6]);
      CaseFoldAtAppend(a, b, i, "import");
      assert (a + b)[i + 6] == a[i + 6];
    }
  }
}

=== FILE: console_tagging.dfy ===
/**
 * Console-call line tagging: every `console.log|warn|error|info(ARGS)` whose
 * parentheses close on the same line gets the 1-based line number as its
 * first argument.  src/renderer/core/executionEngine.ts and
 * src/renderer/core/CodeInstrumentation.ts pass the bare number and can be
 * switched off; the older src/renderer/core/ExecutionEngine.ts always tags,
 * with an object `{__line:N}`.
 */
module ConsoleTagging {
  import opened Wrappers
  import opened Lex

  /** How the line number is written into the call. */
  datatype TagStyle = Numeric | LineObject

  /** The first argument inserted for line `lineNo`. */
  function TagText(style: TagStyle, lineNo: nat): (r: string)
    ensures '\n' !in r && r != []
    ensures style.Numeric? ==> forall k :: 0 <= k < |r| ==> IsDigit(r[k])
  {
    match style
    case Numeric => NatToString(lineNo)
    case LineObject => "{__line:" + NatToString(lineNo) + "}"
  }

  // ------------------------------------------------------------ the pattern

  /** A match of `\b(console\s*\.\s*(?:log|warn|error|info))\s*\(`: the end of group 1 and the index past `(`. */
  datatype ConsoleMatch = ConsoleMatch(nameEnd: nat, methodEnd: nat)

  /** The word `console` at index `m`, compared character by character. */
  predicate ConsoleWordAt(s: string, m: nat) {
    m + 7 <= |s| && s[m] == 'c' && s[m + 1] == 'o' && s[m + 2] == 'n' && s[m + 3] == 's' &&
    s[m + 4] == 'o' && s[m + 5] == 'l' && s[m + 6] == 'e'
  }

  lemma ConsoleWordIsLit(s: string, m: nat)
    ensures ConsoleWordAt(s, m) <==> LitAt(s, m, "console")
  {
    if ConsoleWordAt(s, m) {
      assert s[m..m + 7] == "console";
    }
    if LitAt(s, m, "console") {
      assert forall k {:trigger s[m + k]} :: 0 <= k < 7 ==> s[m + k] == s[m..m + 7][k];
    }
  }

  /** The length of `log`, `warn`, `error` or `info` at `j`, or 0; the four differ in their first letter. */
  function MethodLength(s: string, j: nat): (n: nat)
    ensures n > 0 ==> j + n <= |s|
  {
    if j + 3 <= |s| && s[j] == 'l' && s[j + 1] == 'o' && s[j + 2] == 'g' then 3
    else if j + 4 <= |s| && s[j] == 'w' && s[j + 1] == 'a' && s[j + 2] == 'r' && s[j + 3] == 'n' then 4
    else if j + 5 <= |s| && s[j] == 'e' && s[j + 1] == 'r' && s[j + 2] == 'r' && s[j + 3] == 'o' && s[j + 4] == 'r' then 5
    else if j + 4 <= |s| && s[j] == 'i' && s[j + 1] == 'n' && s[j + 2] == 'f' && s[j + 3] == 'o' then 4
    else 0
  }

  /** Where the pattern stands after `console`: before `.`, before the method name, or before `(`. */
  datatype Stage = BeforeDot | BeforeName | BeforeParen(nameEnd: nat)

  /**
   * The rest of the pattern, `\s*\.\s*(?:log|warn|error|info)\s*\(`, read
   * one character at a time from `j`.  Each `\s*` is followed by a
   * character that is not `\s`, so the greedy reading is the only one.
   */
  function MatchRest(s: string, j: nat, st: Stage): (r: Option<ConsoleMatch>)
    requires j <= |s| && (st.BeforeParen? ==> st.nameEnd <= j)
    ensures r.Some? ==> r.value.nameEnd < r.value.methodEnd <= |s| && s[r.value.methodEnd - 1] == '('
    ensures r.Some? && !st.BeforeParen? ==> j < r.value.nameEnd
    ensures r.Some? && st.BeforeParen? ==> r.value.nameEnd == st.nameEnd
    decreases |s| - j
  {
    if j == |s| then None
    else if IsSpace(s[j]) then MatchRest(s, j + 1, st)
    else match st
      case BeforeDot => if s[j] == '.' then MatchRest(s, j + 1, BeforeName) else None
      case BeforeName =>
        var n := MethodLength(s, j);
        if n == 0 then None else MatchRest(s, j + n, BeforeParen(j + n))
      case BeforeParen(e) => if s[j] == '(' then Some(ConsoleMatch(e, j + 1)) else None
  }

  /** The pattern tried at index `m`: a word boundary, `console`, then the rest. */
  function ConsoleAt(s: string, m: nat): (r: Option<ConsoleMatch>)
    ensures r.Some? ==> ConsoleWordAt(s, m) && m + 7 < r.value.nameEnd < r.value.methodEnd <= |s|
    ensures r.Some? ==> s[r.value.methodEnd - 1] == '('
  {
    if BoundaryBefore(s, m) && ConsoleWordAt(s, m) then MatchRest(s, m + 7, BeforeDot) else None
  }

  /** `consoleRegex.exec(line)` with `lastIndex == p`: the leftmost match at or after `p`. */
  function NextConsole(s: string, p: nat): (r: Option<nat>)
    requires p <= |s|
    ensures r.Some? ==> p <= r.value < |s| && ConsoleAt(s, r.value).Some?
    decreases |s| - p
  {
    if p == |s| then None
    else if ConsoleAt(s, p).Some? then Some(p)
    else NextConsole(s, p + 1)
  }

  /** The match `NextConsole` finds is the leftmost one from `p`, and when it finds none there is none. */
  lemma {:induction false} NextConsoleIsLeftmost(s: string, p: nat, x: nat)
    requires p <= x < |s| && ConsoleAt(s, x).Some?
    ensures NextConsole(s, p).Some? && NextConsole(s, p).value <= x
    decreases x - p
  {
    if ConsoleAt(s, p).None? {
      NextConsoleIsLeftmost(s, p + 1, x);
    }
  }

  /** A stretch with no match does not change where the next match is. */
  lemma {:induction false} NextConsoleSkip(s: string, a: nat, b: nat)
    requires a <= b <= |s| && forall x :: a <= x < b ==> ConsoleAt(s, x).None?
    ensures NextConsole(s, a) == NextConsole(s, b)
    decreases b - a
  {
    if a < b {
      assert ConsoleAt(s, a).None?;
      NextConsoleSkip(s, a + 1, b);
    }
  }

  /**
   * The depth loop: from index `i` at parenthesis depth `depth`, stop at the
   * end of the line or once the depth is 0.  Gives the index and the depth.
   */
  function ScanClose(s: string, i: nat, depth: nat): (r: (nat, nat))
    requires i <= |s|
    ensures i <= r.0 <= |s| && (r.1 == 0 || r.0 == |s|)
    ensures depth > 0 && r.1 == 0 ==> i < r.0 && s[r.0 - 1] == ')'
    decreases |s| - i
  {
    if i < |s| && depth > 0 then
      ScanClose(s, i + 1, if s[i] == '(' then depth + 1 else if s[i] == ')' then depth - 1 else depth)
    else (i, depth)
  }

  /** The index just past the `)` that closes a call whose `(` ends at `e`, when it closes on the line. */
  function Closing(s: string, e: nat): (r: Option<nat>)
    requires e <= |s|
    ensures r.Some? ==> e < r.value <= |s| && s[r.value - 1] == ')'
  {
    var sc := ScanClose(s, e, 1);
    if sc.1 == 0 then Some(sc.0) else None
  }

  /** A match `c` at `m` and its closing index lie in order within `s`. */
  predicate Fits(s: string, m: nat, c: ConsoleMatch, close: Option<nat>) {
    m <= c.nameEnd <= c.methodEnd <= |s| && (close.Some? ==> c.methodEnd < close.value <= |s|)
  }

  /** The call closes and its arguments are blank (`args.trim()` is empty). */
  predicate BlankArgs(s: string, m: nat, c: ConsoleMatch, close: Option<nat>)
    requires Fits(s, m, c, close)
  {
    close.Some? && AllSpaces(s[c.methodEnd..close.value - 1])
  }

  /** Where reading resumes after the call: past a blank call's `)`, otherwise just past `(`. */
  function Resume(s: string, m: nat, c: ConsoleMatch, close: Option<nat>): (j: nat)
    requires Fits(s, m, c, close)
    ensures c.methodEnd <= j <= |s|
  {
    if BlankArgs(s, m, c, close) then close.value else c.methodEnd
  }

  /**
   * What stands for `s[m..Resume(..)]` in the tagged text: `NAME(ARG, ` for
   * a closed call with arguments (which follow, tagged in turn), `NAME(ARG)`
   * for a blank one, and the text itself for a call that does not close.
   */
  function CallHead(s: string, m: nat, c: ConsoleMatch, close: Option<nat>, arg: string): string
    requires Fits(s, m, c, close)
  {
    if close.None? then s[m..c.methodEnd]
    else if BlankArgs(s, m, c, close) then s[m..c.nameEnd] + "(" + arg + ")"
    else s[m..c.nameEnd] + "(" + arg + ", "
  }

  // ------------------------------------------------------------ reference

  /**
   * The tagged text of `s[p..]`, read left to right: every match is
   * replaced by its `CallHead`, and everything else is kept.
   */
  function TagFrom(s: string, p: nat, arg: string): string
    requires p <= |s|
    decreases |s| - p
  {
    match NextConsole(s, p)
    case None => s[p..]
    case Some(m) =>
      var c := ConsoleAt(s, m).value;
      var close := Closing(s, c.methodEnd);
      s[p..m] + CallHead(s, m, c, close, arg) + TagFrom(s, Resume(s, m, c, close), arg)
  }

  // ------------------------------------------------------------ the passes

  /**
   * One line of `instrumentConsoleCalls`: the `exec` loop rewriting `result`
   * through the running `offset`.
   */
  method TagLine(line: string, arg: string) returns (result: string)
    ensures result == TagFrom(line, 0, arg)
  {
    result := line;
    var offset: int := 0;
    var lastIndex: nat := 0;
    ghost var done: string := [];
    ghost var q: nat := 0;
    var next := NextConsole(line, 0);
    while next.Some?
      invariant lastIndex <= q <= |line|
      invariant next == NextConsole(line, lastIndex) == NextConsole(line, q)
      invariant result == done + line[q..] && offset == |done| - q
      invariant TagFrom(line, 0, arg) == done + TagFrom(line, q, arg)
      decreases |line| - lastIndex
    {
      var m := next.value;
      var c := ConsoleAt(line, m).value;
      ghost var close := Closing(line, c.methodEnd);
      result, offset := RewriteCall(line, arg, m, c, result, offset, done, q);
      ResumeSearch(line, m, c, close);
      TagStep(line, arg, done, q, m);
      done := done + line[q..m] + CallHead(line, m, c, close, arg);
      q := Resume(line, m, c, close);
      lastIndex := c.methodEnd;
      next := NextConsole(line, lastIndex);
    }
    assert line[q..] == TagFrom(line, q, arg);
  }

  /**
   * The body of the `exec` loop for the match `c` at `m`: find the closing
   * `)`, and when there is one splice the tagged call into `result` at the
   * place `offset` says the original text now sits.
   */
  method RewriteCall(line: string, arg: string, m: nat, c: ConsoleMatch, result: string, offset: int,
                     ghost done: string, ghost q: nat)
    returns (result': string, offset': int)
    requires q <= m < c.nameEnd < c.methodEnd <= |line|
    requires result == done + line[q..] && offset == |done| - q
    ensures var close := Closing(line, c.methodEnd);
            var done' := done + line[q..m] + CallHead(line, m, c, close, arg);
            var q' := Resume(line, m, c, close);
            result' == done' + line[q'..] && offset' == |done'| - q'
  {
    var methodEnd := c.methodEnd;
    var i, depth := FindClose(line, methodEnd);
    result', offset' := result, offset;
    if depth == 0 {
      assert Closing(line, methodEnd) == Some(i);
      var args := line[methodEnd..i - 1];
      var trimmed := Trim(args);
      TrimEmpty(args);
      var newCall := if trimmed != [] then line[m..c.nameEnd] + "(" + arg + ", " + args + ")"
                     else line[m..c.nameEnd] + "(" + arg + ")";
      ClosedStep(line, arg, done, q, m, c, i, trimmed == [], newCall, result, offset);
      var before := result[..m + offset];
      var after := result[i + offset..];
      result' := before + newCall + after;
      offset' := offset + |newCall| - (i - m);
    } else {
      assert Closing(line, methodEnd) == None;
      UnclosedStep(line, arg, done, q, m, c);
    }
  }

  /** The depth loop that looks for the `)` closing a call whose `(` ends at `start`. */
  method FindClose(line: string, start: nat) returns (i: nat, depth: nat)
    requires start <= |line|
    ensures (i, depth) == ScanClose(line, start, 1)
  {
    depth := 1;
    i := start;
    while i < |line| && depth > 0
      invariant start <= i <= |line|
      invariant ScanClose(line, i, depth) == ScanClose(line, start, 1)
      decreases |line| - i
    {
      if line[i] == '(' {
        depth := depth + 1;
      } else if line[i] == ')' {
        depth := depth - 1;
      }
      i := i + 1;
    }
  }

  /** One step of the reference reading, seen from the text already produced. */
  lemma TagStep(line: string, arg: string, done: string, q: nat, m: nat)
    requires q <= |line| && NextConsole(line, q) == Some(m)
    ensures var c := ConsoleAt(line, m).value;
            var close := Closing(line, c.methodEnd);
            done + TagFrom(line, q, arg) ==
            done + line[q..m] + CallHead(line, m, c, close, arg) + TagFrom(line, Resume(line, m, c, close), arg)
  {
    var c := ConsoleAt(line, m).value;
    var close := Closing(line, c.methodEnd);
    var head := CallHead(line, m, c, close, arg);
    var rest := TagFrom(line, Resume(line, m, c, close), arg);
    assert TagFrom(line, q, arg) == line[q..m] + head + rest;
    Assoc(done, line[q..m] + head, rest);
    Assoc(done, line[q..m], head);
  }

  /** Splicing a closed call's replacement into `result` through `offset`, as the loop does. */
  lemma ClosedStep(line: string, arg: string, done: string, q: nat, m: nat, c: ConsoleMatch, i: nat,
                   blank: bool, newCall: string, result: string, offset: int)
    requires q <= m && Fits(line, m, c, Some(i)) && line[i - 1] == ')'
    requires result == done + line[q..] && offset == |done| - q
    requires var args := line[c.methodEnd..i - 1];
             blank == AllSpaces(args) &&
             newCall == if !blank then line[m..c.nameEnd] + "(" + arg + ", " + args + ")"
                        else line[m..c.nameEnd] + "(" + arg + ")"
    ensures 0 <= m + offset <= i + offset <= |result| &&
            result[..m + offset] + newCall + result[i + offset..] ==
            done + line[q..m] + CallHead(line, m, c, Some(i), arg) + line[Resume(line, m, c, Some(i))..] &&
            offset + |newCall| - (i - m) ==
            |done + line[q..m] + CallHead(line, m, c, Some(i), arg)| - Resume(line, m, c, Some(i))
  {
    SpliceAt(done, line, q, m, i);
    var front := done + line[q..m];
    var e := c.methodEnd;
    if !blank {
      var h := line[m..c.nameEnd] + "(" + arg + ", ";
      assert CallHead(line, m, c, Some(i), arg) == h && Resume(line, m, c, Some(i)) == e;
      ArgsSplice(front, h, line, e, i, newCall);
    } else {
      assert CallHead(line, m, c, Some(i), arg) == newCall && Resume(line, m, c, Some(i)) == i;
      Assoc(front, newCall, line[i..]);
    }
  }

  /** A call with arguments: its replacement, then the rest, is its head, then the arguments and the rest. */
  lemma ArgsSplice(front: string, h: string, line: string, e: nat, i: nat, newCall: string)
    requires e < i <= |line| && line[i - 1] == ')'
    requires newCall == h + line[e..i - 1] + ")"
    ensures front + newCall + line[i..] == front + h + line[e..]
    ensures |newCall| == |h| + (i - e)
  {
    ArgsThenRest(line, e, i, h);
    Assoc(front, newCall, line[i..]);
    Assoc(front, h, line[e..]);
  }

  /** The slices of `done + line[q..]` the loop cuts at `m + offset` and `i + offset`. */
  lemma SpliceAt(done: string, line: string, q: nat, m: nat, i: nat)
    requires q <= m <= i <= |line|
    ensures var result := done + line[q..];
            var offset := |done| - q;
            0 <= m + offset <= i + offset <= |result| &&
            result[..m + offset] == done + line[q..m] && result[i + offset..] == line[i..]
  {
  }

  /** Arguments, their `)` and the rest of the line, after a head `h`. */
  lemma ArgsThenRest(line: string, e: nat, i: nat, h: string)
    requires e < i <= |line| && line[i - 1] == ')'
    ensures h + line[e..i - 1] + ")" + line[i..] == h + line[e..]
  {
    assert line[e..] == line[e..i - 1] + ")" + line[i..];
  }

  /** A call that does not close is kept as it is. */
  lemma UnclosedStep(line: string, arg: string, done: string, q: nat, m: nat, c: ConsoleMatch)
    requires q <= m && Fits(line, m, c, None)
    ensures done + line[q..] == done + line[q..m] + CallHead(line, m, c, None, arg) + line[Resume(line, m, c, None)..]
    ensures |done| - q == |done + line[q..m] + CallHead(line, m, c, None, arg)| - Resume(line, m, c, None)
  {
    var e := c.methodEnd;
    assert line[q..] == line[q..m] + line[m..e] + line[e..];
    Assoc(done, line[q..m] + line[m..e], line[e..]);
    Assoc(done, line[q..m], line[m..e]);
  }

  /** The search goes on from `(`; skipping a blank call's arguments and `)` finds the same next match. */
  lemma ResumeSearch(line: string, m: nat, c: ConsoleMatch, close: Option<nat>)
    requires c.methodEnd <= |line| && close == Closing(line, c.methodEnd) && Fits(line, m, c, close)
    ensures NextConsole(line, c.methodEnd) == NextConsole(line, Resume(line, m, c, close))
  {
    if BlankArgs(line, m, c, close) {
      NoMatchInBlankArgs(line, c.methodEnd, close.value);
    }
  }

  /** Blank arguments and their `)` hold no match, so the search from `(` goes on past them. */
  lemma NoMatchInBlankArgs(s: string, a: nat, b: nat)
    requires a < b <= |s| && AllSpaces(s[a..b - 1]) && s[b - 1] == ')'
    ensures NextConsole(s, a) == NextConsole(s, b)
  {
    forall x | a <= x < b ensures ConsoleAt(s, x).None? {
      if x < b - 1 {
        assert IsSpace(s[a..b - 1][x - a]);
      }
    }
    NextConsoleSkip(s, a, b);
  }

  /**
   * `instrumentConsoleCalls`: the identity when line numbers are off;
   * otherwise every line tagged with its own 1-based number, and the line
   * count kept.
   */
  method InstrumentConsoleCalls(code: string, showLineNumbers: bool, style: TagStyle) returns (r: string)
    ensures !showLineNumbers ==> r == code
    ensures showLineNumbers ==>
              |Lines(r)| == |Lines(code)| &&
              forall k :: 0 <= k < |Lines(code)| ==> Lines(r)[k] == TagFrom(Lines(code)[k], 0, TagText(style, k + 1))
  {
    if !showLineNumbers {
      return code;
    }
    var lines := Lines(code);
    var out := TagEachLine(lines, style);
    TaggedLinesHaveNoNewline(lines, out, style);
    LinesJoin(out);
    r := Join(out);
  }

  /** The `map` over the split lines: line `k` (0-based) tagged with number `k + 1`. */
  method TagEachLine(lines: seq<string>, style: TagStyle) returns (out: seq<string>)
    ensures |out| == |lines|
    ensures forall j :: 0 <= j < |lines| ==> out[j] == TagFrom(lines[j], 0, TagText(style, j + 1))
  {
    out := [];
    for k := 0 to |lines|
      invariant |out| == k
      invariant forall j :: 0 <= j < k ==> out[j] == TagFrom(lines[j], 0, TagText(style, j + 1))
    {
      var t := TagLine(lines[k], TagText(style, k + 1));
      out := out + [t];
    }
  }

  lemma TaggedLinesHaveNoNewline(lines: seq<string>, out: seq<string>, style: TagStyle)
    requires |out| == |lines| && forall j :: 0 <= j < |lines| ==> '\n' !in lines[j]
    requires forall j :: 0 <= j < |lines| ==> out[j] == TagFrom(lines[j], 0, TagText(style, j + 1))
    ensures forall j :: 0 <= j < |out| ==> '\n' !in out[j]
  {
    forall j | 0 <= j < |out| ensures '\n' !in out[j] {
      TagFromNoNewline(lines[j], 0, TagText(style, j + 1));
    }
  }

  /** The older engine's pass: always on, with the `{__line:N}` tag. */
  method LegacyInstrumentConsoleCalls(code: string) returns (r: string)
    ensures |Lines(r)| == |Lines(code)|
    ensures forall k :: 0 <= k < |Lines(code)| ==> Lines(r)[k] == TagFrom(Lines(code)[k], 0, TagText(LineObject, k + 1))
  {
    r := InstrumentConsoleCalls(code, true, LineObject);
  }

  // ------------------------------------------------------------ properties

  /** Tagging adds no line break, so the line structure is kept. */
  lemma {:induction false} TagFromNoNewline(s: string, p: nat, arg: string)
    requires p <= |s| && '\n' !in s && '\n' !in arg
    ensures '\n' !in TagFrom(s, p, arg)
    decreases |s| - p
  {
    match NextConsole(s, p)
    case None =>
      NoNewlineSlice(s, p, |s|);
    case Some(m) =>
      var c := ConsoleAt(s, m).value;
      var close := Closing(s, c.methodEnd);
      NoNewlineSlice(s, p, m);
      CallHeadNoNewline(s, m, c, close, arg);
      TagFromNoNewline(s, Resume(s, m, c, close), arg);
  }

  lemma CallHeadNoNewline(s: string, m: nat, c: ConsoleMatch, close: Option<nat>, arg: string)
    requires Fits(s, m, c, close) && '\n' !in s && '\n' !in arg
    ensures '\n' !in CallHead(s, m, c, close, arg)
  {
    NoNewlineSlice(s, m, c.methodEnd);
    NoNewlineSlice(s, m, c.nameEnd);
  }

  lemma NoNewlineSlice(s: string, a: nat, b: nat)
    requires a <= b <= |s| && '\n' !in s
    ensures '\n' !in s[a..b]
  {
    forall k | 0 <= k < b - a ensures s[a..b][k] != '\n' {
      assert s[a + k] in s;
    }
  }

  /** A line without the word `console` is left as it is. */
  lemma TagFromNoConsole(s: string, arg: string)
    requires !Contains(s, "console")
    ensures TagFrom(s, 0, arg) == s
  {
    if NextConsole(s, 0).Some? {
      ConsoleWordIsLit(s, NextConsole(s, 0).value);
    }
  }

  /** `console.` + method name, as written in a call. */
  predicate IsConsoleMethod(name: string) {
    name == "log" || name == "warn" || name == "error" || name == "info"
  }

  /** The call pattern does not match inside a text that has no `console`, nor right after a word character. */
  lemma NoMatchBefore(pre: string, rest: string)
    requires !Contains(pre, "console") && (pre == [] || !IsWordChar(pre[|pre| - 1]))
    requires LitAt(rest, 0, "console")
    ensures forall x :: 0 <= x < |pre| ==> ConsoleAt(pre + rest, x).None?
    ensures BoundaryBefore(pre + rest, |pre|)
  {
    var s := pre + rest;
    ConsoleWordIsLit(rest, 0);
    assert s[|pre|] == rest[0] == 'c';
    forall x | 0 <= x < |pre| ensures ConsoleAt(s, x).None? {
      if ConsoleAt(s, x).Some? && x + 7 <= |pre| {
        assert ConsoleWordAt(pre, x);
        ConsoleWordIsLit(pre, x);
      }
    }
  }

  /** Nothing in a text free of `console` (after the call's `)`) matches. */
  lemma NoMatchAfter(s: string, from: nat)
    requires from <= |s| && !Contains(s[from..], "console")
    ensures NextConsole(s, from) == None
  {
    if NextConsole(s, from).Some? {
      var x := NextConsole(s, from).value;
      assert ConsoleWordAt(s[from..], x - from);
      ConsoleWordIsLit(s[from..], x - from);
    }
  }

  /**
   * The documented rewrite: a call `console.M(ARGS)` with non-blank,
   * parenthesis-free arguments becomes `console.M(ARG, ARGS)`, and the text
   * before and after it is kept.
   */
  lemma TagSingleCall(pre: string, name: string, args: string, post: string, arg: string)
    requires IsConsoleMethod(name)
    requires !Contains(pre, "console") && (pre == [] || !IsWordChar(pre[|pre| - 1]))
    requires !AllSpaces(args) && forall k :: 0 <= k < |args| ==> args[k] != '(' && args[k] != ')'
    requires !Contains(post, "console")
    ensures TagFrom(pre + "console." + name + "(" + args + ")" + post, 0, arg) ==
            pre + "console." + name + "(" + arg + ", " + args + ")" + post
  {
    var h := pre + "console." + name + "(";
    SingleCallGrouped(pre, name, args, post, arg);
    Regroup(h, args, post);
    Regroup(pre + "console." + name + "(" + arg + ", ", args, post);
  }

  /** `TagSingleCall` with the text after `(` kept as one piece. */
  lemma SingleCallGrouped(pre: string, name: string, args: string, post: string, arg: string)
    requires IsConsoleMethod(name)
    requires !Contains(pre, "console") && (pre == [] || !IsWordChar(pre[|pre| - 1]))
    requires !AllSpaces(args) && forall k :: 0 <= k < |args| ==> args[k] != '(' && args[k] != ')'
    requires !Contains(post, "console")
    ensures TagFrom(pre + "console." + name + "(" + (args + ")" + post), 0, arg) ==
            pre + "console." + name + "(" + arg + ", " + (args + ")" + post)
  {
    var h := pre + "console." + name + "(";
    var rest := args + ")" + post;
    var m := |pre|;
    var c := ConsoleMatch(m + 8 + |name|, |h|);
    var i := |h| + |args| + 1;
    FirstMatch(pre, name, rest);
    ArgsFacts(h, args, post, m, c);
    SingleCallAssembly(h + rest, m, c, i, arg);
    HeadPieces(pre, name, rest);
  }

  lemma Regroup(x: string, args: string, post: string)
    ensures x + args + ")" + post == x + (args + ")" + post)
  {
    Assoc(x, args, ")");
    Assoc(x, args + ")", post);
  }

  /** After a call's `(`: parenthesis-free, non-blank arguments, `)`, and text without `console`. */
  lemma ArgsFacts(h: string, args: string, post: string, m: nat, c: ConsoleMatch)
    requires m <= c.nameEnd <= c.methodEnd == |h|
    requires !AllSpaces(args) && forall k :: 0 <= k < |args| ==> args[k] != '(' && args[k] != ')'
    requires !Contains(post, "console")
    ensures var s := h + (args + ")" + post);
            var iE := |h| + |args| + 1;
            iE <= |s| && Closing(s, |h|) == Some(iE) && Fits(s, m, c, Some(iE)) &&
            !BlankArgs(s, m, c, Some(iE)) && NextConsole(s, |h|) == None
  {
    var s := h + (args + ")" + post);
    var iE := |h| + |args| + 1;
    CallPieces(h, args, post);
    ScanFlat(s, |h|, |args|);
    NoMatchInArgs(s, |h|, iE);
    NoMatchAfter(s, iE);
    NextConsoleSkip(s, |h|, iE);
  }

  /** A call written right after text without `console` is the first match. */
  lemma FirstMatch(pre: string, name: string, rest: string)
    requires IsConsoleMethod(name)
    requires !Contains(pre, "console") && (pre == [] || !IsWordChar(pre[|pre| - 1]))
    ensures var s := pre + "console." + name + "(" + rest;
            NextConsole(s, 0) == Some(|pre|) &&
            ConsoleAt(s, |pre|) == Some(ConsoleMatch(|pre| + 8 + |name|, |pre| + 9 + |name|))
  {
    var s := pre + "console." + name + "(" + rest;
    CallShape(pre, name, rest);
    HeadAssoc(pre, name, rest);
    NoMatchBefore(pre, "console." + name + "(" + rest);
    NextConsoleSkip(s, 0, |pre|);
  }

  lemma HeadAssoc(pre: string, name: string, rest: string)
    ensures pre + "console." + name + "(" + rest == pre + ("console." + name + "(" + rest)
  {
    Assoc(pre, "console." + name + "(", rest);
    Assoc(pre, "console." + name, "(");
    Assoc(pre, "console.", name);
  }

  /** Where the arguments, their `)` and the rest sit in `h + (args + ")" + post)`. */
  lemma CallPieces(h: string, args: string, post: string)
    ensures var s := h + (args + ")" + post);
            |h| + |args| < |s| && s[|h|..|h| + |args|] == args && s[|h| + |args|] == ')' &&
            s[|h| + |args| + 1..] == post &&
            forall k :: |h| <= k < |h| + |args| ==> s[k] == args[k - |h|]
  {
  }

  /** The call's own text, read back from the tagged line's pieces. */
  lemma HeadPieces(pre: string, name: string, rest: string)
    ensures var s := pre + "console." + name + "(" + rest;
            var m := |pre|;
            s[..m] + s[m..m + 8 + |name|] == pre + "console." + name &&
            s[m + 9 + |name|..] == rest
  {
    var s := pre + "console." + name + "(" + rest;
    assert s[..|pre|] == pre;
    assert s[|pre|..|pre| + 8 + |name|] == "console." + name;
  }

  /** The arguments of a closed, parenthesis-free call hold no match. */
  lemma NoMatchInArgs(s: string, a: nat, b: nat)
    requires a < b <= |s| && s[b - 1] == ')'
    requires forall k :: a <= k < b - 1 ==> s[k] != '(' && s[k] != ')'
    ensures forall x :: a <= x < b ==> ConsoleAt(s, x).None?
  {
    forall x | a <= x < b ensures ConsoleAt(s, x).None? {
      if ConsoleAt(s, x).Some? {
        MatchHasNoParens(s, x);
      }
    }
  }

  /** Before its `(`, a match holds no parenthesis: only `console`, spaces, `.` and the method name. */
  lemma MatchHasNoParens(s: string, x: nat)
    requires ConsoleAt(s, x).Some?
    ensures forall k :: x <= k < ConsoleAt(s, x).value.methodEnd - 1 ==> s[k] != '(' && s[k] != ')'
  {
    RestHasNoParens(s, x + 7, BeforeDot);
  }

  lemma {:induction false} RestHasNoParens(s: string, j: nat, st: Stage)
    requires j <= |s| && (st.BeforeParen? ==> st.nameEnd <= j) && MatchRest(s, j, st).Some?
    ensures forall k :: j <= k < MatchRest(s, j, st).value.methodEnd - 1 ==> s[k] != '(' && s[k] != ')'
    decreases |s| - j
  {
    if IsSpace(s[j]) {
      RestHasNoParens(s, j + 1, st);
    } else if st.BeforeDot? {
      RestHasNoParens(s, j + 1, BeforeName);
    } else if st.BeforeName? {
      var n := MethodLength(s, j);
      RestHasNoParens(s, j + n, BeforeParen(j + n));
      forall k | j <= k < j + n ensures s[k] != '(' && s[k] != ')' {
        MethodLetters(s, j, k);
      }
    }
  }

  /** The method names are lower-case letters. */
  lemma MethodLetters(s: string, j: nat, k: nat)
    requires j <= k < j + MethodLength(s, j)
    ensures 'a' <= s[k] <= 'z'
  {
  }

  /** The first match of a single-call line, reassembled. */
  lemma SingleCallAssembly(s: string, m: nat, c: ConsoleMatch, i: nat, arg: string)
    requires NextConsole(s, 0) == Some(m)
    requires ConsoleAt(s, m) == Some(c)
    requires Closing(s, c.methodEnd) == Some(i)
    requires !BlankArgs(s, m, c, Some(i))
    requires NextConsole(s, c.methodEnd) == None
    ensures TagFrom(s, 0, arg) == s[..m] + s[m..c.nameEnd] + "(" + arg + ", " + s[c.methodEnd..]
  {
    var h := s[m..c.nameEnd] + "(" + arg + ", ";
    assert CallHead(s, m, c, Some(i), arg) == h;
    assert Resume(s, m, c, Some(i)) == c.methodEnd;
    assert TagFrom(s, c.methodEnd, arg) == s[c.methodEnd..];
    assert TagFrom(s, 0, arg) == s[0..m] + h + s[c.methodEnd..];
    assert s[0..m] == s[..m];
  }

  /** Where the pieces of `pre + "console.NAME(" + rest` sit, and that the pattern matches there. */
  lemma CallShape(pre: string, name: string, rest: string)
    requires IsConsoleMethod(name) && (pre == [] || !IsWordChar(pre[|pre| - 1]))
    ensures var s := pre + "console." + name + "(" + rest;
            ConsoleAt(s, |pre|) == Some(ConsoleMatch(|pre| + 8 + |name|, |pre| + 9 + |name|))
  {
    var s := pre + "console." + name + "(" + rest;
    CallChars(pre, name, rest);
    MatchAt(s, |pre|, |name|);
  }

  lemma CallChars(pre: string, name: string, rest: string)
    requires IsConsoleMethod(name) && (pre == [] || !IsWordChar(pre[|pre| - 1]))
    ensures var s := pre + "console." + name + "(" + rest;
            var m := |pre|;
            BoundaryBefore(s, m) && ConsoleWordAt(s, m) && m + 8 + |name| < |s| && s[m + 7] == '.' &&
            MethodLength(s, m + 8) == |name| && s[m + 8 + |name|] == '('
  {
    var s := pre + "console." + name + "(" + rest;
    var m := |pre|;
    HeadChars(pre, name, rest);
    if name == "log" {
      assert s[m + 8] == 'l' && s[m + 9] == 'o' && s[m + 10] == 'g';
    } else if name == "warn" {
      assert s[m + 8] == 'w' && s[m + 9] == 'a' && s[m + 10] == 'r' && s[m + 11] == 'n';
    } else if name == "error" {
      assert s[m + 8] == 'e' && s[m + 9] == 'r' && s[m + 10] == 'r' && s[m + 11] == 'o' && s[m + 12] == 'r';
    } else {
      assert s[m + 8] == 'i' && s[m + 9] == 'n' && s[m + 10] == 'f' && s[m + 11] == 'o';
    }
  }

  lemma HeadChars(pre: string, name: string, rest: string)
    ensures var s := pre + "console." + name + "(" + rest;
            var m := |pre|;
            |s| == m + 9 + |name| + |rest| &&
            (forall k :: 0 <= k < 8 ==> s[m + k] == "console."[k]) &&
            (forall k :: 0 <= k < |name| ==> s[m + 8 + k] == name[k]) &&
            s[m + 8 + |name|] == '(' && (m > 0 ==> s[m - 1] == pre[m - 1])
  {
  }

  /** The pattern at `m` when `console`, `.`, a method name of length `n` and `(` follow each other with no spaces. */
  lemma MatchAt(s: string, m: nat, n: nat)
    requires BoundaryBefore(s, m) && ConsoleWordAt(s, m) && m + 8 + n < |s| && s[m + 7] == '.'
    requires MethodLength(s, m + 8) == n > 0 && s[m + 8 + n] == '('
    ensures ConsoleAt(s, m) == Some(ConsoleMatch(m + 8 + n, m + 9 + n))
  {
    MethodLetters(s, m + 8, m + 8);
    VisibleNotSpace(s[m + 7]);
    VisibleNotSpace(s[m + 8]);
    VisibleNotSpace(s[m + 8 + n]);
    assert MatchRest(s, m + 8 + n, BeforeParen(m + 8 + n)) == Some(ConsoleMatch(m + 8 + n, m + 9 + n));
    assert MatchRest(s, m + 8, BeforeName) == MatchRest(s, m + 8 + n, BeforeParen(m + 8 + n));
    assert MatchRest(s, m + 7, BeforeDot) == MatchRest(s, m + 8, BeforeName);
  }

  /** The depth loop over parenthesis-free text ends just past the first `)`. */
  lemma {:induction false} ScanFlat(s: string, i: nat, n: nat)
    requires i + n < |s| && s[i + n] == ')' && forall k :: i <= k < i + n ==> s[k] != '(' && s[k] != ')'
    ensures ScanClose(s, i, 1) == (i + n + 1, 0)
    decreases n
  {
    if n > 0 {
      ScanFlat(s, i + 1, n - 1);
    }
  }
}

=== FILE: engine_checks.dfy ===
/**
 * The two small text checks of the execution engines: `isReady`, which
 * gates auto-run in both engines, and the older engine's
 * `isVoidFunctionCall`, which tells a statement whose value is not worth
 * recording.
 */
module EngineChecks {
  import opened Lex
  import opened CodeGuards

  // ============================================================== isReady

  /** The verdict of `isReady`: the trimmed text is non-empty, complete, balanced and not half-typed. */
  predicate Ready(code: string) {
    var t := Trim(code);
    t != [] && !HasIncompleteStatement(t) && Balanced(t) && !LooksLikeIncompleteTyping(t)
  }

  /** `isReady`, the same in both engines: the four checks in order, each on the trimmed text. */
  method IsReady(code: string) returns (ok: bool)
    ensures ok == Ready(code)
  {
    var trimmed := Trim(code);
    if trimmed == [] { return false; }
    if HasIncompleteStatement(trimmed) { return false; }
    var balanced := AreBracketsBalanced(trimmed);
    if !balanced { return false; }
    if LooksLikeIncompleteTyping(trimmed) { return false; }
    return true;
  }

  /** Blank text is never ready. */
  lemma BlankIsNotReady(code: string)
    requires AllSpaces(code)
    ensures !Ready(code)
  {
    TrimEmpty(code);
  }

  /** Trimming twice is trimming once. */
  lemma TrimTwice(code: string)
    ensures Trim(Trim(code)) == Trim(code)
  {
    TrimKeeps(Trim(code));
  }

  /** Text that ends in an identifier followed by `=`, `(` or `.` is never ready. */
  lemma DanglingOperatorIsNotReady(code: string, p: string, w: string, sp: string, op: char)
    requires Trim(code) == p + w + sp + [op]
    requires w != [] && AllWord(w) && AllSpaces(sp)
    requires op == '=' || op == '(' || op == '.'
    ensures !Ready(code)
  {
    TrimTwice(code);
    IdentifierThenOperatorIsIncomplete(Trim(code), p, w, sp, op);
  }

  /** Ready text has its brackets balanced once trimmed. */
  lemma ReadyIsBalanced(code: string)
    requires Ready(code)
    ensures Balanced(Trim(code)) && !AllSpaces(code)
  {
    TrimEmpty(code);
  }

  // =================================================== isVoidFunctionCall

  /** `/^[a-zA-Z_$][a-zA-Z0-9_$]*\s*\(/`, scanned greedily. */
  predicate SimpleCall(t: string) {
    |t| > 0 && IsIdentStart(t[0]) &&
    var a := SkipSpaces(t, SkipIdent(t, 1));
    a < |t| && t[a] == '('
  }

  /** `/^[a-zA-Z_$][a-zA-Z0-9_$]*\s*\.\s*[a-zA-Z_$][a-zA-Z0-9_$]*\s*\(/`, scanned greedily. */
  predicate MethodCall(t: string) {
    |t| > 0 && IsIdentStart(t[0]) && MemberCallAt(t, SkipSpaces(t, SkipIdent(t, 1)))
  }

  /** `\.\s*[a-zA-Z_$][a-zA-Z0-9_$]*\s*\(` at `d`, scanned greedily. */
  predicate MemberCallAt(t: string, d: nat) {
    d < |t| && t[d] == '.' &&
    var b := SkipSpaces(t, d + 1);
    b < |t| && IsIdentStart(t[b]) &&
    var a := SkipSpaces(t, SkipIdent(t, b + 1));
    a < |t| && t[a] == '('
  }

  /** The exception prefixes: constructors and calls that usually return a value. */
  predicate ExceptionPrefix(t: string) {
    (LitAt(t, 0, "new") && 3 < |t| && IsSpace(t[3])) ||
    LitAt(t, 0, "Array") || LitAt(t, 0, "Object") || LitAt(t, 0, "String") || LitAt(t, 0, "Number") ||
    LitAt(t, 0, "Boolean") || LitAt(t, 0, "Date") || LitAt(t, 0, "Math.") || LitAt(t, 0, "JSON.") ||
    LitAt(t, 0, "parseInt") || LitAt(t, 0, "parseFloat") || LitAt(t, 0, "eval") ||
    LitAt(t, 0, "prompt") || LitAt(t, 0, "confirm")
  }


  /** `[a-zA-Z0-9_$]` over `t[i..j]`. */
  predicate IdentRun(t: string, i: nat, j: nat) {
    i <= j <= |t| && forall k :: i <= k < j ==> IsIdentChar(t[k])
  }

  /**
   * One way the regular expression of a simple call can match: the name
   * ends at `n`, the spaces after it at `n + m`, where the `(` is.
   */
  predicate SimpleCallSplit(t: string, n: nat, m: nat) {
    1 <= n && n + m < |t| && IsIdentStart(t[0]) && IdentRun(t, 1, n) &&
    AllSpaces(t[n..n + m]) && t[n + m] == '('
  }

  /** A run of identifier characters followed by spaces and a character that is neither is what the scanners skip. */
  lemma {:induction false} IdentThenSpaces(t: string, i: nat, n: nat, m: nat)
    requires IdentRun(t, i, n) && n + m < |t| && AllSpaces(t[n..n + m])
    requires !IsIdentChar(t[n + m]) && !IsSpace(t[n + m])
    ensures SkipIdent(t, i) == n && SkipSpaces(t, n) == n + m
    decreases n - i
  {
    if i < n {
      IdentThenSpaces(t, i + 1, n, m);
    } else {
      assert m > 0 ==> t[n..n + m][0] == t[n];
      SkipSpacesTo(t, n, m);
    }
  }

  /** The greedy scan accepts exactly the texts on which the regular expression has some match. */
  lemma SimpleCallIff(t: string)
    ensures SimpleCall(t) <==> exists n, m :: SimpleCallSplit(t, n, m)
  {
    if SimpleCall(t) {
      var n := SkipIdent(t, 1);
      assert SimpleCallSplit(t, n, SkipSpaces(t, n) - n);
    }
    if exists n, m :: SimpleCallSplit(t, n, m) {
      var n, m :| SimpleCallSplit(t, n, m);
      IdentThenSpaces(t, 1, n, m);
    }
  }

  /**
   * One way the regular expression of a method call can match: the object
   * name ends at `n`, the `.` is at `d`, the method name runs from `q` to
   * `c`, and the `(` is at `a`, with only spaces between the pieces.
   */
  predicate MethodCallSplit(t: string, n: nat, d: nat, q: nat, c: nat, a: nat) {
    1 <= n <= d < q < c <= a < |t| && IsIdentStart(t[0]) && IdentRun(t, 1, n) &&
    AllSpaces(t[n..d]) && t[d] == '.' && AllSpaces(t[d + 1..q]) &&
    IsIdentStart(t[q]) && IdentRun(t, q + 1, c) && AllSpaces(t[c..a]) && t[a] == '('
  }

  /** The greedy scan accepts exactly the texts on which the method-call expression has some match. */
  lemma MethodCallIff(t: string)
    ensures MethodCall(t) <==> exists n, d, q, c, a :: MethodCallSplit(t, n, d, q, c, a)
  {
    if MethodCall(t) {
      ScannedMethodSplit(t);
    }
    if exists n, d, q, c, a :: MethodCallSplit(t, n, d, q, c, a) {
      var n, d, q, c, a :| MethodCallSplit(t, n, d, q, c, a);
      MethodSplitScanned(t, n, d, q, c, a);
    }
  }

  /** The greedy scan's positions are a split of the method-call expression. */
  lemma ScannedMethodSplit(t: string)
    requires MethodCall(t)
    ensures exists n, d, q, c, a :: MethodCallSplit(t, n, d, q, c, a)
  {
    var n := SkipIdent(t, 1);
    var d := SkipSpaces(t, n);
    var q, c, a := ScannedMember(t, d);
    assert MethodCallSplit(t, n, d, q, c, a);
  }

  /** The pieces the greedy scan finds after the `.` at `d`. */
  lemma ScannedMember(t: string, d: nat) returns (q: nat, c: nat, a: nat)
    requires MemberCallAt(t, d)
    ensures d < q < c <= a < |t| && AllSpaces(t[d + 1..q]) && IsIdentStart(t[q])
    ensures IdentRun(t, q + 1, c) && AllSpaces(t[c..a]) && t[a] == '('
  {
    q := SkipSpaces(t, d + 1);
    c := SkipIdent(t, q + 1);
    a := SkipSpaces(t, c);
  }

  /** A split of the method-call expression is the one the greedy scan finds. */
  lemma MethodSplitScanned(t: string, n: nat, d: nat, q: nat, c: nat, a: nat)
    requires MethodCallSplit(t, n, d, q, c, a)
    ensures MethodCall(t)
  {
    ObjectScanned(t, n, d);
    MemberScanned(t, d, q, c, a);
  }

  lemma ObjectScanned(t: string, n: nat, d: nat)
    requires 1 <= n <= d < |t| && IdentRun(t, 1, n) && AllSpaces(t[n..d]) && t[d] == '.'
    ensures SkipSpaces(t, SkipIdent(t, 1)) == d
  {
    IdentThenSpaces(t, 1, n, d - n);
  }

  lemma MemberScanned(t: string, d: nat, q: nat, c: nat, a: nat)
    requires d < q < c <= a < |t| && t[d] == '.' && AllSpaces(t[d + 1..q]) && IsIdentStart(t[q])
    requires IdentRun(t, q + 1, c) && AllSpaces(t[c..a]) && t[a] == '('
    ensures MemberCallAt(t, d)
  {
    BeforeMember(t, d, q);
    IdentThenSpaces(t, q + 1, c, a - c);
    assert SkipSpaces(t, d + 1) == q && SkipSpaces(t, SkipIdent(t, q + 1)) == a;
  }

  lemma BeforeMember(t: string, d: nat, q: nat)
    requires d < q < |t| && AllSpaces(t[d + 1..q]) && IsIdentStart(t[q])
    ensures SkipSpaces(t, d + 1) == q
  {
    SkipSpacesTo(t, d + 1, q - d - 1);
  }

  /**
   * `isVoidFunctionCall`: true exactly when one of the two regular
   * expressions has a match at the start and no exception prefix does.
   */
  function IsVoidFunctionCall(txt: string): (b: bool)
    ensures b <==> ((exists n, m :: SimpleCallSplit(txt, n, m)) ||
                    (exists n, d, q, c, a :: MethodCallSplit(txt, n, d, q, c, a))) && !ExceptionPrefix(txt)
    ensures b ==> |txt| > 0 && IsIdentStart(txt[0])
  {
    SimpleCallIff(txt);
    MethodCallIff(txt);
    (SimpleCall(txt) || MethodCall(txt)) && !ExceptionPrefix(txt)
  }

  /** Every exception prefix starts with one of twelve letters. */
  lemma ExceptionInitial(t: string)
    requires ExceptionPrefix(t)
    ensures |t| > 0 && t[0] in "nAOSNBDMJpec"
  {
    assert |t| > 0;
    assert forall k: nat :: 0 < k <= |t| ==> t[0..k][0] == t[0];
  }

  /** A plain call is a void call. */
  lemma PlainCallIsVoid(a: string)
    requires a == "foo(1)"
    ensures IsVoidFunctionCall(a)
  {
    IdentThenSpaces(a, 1, 3, 0);
    if ExceptionPrefix(a) { ExceptionInitial(a); }
  }

  /** A method call is a void call. */
  lemma MethodCallIsVoid(b: string)
    requires b == "arr.push(2)"
    ensures IsVoidFunctionCall(b)
  {
    MethodSplitScanned(b, 3, 3, 4, 8, 8);
    if ExceptionPrefix(b) { ExceptionInitial(b); }
  }

  /** A call on `Math` is an exception, and an expression that is no call is not one. */
  lemma NonVoidExamples(c: string, d: string)
    requires c == "Math.max(1)" && d == "x + 1"
    ensures !IsVoidFunctionCall(c) && !IsVoidFunctionCall(d)
  {
    assert LitAt(c, 0, "Math.");
    IdentThenSpaces(d, 1, 1, 1);
  }
}

=== FILE: error_locator.dfy ===
/**
 * Turning a runtime or syntax error into the message the playground shows:
 * where in the user's own code the error is (`extractLocation`,
 * `mapWrappedToRaw`, `isValidLocation` and the text locators), and which of
 * the fixed report shapes `friendly` picks.  Also the pre-flight check for
 * loops written without a body (`detectLoopWithoutBody`, `formatLoopError`).
 *
 * The source's patterns are searched line by line with `String.match`, which
 * reports the leftmost match; `FirstMatch` is that search and `MatchAt` says
 * what each pattern matches at one index.  The excerpt under a report
 * (`codeFrameColumns`) is a library rendering: a `Framed` report records the
 * heading, the position and the number of context lines it is drawn with.
 */
module ErrorLocator {
  import opened Wrappers
  import opened Lex
  import opened Wrapping

  // =========================================================== locations

  /** A location as the error object offers it: either number may be missing. */
  datatype Loc = Loc(line: Option<int>, column: Option<int>)

  /** A location with both numbers (`LocationInfo`). */
  datatype Position = Position(line: int, column: int)

  function AsLoc(p: Position): Loc {
    Loc(Some(p.line), Some(p.column))
  }

  /** A present number used as a condition: JavaScript treats 0 as false. */
  predicate Truthy(n: Option<int>) {
    n.Some? && n.value != 0
  }

  /**
   * `mapWrappedToRaw`: a line of the wrapped program becomes a line of the
   * user's code by counting from `userStartLine`; nothing comes back when a
   * number is missing or zero, or when the line falls before the user's code.
   */
  function MapWrappedToRaw(loc: Loc, userStartLine: int): (r: Option<Position>)
    ensures r.Some? <==> Truthy(loc.line) && Truthy(loc.column) && loc.line.value >= userStartLine
    ensures r.Some? ==> r.value.line >= 1 && AsLoc(Position(r.value.line + userStartLine - 1, r.value.column)) == loc
  {
    if !Truthy(loc.line) || !Truthy(loc.column) then None
    else
      var rawLine := loc.line.value - userStartLine + 1;
      if rawLine < 1 then None else Some(Position(rawLine, loc.column.value))
  }

  /** Line `k` of the user's code, shifted into the wrapped program and mapped back, is line `k` again. */
  lemma MapRoundTrip(k: int, column: int, userStartLine: int)
    requires k >= 1 && column != 0 && userStartLine >= 1
    ensures MapWrappedToRaw(AsLoc(Position(k + userStartLine - 1, column)), userStartLine) == Some(Position(k, column))
  {
  }

  /** `isValidLocation`: both numbers present and non-zero, and the line is one of the code's lines. */
  function IsValidLocation(loc: Loc, code: string): (b: bool)
    ensures b <==> loc.line.Some? && 1 <= loc.line.value <= |Lines(code)| && Truthy(loc.column)
  {
    Truthy(loc.line) && Truthy(loc.column) && loc.line.value > 0 && loc.line.value <= |Lines(code)|
  }

  /**
   * With a user block starting at `userStartLine`, a mapped location is
   * valid exactly when the wrapped line lies inside the user's code.
   */
  lemma MappedValidIffInsideUserCode(w: int, column: int, userStartLine: int, raw: string)
    requires column != 0 && w != 0 && userStartLine >= 1
    ensures var m := MapWrappedToRaw(Loc(Some(w), Some(column)), userStartLine);
            m.Some? && IsValidLocation(AsLoc(m.value), raw) <==>
            userStartLine <= w < userStartLine + |Lines(raw)|
  {
  }

  // ============================================================ patterns

  /** `\b` at index `p`: a word character on exactly one side. */
  predicate WordBoundary(s: string, p: nat) {
    (0 < p <= |s| && IsWordChar(s[p - 1])) != (p < |s| && IsWordChar(s[p]))
  }

  /** The fixed patterns the locators and the classification search for. */
  datatype Pattern =
    | Literal(lit: string)              // `indexOf(lit)`
    | LoopKeyword                       // /\b(while|for)\s*\(/
    | Usage(name: string)               // new RegExp(`\\b${name}\\b`)
    | Declaration(name: string)         // `\b(?:const|let|var)\s+NAME\b`, NAME read literally
    | DeclarationAsWritten(name: string) // the same with NAME read as a pattern (see `NamePatternEnd`)
    | NotDefined                        // /(\w+) is not defined/
    | Redeclared                        // /Identifier ['"]?([A-Za-z_$][\w$]*)['"]? has already been declared/
    | ParenLocation                     // /\((\d+):(\d+)\)/

  /** `\s*\(` from `a`: spaces, then an opening parenthesis. */
  predicate ParenAfter(s: string, a: nat) {
    a <= |s| && SkipSpaces(s, a) < |s| && s[SkipSpaces(s, a)] == '('
  }

  /** The end of `const`, `let` or `var` at `j` (the three differ in their first letter). */
  function DeclKeywordEnd(s: string, j: nat): (r: Option<nat>)
    ensures r.Some? ==> r.value <= |s|
  {
    if LitAt(s, j, "const") then Some(j + 5)
    else if LitAt(s, j, "let") || LitAt(s, j, "var") then Some(j + 3)
    else None
  }

  /** `[']?` / `["]?`: one quote at `i` is taken when there is one. */
  function OptQuote(s: string, i: nat): (j: nat)
    requires i <= |s|
    ensures i <= j <= |s|
  {
    if i < |s| && (s[i] == '\'' || s[i] == '"') then i + 1 else i
  }

  /** The end of the run of `\d` that starts at `i`. */
  function DigitsEnd(s: string, i: nat): (j: nat)
    requires i <= |s|
    ensures i <= j <= |s| && forall k :: i <= k < j ==> IsDigit(s[k])
    ensures j == |s| || !IsDigit(s[j])
    decreases |s| - i
  {
    if i < |s| && IsDigit(s[i]) then DigitsEnd(s, i + 1) else i
  }

  /**
   * A name spliced into a regular expression unescaped, matched from `p`:
   * each `$` is the end-of-input assertion and every other character of an
   * identifier stands for itself.  The end of the match, if any.
   */
  function NamePatternEnd(s: string, p: nat, name: string): (r: Option<nat>)
    requires p <= |s|
    ensures r.Some? ==> p <= r.value <= |s|
    decreases |name|
  {
    if name == [] then Some(p)
    else if name[0] == '$' then (if p == |s| then NamePatternEnd(s, p, name[1..]) else None)
    else if p < |s| && s[p] == name[0] then NamePatternEnd(s, p + 1, name[1..])
    else None
  }

  /** What each pattern matches at index `j` of `s`; the regular expressions are all deterministic here. */
  predicate MatchAt(pat: Pattern, s: string, j: nat) {
    j <= |s| &&
    match pat
    case Literal(lit) => LitAt(s, j, lit)
    case LoopKeyword => LoopKeywordAt(s, j)
    case Usage(name) => WholeWordAt(s, j, name)
    case Declaration(name) => DeclarationAt(s, j, name)
    case DeclarationAsWritten(name) => DeclarationAsWrittenAt(s, j, name)
    case NotDefined => NotDefinedAt(s, j)
    case Redeclared => RedeclaredAt(s, j)
    case ParenLocation => ParenLocationAt(s, j)
  }

  predicate LoopKeywordAt(s: string, j: nat) {
    WordBoundary(s, j) &&
    ((LitAt(s, j, "while") && ParenAfter(s, j + 5)) || (LitAt(s, j, "for") && ParenAfter(s, j + 3)))
  }

  predicate WholeWordAt(s: string, j: nat, name: string) {
    WordBoundary(s, j) && LitAt(s, j, name) && WordBoundary(s, j + |name|)
  }

  predicate DeclarationAt(s: string, j: nat, name: string) {
    WordBoundary(s, j) && DeclKeywordEnd(s, j).Some? &&
    var a := DeclKeywordEnd(s, j).value;
    exists e :: a < e <= SkipSpaces(s, a) && LitAt(s, e, name) && WordBoundary(s, e + |name|)
  }

  predicate DeclarationAsWrittenAt(s: string, j: nat, name: string) {
    WordBoundary(s, j) && DeclKeywordEnd(s, j).Some? &&
    var a := DeclKeywordEnd(s, j).value;
    exists e :: a < e <= SkipSpaces(s, a) && NamePatternEnd(s, e, name).Some? &&
                WordBoundary(s, NamePatternEnd(s, e, name).value)
  }

  predicate NotDefinedAt(s: string, j: nat) {
    j < |s| && IsWordChar(s[j]) && LitAt(s, SkipWord(s, j), " is not defined")
  }

  predicate RedeclaredAt(s: string, j: nat) {
    LitAt(s, j, "Identifier ") &&
    var q := OptQuote(s, j + 11);
    q < |s| && IsIdentStart(s[q]) &&
    LitAt(s, OptQuote(s, SkipIdent(s, q + 1)), " has already been declared")
  }

  predicate ParenLocationAt(s: string, j: nat) {
    j < |s| && s[j] == '(' &&
    var d1 := DigitsEnd(s, j + 1);
    d1 > j + 1 && d1 < |s| && s[d1] == ':' &&
    var d2 := DigitsEnd(s, d1 + 1);
    d2 > d1 + 1 && d2 < |s| && s[d2] == ')'
  }

  /** `String.match` without the `g` flag: the first index at or after `j` where the pattern matches. */
  function FirstMatch(pat: Pattern, s: string, j: nat): (r: Option<nat>)
    requires j <= |s| + 1
    ensures r.Some? ==> j <= r.value <= |s|
    decreases |s| + 1 - j
  {
    if j > |s| then None
    else if MatchAt(pat, s, j) then Some(j)
    else FirstMatch(pat, s, j + 1)
  }

  /** The match `FirstMatch` reports is a match, and there is none before it. */
  lemma {:induction false} FirstMatchLeftmost(pat: Pattern, s: string, j: nat)
    requires j <= |s| + 1
    ensures var r := FirstMatch(pat, s, j);
            (r.Some? ==> MatchAt(pat, s, r.value)) &&
            forall k :: j <= k <= |s| && (r.None? || k < r.value) ==> !MatchAt(pat, s, k)
    decreases |s| + 1 - j
  {
    if j <= |s| && !MatchAt(pat, s, j) {
      FirstMatchLeftmost(pat, s, j + 1);
    }
  }

  /** A match with none before it is the one `FirstMatch` reports. */
  lemma FirstMatchIs(pat: Pattern, s: string, k: nat)
    requires MatchAt(pat, s, k) && forall i :: 0 <= i < k ==> !MatchAt(pat, s, i)
    ensures FirstMatch(pat, s, 0) == Some(k)
  {
    FirstMatchLeftmost(pat, s, 0);
  }

  /** `s.indexOf(lit)`: -1 when absent. */
  function IndexOf(s: string, lit: string): (r: int)
    ensures r == -1 || (0 <= r && LitAt(s, r, lit))
  {
    FirstMatchLeftmost(Literal(lit), s, 0);
    match FirstMatch(Literal(lit), s, 0)
    case Some(k) => k
    case None => -1
  }

  // ========================================================== locators

  /** The leftmost match on every line, in order. */
  function LineMatches(pat: Pattern, ls: seq<string>): (ms: seq<Option<nat>>)
    ensures |ms| == |ls|
  {
    seq(|ls|, k requires 0 <= k < |ls| => FirstMatch(pat, ls[k], 0))
  }

  /** Entry `k` of the table is line `k`'s leftmost match. */
  lemma LineMatchesAt(pat: Pattern, ls: seq<string>, k: nat)
    requires k < |ls|
    ensures LineMatches(pat, ls)[k] == FirstMatch(pat, ls[k], 0)
  {
  }

  /** Line `k`'s leftmost match, as the loops compute it. */
  method MatchLine(pat: Pattern, lines: seq<string>, k: nat) returns (m: Option<nat>)
    requires k < |lines|
    ensures m == LineMatches(pat, lines)[k]
  {
    LineMatchesAt(pat, lines, k);
    m := FirstMatch(pat, lines[k], 0);
  }

  /** The first line (from index `i`) with a match, at that match; 1-based. */
  function FirstHitFrom(ms: seq<Option<nat>>, i: nat): (r: Option<Position>)
    requires i <= |ms|
    ensures r.Some? ==> i < r.value.line <= |ms| && r.value.column >= 1 && ms[r.value.line - 1] == Some(r.value.column - 1)
    ensures forall k :: i <= k < |ms| && (r.None? || k < r.value.line - 1) ==> ms[k].None?
    decreases |ms| - i
  {
    if i == |ms| then None
    else match ms[i]
      case Some(c) => Some(Position(i + 1, c + 1))
      case None => FirstHitFrom(ms, i + 1)
  }

  /** The last of the first `n` lines with a match, at that match. */
  function LastHitUpTo(ms: seq<Option<nat>>, n: nat): (r: Option<Position>)
    requires n <= |ms|
    ensures r.Some? ==> 1 <= r.value.line <= n && r.value.column >= 1 && ms[r.value.line - 1] == Some(r.value.column - 1)
    ensures forall k :: 0 <= k < n && (r.None? || k >= r.value.line) ==> ms[k].None?
  {
    if n == 0 then None
    else match ms[n - 1]
      case Some(c) => Some(Position(n, c + 1))
      case None => LastHitUpTo(ms, n - 1)
  }

  /** The first line with a match, at that match. */
  function FirstHit(ms: seq<Option<nat>>): (r: Option<Position>)
    ensures r.Some? ==> 1 <= r.value.line <= |ms| && r.value.column >= 1 && ms[r.value.line - 1] == Some(r.value.column - 1)
    ensures forall k :: 0 <= k < |ms| && (r.None? || k < r.value.line - 1) ==> ms[k].None?
  {
    FirstHitFrom(ms, 0)
  }

  /** The last line with a match, at that match. */
  function LastHit(ms: seq<Option<nat>>): (r: Option<Position>)
    ensures r.Some? ==> 1 <= r.value.line <= |ms| && r.value.column >= 1 && ms[r.value.line - 1] == Some(r.value.column - 1)
    ensures forall k :: 0 <= k < |ms| && (r.None? || k >= r.value.line) ==> ms[k].None?
  {
    LastHitUpTo(ms, |ms|)
  }

  /** The first line of the code holding a match, at that match. */
  function FirstLocation(pat: Pattern, code: string): Option<Position> {
    FirstHit(LineMatches(pat, Lines(code)))
  }

  /** The last line of the code holding a match, at that match. */
  function LastLocation(pat: Pattern, code: string): Option<Position> {
    LastHit(LineMatches(pat, Lines(code)))
  }

  /** The table's entries, all at once. */
  lemma LineMatchesAll(pat: Pattern, ls: seq<string>)
    ensures forall k :: 0 <= k < |ls| ==> LineMatches(pat, ls)[k] == FirstMatch(pat, ls[k], 0)
  {
    forall k | 0 <= k < |ls| ensures LineMatches(pat, ls)[k] == FirstMatch(pat, ls[k], 0) {
      LineMatchesAt(pat, ls, k);
    }
  }

  /**
   * Over the lines of a text (`FirstLocation` takes `Lines(code)`): the
   * first line with a match, at its leftmost match; with no report, no line
   * has a match.
   */
  lemma FirstLocationIsFirst(pat: Pattern, ls: seq<string>)
    ensures var f := FirstHit(LineMatches(pat, ls));
            (f.Some? ==> 1 <= f.value.line <= |ls| && f.value.column >= 1 &&
                         FirstMatch(pat, ls[f.value.line - 1], 0) == Some(f.value.column - 1)) &&
            forall k :: 0 <= k < |ls| && (f.None? || k < f.value.line - 1) ==> FirstMatch(pat, ls[k], 0).None?
  {
    LineMatchesAll(pat, ls);
  }

  /** Likewise `LastLocation`: the last line with a match, at its leftmost match. */
  lemma LastLocationIsLast(pat: Pattern, ls: seq<string>)
    ensures var l := LastHit(LineMatches(pat, ls));
            (l.Some? ==> 1 <= l.value.line <= |ls| && l.value.column >= 1 &&
                         FirstMatch(pat, ls[l.value.line - 1], 0) == Some(l.value.column - 1)) &&
            forall k :: 0 <= k < |ls| && (l.None? || k >= l.value.line) ==> FirstMatch(pat, ls[k], 0).None?
  {
    LineMatchesAll(pat, ls);
  }

  /**
   * `findLoopLocation` (with `LoopKeyword`) and `findVariableUsage` (with
   * `Usage(name)`): the first line holding a match, at its leftmost match.
   */
  method FindFirstLocation(code: string, pat: Pattern) returns (r: Option<Position>)
    ensures r == FirstLocation(pat, code)
  {
    var lines := Lines(code);
    r := SearchForward(lines, pat);
  }

  /** The loop of `FindFirstLocation`: stop at the first line with a match. */
  method SearchForward(lines: seq<string>, pat: Pattern) returns (r: Option<Position>)
    ensures r == FirstHit(LineMatches(pat, lines))
  {
    ghost var ms := LineMatches(pat, lines);
    var i := 0;
    while i < |lines|
      invariant i <= |lines|
      invariant FirstHitFrom(ms, i) == FirstHit(ms)
    {
      var m := MatchLine(pat, lines, i);
      if m.Some? {
        return Some(Position(i + 1, m.value + 1));
      }
      i := i + 1;
    }
    return None;
  }

  /**
   * `findLastDeclaration` (with `Declaration(name)`): every line is searched
   * and the last hit is kept.
   */
  method FindLastLocation(code: string, pat: Pattern) returns (r: Option<Position>)
    ensures r == LastLocation(pat, code)
  {
    var lines := Lines(code);
    r := SearchAll(lines, pat);
  }

  /** The loop of `FindLastLocation`: each line's match replaces the previous one. */
  method SearchAll(lines: seq<string>, pat: Pattern) returns (r: Option<Position>)
    ensures r == LastHit(LineMatches(pat, lines))
  {
    var i := 0;
    r := None;
    while i < |lines|
      invariant i <= |lines|
      invariant r == LastHitUpTo(LineMatches(pat, lines), i)
    {
      var m := MatchLine(pat, lines, i);
      LastHitUpToStep(LineMatches(pat, lines), i);
      if m.Some? {
        r := Some(Position(i + 1, m.value + 1));
      }
      i := i + 1;
    }
  }

  /** One more line: its match, if it has one, becomes the last hit. */
  lemma LastHitUpToStep(ms: seq<Option<nat>>, i: nat)
    requires i < |ms|
    ensures LastHitUpTo(ms, i + 1) == if ms[i].Some? then Some(Position(i + 1, ms[i].value + 1)) else LastHitUpTo(ms, i)
  {
  }

  /** Every position a locator reports passes `isValidLocation` on the same code. */
  lemma LocatorsFindValidLocations(pat: Pattern, code: string)
    ensures FirstLocation(pat, code).Some? ==> IsValidLocation(AsLoc(FirstLocation(pat, code).value), code)
    ensures LastLocation(pat, code).Some? ==> IsValidLocation(AsLoc(LastLocation(pat, code).value), code)
  {
  }

  /**
   * A name spliced unescaped into the declaration pattern: when it starts
   * with `$` followed by another character, the `$` demands the end of the
   * line and the character after it can then never be matched.
   */
  lemma {:induction false} DollarNameNeverMatches(s: string, p: nat, name: string)
    requires p <= |s| && |name| >= 2 && name[0] == '$' && name[1] != '$'
    ensures NamePatternEnd(s, p, name).None?
  {
    if p == |s| {
      assert NamePatternEnd(s, p, name) == NamePatternEnd(s, p, name[1..]);
      assert name[1..][0] == name[1];
    }
  }

  /** As written, the declaration of such a name is never found, whatever the code. */
  lemma AsWrittenMissesDollarDeclarations(name: string, code: string)
    requires |name| >= 2 && name[0] == '$' && name[1] != '$'
    ensures LastLocation(DeclarationAsWritten(name), code).None?
  {
    var pat := DeclarationAsWritten(name);
    var ls := Lines(code);
    LastLocationIsLast(pat, ls);
    if LastLocation(pat, code).Some? {
      var l := LastLocation(pat, code).value;
      var line := ls[l.line - 1];
      FirstMatchLeftmost(pat, line, 0);
      var j := l.column - 1;
      var a := DeclKeywordEnd(line, j).value;
      assert exists e :: a < e <= SkipSpaces(line, a) && NamePatternEnd(line, e, name).Some?;
      var e :| a < e <= SkipSpaces(line, a) && NamePatternEnd(line, e, name).Some?;
      DollarNameNeverMatches(line, e, name);
      assert false;
    }
  }

  /** With the name taken literally, the declaration `let $x;` matches where it starts. */
  lemma DollarLineMatches(line: string)
    requires line == "let $x;"
    ensures FirstMatch(Declaration("$x"), line, 0) == Some(0)
  {
    SkipOneSpace(line, 3);
    assert LitAt(line, 4, "$x");
    assert DeclarationAt(line, 0, "$x");
    FirstMatchIs(Declaration("$x"), line, 0);
  }

  /**
   * The literal lookup still ends in `\b`: after a name ending in `$` and a
   * space neither side is a word character, so `let x$ = 1` is not found.
   */
  lemma TrailingDollarMissesBoundary(line: string)
    requires line == "let x$ = 1"
    ensures !DeclarationAt(line, 0, "x$")
  {
    SkipOneSpace(line, 3);
    assert !WordBoundary(line, 6);
  }

  /** ... so the corrected locator finds it on line 1, where the one as written finds nothing. */
  lemma DollarDeclarationFound(code: string)
    requires code == "let $x;"
    ensures LastLocation(Declaration("$x"), code) == Some(Position(1, 1))
    ensures LastLocation(DeclarationAsWritten("$x"), code).None?
  {
    LinesOfLine(code);
    DollarLineMatches(code);
    LastLocationIsLast(Declaration("$x"), [code]);
    AsWrittenMissesDollarDeclarations("$x", code);
  }

  /** A name without `$` read as a pattern stands for itself. */
  lemma {:induction false} NamePatternLiteral(s: string, p: nat, name: string)
    requires p <= |s| && '$' !in name
    ensures NamePatternEnd(s, p, name) == if LitAt(s, p, name) then Some(p + |name|) else None
    decreases |name|
  {
    if name != [] {
      assert name[1..] == name[1..];
      assert '$' !in name[1..] by {
        forall k | 0 <= k < |name[1..]| ensures name[1..][k] != '$' { assert name[1..][k] == name[k + 1]; }
      }
      if p < |s| && s[p] == name[0] {
        NamePatternLiteral(s, p + 1, name[1..]);
        LitAtStep(s, p, name);
      } else if p + |name| <= |s| {
        assert s[p..p + |name|][0] == s[p];
      }
    }
  }

  lemma LitAtStep(s: string, p: nat, name: string)
    requires p < |s| && name != [] && s[p] == name[0]
    ensures LitAt(s, p, name) <==> LitAt(s, p + 1, name[1..])
  {
    if p + |name| <= |s| {
      assert s[p..p + |name|] == [s[p]] + s[p + 1..p + 1 + |name[1..]|];
      assert name == [name[0]] + name[1..];
    }
  }

  /** For such a name the declaration pattern matches where its literal reading does. */
  lemma DollarFreeMatchesAgree(s: string, j: nat, name: string)
    requires '$' !in name
    ensures MatchAt(DeclarationAsWritten(name), s, j) == MatchAt(Declaration(name), s, j)
  {
    if j <= |s| {
      DollarFreeDeclarationAgrees(s, j, name);
    }
  }

  lemma DollarFreeDeclarationAgrees(s: string, j: nat, name: string)
    requires j <= |s| && '$' !in name
    ensures DeclarationAsWrittenAt(s, j, name) <==> DeclarationAt(s, j, name)
  {
    if DeclarationAsWrittenAt(s, j, name) {
      AsWrittenDeclarationIsLiteral(s, j, name);
    }
    if DeclarationAt(s, j, name) {
      LiteralDeclarationIsAsWritten(s, j, name);
    }
  }

  lemma AsWrittenDeclarationIsLiteral(s: string, j: nat, name: string)
    requires '$' !in name && DeclarationAsWrittenAt(s, j, name)
    ensures DeclarationAt(s, j, name)
  {
    var a := DeclKeywordEnd(s, j).value;
    var e :| a < e <= SkipSpaces(s, a) && NamePatternEnd(s, e, name).Some? &&
             WordBoundary(s, NamePatternEnd(s, e, name).value);
    AsWrittenNameEnd(s, e, name);
  }

  lemma AsWrittenNameEnd(s: string, e: nat, name: string)
    requires e <= |s| && '$' !in name && NamePatternEnd(s, e, name).Some?
    requires WordBoundary(s, NamePatternEnd(s, e, name).value)
    ensures LitAt(s, e, name) && WordBoundary(s, e + |name|)
  {
    NamePatternLiteral(s, e, name);
  }

  lemma LiteralDeclarationIsAsWritten(s: string, j: nat, name: string)
    requires '$' !in name && DeclarationAt(s, j, name)
    ensures DeclarationAsWrittenAt(s, j, name)
  {
    var a := DeclKeywordEnd(s, j).value;
    var e :| a < e <= SkipSpaces(s, a) && LitAt(s, e, name) && WordBoundary(s, e + |name|);
    LiteralNameEnd(s, e, name);
  }

  lemma LiteralNameEnd(s: string, e: nat, name: string)
    requires '$' !in name && LitAt(s, e, name) && WordBoundary(s, e + |name|)
    ensures NamePatternEnd(s, e, name).Some? && WordBoundary(s, NamePatternEnd(s, e, name).value)
  {
    NamePatternLiteral(s, e, name);
  }

  lemma {:induction false} DollarFreeFirstMatch(s: string, j: nat, name: string)
    requires j <= |s| + 1 && '$' !in name
    ensures FirstMatch(DeclarationAsWritten(name), s, j) == FirstMatch(Declaration(name), s, j)
    decreases |s| + 1 - j
  {
    if j <= |s| {
      DollarFreeMatchesAgree(s, j, name);
      DollarFreeFirstMatch(s, j + 1, name);
    }
  }

  /**
   * The as-written lookup differs from the literal one only for names
   * holding `$`: for any other name both find the same last declaration.
   */
  lemma DollarFreeLookupsAgree(name: string, code: string)
    requires '$' !in name
    ensures LastLocation(DeclarationAsWritten(name), code) == LastLocation(Declaration(name), code)
  {
    var ls := Lines(code);
    forall k | 0 <= k < |ls|
      ensures LineMatches(DeclarationAsWritten(name), ls)[k] == LineMatches(Declaration(name), ls)[k]
    {
      DollarFreeFirstMatch(ls[k], 0, name);
    }
    assert LineMatches(DeclarationAsWritten(name), ls) == LineMatches(Declaration(name), ls);
  }

  // ------------------------------------------------ syntax error location

  /** The numbers of the first `(L:C)` in a message. */
  function MessageLocation(msg: string): (r: Option<Position>)
    ensures r.Some? ==> r.value.line >= 0 && r.value.column >= 0
  {
    FirstMatchLeftmost(ParenLocation, msg, 0);
    match FirstMatch(ParenLocation, msg, 0)
    case None => None
    case Some(j) =>
      var d1 := DigitsEnd(msg, j + 1);
      var d2 := DigitsEnd(msg, d1 + 1);
      Some(Position(ParseNat(msg[j + 1..d1]), ParseNat(msg[d1 + 1..d2])))
  }

  /** The index of the last of the first `n` lines that are not all `\s` (whose `trim()` is not empty). */
  function LastNonBlank(ls: seq<string>, n: nat): (r: Option<nat>)
    requires n <= |ls|
    ensures r.Some? ==> r.value < n && !AllSpaces(ls[r.value])
    ensures forall k :: 0 <= k < n && (r.None? || k > r.value) ==> AllSpaces(ls[k])
  {
    if n == 0 then None
    else if !AllSpaces(ls[n - 1]) then Some(n - 1)
    else LastNonBlank(ls, n - 1)
  }

  /** Without `(L:C)` in the message: the last non-blank line at column 1, else line 1. */
  function FallbackLocation(ls: seq<string>): Position {
    match LastNonBlank(ls, |ls|)
    case Some(i) => Position(i + 1, 1)
    case None => Position(1, 1)
  }

  /** Where a syntax error is shown: the message's `(L:C)`, else `FallbackLocation`. */
  function SyntaxLocation(code: string, msg: string): Position {
    match MessageLocation(msg)
    case Some(p) => p
    case None => FallbackLocation(Lines(code))
  }

  /** `findSyntaxErrorLocation`: there is always an answer. */
  method FindSyntaxErrorLocation(code: string, msg: string) returns (r: Position)
    ensures r == SyntaxLocation(code, msg)
  {
    var m := MessageLocation(msg);
    if m.Some? {
      return m.value;
    }
    var lines := Lines(code);
    r := SearchBackward(lines);
  }

  /** The loop of `FindSyntaxErrorLocation`: from the last line back to the first non-blank one. */
  method SearchBackward(lines: seq<string>) returns (r: Position)
    ensures r == FallbackLocation(lines)
  {
    var i: int := |lines| - 1;
    while i >= 0
      invariant -1 <= i < |lines|
      invariant LastNonBlank(lines, i + 1) == LastNonBlank(lines, |lines|)
    {
      TrimEmpty(lines[i]);
      if Trim(lines[i]) != [] {
        return Position(i + 1, 1);
      }
      i := i - 1;
    }
    return Position(1, 1);
  }

  /**
   * The fallback location is always on one of the lines (there is at least
   * one), at column 1, and every line after it is blank.
   */
  lemma FallbackIsOnALine(ls: seq<string>)
    requires |ls| >= 1
    ensures var p := FallbackLocation(ls);
            1 <= p.line <= |ls| && p.column == 1 && forall k :: p.line <= k < |ls| ==> AllSpaces(ls[k])
  {
  }

  // ------------------------------------------------- extracting a location

  /**
   * What `friendly` reads from a thrown value. `name` and `message` are the
   * value's own fields, empty when it has none (a thrown string, say);
   * `asString` is what `String(error)` gives for it.  The rest is what
   * `extractLocation` reads, already parsed: the last `playground.js:L:C`
   * in the stack, the line and column properties when both are finite
   * numbers, and the first `:L:C` anywhere in the stack.
   */
  datatype ErrorReport = ErrorReport(
    name: string,
    message: string,
    asString: string,
    namedFrame: Option<Position>,
    lineProperty: Option<int>,
    columnProperty: Option<int>,
    anyFrame: Option<Position>)

  /**
   * `extractLocation`: the named script's frame, then the error's own
   * properties, then the message's `(L:C)`, then any stack frame; both
   * numbers or neither.
   */
  function ExtractLocation(e: ErrorReport): (r: Loc)
    ensures r.line.Some? <==> r.column.Some?
    ensures r.line.None? <==>
            e.namedFrame.None? && (e.lineProperty.None? || e.columnProperty.None?) &&
            MessageLocation(e.message).None? && e.anyFrame.None?
    ensures e.namedFrame.Some? ==> r == AsLoc(e.namedFrame.value)
  {
    if e.namedFrame.Some? then AsLoc(e.namedFrame.value)
    else if e.lineProperty.Some? && e.columnProperty.Some? then Loc(e.lineProperty, e.columnProperty)
    else if MessageLocation(e.message).Some? then AsLoc(MessageLocation(e.message).value)
    else if e.anyFrame.Some? then AsLoc(e.anyFrame.value)
    else Loc(None, None)
  }

  /**
   * The location `friendly` checks: mapped into the user's code when a
   * non-zero `userStartLine` is given and the mapping succeeds, otherwise as
   * extracted.  Both engines compute it this way.
   */
  function ResolvedLocation(e: ErrorReport, userStartLine: int): (r: Loc)
    ensures r.line.Some? <==> r.column.Some?
    ensures r.line.None? <==> ExtractLocation(e).line.None?
    ensures userStartLine == 0 ==> r == ExtractLocation(e)
    ensures r != ExtractLocation(e) ==> r.line.value >= 1 && r.column == ExtractLocation(e).column
  {
    var wrapped := ExtractLocation(e);
    if userStartLine != 0 && MapWrappedToRaw(wrapped, userStartLine).Some? then
      AsLoc(MapWrappedToRaw(wrapped, userStartLine).value)
    else wrapped
  }

  /** A frame of the wrapped script at line `k + userStartLine - 1` resolves to line `k` of the user's code. */
  lemma ResolvedFrame(e: ErrorReport, k: int, column: int, userStartLine: int)
    requires k >= 1 && column != 0 && userStartLine >= 1
    requires e.namedFrame == Some(Position(k + userStartLine - 1, column))
    ensures ResolvedLocation(e, userStartLine) == AsLoc(Position(k, column))
  {
  }

  /**
   * With `userStartLine` 0, as the current engine's `run` passes it, a frame
   * is checked at its wrapped line: a frame inside the user's block is then
   * valid only when the code has at least as many lines as that line number.
   */
  lemma UnmappedFrame(e: ErrorReport, w: int, column: int, raw: string)
    requires e.namedFrame == Some(Position(w, column))
    ensures ResolvedLocation(e, 0) == AsLoc(Position(w, column))
    ensures IsValidLocation(ResolvedLocation(e, 0), raw) <==> 1 <= w <= |Lines(raw)| && column != 0
  {
  }

  // ====================================================== classification

  /** A shown report: plain text, or a heading over a code excerpt centred on a position. */
  datatype Report =
    | Plain(text: string)
    | Framed(heading: string, at: Position, context: nat)

  /** The name `friendly` prints: the error's, or `Error` when it has none. */
  function ErrorName(e: ErrorReport): string {
    if e.name == [] then "Error" else e.name
  }

  predicate IsLoopLimitMessage(msg: string) {
    Contains(msg, LoopLimitDetected) || Contains(msg, "infinite loop")
  }

  /** `formatInfiniteLoopError`: the first loop header of the code, when there is one. */
  function LoopReport(name: string, msg: string, raw: string): (r: Report)
    ensures r.Framed? <==> FirstLocation(LoopKeyword, raw).Some?
    ensures r.Framed? ==> r.heading == name + ": " + msg && r.context == 1
    ensures r.Plain? ==> r.text == name + ": " + msg
  {
    match FirstLocation(LoopKeyword, raw)
    case Some(p) => Framed(name + ": " + msg, p, 1)
    case None => Plain(name + ": " + msg)
  }

  /** The name captured by `(\w+) is not defined`. */
  function UndefinedName(msg: string): (r: Option<string>)
    ensures r.Some? ==> |r.value| >= 1 && AllWord(r.value)
  {
    FirstMatchLeftmost(NotDefined, msg, 0);
    match FirstMatch(NotDefined, msg, 0)
    case None => None
    case Some(j) => Some(msg[j..SkipWord(msg, j)])
  }

  /** The name captured by the "has already been declared" pattern. */
  function RedeclaredName(msg: string): (r: Option<string>)
    ensures r.Some? ==> |r.value| >= 1 && IsIdentStart(r.value[0])
  {
    FirstMatchLeftmost(Redeclared, msg, 0);
    match FirstMatch(Redeclared, msg, 0)
    case None => None
    case Some(j) =>
      var q := OptQuote(msg, j + 11);
      Some(msg[q..SkipIdent(msg, q + 1)])
  }

  /** The undefined-variable report once a name is known: its first whole-word use, or a short message. */
  function UndefinedReport(msg: string, name: string, raw: string): (r: Report)
    ensures r.Framed? <==> FirstLocation(Usage(name), raw).Some?
    ensures r.Framed? ==> r.at == FirstLocation(Usage(name), raw).value && r.context == 1
  {
    match FirstLocation(Usage(name), raw)
    case Some(p) => Framed("ReferenceError: " + msg, p, 1)
    case None => Plain("ReferenceError: '" + name + "' is not defined")
  }

  predicate IsUnexpected(msg: string) {
    Contains(msg, "Unexpected token") || Contains(msg, "Unexpected end")
  }

  /**
   * The message-based part of `friendly`, reached when the location is not
   * valid.  The current engine enters a branch on the plain words and then
   * always answers from it; the older one enters on a successful capture and
   * falls through when a redeclared name has no declaration in the code.
   */
  function MessageReport(engine: Engine, name: string, msg: string, raw: string): Report {
    match engine
    case Current =>
      if Contains(msg, "is not defined") then
        (match UndefinedName(msg)
         case None => Plain("ReferenceError: " + msg)
         case Some(v) => UndefinedReport(msg, v, raw))
      else if RedeclaredName(msg).Some? then
        (match LastLocation(Declaration(RedeclaredName(msg).value), raw)
         case Some(p) => Framed("SyntaxError: " + msg, p, 1)
         case None => Plain("SyntaxError: " + msg))
      else if IsUnexpected(msg) then Framed("SyntaxError: " + msg, SyntaxLocation(raw, msg), 1)
      else Plain(name + ": " + msg)
    case Legacy =>
      if UndefinedName(msg).Some? then UndefinedReport(msg, UndefinedName(msg).value, raw)
      else if RedeclaredName(msg).Some? && LastLocation(Declaration(RedeclaredName(msg).value), raw).Some? then
        Framed("SyntaxError: " + msg, LastLocation(Declaration(RedeclaredName(msg).value), raw).value, 1)
      else if IsUnexpected(msg) then Framed("SyntaxError: " + msg, SyntaxLocation(raw, msg), 1)
      else Plain(name + ": " + msg)
  }

  /**
   * The text `friendly` shows and matches on: the message, or `String(error)`
   * (`asString`) when the message is empty or missing.
   */
  function Shown(e: ErrorReport): string {
    if e.message == [] then e.asString else e.message
  }

  /** `friendly`, for either engine, given the `userStartLine` its caller passes. */
  function Friendly(engine: Engine, e: ErrorReport, raw: string, userStartLine: int): Report {
    var name := ErrorName(e);
    if IsLoopLimitMessage(Shown(e)) then LoopReport(name, Shown(e), raw)
    else
      var loc := ResolvedLocation(e, userStartLine);
      if IsValidLocation(loc, raw) then
        Framed(name + ": " + Shown(e), Position(loc.line.value, if loc.column.value < 1 then 1 else loc.column.value), 2)
      else MessageReport(engine, name, Shown(e), raw)
  }

  /** The loop guard's own error is always reported as a loop, wherever the error says it happened. */
  lemma GuardErrorIsLoopReport(engine: Engine, e: ErrorReport, raw: string, userStartLine: int)
    requires Shown(e) == LoopLimitMessage
    ensures Friendly(engine, e, raw, userStartLine) == LoopReport(ErrorName(e), Shown(e), raw)
  {
    assert LitAt(LoopLimitMessage, 0, LoopLimitDetected);
  }

  /**
   * Second in the cascade: a valid location wins over every message-based
   * branch, in both engines alike, shown with two lines of context at a
   * column of at least 1.
   */
  lemma ValidLocationFramed(engine: Engine, e: ErrorReport, raw: string, userStartLine: int)
    requires !IsLoopLimitMessage(Shown(e))
    requires IsValidLocation(ResolvedLocation(e, userStartLine), raw)
    ensures var r := Friendly(engine, e, raw, userStartLine);
            r.Framed? && r.heading == ErrorName(e) + ": " + Shown(e) && r.context == 2 &&
            r.at.line == ResolvedLocation(e, userStartLine).line.value && r.at.column >= 1 &&
            r == Friendly(if engine == Current then Legacy else Current, e, raw, userStartLine)
  {
  }

  /** With no location and none of the recognised phrases the report is `Name: message`. */
  lemma FallbackReport(engine: Engine, e: ErrorReport, raw: string, userStartLine: int)
    requires !IsLoopLimitMessage(Shown(e)) && !IsValidLocation(ResolvedLocation(e, userStartLine), raw)
    requires !Contains(Shown(e), "is not defined") && RedeclaredName(Shown(e)).None? && !IsUnexpected(Shown(e))
    ensures Friendly(engine, e, raw, userStartLine) == Plain(ErrorName(e) + ": " + Shown(e))
  {
    UndefinedPhrase(Shown(e));
  }

  /**
   * The fallback to `String(error)`: an error with an empty message and no
   * location, whose string form holds none of the recognised phrases, is
   * shown as `Name: <string form>`.
   */
  lemma EmptyMessageShowsString(engine: Engine, e: ErrorReport, raw: string, userStartLine: int)
    requires e.message == [] && e.namedFrame.None? && e.lineProperty.None? && e.anyFrame.None?
    requires !IsLoopLimitMessage(e.asString) && !Contains(e.asString, "is not defined")
    requires RedeclaredName(e.asString).None? && !IsUnexpected(e.asString)
    ensures Friendly(engine, e, raw, userStartLine) == Plain(ErrorName(e) + ": " + e.asString)
  {
    assert MessageLocation(e.message).None? by { FirstMatchLeftmost(ParenLocation, e.message, 0); }
    FallbackReport(engine, e, raw, userStartLine);
  }

  /** A `TypeError` with an empty message reads `TypeError: TypeError`. */
  lemma EmptyTypeErrorExample(engine: Engine, e: ErrorReport, raw: string, userStartLine: int)
    requires e == ErrorReport("TypeError", "", "TypeError", None, None, None, None)
    ensures Friendly(engine, e, raw, userStartLine) == Plain("TypeError: TypeError")
  {
    PlainTextNoPhrase(e.asString);
    EmptyMessageShowsString(engine, e, raw, userStartLine);
  }

  /** A thrown string `boom`, which has no name and no message, reads `Error: boom`. */
  lemma ThrownStringExample(engine: Engine, e: ErrorReport, raw: string, userStartLine: int)
    requires e == ErrorReport("", "", "boom", None, None, None, None)
    ensures Friendly(engine, e, raw, userStartLine) == Plain("Error: boom")
  {
    PlainTextNoPhrase(e.asString);
    EmptyMessageShowsString(engine, e, raw, userStartLine);
  }

  /** A text shorter than every phrase the cascade looks for holds none of them. */
  lemma PlainTextNoPhrase(msg: string)
    requires |msg| < 11
    ensures !IsLoopLimitMessage(msg) && !Contains(msg, "is not defined")
    ensures RedeclaredName(msg).None? && !IsUnexpected(msg)
  {
    FirstMatchLeftmost(Redeclared, msg, 0);
  }

  /** An undefined name found in the message is reported at its first whole-word use by both engines. */
  lemma UndefinedAtFirstUse(engine: Engine, e: ErrorReport, raw: string, userStartLine: int)
    requires !IsLoopLimitMessage(Shown(e)) && !IsValidLocation(ResolvedLocation(e, userStartLine), raw)
    requires UndefinedName(Shown(e)).Some?
    ensures Friendly(engine, e, raw, userStartLine) == UndefinedReport(Shown(e), UndefinedName(Shown(e)).value, raw)
  {
    UndefinedPhrase(Shown(e));
  }

  /** A redeclared name is reported at its last declaration by both engines, when the code declares it. */
  lemma RedeclaredAtLastDeclaration(engine: Engine, e: ErrorReport, raw: string, userStartLine: int)
    requires !IsLoopLimitMessage(Shown(e)) && !IsValidLocation(ResolvedLocation(e, userStartLine), raw)
    requires !Contains(Shown(e), "is not defined") && RedeclaredName(Shown(e)).Some?
    requires LastLocation(Declaration(RedeclaredName(Shown(e)).value), raw).Some?
    ensures Friendly(engine, e, raw, userStartLine) ==
            Framed("SyntaxError: " + Shown(e), LastLocation(Declaration(RedeclaredName(Shown(e)).value), raw).value, 1)
  {
    UndefinedPhrase(Shown(e));
  }

  /** With neither name pattern, an unexpected token or end is shown at `findSyntaxErrorLocation`'s answer. */
  lemma UnexpectedAtSyntaxLocation(engine: Engine, e: ErrorReport, raw: string, userStartLine: int)
    requires !IsLoopLimitMessage(Shown(e)) && !IsValidLocation(ResolvedLocation(e, userStartLine), raw)
    requires !Contains(Shown(e), "is not defined") && RedeclaredName(Shown(e)).None? && IsUnexpected(Shown(e))
    ensures Friendly(engine, e, raw, userStartLine) == Framed("SyntaxError: " + Shown(e), SyntaxLocation(raw, Shown(e)), 1)
  {
    UndefinedPhrase(Shown(e));
  }

  /** A captured undefined name means the message holds the words "is not defined". */
  lemma UndefinedPhrase(msg: string)
    ensures UndefinedName(msg).Some? ==> Contains(msg, "is not defined")
  {
    if UndefinedName(msg).Some? {
      FirstMatchLeftmost(NotDefined, msg, 0);
      var j := FirstMatch(NotDefined, msg, 0).value;
      var w := SkipWord(msg, j);
      assert LitAt(msg, w, " is not defined");
      assert msg[w + 1..w + 15] == msg[w..w + 15][1..];
      assert LitAt(msg, w + 1, "is not defined");
    }
  }

  // ============================================ loops written without a body

  datatype LoopKind = While | For

  /** `LoopDetection`: the kind of loop and where its keyword is. */
  datatype LoopDetection = LoopDetection(kind: LoopKind, line: int, column: int)

  /** `/^(while\s*\([^)]+\))\s*$/` on a trimmed line. */
  predicate BareWhileHeader(t: string) {
    LitAt(t, 0, "while") &&
    var a := SkipSpaces(t, 5);
    a < |t| && t[a] == '(' &&
    var c := FindChar(t, a + 1, ')');
    a + 1 < c < |t| && SkipSpaces(t, c + 1) == |t|
  }

  /** `/^for\s*(\(.*)?$/` on a trimmed line that holds no `)`. */
  predicate OpenForHeader(t: string) {
    LitAt(t, 0, "for") && !Contains(t, ")") &&
    var a := SkipSpaces(t, 3);
    a == |t| || (t[a] == '(' && NoLineTerminator(t[a + 1..]))
  }

  /** The next line, trimmed, or "" after the last line. */
  function NextTrimmed(ls: seq<string>, i: nat): string {
    if i + 1 < |ls| then Trim(ls[i + 1]) else ""
  }

  /** A body follows when the next line starts with `{` or with `[a-zA-Z_$]`. */
  predicate BodyFollows(next: string) {
    |next| > 0 && (next[0] == '{' || IsIdentStart(next[0]))
  }

  /** What `detectLoopWithoutBody` reports for line `i`, the `while` test first. */
  function DetectAt(ls: seq<string>, i: nat): (r: Option<LoopDetection>)
    requires i < |ls|
    ensures r.Some? ==> r.value.line == i + 1
  {
    var t := Trim(ls[i]);
    if BareWhileHeader(t) && !BodyFollows(NextTrimmed(ls, i)) then
      Some(LoopDetection(While, i + 1, IndexOf(ls[i], "while") + 1))
    else if OpenForHeader(t) then Some(LoopDetection(For, i + 1, IndexOf(ls[i], "for") + 1))
    else None
  }

  /** What `DetectAt` reports for every line, in order. */
  function LineDetections(ls: seq<string>): (ds: seq<Option<LoopDetection>>)
    ensures |ds| == |ls| && forall k :: 0 <= k < |ls| ==> ds[k] == DetectAt(ls, k)
  {
    seq(|ls|, k requires 0 <= k < |ls| => DetectAt(ls, k))
  }

  /** The index of the first report from `i` on. */
  function FirstDetected(ds: seq<Option<LoopDetection>>, i: nat): (r: Option<nat>)
    requires i <= |ds|
    ensures r.Some? ==> i <= r.value < |ds| && ds[r.value].Some?
    ensures forall k :: i <= k < |ds| && (r.None? || k < r.value) ==> ds[k].None?
    decreases |ds| - i
  {
    if i == |ds| then None
    else if ds[i].Some? then Some(i)
    else FirstDetected(ds, i + 1)
  }

  /** The loop `detectLoopWithoutBody` reports: the one on the first line that reports one. */
  function LoopWithoutBody(code: string): Option<LoopDetection> {
    var ds := LineDetections(Lines(code));
    match FirstDetected(ds, 0)
    case Some(k) => ds[k]
    case None => None
  }

  /** The reported loop is on the first line that reports one; no line reports one when nothing is reported. */
  lemma LoopWithoutBodyIsFirst(code: string)
    ensures var ls := Lines(code);
            var r := LoopWithoutBody(code);
            (r.Some? ==> 1 <= r.value.line <= |ls| && DetectAt(ls, r.value.line - 1) == r &&
                         forall k :: 0 <= k < r.value.line - 1 ==> DetectAt(ls, k).None?) &&
            (r.None? ==> forall k :: 0 <= k < |ls| ==> DetectAt(ls, k).None?)
  {
  }

  /** `detectLoopWithoutBody`. */
  method DetectLoopWithoutBody(code: string) returns (r: Option<LoopDetection>)
    ensures r == LoopWithoutBody(code)
  {
    var lines := Lines(code);
    ghost var ds := LineDetections(lines);
    var i := 0;
    while i < |lines|
      invariant i <= |lines|
      invariant FirstDetected(ds, i) == FirstDetected(ds, 0)
    {
      var d := DetectAt(lines, i);
      if d.Some? {
        return d;
      }
      i := i + 1;
    }
    return None;
  }

  /**
   * A reported loop's column is where its keyword starts: after the line's
   * leading spaces only.
   */
  lemma DetectionPointsAtKeyword(ls: seq<string>, i: nat)
    requires i < |ls| && DetectAt(ls, i).Some?
    ensures var d := DetectAt(ls, i).value;
            var kw := if d.kind == While then "while" else "for";
            d.column >= 1 && LitAt(ls[i], d.column - 1, kw) && AllSpaces(ls[i][..d.column - 1])
  {
    var d := DetectAt(ls, i).value;
    if d.kind == While {
      KeywordAfterIndent(ls[i], "while");
    } else {
      KeywordAfterIndent(ls[i], "for");
    }
  }

  /** A trimmed line starting with a keyword has it right after the indentation, and nowhere before. */
  lemma KeywordAfterIndent(s: string, kw: string)
    requires |kw| >= 1 && !IsSpace(kw[0]) && LitAt(Trim(s), 0, kw)
    ensures IndexOf(s, kw) == SkipSpaces(s, 0) && AllSpaces(s[..SkipSpaces(s, 0)])
  {
    var k := SkipSpaces(s, 0);
    var t := TrimStart(s);
    assert t == s[k..];
    assert Trim(s) == t[..|Trim(s)|];
    assert s[k..k + |kw|] == t[..|kw|];
    assert LitAt(s, k, kw);
    forall j | 0 <= j < k
      ensures !MatchAt(Literal(kw), s, j)
    {
      assert IsSpace(s[j]);
      assert j + |kw| <= |s| ==> s[j..j + |kw|][0] == s[j];
    }
    FirstMatchIs(Literal(kw), s, k);
    assert s[..k] == s[0..k];
  }

  /** `formatLoopError`: the heading says which kind of loop; one line of context. */
  function LoopErrorReport(d: LoopDetection): (r: Report)
    ensures r.Framed? && r.at == Position(d.line, d.column) && r.context == 1
    ensures r.heading == (if d.kind == While then WhileWithoutBody else IncompleteControl)
  {
    Framed(if d.kind == While then WhileWithoutBody else IncompleteControl, Position(d.line, d.column), 1)
  }

  const WhileWithoutBody: string := "SyntaxError: Loop infinito detectado - while sin cuerpo de ejecuci\U{00F3}n"
  const IncompleteControl: string := "SyntaxError: Estructura de control incompleta"
}

=== FILE: lex.dfy ===
/**
 * Lexical vocabulary shared by every pass of the playground: the character
 * classes of JavaScript regular expressions (`\w`, `\s`, `.`), splitting and
 * joining on '\n' (`split("\n")` / `join("\n")`), `trim`, decimal numerals,
 * and the left-to-right "replace every match" loop of `String.replace` with a
 * global pattern.  The source's fixed regular expressions are written in the
 * other modules as scanners built from these pieces.
 */
module Lex {
  import opened Wrappers

  // ---------------------------------------------------------------- classes

  /** `\w` (ASCII letters, digits and '_'). */
  predicate IsWordChar(c: char) {
    ('a' <= c <= 'z') || ('A' <= c <= 'Z') || ('0' <= c <= '9') || c == '_'
  }

  predicate IsDigit(c: char) { '0' <= c <= '9' }

  /** `[A-Za-z_$]`: the first character of an identifier in the source's patterns. */
  predicate IsIdentStart(c: char) {
    ('a' <= c <= 'z') || ('A' <= c <= 'Z') || c == '_' || c == '$'
  }

  /** `[\w$]`: the other characters of an identifier. */
  predicate IsIdentChar(c: char) { IsWordChar(c) || c == '$' }

  /** The line terminators: the characters `.` does not match. */
  predicate IsLineTerminator(c: char) {
    c == '\n' || c == '\r' || c == '\U{2028}' || c == '\U{2029}'
  }

  /** `\s`, which is also the set of characters `trim` removes. */
  predicate IsSpace(c: char) {
    c == ' ' || '\t' <= c <= '\r' || c == '\U{00A0}' || c == '\U{1680}' || '\U{2000}' <= c <= '\U{200A}' ||
    c == '\U{2028}' || c == '\U{2029}' || c == '\U{202F}' || c == '\U{205F}' || c == '\U{3000}' || c == '\U{FEFF}'
  }

  /** No visible ASCII character is `\s`. */
  lemma VisibleNotSpace(c: char)
    requires '!' <= c <= '~'
    ensures !IsSpace(c)
  {
  }

  predicate AllSpaces(s: string) { forall k :: 0 <= k < |s| ==> IsSpace(s[k]) }

  predicate AllWord(s: string) { forall k :: 0 <= k < |s| ==> IsWordChar(s[k]) }

  predicate NoLineTerminator(s: string) { forall k :: 0 <= k < |s| ==> !IsLineTerminator(s[k]) }

  /** ASCII case folding, which is all the `i` flag does for the source's ASCII patterns. */
  function Lower(c: char): char {
    if 'A' <= c <= 'Z' then (c as int + 32) as char else c
  }

  // ---------------------------------------------------------- positions

  /** `lit` occurs in `s` at index `i`. */
  predicate LitAt(s: string, i: nat, lit: string) {
    i + |lit| <= |s| && s[i..i + |lit|] == lit
  }

  /** `\b` just before a word character at index `i`. */
  predicate BoundaryBefore(s: string, i: nat) {
    i == 0 || (i <= |s| && !IsWordChar(s[i - 1]))
  }

  /** `\bkw`: the keyword `kw` (made of word characters) starts at `i` after a word boundary. */
  predicate KeywordAt(s: string, i: nat, kw: string) {
    BoundaryBefore(s, i) && LitAt(s, i, kw)
  }

  /** The characters of a literal occurrence, one by one. */
  lemma LitAtChars(s: string, i: nat, lit: string)
    requires LitAt(s, i, lit)
    ensures forall k :: 0 <= k < |lit| ==> s[i + k] == lit[k]
  {
    forall k | 0 <= k < |lit| ensures s[i + k] == lit[k] {
      assert s[i..i + |lit|][k] == s[i + k];
    }
  }

  /** A literal occurs where its characters do. */
  lemma CharsLitAt(s: string, i: nat, lit: string)
    requires i + |lit| <= |s| && forall k :: 0 <= k < |lit| ==> s[i + k] == lit[k]
    ensures LitAt(s, i, lit)
  {
    assert s[i..i + |lit|] == lit;
  }

  /** Concatenation regrouped. */
  lemma Assoc(a: string, b: string, c: string)
    ensures a + b + c == a + (b + c)
  {
  }

  /** Two adjacent slices make one. */
  lemma SliceSplit(s: string, a: nat, b: nat)
    requires a <= b <= |s|
    ensures s[a..b] + s[b..] == s[a..]
  {
  }

  /** `s.includes(lit)`. */
  predicate Contains(s: string, lit: string) {
    exists i: nat :: i + |lit| <= |s| && LitAt(s, i, lit)
  }

  lemma LitAtAppend(s: string, t: string, i: nat, lit: string)
    requires LitAt(s, i, lit)
    ensures LitAt(s + t, i, lit)
  {
    assert (s + t)[i..i + |lit|] == s[i..i + |lit|];
  }

  /** The end of the run of `\s` that starts at `i`. */
  function SkipSpaces(s: string, i: nat): (j: nat)
    requires i <= |s|
    ensures i <= j <= |s| && AllSpaces(s[i..j])
    ensures j == |s| || !IsSpace(s[j])
    decreases |s| - i
  {
    if i < |s| && IsSpace(s[i]) then SkipSpaces(s, i + 1) else i
  }

  /** The end of the run of `\w` that starts at `i`. */
  function SkipWord(s: string, i: nat): (j: nat)
    requires i <= |s|
    ensures i <= j <= |s| && AllWord(s[i..j])
    ensures j == |s| || !IsWordChar(s[j])
    decreases |s| - i
  {
    if i < |s| && IsWordChar(s[i]) then SkipWord(s, i + 1) else i
  }

  /** The end of the run of `[\w$]` that starts at `i`. */
  function SkipIdent(s: string, i: nat): (j: nat)
    requires i <= |s|
    ensures i <= j <= |s|
    ensures forall k :: i <= k < j ==> IsIdentChar(s[k])
    ensures j == |s| || !IsIdentChar(s[j])
    decreases |s| - i
  {
    if i < |s| && IsIdentChar(s[i]) then SkipIdent(s, i + 1) else i
  }

  /** The index of the first `c` at or after `i`, or `|s|` when there is none. */
  function FindChar(s: string, i: nat, c: char): (j: nat)
    requires i <= |s|
    ensures i <= j <= |s|
    ensures forall k :: i <= k < j ==> s[k] != c
    ensures j == |s| || s[j] == c
    decreases |s| - i
  {
    if i < |s| && s[i] != c then FindChar(s, i + 1, c) else i
  }

  /** The index of the first quote (`'` or `"`) at or after `i`, or `|s|`. */
  function FindQuote(s: string, i: nat): (j: nat)
    requires i <= |s|
    ensures i <= j <= |s|
    ensures forall k :: i <= k < j ==> s[k] != '\'' && s[k] != '"'
    ensures j == |s| || s[j] == '\'' || s[j] == '"'
    decreases |s| - i
  {
    if i < |s| && s[i] != '\'' && s[i] != '"' then FindQuote(s, i + 1) else i
  }

  lemma SkipSpacesAppend(s: string, t: string, i: nat)
    requires i <= |s| && SkipSpaces(s, i) < |s|
    ensures SkipSpaces(s + t, i) == SkipSpaces(s, i)
    decreases |s| - i
  {
    if IsSpace(s[i]) { SkipSpacesAppend(s, t, i + 1); }
  }

  /** A single space before a non-space (or the end) is all `SkipSpaces` skips. */
  lemma SkipOneSpace(s: string, i: nat)
    requires i < |s| && IsSpace(s[i]) && (i + 1 == |s| || !IsSpace(s[i + 1]))
    ensures SkipSpaces(s, i) == i + 1
  {
    assert SkipSpaces(s, i + 1) == i + 1;
  }

  /** A run of spaces from `i` to a non-space at `i + n` is exactly what `SkipSpaces` skips. */
  lemma {:induction false} SkipSpacesTo(s: string, i: nat, n: nat)
    requires i + n <= |s| && AllSpaces(s[i..i + n]) && (i + n == |s| || !IsSpace(s[i + n]))
    ensures SkipSpaces(s, i) == i + n
    decreases n
  {
    if n > 0 {
      assert s[i..i + n][0] == s[i];
      assert s[i + 1..i + n] == s[i..i + n][1..];
      SkipSpacesTo(s, i + 1, n - 1);
    }
  }

  /** A run of word characters from `i` to a non-word character at `i + n` is exactly what `SkipWord` skips. */
  lemma {:induction false} SkipWordTo(s: string, i: nat, n: nat)
    requires i + n <= |s| && AllWord(s[i..i + n]) && (i + n == |s| || !IsWordChar(s[i + n]))
    ensures SkipWord(s, i) == i + n
    decreases n
  {
    if n > 0 {
      assert s[i..i + n][0] == s[i];
      assert s[i + 1..i + n] == s[i..i + n][1..];
      SkipWordTo(s, i + 1, n - 1);
    }
  }

  /** A run of `[\w$]` from `i` to another character at `i + n` is exactly what `SkipIdent` skips. */
  lemma {:induction false} SkipIdentTo(s: string, i: nat, n: nat)
    requires i + n < |s| && !IsIdentChar(s[i + n]) && forall k :: i <= k < i + n ==> IsIdentChar(s[k])
    ensures SkipIdent(s, i) == i + n
    decreases n
  {
    if n > 0 {
      SkipIdentTo(s, i + 1, n - 1);
    }
  }

  /** The first `c` at or after `i` is what `FindChar` finds. */
  lemma {:induction false} FindCharTo(s: string, i: nat, j: nat, c: char)
    requires i <= j < |s| && s[j] == c && forall k :: i <= k < j ==> s[k] != c
    ensures FindChar(s, i, c) == j
    decreases j - i
  {
    if i < j {
      FindCharTo(s, i + 1, j, c);
    }
  }

  /** The first quote at or after `i` is what `FindQuote` finds. */
  lemma {:induction false} FindQuoteTo(s: string, i: nat, j: nat)
    requires i <= j < |s| && (s[j] == '\'' || s[j] == '"') && forall k :: i <= k < j ==> s[k] != '\'' && s[k] != '"'
    ensures FindQuote(s, i) == j
    decreases j - i
  {
    if i < j {
      FindQuoteTo(s, i + 1, j);
    }
  }

  /** Text that lacks the first character of `lit` does not contain `lit`. */
  lemma AbsentInitial(s: string, lit: string)
    requires |lit| > 0 && lit[0] !in s
    ensures !Contains(s, lit)
  {
    forall i: nat | i + |lit| <= |s|
      ensures !LitAt(s, i, lit)
    {
      assert s[i..i + |lit|][0] == s[i] && s[i] in s;
    }
  }

  // ---------------------------------------------------------- trimming

  /** `trimStart`: drop the leading `\s` characters. */
  function TrimStart(s: string): (r: string)
    ensures |r| <= |s| && r == s[|s| - |r|..]
    ensures AllSpaces(s[..|s| - |r|])
    ensures r == [] || !IsSpace(r[0])
  {
    s[SkipSpaces(s, 0)..]
  }

  /** The start of the run of `\s` that ends at `j`. */
  function SkipSpacesBack(s: string, j: nat): (i: nat)
    requires j <= |s|
    ensures i <= j && forall k :: i <= k < j ==> IsSpace(s[k])
    ensures i == 0 || !IsSpace(s[i - 1])
  {
    if j > 0 && IsSpace(s[j - 1]) then SkipSpacesBack(s, j - 1) else j
  }

  /** `trimEnd`: drop the trailing `\s` characters. */
  function TrimEnd(s: string): (r: string)
    ensures |r| <= |s| && r == s[..|r|]
    ensures AllSpaces(s[|r|..])
    ensures r == [] || !IsSpace(r[|r| - 1])
  {
    var i := SkipSpacesBack(s, |s|);
    assert AllSpaces(s[i..]) by {
      forall k | 0 <= k < |s[i..]| ensures IsSpace(s[i..][k]) { assert s[i..][k] == s[i + k]; }
    }
    s[..i]
  }

  /** `trim`. */
  function Trim(s: string): (r: string)
    ensures r == [] || (!IsSpace(r[0]) && !IsSpace(r[|r| - 1]))
  {
    TrimEnd(TrimStart(s))
  }

  /** `s.trim()` is empty (falsy) exactly when `s` is all `\s`. */
  lemma TrimEmpty(s: string)
    ensures Trim(s) == [] <==> AllSpaces(s)
  {
    var t := TrimStart(s);
    if Trim(s) == [] {
      assert AllSpaces(t) by { assert t[|TrimEnd(t)|..] == t; }
      assert t == [];
      assert s[..|s|] == s;
    }
  }

  /** Text that neither starts nor ends with `\s` is its own trim. */
  lemma TrimKeeps(s: string)
    requires s == [] || (!IsSpace(s[0]) && !IsSpace(s[|s| - 1]))
    ensures Trim(s) == s
  {
    assert TrimStart(s) == s;
    TrimEndAt(s, |s|);
  }

  /** `trimEnd` cuts exactly before a trailing run of spaces that follows a non-space (or the start). */
  lemma TrimEndAt(s: string, k: nat)
    requires k <= |s| && AllSpaces(s[k..]) && (k == 0 || !IsSpace(s[k - 1]))
    ensures TrimEnd(s) == s[..k]
  {
  }

  /** Text with only spaces around `s[a..b]`, which starts and ends with a non-space, trims to it. */
  lemma TrimAround(s: string, a: nat, b: nat)
    requires a < b <= |s| && AllSpaces(s[..a]) && AllSpaces(s[b..]) && !IsSpace(s[a]) && !IsSpace(s[b - 1])
    ensures Trim(s) == s[a..b]
  {
    assert s[0..a] == s[..a];
    SkipSpacesTo(s, 0, a);
    var t := s[a..];
    assert TrimStart(s) == t;
    assert t[b - a..] == s[b..];
    TrimEndAt(t, b - a);
    assert t[..b - a] == s[a..b];
  }

  lemma NoLineTerminatorTrim(s: string)
    requires NoLineTerminator(s)
    ensures NoLineTerminator(Trim(s))
  {
    var t := TrimStart(s);
    assert NoLineTerminator(t) by {
      forall k | 0 <= k < |t| ensures !IsLineTerminator(t[k]) { assert t[k] == s[|s| - |t| + k]; }
    }
  }

  lemma TrimEndNoNewline(s: string)
    requires '\n' !in s
    ensures '\n' !in TrimEnd(s)
  {
  }

  // ----------------------------------------------------- lines of text

  /** `s.split("\n")`: never empty; no piece holds a '\n'. */
  function Lines(s: string): (r: seq<string>)
    ensures |r| >= 1
    ensures forall k :: 0 <= k < |r| ==> '\n' !in r[k]
  {
    if s == [] then [""]
    else if s[0] == '\n' then [""] + Lines(s[1..])
    else
      var t := Lines(s[1..]);
      [[s[0]] + t[0]] + t[1..]
  }

  /** `lines.join("\n")`. */
  function Join(ls: seq<string>): string
    requires |ls| >= 1
  {
    if |ls| == 1 then ls[0] else ls[0] + "\n" + Join(ls[1..])
  }

  /** `code.split("\n").at(-1)`. */
  function LastLine(s: string): string {
    var ls := Lines(s);
    ls[|ls| - 1]
  }

  /** Splitting `a + "\n" + b` splits `a` and `b` apart. */
  lemma {:induction false} LinesAppend(a: string, b: string)
    ensures Lines(a + "\n" + b) == Lines(a) + Lines(b)
    decreases |a|
  {
    if a == [] {
      assert a + "\n" + b == ['\n'] + b;
      assert (['\n'] + b)[1..] == b;
    } else {
      var s := a + "\n" + b;
      assert s[0] == a[0];
      assert s[1..] == a[1..] + "\n" + b;
      LinesAppend(a[1..], b);
    }
  }
  /** The last line of `a + "\n" + b` is the last line of `b`. */
  lemma LastLineAppend(a: string, b: string)
    ensures LastLine(a + "\n" + b) == LastLine(b)
  {
    LinesAppend(a, b);
  }


  lemma {:induction false} LinesOfLine(x: string)
    requires '\n' !in x
    ensures Lines(x) == [x]
    decreases |x|
  {
    if x != [] {
      assert '\n' !in x[1..] by {
        forall k | 0 <= k < |x[1..]| ensures x[1..][k] != '\n' { assert x[1..][k] == x[k + 1]; }
      }
      LinesOfLine(x[1..]);
      assert [x[0]] + x[1..] == x;
    }
  }

  /** Joining pieces free of '\n' and splitting again gives the pieces back. */
  lemma {:induction false} LinesJoin(ls: seq<string>)
    requires |ls| >= 1
    requires forall k :: 0 <= k < |ls| ==> '\n' !in ls[k]
    ensures Lines(Join(ls)) == ls
    decreases |ls|
  {
    if |ls| == 1 {
      LinesOfLine(ls[0]);
    } else {
      LinesAppend(ls[0], Join(ls[1..]));
      LinesOfLine(ls[0]);
      LinesJoin(ls[1..]);
    }
  }

  /** Splitting and joining again gives the text back. */
  lemma {:induction false} JoinLines(s: string)
    ensures Join(Lines(s)) == s
    decreases |s|
  {
    if s != [] {
      JoinLines(s[1..]);
      var t := Lines(s[1..]);
      if s[0] == '\n' {
        assert Join(Lines(s)) == "" + "\n" + Join(t);
      } else if |t| == 1 {
        assert Join(Lines(s)) == [s[0]] + t[0];
      } else {
        assert Join(Lines(s)) == [s[0]] + t[0] + "\n" + Join(t[1..]);
        assert Join(t) == t[0] + "\n" + Join(t[1..]);
      }
      assert [s[0]] + s[1..] == s;
    }
  }

  // -------------------------------------------------------- numerals

  function DigitChar(d: nat): (c: char)
    requires d < 10
    ensures IsDigit(c)
  {
    ('0' as int + d) as char
  }

  /** `String(n)` / `${n}` for a non-negative integer. */
  function NatToString(n: nat): (r: string)
    ensures |r| >= 1
    ensures forall k :: 0 <= k < |r| ==> IsDigit(r[k])
  {
    if n < 10 then [DigitChar(n)] else NatToString(n / 10) + [DigitChar(n % 10)]
  }

  /** `parseInt` / `Number` of a string of decimal digits. */
  function ParseNat(s: string): nat
    requires forall k :: 0 <= k < |s| ==> IsDigit(s[k])
  {
    if s == [] then 0
    else
      assert IsDigit(s[|s| - 1]);
      ParseNat(s[..|s| - 1]) * 10 + (s[|s| - 1] as int - '0' as int)
  }

  /** Printing a number and parsing it back gives the number. */
  lemma {:induction false} ParseNatToString(n: nat)
    ensures ParseNat(NatToString(n)) == n
  {
    if n >= 10 {
      var s := NatToString(n);
      assert s[..|s| - 1] == NatToString(n / 10);
      ParseNatToString(n / 10);
    }
  }

  /** Distinct numbers print differently. */
  lemma NatToStringInjective(a: nat, b: nat)
    requires NatToString(a) == NatToString(b)
    ensures a == b
  {
    ParseNatToString(a);
    ParseNatToString(b);
  }

  // ------------------------------------------------- global replacement

  /**
   * `s.replace(/re/g, f)` from index `i` on: at each index the pattern is
   * tried (`matchAt` gives the end of a match starting there); a match is
   * replaced by `subst` and the scan resumes after it, otherwise the
   * character is kept.  The pattern always looks at the whole original text,
   * so look-behind such as `\b` sees the original characters.
   */
  function ReplaceAll(s: string, matchAt: (string, nat) -> Option<nat>,
                      subst: (string, nat, nat) -> string, i: nat): string
    decreases |s| - i
  {
    if i >= |s| then []
    else match matchAt(s, i)
      case Some(e) =>
        if i < e <= |s| then subst(s, i, e) + ReplaceAll(s, matchAt, subst, e)
        else [s[i]] + ReplaceAll(s, matchAt, subst, i + 1)
      case None => [s[i]] + ReplaceAll(s, matchAt, subst, i + 1)
  }

  /** A replacement that gives every match back unchanged leaves the text unchanged. */
  lemma {:induction false} ReplaceAllIdentity(s: string, matchAt: (string, nat) -> Option<nat>,
                                              subst: (string, nat, nat) -> string, i: nat)
    requires i <= |s|
    requires forall j: nat, e: nat :: j < e <= |s| && matchAt(s, j) == Some(e) ==> subst(s, j, e) == s[j..e]
    ensures ReplaceAll(s, matchAt, subst, i) == s[i..]
    decreases |s| - i
  {
    if i < |s| {
      match matchAt(s, i)
      case Some(e) =>
        if i < e <= |s| {
          ReplaceAllIdentity(s, matchAt, subst, e);
          assert s[i..e] + s[e..] == s[i..];
        } else {
          ReplaceAllIdentity(s, matchAt, subst, i + 1);
          assert [s[i]] + s[i + 1..] == s[i..];
        }
      case None =>
        ReplaceAllIdentity(s, matchAt, subst, i + 1);
        assert [s[i]] + s[i + 1..] == s[i..];
    }
  }

  /** Positions where nothing matches are copied one by one. */
  lemma {:induction false} ReplaceAllNoMatch(s: string, matchAt: (string, nat) -> Option<nat>,
                                             subst: (string, nat, nat) -> string, i: nat, j: nat)
    requires i <= j <= |s|
    requires forall k :: i <= k < j ==> matchAt(s, k).None?
    ensures ReplaceAll(s, matchAt, subst, i) == s[i..j] + ReplaceAll(s, matchAt, subst, j)
    decreases j - i
  {
    if i < j {
      ReplaceAllNoMatch(s, matchAt, subst, i + 1, j);
      ReplaceAllSkip(s, matchAt, subst, i);
      Assoc([s[i]], s[i + 1..j], ReplaceAll(s, matchAt, subst, j));
      ConsSliceAt(s, i, j);
    }
  }

  /** Two replacements that match alike and substitute alike at every index give the same text. */
  lemma {:induction false} ReplaceAllAgree(s: string, m1: (string, nat) -> Option<nat>, t1: (string, nat, nat) -> string,
                                           m2: (string, nat) -> Option<nat>, t2: (string, nat, nat) -> string, i: nat)
    requires forall k :: i <= k < |s| ==> m1(s, k) == m2(s, k)
    requires forall k, e :: i <= k < |s| && m1(s, k) == Some(e) ==> t1(s, k, e) == t2(s, k, e)
    ensures ReplaceAll(s, m1, t1, i) == ReplaceAll(s, m2, t2, i)
    decreases |s| - i
  {
    if i < |s| {
      match m1(s, i)
      case Some(e) =>
        if i < e <= |s| {
          ReplaceAllAgree(s, m1, t1, m2, t2, e);
        } else {
          ReplaceAllAgree(s, m1, t1, m2, t2, i + 1);
        }
      case None =>
        ReplaceAllAgree(s, m1, t1, m2, t2, i + 1);
    }
  }

  /** A match at `i` is replaced, and the search goes on from its end. */
  lemma ReplaceAllMatch(s: string, matchAt: (string, nat) -> Option<nat>,
                        subst: (string, nat, nat) -> string, i: nat, e: nat)
    requires i < e <= |s| && matchAt(s, i) == Some(e)
    ensures ReplaceAll(s, matchAt, subst, i) == subst(s, i, e) + ReplaceAll(s, matchAt, subst, e)
  {
  }

  /** No match at `i`: its character is copied and the search moves on by one. */
  lemma ReplaceAllSkip(s: string, matchAt: (string, nat) -> Option<nat>,
                       subst: (string, nat, nat) -> string, i: nat)
    requires i < |s| && matchAt(s, i).None?
    ensures ReplaceAll(s, matchAt, subst, i) == [s[i]] + ReplaceAll(s, matchAt, subst, i + 1)
  {
  }

  lemma ConsSlice(s: string, k: nat)
    requires 0 < k <= |s|
    ensures [s[0]] + s[1..k] == s[..k]
  {
  }

  lemma ConsSliceAt(s: string, i: nat, j: nat)
    requires i < j <= |s|
    ensures [s[i]] + s[i + 1..j] == s[i..j]
  {
  }

  /** With no match anywhere, the replacement gives the text back. */
  lemma ReplaceAllNone(s: string, matchAt: (string, nat) -> Option<nat>, subst: (string, nat, nat) -> string)
    requires forall k :: 0 <= k < |s| ==> matchAt(s, k).None?
    ensures ReplaceAll(s, matchAt, subst, 0) == s
  {
    ReplaceAllNoMatch(s, matchAt, subst, 0, |s|);
    assert ReplaceAll(s, matchAt, subst, |s|) == [];
    assert s[0..|s|] == s;
  }
}

=== FILE: loop_guards.dfy ===
/**
 * The loop-guard passes that `wrap` runs before the code is compiled
 * (src/renderer/core/executionEngine.ts:123-173, 263-308, and the same passes
 * in CodeInstrumentation.ts and ExecutionEngine.ts):
 *
 *  - `normalizeForDeclarations` gives a `for (x of e)` / `for (x in e)`
 *    header without a declaration keyword a `let`;
 *  - `while (C) X` and `while (C);` get `__loopGuard()` conjoined to `C`;
 *  - `for (… in/of …) {` gets ` __loopGuard();` right after its `{`;
 *  - classic `for (I; C; N)` gets `(__loopGuard()) && (C)` as condition;
 *  - the result is put between a fixed prefix and suffix and trimmed.
 *
 * Every regular expression is written as a scanner that says where a match
 * starting at a given index ends; each pattern here has at most one match
 * at an index (its greedy classes stop at a character they exclude), so the
 * scanner is the pattern.
 */
module LoopGuards {
  import opened Wrappers
  import opened Lex

  /** A whole word `w` at `k` (`\bw\b`, `w` made of word characters). */
  predicate WordAt(t: string, k: nat, w: string) {
    BoundaryBefore(t, k) && LitAt(t, k, w) && (k + |w| == |t| || !IsWordChar(t[k + |w|]))
  }

  /** `/\b(in|of)\b/.test(t)`. */
  predicate InOfWord(t: string) {
    exists k :: 0 <= k < |t| && (WordAt(t, k, "in") || WordAt(t, k, "of"))
  }

  // ============================================ normalizeForDeclarations

  /** Where the pieces of `for (NAME KW REST)` lie: the name, the rest, and the `)`. */
  datatype LoopVarHeader = LoopVarHeader(nameStart: nat, nameEnd: nat, restStart: nat, close: nat)

  /**
   * `for\s*\(\s*(?!var|let|const)([A-Za-z_$][\w$]*)\s+KW\s+([^)]*)\)` at `i`,
   * read in stages: `for`, `(`, the name, the keyword, the rest up to `)`.
   * There is no `\b` before `for`, and the look-ahead also rejects a name
   * that merely starts with `var`, `let` or `const`.
   */
  function LoopVarHeaderAt(s: string, i: nat, kw: string): (r: Option<LoopVarHeader>)
    ensures r.Some? ==>
              var h := r.value;
              LitAt(s, i, "for") && i + 3 < h.nameStart < h.nameEnd < h.restStart <= h.close < |s| &&
              IsIdentStart(s[h.nameStart]) && s[h.close] == ')'
  {
    if LitAt(s, i, "for") then ParenStage(s, SkipSpaces(s, i + 3), kw) else None
  }

  function ParenStage(s: string, a: nat, kw: string): (r: Option<LoopVarHeader>)
    requires a <= |s|
    ensures r.Some? ==>
              var h := r.value;
              a < h.nameStart < h.nameEnd < h.restStart <= h.close < |s| && IsIdentStart(s[h.nameStart]) && s[h.close] == ')'
  {
    if a < |s| && s[a] == '(' then NameStage(s, SkipSpaces(s, a + 1), kw) else None
  }

  /** `(?!var|let|const)`. */
  predicate DeclKeywordAt(s: string, b: nat) {
    LitAt(s, b, "var") || LitAt(s, b, "let") || LitAt(s, b, "const")
  }

  function NameStage(s: string, b: nat, kw: string): (r: Option<LoopVarHeader>)
    requires b <= |s|
    ensures r.Some? ==>
              var h := r.value;
              b == h.nameStart < h.nameEnd < h.restStart <= h.close < |s| && IsIdentStart(s[b]) && s[h.close] == ')'
  {
    if b < |s| && IsIdentStart(s[b]) && !DeclKeywordAt(s, b) then KeywordStage(s, b, SkipIdent(s, b + 1), kw) else None
  }

  function KeywordStage(s: string, b: nat, e: nat, kw: string): (r: Option<LoopVarHeader>)
    requires b < e <= |s|
    ensures r.Some? ==>
              var h := r.value;
              b == h.nameStart && e == h.nameEnd < h.restStart <= h.close < |s| && s[h.close] == ')'
  {
    var k := SkipSpaces(s, e);
    if k > e && LitAt(s, k, kw) then RestStage(s, b, e, k + |kw|) else None
  }

  function RestStage(s: string, b: nat, e: nat, j: nat): (r: Option<LoopVarHeader>)
    requires b < e < j <= |s|
    ensures r.Some? ==>
              var h := r.value;
              b == h.nameStart && e == h.nameEnd && j < h.restStart <= h.close < |s| && s[h.close] == ')'
  {
    var r := SkipSpaces(s, j);
    if r > j then
      var c := FindChar(s, r, ')');
      if c < |s| then Some(LoopVarHeader(b, e, r, c)) else None
    else None
  }

  /** The end of a `for (NAME KW REST)` match at `i`, as the replace loop needs it. */
  function LoopVarEnd(kw: string): (string, nat) -> Option<nat> {
    (s: string, i: nat) =>
      match LoopVarHeaderAt(s, i, kw)
      case Some(h) => Some(h.close + 1)
      case None => None
  }

  /** `"for (let $1 KW $2)"`. */
  function LetHeader(kw: string): (string, nat, nat) -> string {
    (s: string, i: nat, e: nat) =>
      match LoopVarHeaderAt(s, i, kw)
      case Some(h) => "for (let " + s[h.nameStart..h.nameEnd] + " " + kw + " " + s[h.restStart..h.close] + ")"
      case None => []
  }

  function NormalizeForDeclarations(src: string): string {
    var ofDone := ReplaceAll(src, LoopVarEnd("of"), LetHeader("of"), 0);
    ReplaceAll(ofDone, LoopVarEnd("in"), LetHeader("in"), 0)
  }

  /** The replace loop's view of a header match: its end and its replacement. */
  lemma LetHeaderOf(s: string, i: nat, kw: string, h: LoopVarHeader)
    requires LoopVarHeaderAt(s, i, kw) == Some(h)
    ensures LoopVarEnd(kw)(s, i) == Some(h.close + 1)
    ensures LetHeader(kw)(s, i, h.close + 1) ==
            "for (let " + s[h.nameStart..h.nameEnd] + " " + kw + " " + s[h.restStart..h.close] + ")"
  {
  }

  /**
   * `for (NAME KW REST)` written with single spaces, a name that does not
   * start with a declaration keyword and a rest without `)` is a match, with
   * the pieces where they were written; `LetHeaderOf` gives its rewrite.
   */
  lemma UndeclaredHeaderMatches(s: string, i: nat, n: nat, kw: string, close: nat)
    requires |kw| == 2 && 'a' <= kw[0] <= 'z'
    requires LitAt(s, i, "for (") && i + 5 + n < |s| && s[i + 5 + n] == ' '
    requires n > 0 && IsIdentStart(s[i + 5]) && forall k :: i + 5 < k < i + 5 + n ==> IsIdentChar(s[k])
    requires !DeclKeywordAt(s, i + 5)
    requires LitAt(s, i + 6 + n, kw) && i + 8 + n < |s| && s[i + 8 + n] == ' '
    requires i + 9 + n <= close < |s| && s[close] == ')' && (close == i + 9 + n || !IsSpace(s[i + 9 + n]))
    requires forall k :: i + 9 + n <= k < close ==> s[k] != ')'
    ensures LoopVarHeaderAt(s, i, kw) == Some(LoopVarHeader(i + 5, i + 5 + n, i + 9 + n, close))
  {
    NameOnwards(s, i + 5, n, kw, close);
    ForStageOf(s, i, kw, LoopVarHeader(i + 5, i + 5 + n, i + 9 + n, close));
  }

  /** The stages after `for (`: the name at `b`, then ` KW `, then the rest up to `)`. */
  lemma NameOnwards(s: string, b: nat, n: nat, kw: string, close: nat)
    requires |kw| == 2 && 'a' <= kw[0] <= 'z'
    requires b + n < |s| && s[b + n] == ' '
    requires n > 0 && IsIdentStart(s[b]) && forall k :: b < k < b + n ==> IsIdentChar(s[k])
    requires !DeclKeywordAt(s, b)
    requires LitAt(s, b + 1 + n, kw) && b + 3 + n < |s| && s[b + 3 + n] == ' '
    requires b + 4 + n <= close < |s| && s[close] == ')' && (close == b + 4 + n || !IsSpace(s[b + 4 + n]))
    requires forall k :: b + 4 + n <= k < close ==> s[k] != ')'
    ensures NameStage(s, b, kw) == Some(LoopVarHeader(b, b + n, b + 4 + n, close))
  {
    var h := LoopVarHeader(b, b + n, b + 4 + n, close);
    RestStageOf(s, b, b + n, b + 3 + n, close);
    KeywordStageOf(s, b, b + n, kw, h);
    NameStageOf(s, b, n, kw, h);
  }

  lemma RestStageOf(s: string, b: nat, e: nat, j: nat, close: nat)
    requires b < e < j < close < |s| && s[j] == ' ' && s[close] == ')' && (close == j + 1 || !IsSpace(s[j + 1]))
    requires forall k :: j + 1 <= k < close ==> s[k] != ')'
    ensures RestStage(s, b, e, j) == Some(LoopVarHeader(b, e, j + 1, close))
  {
    assert s[j + 1] == ')' || !IsSpace(s[j + 1]);
    SkipOneSpace(s, j);
    FindCharTo(s, j + 1, close, ')');
  }

  lemma KeywordStageOf(s: string, b: nat, e: nat, kw: string, h: LoopVarHeader)
    requires |kw| == 2 && 'a' <= kw[0] <= 'z'
    requires b < e && e + 3 < |s| && s[e] == ' ' && LitAt(s, e + 1, kw)
    requires RestStage(s, b, e, e + 3) == Some(h)
    ensures KeywordStage(s, b, e, kw) == Some(h)
  {
    assert s[e + 1] == kw[0];
    VisibleNotSpace(s[e + 1]);
    SkipOneSpace(s, e);
  }

  lemma NameStageOf(s: string, b: nat, n: nat, kw: string, h: LoopVarHeader)
    requires n > 0 && b + n < |s| && !IsIdentChar(s[b + n])
    requires IsIdentStart(s[b]) && (forall k :: b < k < b + n ==> IsIdentChar(s[k])) && !DeclKeywordAt(s, b)
    requires KeywordStage(s, b, b + n, kw) == Some(h)
    ensures NameStage(s, b, kw) == Some(h)
  {
    SkipIdentTo(s, b + 1, n - 1);
  }

  lemma ForStageOf(s: string, i: nat, kw: string, h: LoopVarHeader)
    requires LitAt(s, i, "for (") && i + 5 < |s| && IsIdentStart(s[i + 5])
    requires NameStage(s, i + 5, kw) == Some(h)
    ensures LoopVarHeaderAt(s, i, kw) == Some(h)
  {
    ForSpaceParen(s, i);
    assert SkipSpaces(s, i + 5) == i + 5;
  }

  lemma ForSpaceParen(s: string, i: nat)
    requires LitAt(s, i, "for (")
    ensures LitAt(s, i, "for") && i + 4 < |s| && s[i + 4] == '(' && SkipSpaces(s, i + 3) == i + 4
  {
    LitAtChars(s, i, "for (");
    CharsLitAt(s, i, "for");
    SkipOneSpace(s, i + 3);
  }

  /** A header the pass has rewritten starts with `let`, so the pattern does not match it again. */
  lemma LetHeaderIsFinal(s: string, i: nat, kw: string)
    requires LitAt(s, i, "for (let ")
    ensures LoopVarHeaderAt(s, i, kw) == None
  {
    LitAtChars(s, i, "for (let ");
    CharsLitAt(s, i, "for");
    CharsLitAt(s, i + 5, "let");
    VisibleNotSpace(s[i + 4]);
    VisibleNotSpace(s[i + 5]);
    assert SkipSpaces(s, i + 3) == i + 4;
    assert SkipSpaces(s, i + 5) == i + 5;
  }

  /** Text without `for` is left as it is. */
  lemma NormalizeWithoutFor(src: string)
    requires !Contains(src, "for")
    ensures NormalizeForDeclarations(src) == src
  {
    NoLoopVarHeader(src, "of");
    ReplaceAllIdentity(src, LoopVarEnd("of"), LetHeader("of"), 0);
    NoLoopVarHeader(src, "in");
    ReplaceAllIdentity(src, LoopVarEnd("in"), LetHeader("in"), 0);
  }

  lemma NoLoopVarHeader(s: string, kw: string)
    requires !Contains(s, "for")
    ensures forall j: nat :: LoopVarEnd(kw)(s, j) == None
  {
    forall j: nat ensures LoopVarEnd(kw)(s, j) == None {
    }
  }

  // ================================================= injectForInOfGuards

  /** The text inserted after the `{` of a `for … in/of …` body. */
  const LoopGuardCall: string := " __loopGuard();"

  /** `\bfor\s*\(` at `m`: the index just after its `(`. */
  function ForParenAt(s: string, m: nat): (r: Option<nat>)
    ensures r.Some? ==> LitAt(s, m, "for") && m + 3 < r.value <= |s| && s[r.value - 1] == '('
  {
    if BoundaryBefore(s, m) && LitAt(s, m, "for") then
      var a := SkipSpaces(s, m + 3);
      if a < |s| && s[a] == '(' then Some(a + 1) else None
    else None
  }

  /** `forInOfRegex.exec(code)` with its `lastIndex` at `q`: the leftmost match at or after `q`. */
  function NextFor(s: string, q: nat): (r: Option<nat>)
    requires q <= |s|
    ensures r.Some? ==> q <= r.value < |s| && ForParenAt(s, r.value).Some?
    ensures r.None? ==> forall m :: q <= m < |s| ==> ForParenAt(s, m).None?
    decreases |s| - q
  {
    if q == |s| then None
    else if ForParenAt(s, q).Some? then Some(q)
    else NextFor(s, q + 1)
  }

  /** One bracket of any kind opens, one of any kind closes: the source keeps a single counter. */
  function DepthAfter(c: char, depth: nat): nat {
    if c == '(' || c == '[' || c == '{' then depth + 1
    else if (c == ')' || c == ']' || c == '}') && depth > 0 then depth - 1
    else depth
  }

  /** Where the depth scan from `i` stops: just after the bracket that brings `depth` to 0, or at the end. */
  function NestEnd(s: string, i: nat, depth: nat): (r: nat)
    requires i <= |s|
    ensures i <= r <= |s|
    decreases |s| - i
  {
    if i < |s| && depth > 0 then NestEnd(s, i + 1, DepthAfter(s[i], depth)) else i
  }

  /** `code.slice(afterParen, i - 1)`: empty when `i` did not move. */
  function ForContent(s: string, a: nat, i: nat): string
    requires a <= i <= |s|
  {
    if a < i then s[a..i - 1] else []
  }

  /** The header is a `for … in/of …` one: a whole word `in` or `of`, and no `;`. */
  predicate InOfHeader(content: string) {
    InOfWord(content) && ';' !in content
  }

  /** Ascending positions after `q`, each at most `|s|` and just after a `{`. */
  predicate GuardPositions(s: string, ps: seq<nat>, q: nat)
    decreases |ps|
  {
    ps == [] || (q < ps[0] <= |s| && s[ps[0] - 1] == '{' && GuardPositions(s, ps[1..], ps[0]))
  }

  /** What the pass does with one header match: whether it inserts a guard, and where the search resumes. */
  datatype ForVisit = ForVisit(guard: bool, resume: nat)

  /**
   * The pass at the header matched at `m`: after a header that is not a
   * `for … in/of …` one the search resumes just after its `(`; otherwise it
   * resumes one past the first non-space after the header, which gets a
   * guard after it when it is a `{`.
   */
  function VisitAt(s: string, m: nat): (r: ForVisit)
    requires ForParenAt(s, m).Some?
    ensures m < r.resume <= |s| + 1
    ensures r.guard ==> r.resume <= |s| && s[r.resume - 1] == '{'
  {
    var a := ForParenAt(s, m).value;
    var i := NestEnd(s, a, 1);
    if !InOfHeader(ForContent(s, a, i)) then ForVisit(false, a)
    else
      var b := SkipSpaces(s, i);
      ForVisit(b < |s| && s[b] == '{', b + 1)
  }

  /** A visit from `q` resumes after `q`, and a guard it places follows a `{`. */
  predicate VisitFits(s: string, q: nat, v: ForVisit) {
    q < v.resume <= |s| + 1 && (v.guard ==> v.resume <= |s| && s[v.resume - 1] == '{')
  }

  /** The next header match at or after `q`, and what the pass does with it. */
  function NextVisit(s: string, q: nat): (r: Option<ForVisit>)
    requires q <= |s|
    ensures r.Some? ==> VisitFits(s, q, r.value)
  {
    match NextFor(s, q)
    case None => None
    case Some(m) => Some(VisitAt(s, m))
  }

  /** The positions after which the pass inserts a guard, scanning from the regular expression's `lastIndex` `q`. */
  function GuardsFrom(s: string, q: nat): seq<nat>
    decreases |s| + 1 - q
  {
    if q > |s| then []
    else
      match NextVisit(s, q)
      case None => []
      case Some(v) =>
        if v.guard then [v.resume] + GuardsFrom(s, v.resume) else GuardsFrom(s, v.resume)
  }

  /** Every guard goes right after a `{`, in increasing order, after where the search started. */
  lemma {:induction false} GuardsFollowBraces(s: string, q: nat)
    ensures GuardPositions(s, GuardsFrom(s, q), q)
    decreases |s| + 1 - q
  {
    if q <= |s| && NextVisit(s, q).Some? {
      var v := NextVisit(s, q).value;
      GuardsFollowBraces(s, v.resume);
      assert GuardsFrom(s, q) == (if v.guard then [v.resume] else []) + GuardsFrom(s, v.resume);
      GuardsAfterVisit(s, q, v, GuardsFrom(s, v.resume));
    }
  }

  lemma GuardsAfterVisit(s: string, q: nat, v: ForVisit, rest: seq<nat>)
    requires VisitFits(s, q, v)
    requires GuardPositions(s, rest, v.resume)
    ensures GuardPositions(s, (if v.guard then [v.resume] else []) + rest, q)
  {
    if v.guard {
      PrependGuard(s, v.resume, rest, q);
    } else {
      assert [] + rest == rest;
      GuardPositionsEarlier(s, rest, q, v.resume);
    }
  }

  lemma PrependGuard(s: string, p: nat, rest: seq<nat>, q: nat)
    requires q < p <= |s| && s[p - 1] == '{' && GuardPositions(s, rest, p)
    ensures GuardPositions(s, [p] + rest, q)
  {
    assert ([p] + rest)[1..] == rest;
  }

  lemma GuardPositionsEarlier(s: string, ps: seq<nat>, q: nat, q': nat)
    requires q <= q' && GuardPositions(s, ps, q')
    ensures GuardPositions(s, ps, q)
  {
  }

  /** `s[from..]` with `LoopGuardCall` inserted at each of `ps`. */
  function InsertGuards(s: string, ps: seq<nat>, from: nat): string
    decreases |ps|
  {
    if from > |s| then []
    else if ps != [] && from <= ps[0] <= |s| then s[from..ps[0]] + LoopGuardCall + InsertGuards(s, ps[1..], ps[0])
    else s[from..]
  }

  /** Deletes the text `InsertGuards` put at `ps`, reading `t` as the image of `s[from..]`. */
  function RemoveGuards(t: string, ps: seq<nat>, from: nat): string
    decreases |ps|
  {
    if ps == [] then t
    else if from <= ps[0] && ps[0] - from + |LoopGuardCall| <= |t| then
      var k := ps[0] - from;
      t[..k] + RemoveGuards(t[k + |LoopGuardCall|..], ps[1..], ps[0])
    else t
  }

  /** The pass only inserts: removing what it inserted gives back the input. */
  lemma {:induction false} RemoveInsertedGuards(s: string, ps: seq<nat>, from: nat)
    requires from <= |s| && GuardPositions(s, ps, from)
    ensures RemoveGuards(InsertGuards(s, ps, from), ps, from) == s[from..]
    decreases |ps|
  {
    if ps != [] {
      var p := ps[0];
      var rest := InsertGuards(s, ps[1..], p);
      assert InsertGuards(s, ps, from) == s[from..p] + LoopGuardCall + rest;
      RemoveStep(s[from..p], rest, ps, from);
      RemoveInsertedGuards(s, ps[1..], p);
      SliceSplit(s, from, p);
    }
  }

  lemma RemoveStep(pre: string, rest: string, ps: seq<nat>, from: nat)
    requires ps != [] && from <= ps[0] && |pre| == ps[0] - from
    ensures RemoveGuards(pre + LoopGuardCall + rest, ps, from) == pre + RemoveGuards(rest, ps[1..], ps[0])
  {
    var t := pre + LoopGuardCall + rest;
    assert t[..|pre|] == pre;
    assert t[|pre| + |LoopGuardCall|..] == rest;
  }

  /** What `injectForInOfGuards` returns, with its guards deleted, is its input. */
  lemma ForInOfGuardsOnlyInsert(code: string)
    ensures RemoveGuards(InsertGuards(code, GuardsFrom(code, 0), 0), GuardsFrom(code, 0), 0) == code
  {
    GuardsFollowBraces(code, 0);
    RemoveInsertedGuards(code, GuardsFrom(code, 0), 0);
  }

  /** The depth scan over `code` from `i`, as the source's inner loop. */
  method ScanNest(code: string, start: nat) returns (i: nat)
    requires start <= |code|
    ensures i == NestEnd(code, start, 1)
  {
    var depth: nat := 1;
    i := start;
    while i < |code| && depth > 0
      invariant start <= i <= |code|
      invariant NestEnd(code, i, depth) == NestEnd(code, start, 1)
      decreases |code| - i
    {
      var ch := code[i];
      if ch == '(' || ch == '[' || ch == '{' {
        depth := depth + 1;
      } else if ch == ')' || ch == ']' || ch == '}' {
        depth := depth - 1;
      }
      i := i + 1;
    }
  }

  /** `while (bracePos < code.length && /\s/.test(code[bracePos])) bracePos++`. */
  method SkipBlank(code: string, start: nat) returns (b: nat)
    requires start <= |code|
    ensures b == SkipSpaces(code, start)
  {
    b := start;
    while b < |code| && IsSpace(code[b])
      invariant start <= b <= |code|
      invariant SkipSpaces(code, b) == SkipSpaces(code, start)
      decreases |code| - b
    {
      b := b + 1;
    }
  }

  /** The body of the source's `exec` loop for the header matched at `m`, without the splice. */
  method Visit(code: string, m: nat) returns (guard: bool, resume: nat)
    requires ForParenAt(code, m).Some?
    ensures ForVisit(guard, resume) == VisitAt(code, m)
  {
    var afterParen := ForParenAt(code, m).value;
    var i := ScanNest(code, afterParen);
    var forContent := ForContent(code, afterParen, i);
    if !InOfHeader(forContent) {
      return false, afterParen;
    }
    var bracePos := SkipBlank(code, i);
    guard := bracePos < |code| && code[bracePos] == '{';
    resume := bracePos + 1;
  }

  /**
   * `injectForInOfGuards`: ` __loopGuard();` after the `{` of every
   * `for … in/of …` body, found by the regular expression loop and the
   * bracket-depth scan.
   */
  method InjectForInOfGuards(code: string) returns (result: string)
    ensures result == InsertGuards(code, GuardsFrom(code, 0), 0)
  {
    result := "";
    var lastIndex: nat := 0;
    var re: nat := 0;
    while re <= |code|
      invariant lastIndex <= re && lastIndex <= |code|
      invariant InsertGuards(code, GuardsFrom(code, 0), 0) == result + InsertGuards(code, GuardsFrom(code, re), lastIndex)
      decreases |code| + 1 - re
    {
      var next := NextFor(code, re);
      if next.None? {
        break;
      }
      var guard, resume := Visit(code, next.value);
      if guard {
        GuardStep(code, GuardsFrom(code, resume), lastIndex, resume, result);
        result := result + code[lastIndex..resume] + LoopGuardCall;
        lastIndex := resume;
      }
      re := resume;
    }
    result := result + code[lastIndex..];
  }

  lemma GuardStep(s: string, rest: seq<nat>, from: nat, p: nat, done: string)
    requires from < p <= |s|
    ensures done + InsertGuards(s, [p] + rest, from) == done + s[from..p] + LoopGuardCall + InsertGuards(s, rest, p)
  {
    var ps := [p] + rest;
    assert ps[1..] == rest;
    Assoc(s[from..p], LoopGuardCall, InsertGuards(s, rest, p));
    Assoc(done, s[from..p] + LoopGuardCall, InsertGuards(s, rest, p));
    Assoc(done, s[from..p], LoopGuardCall);
  }

  /** The characters the depth scan counts. */
  predicate Bracket(c: char) {
    c == '(' || c == '[' || c == '{' || c == ')' || c == ']' || c == '}'
  }

  /**
   * `for (HEAD) {` with the header's `(` ending at `m`'s match: HEAD runs to
   * the `)` at `c`, holds no bracket, a whole word `in` or `of` and no `;`,
   * and only spaces lie between that `)` and the `{` at `b`.
   */
  predicate InOfLoopAt(s: string, m: nat, c: nat, b: nat) {
    ForParenAt(s, m).Some? && ForParenAt(s, m).value <= c < b < |s| && s[c] == ')' && s[b] == '{' &&
    (forall k :: ForParenAt(s, m).value <= k < c ==> !Bracket(s[k])) &&
    InOfHeader(s[ForParenAt(s, m).value..c]) && AllSpaces(s[c + 1..b])
  }

  /** Over bracket-free text the depth scan from inside a `(` stops just past the first `)`. */
  lemma {:induction false} NestEndFlat(s: string, i: nat, c: nat)
    requires i <= c < |s| && s[c] == ')'
    requires forall k :: i <= k < c ==> !Bracket(s[k])
    ensures NestEnd(s, i, 1) == c + 1
    decreases c - i
  {
    if i < c {
      NestEndFlat(s, i + 1, c);
    }
  }

  /** Such a header is visited with a guard right after its `{`, and the search resumes there. */
  lemma InOfLoopVisit(s: string, m: nat, c: nat, b: nat)
    requires InOfLoopAt(s, m, c, b)
    ensures VisitAt(s, m) == ForVisit(true, b + 1)
  {
    InOfLoopScan(s, ForParenAt(s, m).value, c, b);
  }

  lemma InOfLoopScan(s: string, a: nat, c: nat, b: nat)
    requires a <= c < b < |s| && s[c] == ')' && s[b] == '{' && AllSpaces(s[c + 1..b])
    requires forall k :: a <= k < c ==> !Bracket(s[k])
    ensures NestEnd(s, a, 1) == c + 1 && ForContent(s, a, c + 1) == s[a..c] && SkipSpaces(s, c + 1) == b
  {
    NestEndFlat(s, a, c);
    SkipSpacesTo(s, c + 1, b - c - 1);
  }

  /**
   * Completeness: when the search, resumed at `q`, next meets such a
   * header, the pass puts ` __loopGuard();` right after the header's `{`
   * and goes on from there; the text before it is copied unchanged.
   */
  lemma InOfBodyGuarded(s: string, q: nat, from: nat, m: nat, c: nat, b: nat)
    requires from <= q <= |s| && NextFor(s, q) == Some(m) && InOfLoopAt(s, m, c, b)
    ensures GuardsFrom(s, q) == [b + 1] + GuardsFrom(s, b + 1)
    ensures InsertGuards(s, GuardsFrom(s, q), from) ==
            s[from..b + 1] + LoopGuardCall + InsertGuards(s, GuardsFrom(s, b + 1), b + 1)
  {
    InOfLoopVisit(s, m, c, b);
    assert ([b + 1] + GuardsFrom(s, b + 1))[1..] == GuardsFrom(s, b + 1);
  }

  /** Text without `for` gets no guard. */
  lemma NoForNoGuards(s: string, q: nat)
    requires !Contains(s, "for")
    ensures GuardsFrom(s, q) == []
  {
    NoForHeader(s);
  }

  lemma NoForHeader(s: string)
    requires !Contains(s, "for")
    ensures forall m: nat :: ForParenAt(s, m).None?
  {
    forall m: nat ensures ForParenAt(s, m).None? {
    }
  }

  // ========================================================= while loops

  /** `\bwhile\s*\(([^)]*)\)\s*`: the condition is `s[open..close]`, `s[close]` is `)`, and `next` is the first non-space after it. */
  datatype WhileHead = WhileHead(open: nat, close: nat, next: nat)

  function WhileHeadAt(s: string, i: nat): (r: Option<WhileHead>)
    ensures r.Some? ==>
              var h := r.value;
              i + 5 < h.open <= h.close < h.next <= |s| && s[h.close] == ')' &&
              (forall k :: h.open <= k < h.close ==> s[k] != ')') && (h.next == |s| || !IsSpace(s[h.next]))
  {
    if BoundaryBefore(s, i) && LitAt(s, i, "while") then
      var a := SkipSpaces(s, i + 5);
      if a < |s| && s[a] == '(' then
        var c := FindChar(s, a + 1, ')');
        if c < |s| then Some(WhileHead(a + 1, c, SkipSpaces(s, c + 1))) else None
      else None
    else None
  }

  /** The condition a guarded `while` gets. */
  function GuardedWhileCondition(cond: string): string {
    "while((__loopGuard()) && (" + cond + "))"
  }

  /** `(\{|[^;\s])` after the head: a body that starts on any character but `;`. */
  function WhileWithBodyEnd(s: string, i: nat): Option<nat> {
    match WhileHeadAt(s, i)
    case Some(h) => if h.next < |s| && s[h.next] != ';' then Some(h.next + 1) else None
    case None => None
  }

  /** `while((__loopGuard()) && (C)) B`, the spaces before `B` replaced by one. */
  function WhileWithBodyText(s: string, i: nat, e: nat): string {
    match WhileHeadAt(s, i)
    case Some(h) => if h.next < |s| then GuardedWhileCondition(s[h.open..h.close]) + " " + [s[h.next]] else []
    case None => []
  }

  /** `;` after the head: a `while` with an empty body, as ends a `do … while`. */
  function EmptyWhileEnd(s: string, i: nat): Option<nat> {
    match WhileHeadAt(s, i)
    case Some(h) => if h.next < |s| && s[h.next] == ';' then Some(h.next + 1) else None
    case None => None
  }

  /** `while((__loopGuard()) && (C));`. */
  function EmptyWhileText(s: string, i: nat, e: nat): string {
    match WhileHeadAt(s, i)
    case Some(h) => GuardedWhileCondition(s[h.open..h.close]) + ";"
    case None => []
  }

  /** The two `while` passes, in the order the source runs them. */
  function GuardWhileLoops(code: string): string {
    var bodied := ReplaceAll(code, WhileWithBodyEnd, WhileWithBodyText, 0);
    ReplaceAll(bodied, EmptyWhileEnd, EmptyWhileText, 0)
  }

  /**
   * `while(C)` at a word boundary, `C` free of `)`: the head is recognised
   * with `C` as its condition; the first pass then guards it when the next
   * non-space is not `;`, and the second when it is.
   */
  lemma WhileHeadMatches(s: string, i: nat, c: nat)
    requires BoundaryBefore(s, i) && LitAt(s, i, "while(")
    requires i + 6 <= c < |s| && s[c] == ')' && forall k :: i + 6 <= k < c ==> s[k] != ')'
    ensures WhileHeadAt(s, i) == Some(WhileHead(i + 6, c, SkipSpaces(s, c + 1)))
  {
    WhileParen(s, i);
    FindCharTo(s, i + 6, c, ')');
    WhileHeadOf(s, i, i + 5, c);
  }

  lemma WhileHeadOf(s: string, i: nat, a: nat, c: nat)
    requires BoundaryBefore(s, i) && LitAt(s, i, "while") && i + 5 <= a < c < |s|
    requires SkipSpaces(s, i + 5) == a && s[a] == '(' && FindChar(s, a + 1, ')') == c
    ensures WhileHeadAt(s, i) == Some(WhileHead(a + 1, c, SkipSpaces(s, c + 1)))
  {
  }

  lemma WhileParen(s: string, i: nat)
    requires LitAt(s, i, "while(")
    ensures LitAt(s, i, "while") && i + 5 < |s| && s[i + 5] == '(' && SkipSpaces(s, i + 5) == i + 5
  {
    LitAtChars(s, i, "while(");
    CharsLitAt(s, i, "while");
  }

  /**
   * The first pass at a head followed by a body that does not start with
   * `;`: `while((__loopGuard()) && (C)) X`, with the spaces before the
   * body's first character `X` made one, and the search resumes after `X`.
   */
  lemma WhileWithBodyRewrite(s: string, i: nat, h: WhileHead)
    requires WhileHeadAt(s, i) == Some(h) && h.next < |s| && s[h.next] != ';'
    ensures ReplaceAll(s, WhileWithBodyEnd, WhileWithBodyText, i) ==
            WhileWithBodyText(s, i, h.next + 1) + ReplaceAll(s, WhileWithBodyEnd, WhileWithBodyText, h.next + 1)
    ensures WhileWithBodyText(s, i, h.next + 1) == GuardedWhileCondition(s[h.open..h.close]) + " " + [s[h.next]]
  {
    BodiedMatch(s, i, h);
    ReplaceAllMatch(s, WhileWithBodyEnd, WhileWithBodyText, i, h.next + 1);
  }

  lemma BodiedMatch(s: string, i: nat, h: WhileHead)
    requires WhileHeadAt(s, i) == Some(h) && h.next < |s| && s[h.next] != ';'
    ensures WhileWithBodyEnd(s, i) == Some(h.next + 1)
  {
  }

  /** The first pass leaves `while(C);` alone; the second rewrites it to `while((__loopGuard()) && (C));`. */
  lemma EmptyWhileRewrite(s: string, i: nat, h: WhileHead)
    requires WhileHeadAt(s, i) == Some(h) && h.next < |s| && s[h.next] == ';'
    ensures WhileWithBodyEnd(s, i).None?
    ensures ReplaceAll(s, EmptyWhileEnd, EmptyWhileText, i) ==
            EmptyWhileText(s, i, h.next + 1) + ReplaceAll(s, EmptyWhileEnd, EmptyWhileText, h.next + 1)
    ensures EmptyWhileText(s, i, h.next + 1) == GuardedWhileCondition(s[h.open..h.close]) + ";"
  {
    EmptyMatch(s, i, h);
    ReplaceAllMatch(s, EmptyWhileEnd, EmptyWhileText, i, h.next + 1);
  }

  lemma EmptyMatch(s: string, i: nat, h: WhileHead)
    requires WhileHeadAt(s, i) == Some(h) && h.next < |s| && s[h.next] == ';'
    ensures EmptyWhileEnd(s, i) == Some(h.next + 1) && WhileWithBodyEnd(s, i).None?
  {
  }

  /** A head at the very end of the text has nothing after it, and neither pass matches it. */
  lemma WhileHeadAtEndUnguarded(s: string, i: nat, h: WhileHead)
    requires WhileHeadAt(s, i) == Some(h) && h.next == |s|
    ensures WhileWithBodyEnd(s, i).None? && EmptyWhileEnd(s, i).None?
  {
  }

  /** The result of the first pass is never matched by the second: a guarded head is followed by `)`, not `;`. */
  lemma GuardedWhileIsFinal(t: string, i: nat)
    requires LitAt(t, i, "while((__loopGuard())")
    ensures EmptyWhileEnd(t, i) == None
  {
    LitAtChars(t, i, "while((__loopGuard())");
    CharsLitAt(t, i, "while");
    VisibleNotSpace(t[i + 5]);
    VisibleNotSpace(t[i + 20]);
    assert SkipSpaces(t, i + 5) == i + 5;
    FindCharTo(t, i + 6, i + 19, ')');
    assert SkipSpaces(t, i + 20) == i + 20;
  }

  // ========================================================= classic for

  /**
   * `\bfor\s*\(([^;]+);([^;]*);([^)]*)\)`: the initialiser is
   * `s[open..semi1]` (at least one character, possibly `)`), the condition
   * `s[semi1 + 1..semi2]`, the update `s[semi2 + 1..close]`, with
   * `s[close] == ')'`.
   */
  datatype ForParts = ForParts(open: nat, semi1: nat, semi2: nat, close: nat)

  function ClassicForAt(s: string, i: nat): (r: Option<ForParts>)
    ensures r.Some? ==>
              var p := r.value;
              i + 3 < p.open < p.semi1 < p.semi2 < p.close < |s| &&
              s[p.semi1] == ';' && s[p.semi2] == ';' && s[p.close] == ')'
  {
    match ForParenAt(s, i)
    case None => None
    case Some(a) =>
      var p1 := FindChar(s, a, ';');
      if a < p1 < |s| then
        var p2 := FindChar(s, p1 + 1, ';');
        if p2 < |s| then
          var c := FindChar(s, p2 + 1, ')');
          if c < |s| then Some(ForParts(a, p1, p2, c)) else None
        else None
      else None
  }

  /** `(__loopGuard()) && (C)` with `C` trimmed, or `(__loopGuard()) && true` for an empty `C`. */
  function GuardedForCondition(cond: string): string {
    var c := Trim(cond);
    if c != [] then "(__loopGuard()) && (" + c + ")" else "(__loopGuard()) && true"
  }

  /** `for(I; G; N)`. */
  function GuardedForHeader(s: string, p: ForParts): string
    requires p.open <= p.semi1 < p.semi2 < p.close <= |s|
  {
    "for(" + s[p.open..p.semi1] + "; " + GuardedForCondition(s[p.semi1 + 1..p.semi2]) + "; " + s[p.semi2 + 1..p.close] + ")"
  }

  /** The source's pass: every match is consumed, even one whose initialiser holds `in`/`of`. */
  function ClassicForEndAsWritten(s: string, i: nat): Option<nat> {
    match ClassicForAt(s, i)
    case Some(p) => Some(p.close + 1)
    case None => None
  }

  /** The callback: a match whose initialiser holds a word `in` or `of` is given back as it is. */
  function ClassicForTextAsWritten(s: string, i: nat, e: nat): string {
    match ClassicForAt(s, i)
    case Some(p) => if InOfWord(s[p.open..p.semi1]) then s[i..p.close + 1] else GuardedForHeader(s, p)
    case None => []
  }

  function GuardClassicForAsWritten(code: string): string {
    ReplaceAll(code, ClassicForEndAsWritten, ClassicForTextAsWritten, 0)
  }

  /**
   * The evident intent, that a header whose initialiser holds `in`/`of` is
   * left alone: such a header is not a match, so the search goes on from
   * the next character instead of from after the `)` the pattern reached.
   */
  function ClassicForEnd(s: string, i: nat): Option<nat> {
    match ClassicForAt(s, i)
    case Some(p) => if InOfWord(s[p.open..p.semi1]) then None else Some(p.close + 1)
    case None => None
  }

  function ClassicForText(s: string, i: nat, e: nat): string {
    match ClassicForAt(s, i)
    case Some(p) => GuardedForHeader(s, p)
    case None => []
  }

  function GuardClassicFor(code: string): string {
    ReplaceAll(code, ClassicForEnd, ClassicForText, 0)
  }

  /** A classic header at `i` whose initialiser holds a word `in` or `of`: the only case where the two passes differ. */
  predicate InOfInitAt(s: string, i: nat) {
    match ClassicForAt(s, i)
    case Some(p) => InOfWord(s[p.open..p.semi1])
    case None => false
  }

  /** On text where no classic header's initialiser holds `in`/`of`, the pass as written and the corrected one agree. */
  lemma PassesAgreeWithoutInOfInit(s: string)
    requires forall i :: 0 <= i < |s| ==> !InOfInitAt(s, i)
    ensures GuardClassicForAsWritten(s) == GuardClassicFor(s)
  {
    forall k | 0 <= k < |s|
      ensures ClassicForEndAsWritten(s, k) == ClassicForEnd(s, k)
      ensures forall e :: ClassicForEndAsWritten(s, k) == Some(e) ==> ClassicForTextAsWritten(s, k, e) == ClassicForText(s, k, e)
    {
      PassesAgreeAt(s, k);
    }
    ReplaceAllAgree(s, ClassicForEndAsWritten, ClassicForTextAsWritten, ClassicForEnd, ClassicForText, 0);
  }

  lemma PassesAgreeAt(s: string, k: nat)
    requires !InOfInitAt(s, k)
    ensures ClassicForEndAsWritten(s, k) == ClassicForEnd(s, k)
    ensures forall e :: ClassicForEndAsWritten(s, k) == Some(e) ==> ClassicForTextAsWritten(s, k, e) == ClassicForText(s, k, e)
  {
  }

  /** `for(I;C;N)` at a word boundary, `I` non-empty: the pieces are where they were written. */
  lemma ClassicForHeaderMatches(s: string, i: nat, p1: nat, p2: nat, c: nat)
    requires BoundaryBefore(s, i) && LitAt(s, i, "for(")
    requires i + 4 < p1 < p2 < c < |s| && s[p1] == ';' && s[p2] == ';' && s[c] == ')'
    requires forall k :: i + 4 <= k < p1 ==> s[k] != ';'
    requires forall k :: p1 < k < p2 ==> s[k] != ';'
    requires forall k :: p2 < k < c ==> s[k] != ')'
    ensures ClassicForAt(s, i) == Some(ForParts(i + 4, p1, p2, c))
  {
    ForHeadAt(s, i);
    FindCharTo(s, i + 4, p1, ';');
    FindCharTo(s, p1 + 1, p2, ';');
    FindCharTo(s, p2 + 1, c, ')');
  }

  lemma ForHeadAt(s: string, i: nat)
    requires BoundaryBefore(s, i) && LitAt(s, i, "for(")
    ensures ForParenAt(s, i) == Some(i + 4)
  {
    ForParen(s, i);
    assert SkipSpaces(s, i + 3) == i + 3;
  }

  lemma ForParen(s: string, i: nat)
    requires LitAt(s, i, "for(")
    ensures LitAt(s, i, "for") && i + 3 < |s| && s[i + 3] == '('
  {
    LitAtChars(s, i, "for(");
    CharsLitAt(s, i, "for");
  }

  /** A header whose initialiser has no word `in`/`of` is replaced by its guarded form, and the search resumes after its `)`. */
  lemma ClassicForGuarded(s: string, i: nat, p: ForParts)
    requires ClassicForAt(s, i) == Some(p) && !InOfWord(s[p.open..p.semi1])
    ensures ClassicForEnd(s, i) == Some(p.close + 1) && ClassicForEndAsWritten(s, i) == Some(p.close + 1)
    ensures ClassicForText(s, i, p.close + 1) == GuardedForHeader(s, p)
    ensures ClassicForTextAsWritten(s, i, p.close + 1) == GuardedForHeader(s, p)
  {
  }

  /** The guard is conjoined with the trimmed condition, and replaces a blank one by `true`. */
  lemma GuardedConditionCases(cond: string)
    ensures AllSpaces(cond) <==> GuardedForCondition(cond) == "(__loopGuard()) && true"
    ensures !AllSpaces(cond) ==> GuardedForCondition(cond) == "(__loopGuard()) && (" + Trim(cond) + ")" && Trim(cond) != []
  {
    TrimEmpty(cond);
    if !AllSpaces(cond) {
      var g := "(__loopGuard()) && (" + Trim(cond) + ")";
      assert g[19] == '(';
      assert "(__loopGuard()) && true"[19] == 't';
    }
  }

  /** An empty initialiser, as in `for(;;)`, is not a match: such a loop gets no guard. */
  lemma EmptyInitNotGuarded(s: string, i: nat)
    requires BoundaryBefore(s, i) && LitAt(s, i, "for(;")
    ensures ClassicForAt(s, i) == None
  {
    LitAtChars(s, i, "for(;");
    CharsLitAt(s, i, "for(");
    ForHeadAt(s, i);
    assert FindChar(s, i + 4, ';') == i + 4;
  }

  /**
   * As written, a header whose initialiser holds `in`/`of` is consumed up to
   * the `)` the pattern reached, and everything up to there is copied
   * unchanged, whatever other loop headers it holds.
   */
  lemma AsWrittenCopiesInOfMatch(s: string, i: nat, p: ForParts)
    requires ClassicForAt(s, i) == Some(p) && InOfWord(s[p.open..p.semi1])
    ensures ReplaceAll(s, ClassicForEndAsWritten, ClassicForTextAsWritten, i) ==
            s[i..p.close + 1] + ReplaceAll(s, ClassicForEndAsWritten, ClassicForTextAsWritten, p.close + 1)
  {
    assert ClassicForEndAsWritten(s, i) == Some(p.close + 1);
    assert ClassicForTextAsWritten(s, i, p.close + 1) == s[i..p.close + 1];
    ReplaceAllMatch(s, ClassicForEndAsWritten, ClassicForTextAsWritten, i, p.close + 1);
  }

  /** Corrected, such a header is passed over by one character, so headers inside it are still visited. */
  lemma CorrectedPassesOverInOf(s: string, i: nat, p: ForParts)
    requires ClassicForAt(s, i) == Some(p) && InOfWord(s[p.open..p.semi1])
    ensures ReplaceAll(s, ClassicForEnd, ClassicForText, i) == [s[i]] + ReplaceAll(s, ClassicForEnd, ClassicForText, i + 1)
  {
    assert ClassicForEnd(s, i) == None;
    ReplaceAllSkip(s, ClassicForEnd, ClassicForText, i);
  }

  /** `for(x of y);for(i;c;n)`: the as-written pass leaves the second, classic, header unguarded. */
  lemma AsWrittenLeavesLaterHeaderUnguarded()
    ensures GuardClassicForAsWritten("for(x of y);for(i;c;n)") == "for(x of y);for(i;c;n)"
  {
    var s := "for(x of y);for(i;c;n)";
    OfHeaderFirst(s);
    AsWrittenCopiesInOfMatch(s, 0, ForParts(4, 11, 17, 21));
  }

  /** In `for(x of y);for(i;c;n)` the first match runs from the start to the last `)`, with `x of y)` as its initialiser. */
  lemma OfHeaderFirst(s: string)
    requires s == "for(x of y);for(i;c;n)"
    ensures ClassicForAt(s, 0) == Some(ForParts(4, 11, 17, 21)) && InOfWord(s[4..11])
  {
    ClassicForHeaderMatches(s, 0, 11, 17, 21);
    OfInitialiser(s[4..11]);
  }

  lemma OfInitialiser(t: string)
    requires t == "x of y)"
    ensures InOfWord(t)
  {
    assert WordAt(t, 2, "of");
  }

  /** Corrected, the same text gets its classic header guarded, and so differs from the input. */
  lemma CorrectedGuardsLaterHeader(s: string)
    requires s == "for(x of y);for(i;c;n)"
    ensures GuardClassicFor(s) == s[..12] + GuardedForHeader(s, ForParts(16, 17, 19, 21))
  {
    var g := GuardedForHeader(s, ForParts(16, 17, 19, 21));
    CorrectedFirstStep(s);
    CorrectedUpToSecond(s);
    Assoc([s[0]], s[1..12], g);
    ConsSlice(s, 12);
  }

  lemma CorrectedFirstStep(s: string)
    requires s == "for(x of y);for(i;c;n)"
    ensures GuardClassicFor(s) == [s[0]] + ReplaceAll(s, ClassicForEnd, ClassicForText, 1)
  {
    OfHeaderFirst(s);
    CorrectedPassesOverInOf(s, 0, ForParts(4, 11, 17, 21));
  }

  lemma CorrectedUpToSecond(s: string)
    requires s == "for(x of y);for(i;c;n)"
    ensures ReplaceAll(s, ClassicForEnd, ClassicForText, 1) == s[1..12] + GuardedForHeader(s, ForParts(16, 17, 19, 21))
  {
    NoHeaderInside(s);
    ReplaceAllNoMatch(s, ClassicForEnd, ClassicForText, 1, 12);
    SecondHeaderGuarded(s);
  }

  /** The corrected output is longer than the input, so the two differ. */
  lemma CorrectedDiffersFromInput(s: string)
    requires s == "for(x of y);for(i;c;n)"
    ensures GuardClassicFor(s) != s
  {
    CorrectedGuardsLaterHeader(s);
    GuardedHeaderLength(s, ForParts(16, 17, 19, 21));
  }

  /** A guarded header is at least as long as `for(; (__loopGuard()) && true; )`. */
  lemma GuardedHeaderLength(s: string, p: ForParts)
    requires p.open <= p.semi1 < p.semi2 < p.close <= |s|
    ensures |GuardedForHeader(s, p)| >= 29
  {
  }

  lemma NoHeaderInside(s: string)
    requires s == "for(x of y);for(i;c;n)"
    ensures forall k :: 1 <= k < 12 ==> ClassicForEnd(s, k).None?
  {
    forall k | 1 <= k < 12 ensures ForParenAt(s, k).None? {
      if LitAt(s, k, "for") {
        LitAtChars(s, k, "for");
      }
    }
  }

  lemma SecondHeaderGuarded(s: string)
    requires s == "for(x of y);for(i;c;n)"
    ensures ReplaceAll(s, ClassicForEnd, ClassicForText, 12) == GuardedForHeader(s, ForParts(16, 17, 19, 21))
  {
    var p := ForParts(16, 17, 19, 21);
    SecondHeaderParts(s);
    ClassicForGuarded(s, 12, p);
    ReplaceAllMatch(s, ClassicForEnd, ClassicForText, 12, 22);
    assert ReplaceAll(s, ClassicForEnd, ClassicForText, 22) == [];
  }

  lemma SecondHeaderParts(s: string)
    requires s == "for(x of y);for(i;c;n)"
    ensures ClassicForAt(s, 12) == Some(ForParts(16, 17, 19, 21)) && !InOfWord(s[16..17])
  {
    ClassicForHeaderMatches(s, 12, 17, 19, 21);
    assert s[16..17] == "i";
  }
}

=== FILE: magic_comments.dfy ===
/**
 * The `//?` probe passes: extraction, marker removal and instrumentation.
 * src/renderer/core/executionEngine.ts and src/renderer/core/CodeInstrumentation.ts
 * hold the same three passes and differ only in the recorder they call
 * (`recordMagic` and `__recordMagic`), so the recorder is a parameter.
 */
module MagicComments {
  import opened Wrappers
  import opened Lex

  /** A probe: the 1-based line it sits on and the expression whose value is shown there. */
  datatype Probe = Probe(line: int, expression: string)

  const Marker: string := "//?"

  /** The index of the `//?` marker, when the line ends with it up to trailing spaces. */
  function MarkerAt(line: string): (r: Option<nat>)
    ensures r.Some? ==> r.value + 3 <= |line| && LitAt(line, r.value, Marker) && AllSpaces(line[r.value + 3..])
  {
    var t := TrimEnd(line);
    if |t| >= 3 && t[|t| - 3..] == Marker then
      assert line[|t| - 3..|t|] == t[|t| - 3..];
      Some(|t| - 3)
    else None
  }

  /** `\s*\/\/\?\s*$` matches at `n`: spaces from `n` up to the marker, and only spaces after it. */
  predicate MarkerFrom(line: string, n: nat) {
    n <= |line| &&
    var j := SkipSpaces(line, n);
    LitAt(line, j, Marker) && AllSpaces(line[j + 3..])
  }

  /**
   * The group of `^(.+?)\s*\/\/\?\s*$`: the shortest non-empty prefix after
   * which the rest of the line is spaces, the marker and spaces, provided that
   * prefix holds no line terminator (`.` does not match one).
   */
  function ProbeText(line: string): (r: Option<string>)
    ensures r.Some? ==> r.value != [] && NoLineTerminator(r.value)
  {
    match MarkerAt(line)
    case None => None
    case Some(j) =>
      if j == 0 then None
      else
        var q := line[..j];
        var p := if TrimEnd(q) != [] then TrimEnd(q) else q[..1];
        if NoLineTerminator(p) then Some(p) else None
  }

  /** The marker position is the only place the tail pattern can match. */
  lemma MarkerFromMeansMarkerAt(line: string, n: nat)
    requires MarkerFrom(line, n)
    ensures MarkerAt(line) == Some(SkipSpaces(line, n))
  {
    var j := SkipSpaces(line, n);
    assert line[..j + 3][j + 2] == '?';
    TrimEndAt(line, j + 3);
    assert TrimEnd(line)[|TrimEnd(line)| - 3..] == line[j..j + 3];
  }

  lemma MarkerAtMeansMarkerFrom(line: string, n: nat)
    requires MarkerAt(line).Some? && n <= MarkerAt(line).value && AllSpaces(line[n..MarkerAt(line).value])
    ensures MarkerFrom(line, n)
  {
    var j := MarkerAt(line).value;
    assert !IsSpace(line[j]) by { assert line[j..j + 3][0] == line[j]; }
    SkipSpacesTo(line, n, j - n);
  }

  /**
   * `ProbeText` is the lazy regex match: the prefix it returns is followed by
   * the tail pattern, no shorter non-empty prefix is, and when it returns
   * nothing no prefix without a line terminator is.
   */
  lemma ProbeTextIsLazyMatch(line: string)
    ensures match ProbeText(line)
            case Some(p) =>
              p == line[..|p|] && MarkerFrom(line, |p|) &&
              forall n :: 1 <= n < |p| ==> !MarkerFrom(line, n)
            case None =>
              forall n :: 1 <= n <= |line| && NoLineTerminator(line[..n]) ==> !MarkerFrom(line, n)
  {
    match MarkerAt(line)
    case None =>
      forall n | 1 <= n <= |line| && MarkerFrom(line, n) ensures false { MarkerFromMeansMarkerAt(line, n); }
    case Some(j) =>
      var q := line[..j];
      var n0 := if TrimEnd(q) != [] then |TrimEnd(q)| else 1;
      // every n that matches lies in [n0, j] (when j > 0)
      forall n | 1 <= n <= |line| && MarkerFrom(line, n) ensures n0 <= n <= j && j > 0 {
        MarkerFromMeansMarkerAt(line, n);
      }
      if j > 0 {
        assert AllSpaces(line[n0..j]) by {
          forall k | 0 <= k < j - n0 ensures IsSpace(line[n0..j][k]) {
            assert line[n0..j][k] == q[|TrimEnd(q)|..][n0 - |TrimEnd(q)| + k];
          }
        }
        MarkerAtMeansMarkerFrom(line, n0);
        assert line[..n0] == (if TrimEnd(q) != [] then TrimEnd(q) else q[..1]);
        forall n | 1 <= n <= |line| && NoLineTerminator(line[..n]) && MarkerFrom(line, n)
          ensures NoLineTerminator(line[..n0])
        {
          forall k | 0 <= k < n0 ensures !IsLineTerminator(line[..n0][k]) { assert line[..n0][k] == line[..n][k]; }
        }
      }
  }

  /**
   * `^(?:let|const|var)\s+([A-Za-z_$][\w$]*)\s*=\s*(.+)$`: the declared name
   * of a declaration with a non-empty initialiser.
   */
  function DeclaredName(e: string): (r: Option<string>)
    ensures r.Some? ==> r.value != [] && IsIdentStart(r.value[0]) &&
                        forall k :: 0 <= k < |r.value| ==> IsIdentChar(r.value[k])
    ensures r.Some? ==> NoLineTerminator(r.value)
  {
    var kw := KeywordLength(e);
    if kw == 0 then None
    else
      var j := SkipSpaces(e, kw);
      if j == kw || j == |e| || !IsIdentStart(e[j]) then None
      else
        var k := SkipIdent(e, j);
        var m := SkipSpaces(e, k);
        if m < |e| && e[m] == '=' && InitialiserMatches(e[m + 1..]) then
          assert forall t :: 0 <= t < k - j ==> e[j..k][t] == e[j + t];
          Some(e[j..k])
        else None
  }

  /** The length of the leading `let`, `const` or `var`, or 0. */
  function KeywordLength(e: string): nat {
    if LitAt(e, 0, "let") then 3 else if LitAt(e, 0, "const") then 5 else if LitAt(e, 0, "var") then 3 else 0
  }

  /** `\s*(.+)$` on the text after `=`: optional spaces, then at least one character, none a line terminator. */
  predicate InitialiserMatches(rest: string) {
    exists s: nat :: s < |rest| && AllSpaces(rest[..s]) && NoLineTerminator(rest[s..])
  }

  /** A `let|const|var NAME = value` probe shows just `NAME`. */
  lemma DeclarationShowsName(kw: string, name: string, value: string)
    requires kw == "let" || kw == "const" || kw == "var"
    requires name != [] && IsIdentStart(name[0]) && forall k :: 0 <= k < |name| ==> IsIdentChar(name[k])
    requires value != [] && NoLineTerminator(value)
    ensures DeclaredName(kw + " " + name + " = " + value) == Some(name)
  {
    var e := kw + " " + name + " = " + value;
    assert e == kw + (" " + name + " = " + value);
    KeywordLengthOf(kw, " " + name + " = " + value);
    DeclarationLayout(kw, name, value);
    DeclaredNameAt(e, |kw|, name);
  }

  lemma KeywordLengthOf(kw: string, rest: string)
    requires kw == "let" || kw == "const" || kw == "var"
    ensures KeywordLength(kw + rest) == |kw|
  {
    assert (kw + rest)[..|kw|] == kw;
    assert (kw + rest)[0] == kw[0];
  }

  /** Where the pieces of `KW NAME = VALUE` sit. */
  lemma DeclarationLayout(kw: string, name: string, value: string)
    requires name != [] && forall k :: 0 <= k < |name| ==> IsIdentChar(name[k])
    requires value != [] && NoLineTerminator(value)
    ensures var e := kw + " " + name + " = " + value;
            var m := |kw| + 1 + |name|;
            m + 3 <= |e| && e[|kw|] == ' ' && e[|kw| + 1] == name[0] && e[|kw| + 1..m] == name &&
            (forall k :: |kw| + 1 <= k < m ==> IsIdentChar(e[k])) &&
            e[m] == ' ' && e[m + 1] == '=' && InitialiserMatches(e[m + 2..])
  {
    var tail := " " + value;
    var e := kw + " " + name + " =" + tail;
    assert e == kw + " " + name + " = " + value;
    var n := |kw|;
    var m := n + 1 + |name|;
    assert e[n + 1..m] == name;
    forall k | n + 1 <= k < m ensures IsIdentChar(e[k]) { assert e[k] == e[n + 1..m][k - n - 1]; }
    assert e[m + 2..] == tail;
    assert tail[..1] == " " && tail[1..] == value;
  }

  /** The scan of `DeclaredName` over a declaration laid out as `KW NAME =REST`. */
  lemma DeclaredNameAt(e: string, n: nat, name: string)
    requires KeywordLength(e) == n > 0 && n + |name| + 3 <= |e| && name != []
    requires e[n] == ' ' && e[n + 1..n + 1 + |name|] == name && IsIdentStart(e[n + 1])
    requires forall k :: n + 1 <= k < n + 1 + |name| ==> IsIdentChar(e[k])
    requires e[n + 1 + |name|] == ' ' && e[n + 2 + |name|] == '=' && InitialiserMatches(e[n + 3 + |name|..])
    ensures DeclaredName(e) == Some(name)
  {
    var w := |name|;
    assert AllSpaces(e[n..n + 1]);
    SkipSpacesTo(e, n, 1);
    SkipIdentTo(e, n + 1, w);
    assert AllSpaces(e[n + 1 + w..n + 2 + w]);
    SkipSpacesTo(e, n + 1 + w, 1);
  }

  /** What one line contributes: its trimmed probe text, reduced to the name for a declaration. */
  function ProbeExpression(line: string): (r: Option<string>)
    ensures r.Some? <==> ProbeText(line).Some?
    ensures r.Some? ==> NoLineTerminator(r.value)
  {
    match ProbeText(line)
    case None => None
    case Some(p) =>
      var e := Trim(p);
      NoLineTerminatorTrim(p);
      match DeclaredName(e)
      case Some(name) => Some(name)
      case None => Some(e)
  }

  /**
   * The probes of the first `n` lines, in line order, for a per-line reading
   * `shown`: the reference for `extractMagicComments`, where `shown` is
   * `ProbeExpression`.
   */
  function ProbesUpTo(lines: seq<string>, n: nat, shown: string -> Option<string>): seq<Probe>
    requires n <= |lines|
  {
    if n == 0 then [] else ProbesUpTo(lines, n - 1, shown) + ProbeOfLine(lines, n, shown)
  }

  /** The probe line `n` (1-based) contributes: one, or none. */
  function ProbeOfLine(lines: seq<string>, n: nat, shown: string -> Option<string>): seq<Probe>
    requires 1 <= n <= |lines|
  {
    match shown(lines[n - 1])
    case Some(e) => [Probe(n, e)]
    case None => []
  }

  /** One more line adds its probe, if it has one, at the end. */
  lemma ProbesUpToStep(lines: seq<string>, i: nat, shown: string -> Option<string>)
    requires i < |lines|
    ensures ProbesUpTo(lines, i + 1, shown) ==
            ProbesUpTo(lines, i, shown) + if shown(lines[i]).Some? then [Probe(i + 1, shown(lines[i]).value)] else []
  {
  }

  /** Every probe names a line among the first `n` and carries that line's shown expression. */
  predicate ProbesSound(ps: seq<Probe>, lines: seq<string>, n: nat, shown: string -> Option<string>)
    requires n <= |lines|
  {
    forall k :: 0 <= k < |ps| ==> 1 <= ps[k].line <= n && shown(lines[ps[k].line - 1]) == Some(ps[k].expression)
  }

  /** Probe lines strictly increase. */
  predicate ProbesIncreasing(ps: seq<Probe>) {
    forall k, l :: 0 <= k < l < |ps| ==> ps[k].line < ps[l].line
  }

  /** Every line among the first `n` that shows something has a probe. */
  predicate ProbesComplete(ps: seq<Probe>, lines: seq<string>, n: nat, shown: string -> Option<string>)
    requires n <= |lines|
  {
    forall i :: 0 <= i < n && shown(lines[i]).Some? ==> exists k :: 0 <= k < |ps| && ps[k].line == i + 1
  }

  /** The reference list holds only probes of matching lines among the first `n`, with their expressions. */
  lemma {:induction false} ProbesUpToSound(lines: seq<string>, n: nat, shown: string -> Option<string>)
    requires n <= |lines|
    ensures ProbesSound(ProbesUpTo(lines, n, shown), lines, n, shown)
  {
    if n > 0 {
      ProbesUpToSound(lines, n - 1, shown);
      var before := ProbesUpTo(lines, n - 1, shown);
      var extra := ProbeOfLine(lines, n, shown);
      var ps := before + extra;
      forall k | 0 <= k < |ps| ensures 1 <= ps[k].line <= n && shown(lines[ps[k].line - 1]) == Some(ps[k].expression) {
        if k < |before| { assert ps[k] == before[k]; } else { assert ps[k] == extra[k - |before|]; }
      }
    }
  }

  /** The reference list is in strictly increasing line order. */
  lemma {:induction false} ProbesUpToIncreasing(lines: seq<string>, n: nat, shown: string -> Option<string>)
    requires n <= |lines|
    ensures ProbesIncreasing(ProbesUpTo(lines, n, shown))
  {
    if n > 0 {
      ProbesUpToIncreasing(lines, n - 1, shown);
      ProbesUpToSound(lines, n - 1, shown);
      var before := ProbesUpTo(lines, n - 1, shown);
      var extra := ProbeOfLine(lines, n, shown);
      var ps := before + extra;
      forall k, l | 0 <= k < l < |ps| ensures ps[k].line < ps[l].line {
        assert ps[k] == before[k];
        if l < |before| { assert ps[l] == before[l]; } else { assert ps[l] == extra[l - |before|]; }
      }
    }
  }

  /** The reference list misses no matching line among the first `n`. */
  lemma {:induction false} ProbesUpToComplete(lines: seq<string>, n: nat, shown: string -> Option<string>)
    requires n <= |lines|
    ensures ProbesComplete(ProbesUpTo(lines, n, shown), lines, n, shown)
  {
    if n > 0 {
      ProbesUpToComplete(lines, n - 1, shown);
      var before := ProbesUpTo(lines, n - 1, shown);
      var extra := ProbeOfLine(lines, n, shown);
      var ps := before + extra;
      forall i | 0 <= i < n && shown(lines[i]).Some? ensures exists k :: 0 <= k < |ps| && ps[k].line == i + 1 {
        if i == n - 1 {
          assert ps[|before|] == extra[0];
        } else {
          var k :| 0 <= k < |before| && before[k].line == i + 1;
          assert ps[k] == before[k];
        }
      }
    }
  }

  /**
   * `extractMagicComments`: one probe per line whose text matches, carrying
   * its 1-based line and shown expression, in increasing line order, and
   * nothing else.
   */
  method ExtractMagicComments(code: string) returns (probes: seq<Probe>)
    ensures probes == ProbesUpTo(Lines(code), |Lines(code)|, ProbeExpression)
    ensures ProbesSound(probes, Lines(code), |Lines(code)|, ProbeExpression)
    ensures ProbesIncreasing(probes)
    ensures ProbesComplete(probes, Lines(code), |Lines(code)|, ProbeExpression)
  {
    var lines := Lines(code);
    probes := [];
    for i := 0 to |lines|
      invariant probes == ProbesUpTo(lines, i, ProbeExpression)
    {
      var e := ProbeExpression(lines[i]);
      ProbesUpToStep(lines, i, ProbeExpression);
      if e.Some? {
        probes := probes + [Probe(i + 1, e.value)];
      }
    }
    ProbesUpToSound(lines, |lines|, ProbeExpression);
    ProbesUpToIncreasing(lines, |lines|, ProbeExpression);
    ProbesUpToComplete(lines, |lines|, ProbeExpression);
  }

  /**
   * One line of `removeMagicComments`: the leftmost match of `\s*\/\/\?\s*$`
   * deleted, then the end trimmed.  The result is a prefix of the line with
   * no trailing space.
   */
  function RemoveMarker(line: string): (r: string)
    ensures |r| <= |line| && r == line[..|r|]
    ensures r == [] || !IsSpace(r[|r| - 1])
  {
    match MarkerAt(line)
    case Some(j) => TrimEnd(line[..j])
    case None => TrimEnd(line)
  }

  /** `RemoveMarker` deletes from the leftmost position where the tail pattern matches, if any. */
  lemma RemoveMarkerIsLeftmostReplace(line: string)
    ensures forall p: nat :: MarkerFrom(line, p) && (forall p': nat :: p' < p ==> !MarkerFrom(line, p')) ==>
              RemoveMarker(line) == TrimEnd(line[..p])
    ensures (forall p: nat :: p <= |line| ==> !MarkerFrom(line, p)) ==> RemoveMarker(line) == TrimEnd(line)
  {
    forall p: nat | MarkerFrom(line, p) && (forall p': nat :: p' < p ==> !MarkerFrom(line, p'))
      ensures RemoveMarker(line) == TrimEnd(line[..p])
    {
      LeftmostMarkerCut(line, p);
    }
    if MarkerAt(line).Some? {
      var j := MarkerAt(line).value;
      assert AllSpaces(line[j..j]);
      MarkerAtMeansMarkerFrom(line, j);
    }
  }

  /** At the leftmost place where the tail matches, cutting and end-trimming gives `RemoveMarker`. */
  lemma LeftmostMarkerCut(line: string, p: nat)
    requires MarkerFrom(line, p) && forall p': nat :: p' < p ==> !MarkerFrom(line, p')
    ensures RemoveMarker(line) == TrimEnd(line[..p])
  {
    MarkerFromMeansMarkerAt(line, p);
    var j := MarkerAt(line).value;
    var q := line[..j];
    var t := TrimEnd(q);
    assert AllSpaces(line[|t|..j]) by {
      forall k | 0 <= k < j - |t| ensures IsSpace(line[|t|..j][k]) { assert line[|t|..j][k] == q[|t|..][k]; }
    }
    MarkerAtMeansMarkerFrom(line, |t|);
    assert p == |t|;
    assert line[..p] == t;
    TrimEndAt(t, |t|);
  }

  /**
   * The text kept on a probe line by `removeMagicComments` is the probe text
   * itself, unless that text is a single blank character.
   */
  lemma RemovedLineIsProbeText(line: string)
    requires ProbeText(line).Some?
    ensures var p := ProbeText(line).value;
            RemoveMarker(line) == p || (AllSpaces(p) && RemoveMarker(line) == [])
  {
    var j := MarkerAt(line).value;
    var q := line[..j];
    if TrimEnd(q) == [] {
      assert AllSpaces(q[..1]) by { assert q[..1][0] == q[0] == q[|TrimEnd(q)|..][0]; }
    }
  }

  /** `removeMagicComments`: every line stripped of its marker and trailing spaces, line count kept. */
  function RemoveMagicComments(code: string): (r: string)
    ensures |Lines(r)| == |Lines(code)|
    ensures forall k :: 0 <= k < |Lines(r)| ==> Lines(r)[k] == RemoveMarker(Lines(code)[k])
    ensures forall k :: 0 <= k < |Lines(r)| ==> Lines(r)[k] == [] || !IsSpace(Lines(r)[k][|Lines(r)[k]| - 1])
  {
    var ls := Lines(code);
    var out := seq(|ls|, k requires 0 <= k < |ls| => RemoveMarker(ls[k]));
    assert forall k :: 0 <= k < |out| ==> '\n' !in out[k] by {
      forall k | 0 <= k < |out| ensures '\n' !in out[k] {
        assert '\n' !in ls[k];
        assert out[k] == ls[k][..|out[k]|];
      }
    }
    LinesJoin(out);
    Join(out)
  }

  // ------------------------------------------------------- instrumentation

  /** The call appended to a probe line: `; REC((E), L);`. */
  function Call(recorder: string, p: Probe): string
    requires p.line >= 1
  {
    "; " + recorder + "((" + p.expression + "), " + NatToString(p.line) + ");"
  }

  /** Every call appended to 1-based line `ln`, in list order. */
  function CallsFor(probes: seq<Probe>, ln: nat, recorder: string): string
    requires ln >= 1
  {
    if probes == [] then ""
    else
      var last := probes[|probes| - 1];
      CallsFor(probes[..|probes| - 1], ln, recorder) + (if last.line == ln then Call(recorder, last) else "")
  }

  predicate InRange(probes: seq<Probe>, n: nat) {
    forall k :: 0 <= k < |probes| ==> 1 <= probes[k].line <= n
  }

  predicate NoNewlines(probes: seq<Probe>) {
    forall k :: 0 <= k < |probes| ==> '\n' !in probes[k].expression
  }

  /** The line array after `lines.join("\n")`: holes left by writes past the end print as empty lines. */
  function JoinSlots(slots: seq<Option<string>>): string
    requires |slots| >= 1
  {
    Join(seq(|slots|, k requires 0 <= k < |slots| => slots[k].GetOr("")))
  }

  /**
   * `instrumentMagicComments`: for each probe in turn, the line it names gets
   * the recorder call appended.  A line number past the end extends the array
   * (JavaScript reads the missing element as `undefined`), one below 1 writes a
   * property that `join` ignores.  For probes inside the text, every line
   * keeps its text and gains the calls aimed at it, and the line count stays.
   */
  method InstrumentMagicComments(code: string, probes: seq<Probe>, recorder: string) returns (r: string)
    ensures probes == [] ==> r == code
    ensures InRange(probes, |Lines(code)|) && NoNewlines(probes) && '\n' !in recorder ==>
              |Lines(r)| == |Lines(code)| &&
              forall i :: 0 <= i < |Lines(code)| ==> Lines(r)[i] == Lines(code)[i] + CallsFor(probes, i + 1, recorder)
  {
    if |probes| == 0 {
      return code;
    }
    var ls := Lines(code);
    var slots: seq<Option<string>> := seq(|ls|, k requires 0 <= k < |ls| => Some(ls[k]));
    ghost var inRange := InRange(probes, |ls|);
    SlotsAtStart(slots, ls, probes, recorder);
    for k := 0 to |probes|
      invariant |slots| >= |ls|
      invariant inRange ==> SlotsAfter(slots, ls, probes[..k], recorder)
    {
      var p := probes[k];
      var idx := p.line - 1;
      ghost var before := slots;
      if idx >= 0 {
        var original := if idx < |slots| && slots[idx].Some? then slots[idx].value else "undefined";
        var updated := original + Call(recorder, p);
        if idx < |slots| {
          slots := slots[idx := Some(updated)];
        } else {
          slots := slots + seq(idx - |slots|, _ => None) + [Some(updated)];
        }
      }
      if inRange {
        SlotsStep(before, slots, ls, probes, k, recorder);
      }
    }
    assert probes[..|probes|] == probes;
    r := JoinSlots(slots);
    if inRange && NoNewlines(probes) && '\n' !in recorder {
      SlotsJoined(slots, ls, probes, recorder);
    }
  }

  /** The lines so far, when every probe is inside the text: the original line plus the calls aimed at it. */
  predicate SlotsAfter(slots: seq<Option<string>>, ls: seq<string>, done: seq<Probe>, recorder: string) {
    |slots| == |ls| &&
    forall i :: 0 <= i < |ls| ==> slots[i] == Some(ls[i] + CallsFor(done, i + 1, recorder))
  }

  lemma SlotsAtStart(slots: seq<Option<string>>, ls: seq<string>, probes: seq<Probe>, recorder: string)
    requires |slots| == |ls| && forall i :: 0 <= i < |ls| ==> slots[i] == Some(ls[i])
    ensures SlotsAfter(slots, ls, probes[..0], recorder)
  {
    assert probes[..0] == [];
    forall i | 0 <= i < |ls| ensures slots[i] == Some(ls[i] + CallsFor([], i + 1, recorder)) {
      assert ls[i] + "" == ls[i];
    }
  }

  /** Appending probe `k`'s call to its line extends the invariant by that probe. */
  lemma SlotsStep(before: seq<Option<string>>, slots: seq<Option<string>>, ls: seq<string>,
                  probes: seq<Probe>, k: nat, recorder: string)
    requires k < |probes| && 1 <= probes[k].line <= |ls|
    requires SlotsAfter(before, ls, probes[..k], recorder)
    requires slots == before[probes[k].line - 1 := Some(before[probes[k].line - 1].value + Call(recorder, probes[k]))]
    ensures SlotsAfter(slots, ls, probes[..k + 1], recorder)
  {
    var p := probes[k];
    CallsForSnoc(probes, k, recorder);
    forall i | 0 <= i < |ls| ensures slots[i] == Some(ls[i] + CallsFor(probes[..k + 1], i + 1, recorder)) {
      var done := CallsFor(probes[..k], i + 1, recorder);
      assert before[i] == Some(ls[i] + done);
      if i == p.line - 1 {
        assert slots[i].value == (ls[i] + done) + Call(recorder, p) == ls[i] + (done + Call(recorder, p));
      } else {
        assert slots[i] == before[i];
        assert done + "" == done;
      }
    }
  }

  /** Joining the final slots splits back into the same number of lines, each extended by its calls. */
  lemma SlotsJoined(slots: seq<Option<string>>, ls: seq<string>, probes: seq<Probe>, recorder: string)
    requires |ls| >= 1 && forall i :: 0 <= i < |ls| ==> '\n' !in ls[i]
    requires SlotsAfter(slots, ls, probes, recorder) && NoNewlines(probes) && '\n' !in recorder
    ensures |Lines(JoinSlots(slots))| == |ls|
    ensures forall i :: 0 <= i < |ls| ==> Lines(JoinSlots(slots))[i] == ls[i] + CallsFor(probes, i + 1, recorder)
  {
    var out := seq(|slots|, k requires 0 <= k < |slots| => slots[k].GetOr(""));
    forall i | 0 <= i < |out| ensures '\n' !in out[i] {
      CallsForNoNewline(probes, i + 1, recorder);
    }
    LinesJoin(out);
  }

  lemma CallsForSnoc(probes: seq<Probe>, k: nat, recorder: string)
    requires k < |probes|
    ensures forall ln: nat :: ln >= 1 ==>
              CallsFor(probes[..k + 1], ln, recorder) ==
              CallsFor(probes[..k], ln, recorder) + (if probes[k].line == ln then Call(recorder, probes[k]) else "")
  {
    assert probes[..k + 1][..k] == probes[..k];
  }

  lemma {:induction false} CallsForNoNewline(probes: seq<Probe>, ln: nat, recorder: string)
    requires ln >= 1 && NoNewlines(probes) && '\n' !in recorder
    ensures '\n' !in CallsFor(probes, ln, recorder)
  {
    if probes != [] {
      var init := probes[..|probes| - 1];
      assert NoNewlines(init) by {
        forall k | 0 <= k < |init| ensures '\n' !in init[k].expression { assert init[k] == probes[k]; }
      }
      CallsForNoNewline(init, ln, recorder);
      var last := probes[|probes| - 1];
      if last.line == ln {
        assert forall c :: c in NatToString(last.line) ==> IsDigit(c);
      }
    }
  }

  /** A line no probe names gets nothing appended. */
  lemma {:induction false} CallsForUntouched(probes: seq<Probe>, ln: nat, recorder: string)
    requires ln >= 1 && forall k :: 0 <= k < |probes| ==> probes[k].line != ln
    ensures CallsFor(probes, ln, recorder) == ""
  {
    if probes != [] {
      CallsForUntouched(probes[..|probes| - 1], ln, recorder);
    }
  }

  /**
   * With probe lines strictly increasing (as extraction produces them), the
   * line of probe `k` gets exactly that probe's call.
   */
  lemma {:induction false} CallsForIncreasing(probes: seq<Probe>, k: nat, recorder: string)
    requires k < |probes| && probes[k].line >= 1
    requires forall a, b :: 0 <= a < b < |probes| ==> probes[a].line < probes[b].line
    ensures CallsFor(probes, probes[k].line, recorder) == Call(recorder, probes[k])
  {
    var init := probes[..|probes| - 1];
    if k == |probes| - 1 {
      CallsForUntouched(init, probes[k].line, recorder);
    } else {
      CallsForIncreasing(init, k, recorder);
    }
  }
}

=== FILE: module_system.dfy ===
/**
 * The module registry that `import` statements resolve against: modules
 * registered by tabs, and external packages, each in its own `Map`.  A
 * specifier resolves to a local module first, then to a package; when
 * neither gives a truthy value, resolution fails with "Cannot find module".
 */
module Modules {
  import opened Wrappers
  import opened OrderedMaps

  /** A stored value as `||` sees it: an object, or a falsy value such as `null`, `0` or `""`. */
  datatype Value = Object(handle: nat) | Falsy

  /** `ModuleMetadata`: no entry ever carries an error. */
  datatype ModuleRecord = ModuleRecord(id: string, exports: Value, loaded: bool, loading: bool)

  /** `resolve`'s result: the value, or the message of the error it throws. */
  datatype Resolution = Resolved(value: Value) | NotFound(message: string)

  function NotFoundMessage(specifier: string): string {
    "Cannot find module '" + specifier + "'. Make sure the module is loaded or the package is available."
  }

  /** What `registerModule` stores. */
  function Loaded(id: string, exports: Value): ModuleRecord {
    ModuleRecord(id, exports, true, false)
  }

  /** `x || null`: a truthy value, or nothing. */
  function Truthy(v: Option<Value>): (r: Option<Value>)
    ensures r.Some? <==> v.Some? && v.value.Object?
    ensures r.Some? ==> r == v
  {
    match v
    case Some(Object(h)) => v
    case _ => None
  }

  /** Every stored record describes itself and is loaded. */
  ghost predicate RecordsLoaded(modules: OrderedMap<string, ModuleRecord>) {
    forall id :: id in modules.entries ==> modules.entries[id] == Loaded(id, modules.entries[id].exports)
  }

  /** `getModule`: the exports of the module, when they are truthy. */
  function ModuleIn(modules: OrderedMap<string, ModuleRecord>, id: string): (r: Option<Value>)
    ensures r.Some? <==> id in modules.entries && modules.entries[id].exports.Object?
    ensures r.Some? ==> r.value == modules.entries[id].exports
  {
    match Get(modules, id)
    case Some(record) => Truthy(Some(record.exports))
    case None => None
  }

  /** `isModuleLoaded`: the `loaded` flag of a stored record, `false` without one. */
  function LoadedIn(modules: OrderedMap<string, ModuleRecord>, id: string): (b: bool)
    ensures b ==> Has(modules, id)
    ensures RecordsLoaded(modules) ==> (b <==> Has(modules, id))
  {
    match Get(modules, id)
    case Some(record) => record.loaded
    case None => false
  }

  /** `resolve`: a truthy local module, else a truthy package, else the error. */
  function ResolveIn(modules: OrderedMap<string, ModuleRecord>, packages: OrderedMap<string, Value>,
                     specifier: string): (r: Resolution)
    ensures r.Resolved? ==> r.value.Object?
    ensures ModuleIn(modules, specifier).Some? ==> r == Resolved(ModuleIn(modules, specifier).value)
    ensures r.NotFound? <==> ModuleIn(modules, specifier).None? && Truthy(Get(packages, specifier)).None?
    ensures r.NotFound? ==> r.message == NotFoundMessage(specifier)
  {
    match ModuleIn(modules, specifier)
    case Some(local) => Resolved(local)
    case None =>
      match Truthy(Get(packages, specifier))
      case Some(package) => Resolved(package)
      case None => NotFound(NotFoundMessage(specifier))
  }

  /** A module registered under an id shadows a package of the same name. */
  lemma LocalShadowsPackage(modules: OrderedMap<string, ModuleRecord>, packages: OrderedMap<string, Value>,
                            id: string, exports: Value)
    requires exports.Object?
    ensures ResolveIn(Set(modules, id, Loaded(id, exports)), packages, id) == Resolved(exports)
  {
    SetGet(modules, id, Loaded(id, exports), id);
  }

  /** After a module is cleared its id resolves as if it had never been registered: to the package, or not at all. */
  lemma ClearedFallsBack(modules: OrderedMap<string, ModuleRecord>, packages: OrderedMap<string, Value>, id: string)
    requires Valid(modules)
    ensures ResolveIn(Delete(modules, id), packages, id) ==
            match Truthy(Get(packages, id))
            case Some(p) => Resolved(p)
            case None => NotFound(NotFoundMessage(id))
  {
    DeleteValid(modules, id, id);
  }

  /** Registering keeps every record loaded and describing itself. */
  lemma RegisterKeepsLoaded(modules: OrderedMap<string, ModuleRecord>, id: string, exports: Value)
    requires RecordsLoaded(modules)
    ensures RecordsLoaded(Set(modules, id, Loaded(id, exports)))
    ensures LoadedIn(Set(modules, id, Loaded(id, exports)), id)
  {
  }

  /** Registering again replaces the exports and keeps the id's place in the listing. */
  lemma ReregisterOverwrites(modules: OrderedMap<string, ModuleRecord>, id: string, first: Value, second: Value)
    requires Valid(modules)
    ensures var once := Set(modules, id, Loaded(id, first));
            var twice := Set(once, id, Loaded(id, second));
            Keys(twice) == Keys(once) && Get(twice, id) == Some(Loaded(id, second))
  {
    var once := Set(modules, id, Loaded(id, first));
    SetValid(modules, id, Loaded(id, first));
    SetKeys(once, id, Loaded(id, second));
    SetGet(once, id, Loaded(id, second), id);
  }

  /** `ModuleSystem`: the two maps, changed in place. */
  class ModuleSystem {
    var modules: OrderedMap<string, ModuleRecord>
    var externalPackages: OrderedMap<string, Value>

    ghost predicate Valid()
      reads this
    {
      OrderedMaps.Valid(modules) && OrderedMaps.Valid(externalPackages) && RecordsLoaded(modules)
    }

    constructor ()
      ensures Valid() && modules == Empty() && externalPackages == Empty()
    {
      modules := Empty();
      externalPackages := Empty();
    }

    /** `registerModule`. */
    method RegisterModule(moduleId: string, exports: Value)
      requires Valid()
      modifies this
      ensures Valid()
      ensures modules == Set(old(modules), moduleId, Loaded(moduleId, exports))
      ensures externalPackages == old(externalPackages)
      ensures GetModule(moduleId) == Truthy(Some(exports)) && IsModuleLoaded(moduleId)
    {
      SetValid(modules, moduleId, Loaded(moduleId, exports));
      modules := Set(modules, moduleId, Loaded(moduleId, exports));
    }

    /** `getModule`. */
    function GetModule(moduleId: string): (r: Option<Value>)
      reads this
      ensures r.Some? ==> r.value.Object? && Has(modules, moduleId)
    {
      ModuleIn(modules, moduleId)
    }

    /** `clearModule`: only that id goes; the other modules and every package stay. */
    method ClearModule(moduleId: string)
      requires Valid()
      modifies this
      ensures Valid()
      ensures modules == Delete(old(modules), moduleId)
      ensures externalPackages == old(externalPackages)
      ensures !IsModuleLoaded(moduleId) && GetModule(moduleId).None?
      ensures forall other :: other != moduleId ==> Get(modules, other) == Get(old(modules), other)
    {
      DeleteValid(modules, moduleId, moduleId);
      forall other | other != moduleId
        ensures Get(Delete(modules, moduleId), other) == Get(modules, other)
      {
        DeleteValid(modules, moduleId, other);
      }
      modules := Delete(modules, moduleId);
    }

    /** `clearAllModules`: the packages stay. */
    method ClearAllModules()
      requires Valid()
      modifies this
      ensures Valid()
      ensures ListModules() == [] && externalPackages == old(externalPackages)
    {
      modules := Clear(modules);
    }

    /** `isModuleLoaded`. */
    function IsModuleLoaded(moduleId: string): (b: bool)
      reads this
      requires Valid()
      ensures b <==> moduleId in ListModules()
    {
      LoadedIn(modules, moduleId)
    }

    /** `listModules`: every registered id once, in the order first registered. */
    function ListModules(): (ids: seq<string>)
      reads this
      requires Valid()
      ensures forall id :: id in ids <==> Has(modules, id)
      ensures Distinct(ids)
    {
      Keys(modules)
    }

    /** `registerExternalPackage`. */
    method RegisterExternalPackage(packageName: string, packageExports: Value)
      requires Valid()
      modifies this
      ensures Valid()
      ensures externalPackages == Set(old(externalPackages), packageName, packageExports)
      ensures modules == old(modules)
    {
      SetValid(externalPackages, packageName, packageExports);
      externalPackages := Set(externalPackages, packageName, packageExports);
    }

    /** `getExternalPackage`: the package, when it is truthy. */
    function GetExternalPackage(packageName: string): (r: Option<Value>)
      reads this
      ensures r.Some? ==> r.value.Object? && Has(externalPackages, packageName)
    {
      Truthy(Get(externalPackages, packageName))
    }

    /** `resolve`: the local module first, then the package, else the error it throws. */
    function Resolve(specifier: string): (r: Resolution)
      reads this
      ensures r == ResolveIn(modules, externalPackages, specifier)
      ensures GetModule(specifier).Some? ==> r == Resolved(GetModule(specifier).value)
      ensures GetModule(specifier).None? && GetExternalPackage(specifier).Some? ==>
                r == Resolved(GetExternalPackage(specifier).value)
      ensures r.NotFound? <==> GetModule(specifier).None? && GetExternalPackage(specifier).None?
    {
      match GetModule(specifier)
      case Some(local) => Resolved(local)
      case None =>
        match GetExternalPackage(specifier)
        case Some(package) => Resolved(package)
        case None => NotFound(NotFoundMessage(specifier))
    }
  }
}

=== FILE: ordered_map.dfy ===
/**
 * JavaScript's `Map`: a dictionary that remembers the order in which its
 * keys were first set.  Setting an existing key replaces its value and keeps
 * its place; deleting a key drops it from the order.  `keys()` iterates in
 * that order, which is what `Array.from(map.keys())` returns.
 */
module OrderedMaps {
  import opened Wrappers

  datatype OrderedMap<K(==,!new), V> = OrderedMap(order: seq<K>, entries: map<K, V>)

  /** No key twice in a sequence. */
  ghost predicate Distinct<K(!new)>(s: seq<K>) {
    forall i, j :: 0 <= i < j < |s| ==> s[i] != s[j]
  }

  /** The order lists every key once, and nothing else. */
  ghost predicate Valid<K(!new), V>(m: OrderedMap<K, V>) {
    Distinct(m.order) && (forall k :: k in m.entries <==> k in m.order)
  }

  /** `new Map()`. */
  function Empty<K(==,!new), V>(): (m: OrderedMap<K, V>)
    ensures Valid(m) && Keys(m) == [] && forall k :: Get(m, k).None?
  {
    OrderedMap([], map[])
  }

  /** `m.get(k)`: the value, or `undefined`. */
  function Get<K(==,!new), V>(m: OrderedMap<K, V>, k: K): (r: Option<V>)
    ensures r.Some? <==> k in m.entries
    ensures r.Some? ==> r.value == m.entries[k]
  {
    if k in m.entries then Some(m.entries[k]) else None
  }

  /** `m.has(k)`. */
  predicate Has<K(==,!new), V>(m: OrderedMap<K, V>, k: K) {
    k in m.entries
  }

  /** `Array.from(m.keys())`. */
  function Keys<K(==,!new), V>(m: OrderedMap<K, V>): seq<K> {
    m.order
  }

  /** `m.size`. */
  function Size<K(==,!new), V>(m: OrderedMap<K, V>): nat {
    |m.order|
  }

  /** `m.set(k, v)`: a new key goes last, an existing one keeps its place. */
  function Set<K(==,!new), V>(m: OrderedMap<K, V>, k: K, v: V): OrderedMap<K, V> {
    OrderedMap(if k in m.entries then m.order else m.order + [k], m.entries[k := v])
  }

  /** `s` without `k`, the rest in order. */
  function Without<K(==,!new)>(s: seq<K>, k: K): (r: seq<K>)
    ensures forall x :: x in r <==> x in s && x != k
    ensures |r| <= |s|
  {
    if s == [] then [] else if s[0] == k then Without(s[1..], k) else [s[0]] + Without(s[1..], k)
  }

  /** `m.delete(k)`. */
  function Delete<K(==,!new), V>(m: OrderedMap<K, V>, k: K): OrderedMap<K, V> {
    OrderedMap(Without(m.order, k), m.entries - {k})
  }

  /** `m.clear()`. */
  function Clear<K(==,!new), V>(m: OrderedMap<K, V>): OrderedMap<K, V> {
    Empty()
  }

  // ============================================================ set

  /** Setting keeps the map well formed. */
  lemma SetValid<K(!new), V>(m: OrderedMap<K, V>, k: K, v: V)
    requires Valid(m)
    ensures Valid(Set(m, k, v))
  {
  }

  /** A key reads back the value last set for it; every other key reads as before. */
  lemma SetGet<K(!new), V>(m: OrderedMap<K, V>, k: K, v: V, other: K)
    ensures Get(Set(m, k, v), k) == Some(v)
    ensures other != k ==> Get(Set(m, k, v), other) == Get(m, other)
  {
  }

  /** Setting appends a new key and leaves the order of the keys alone otherwise. */
  lemma SetKeys<K(!new), V>(m: OrderedMap<K, V>, k: K, v: V)
    requires Valid(m)
    ensures Keys(m) <= Keys(Set(m, k, v))
    ensures Has(m, k) ==> Keys(Set(m, k, v)) == Keys(m)
    ensures !Has(m, k) ==> Keys(Set(m, k, v)) == Keys(m) + [k] && Size(Set(m, k, v)) == Size(m) + 1
  {
  }

  /** Setting a key twice is setting it to the second value. */
  lemma SetTwice<K(!new), V>(m: OrderedMap<K, V>, k: K, v: V, w: V)
    ensures Set(Set(m, k, v), k, w) == Set(m, k, w)
  {
    assert m.entries[k := v][k := w] == m.entries[k := w];
  }

  // ========================================================= delete

  lemma {:induction false} WithoutDistinct<K(!new)>(s: seq<K>, k: K)
    requires Distinct(s)
    ensures Distinct(Without(s, k))
  {
    if s != [] {
      assert Distinct(s[1..]);
      assert s[0] !in s[1..];
      WithoutDistinct(s[1..], k);
      var r := Without(s[1..], k);
      if s[0] != k {
        forall i, j | 0 <= i < j < |[s[0]] + r|
          ensures ([s[0]] + r)[i] != ([s[0]] + r)[j]
        {
          if i == 0 {
            assert ([s[0]] + r)[j] == r[j - 1];
          }
        }
      }
    }
  }

  /** Dropping a key that occurs once shortens the sequence by one; dropping an absent one changes nothing. */
  lemma {:induction false} WithoutLength<K(!new)>(s: seq<K>, k: K)
    requires Distinct(s)
    ensures k in s ==> |Without(s, k)| == |s| - 1
    ensures k !in s ==> Without(s, k) == s
  {
    if s != [] {
      assert Distinct(s[1..]);
      WithoutLength(s[1..], k);
      if s[0] == k {
        assert k !in s[1..];
      }
    }
  }

  /** Deleting keeps the map well formed and removes exactly that key. */
  lemma DeleteValid<K(!new), V>(m: OrderedMap<K, V>, k: K, other: K)
    requires Valid(m)
    ensures Valid(Delete(m, k))
    ensures Get(Delete(m, k), k).None?
    ensures other != k ==> Get(Delete(m, k), other) == Get(m, other)
  {
    WithoutDistinct(m.order, k);
  }

  /** `size` drops by one when the key was there, and nothing changes when it was not. */
  lemma DeleteSize<K(!new), V>(m: OrderedMap<K, V>, k: K)
    requires Valid(m)
    ensures Has(m, k) ==> Size(Delete(m, k)) == Size(m) - 1
    ensures !Has(m, k) ==> Delete(m, k) == m
  {
    WithoutLength(m.order, k);
  }

  /** The keys, as a set, are exactly the keys that have a value. */
  lemma KeysAreEntries<K(!new), V>(m: OrderedMap<K, V>)
    requires Valid(m)
    ensures forall k :: k in Keys(m) <==> Get(m, k).Some?
    ensures Size(m) == |m.entries|
  {
    DistinctCard(m.order, m.entries.Keys);
  }

  /** A sequence without repetitions has as many elements as the set of its elements. */
  lemma {:induction false} DistinctCard<K(!new)>(s: seq<K>, ks: set<K>)
    requires Distinct(s) && forall k :: k in ks <==> k in s
    ensures |ks| == |s|
  {
    if s != [] {
      assert Distinct(s[1..]);
      assert s[0] !in s[1..];
      DistinctCard(s[1..], ks - {s[0]});
    }
  }
}

=== FILE: output_view.dfy ===
/**
 * The output panel's bookkeeping: each value shown is classified and turned
 * into text, and the items of each tab are grouped by the source line they
 * belong to.  A `result` event carries its line and becomes the tab's last
 * result line; a console event carries its line as a leading number, or
 * falls back to the last result line, or to line 1.  Rendering shows one
 * row per line from 1 to the largest line that holds anything.
 */
module OutputView {
  import opened Wrappers
  import opened Lex
  import opened OrderedMaps

  /** A JavaScript value as the panel sees it; an object carries its `JSON.stringify` text. */
  datatype JsValue = Null | Undefined | Str(s: string) | Num(n: int) | Bool(b: bool) | Func | Obj(json: string)

  datatype ValueType = StringType | NumberType | BooleanType | NullType | UndefinedType | ObjectType | FunctionType

  /** `OutputItem`. */
  datatype OutputItem = OutputItem(text: string, kind: ValueType)

  /** `getValueType`: `null`, `undefined`, string, number, boolean, function, anything else an object. */
  function GetValueType(val: JsValue): (t: ValueType)
    ensures t == ObjectType <==> val.Obj?
    ensures t == NullType <==> val == Null
    ensures t == UndefinedType <==> val == Undefined
    ensures t == StringType <==> val.Str?
    ensures t == FunctionType <==> val == Func
    ensures t == NumberType <==> val.Num?
    ensures t == BooleanType <==> val.Bool?
  {
    match val
    case Null => NullType
    case Undefined => UndefinedType
    case Str(_) => StringType
    case Num(_) => NumberType
    case Bool(_) => BooleanType
    case Func => FunctionType
    case Obj(_) => ObjectType
  }

  /** `String(n)` for an integer. */
  function IntToString(n: int): (r: string)
    ensures r != [] && (r[0] == '-' <==> n < 0)
  {
    if n < 0 then "-" + NatToString(-n) else NatToString(n)
  }

  /** `stringifyWithType`: the text chosen by the value's type. */
  function StringifyWithType(val: JsValue): (item: OutputItem)
    ensures item.kind == GetValueType(val)
    ensures val.Str? ==> item.text == "'" + val.s + "'"
    ensures val == Null ==> item.text == "null"
    ensures val == Undefined ==> item.text == "undefined"
    ensures val == Func ==> item.text == "[Function]"
    ensures val.Bool? ==> item.text == (if val.b then "true" else "false")
  {
    var kind := GetValueType(val);
    var text :=
      match kind
      case NullType => "null"
      case UndefinedType => "undefined"
      case StringType => "'" + val.s + "'"
      case BooleanType => if val.b then "true" else "false"
      case NumberType => IntToString(val.n)
      case FunctionType => "[Function]"
      case ObjectType => val.json;
    OutputItem(text, kind)
  }

  /** Distinct strings stay distinct once quoted, so the panel tells them apart. */
  lemma QuotedInjective(a: string, b: string)
    requires StringifyWithType(Str(a)) == StringifyWithType(Str(b))
    ensures a == b
  {
    var qa, qb := "'" + a + "'", "'" + b + "'";
    assert qa[1..|qa| - 1] == a && qb[1..|qb| - 1] == b;
  }

  /** The items of a list of values, in order. */
  function Items(args: seq<JsValue>): (r: seq<OutputItem>)
    ensures |r| == |args| && forall k :: 0 <= k < |args| ==> r[k] == StringifyWithType(args[k])
  {
    seq(|args|, k requires 0 <= k < |args| => StringifyWithType(args[k]))
  }

  // ============================================================ grouping

  type Lines = OrderedMap<int, seq<OutputItem>>

  /** `lineOutputs` and `lastResultLine`: per tab, the items of each line and the last result line. */
  datatype Tables = Tables(lineOutputs: OrderedMap<string, Lines>, lastResultLine: OrderedMap<string, int>)

  /** Both maps well formed, over the same tabs. */
  ghost predicate Consistent(t: Tables) {
    OrderedMaps.Valid(t.lineOutputs) && OrderedMaps.Valid(t.lastResultLine) &&
    (forall tab :: Has(t.lineOutputs, tab) <==> Has(t.lastResultLine, tab)) &&
    forall tab :: tab in t.lineOutputs.entries ==> OrderedMaps.Valid(t.lineOutputs.entries[tab])
  }

  function NoTables(): (t: Tables)
    ensures Consistent(t)
  {
    Tables(Empty(), Empty())
  }

  /** The lines of a tab; none before its first event. */
  function LinesOf(t: Tables, tabId: string): Lines {
    Get(t.lineOutputs, tabId).GetOr(Empty())
  }

  /** The items shown on a line of a tab. */
  function ItemsAt(t: Tables, tabId: string, line: int): seq<OutputItem> {
    Get(LinesOf(t, tabId), line).GetOr([])
  }

  /** The tab's line `line` now holds `items`. */
  function WithItems(t: Tables, tabId: string, line: int, items: seq<OutputItem>): Tables {
    t.(lineOutputs := Set(t.lineOutputs, tabId, Set(LinesOf(t, tabId), line, items)))
  }

  /** A tab's first event gives it an empty table and a last result line of 0. */
  function Prepare(t: Tables, tabId: string): Tables {
    if Has(t.lineOutputs, tabId) then t
    else Tables(Set(t.lineOutputs, tabId, Empty()), Set(t.lastResultLine, tabId, 0))
  }

  /** `consoleLine || lastResultLine.get(tabId) || 1`: the first that is neither missing nor 0. */
  function TargetLine(consoleLine: Option<int>, last: Option<int>): (line: int)
    ensures line != 0
    ensures consoleLine.Some? && consoleLine.value != 0 ==> line == consoleLine.value
    ensures (consoleLine.None? || consoleLine.value == 0) && last.Some? && last.value != 0 ==> line == last.value
    ensures (consoleLine.None? || consoleLine.value == 0) && (last.None? || last.value == 0) ==> line == 1
  {
    if consoleLine.Some? && consoleLine.value != 0 then consoleLine.value
    else if last.Some? && last.value != 0 then last.value
    else 1
  }

  /** `args[k]`, `undefined` past the end. */
  function ArgAt(args: seq<JsValue>, k: nat): JsValue {
    if k < |args| then args[k] else Undefined
  }

  /** A leading number: the line the instrumentation put there. */
  predicate LineFirst(args: seq<JsValue>) {
    |args| > 0 && args[0].Num?
  }

  /** Where a console event goes. */
  function ConsoleTarget(t: Tables, tabId: string, args: seq<JsValue>): int {
    TargetLine(if LineFirst(args) then Some(args[0].n) else None, Get(t.lastResultLine, tabId))
  }

  /** The values a console event shows: all of them, less a leading line number. */
  function ShownArgs(args: seq<JsValue>): seq<JsValue> {
    if LineFirst(args) then args[1..] else args
  }

  /** The grouping part of `appendOutput`. */
  function Append(t: Tables, tabId: string, kind: string, args: seq<JsValue>, hasContainer: bool): Tables {
    if !hasContainer || kind == "error" then t
    else
      var p := Prepare(t, tabId);
      if kind == "result" && LineFirst(args) then
        var line := args[0].n;
        var r := WithItems(p, tabId, line, ItemsAt(p, tabId, line) + [StringifyWithType(ArgAt(args, 1))]);
        r.(lastResultLine := Set(r.lastResultLine, tabId, line))
      else
        var target := ConsoleTarget(p, tabId, args);
        WithItems(p, tabId, target, ItemsAt(p, tabId, target) + Items(ShownArgs(args)))
  }

  /** The grouping part of `clearOutput`. */
  function ClearTab(t: Tables, tabId: string): Tables {
    Tables(Delete(t.lineOutputs, tabId), Delete(t.lastResultLine, tabId))
  }

  // ============================================================ properties

  /** Preparing a tab keeps the tables consistent and leaves every line's items alone. */
  lemma PrepareKeeps(t: Tables, tabId: string)
    requires Consistent(t)
    ensures Consistent(Prepare(t, tabId)) && Has(Prepare(t, tabId).lineOutputs, tabId)
    ensures forall line :: ItemsAt(Prepare(t, tabId), tabId, line) == ItemsAt(t, tabId, line)
    ensures Get(Prepare(t, tabId).lastResultLine, tabId) == Some(Get(t.lastResultLine, tabId).GetOr(0))
    ensures forall other :: other != tabId ==>
              Get(Prepare(t, tabId).lineOutputs, other) == Get(t.lineOutputs, other) &&
              Get(Prepare(t, tabId).lastResultLine, other) == Get(t.lastResultLine, other)
  {
    if !Has(t.lineOutputs, tabId) {
      var p := Prepare(t, tabId);
      SetValid(t.lineOutputs, tabId, Empty());
      SetValid(t.lastResultLine, tabId, 0);
      forall tab
        ensures Has(p.lineOutputs, tab) <==> Has(p.lastResultLine, tab)
      {
        assert Has(t.lineOutputs, tab) <==> Has(t.lastResultLine, tab);
      }
      forall tab | tab in p.lineOutputs.entries
        ensures OrderedMaps.Valid(p.lineOutputs.entries[tab])
      {
        if tab != tabId {
          assert p.lineOutputs.entries[tab] == t.lineOutputs.entries[tab];
        }
      }
    }
  }

  /** Storing a line's items changes that line of that tab and nothing else. */
  lemma WithItemsKeeps(t: Tables, tabId: string, line: int, items: seq<OutputItem>)
    requires Consistent(t) && Has(t.lineOutputs, tabId)
    ensures Consistent(WithItems(t, tabId, line, items))
    ensures ItemsAt(WithItems(t, tabId, line, items), tabId, line) == items
    ensures forall l :: l != line ==> ItemsAt(WithItems(t, tabId, line, items), tabId, l) == ItemsAt(t, tabId, l)
    ensures WithItems(t, tabId, line, items).lastResultLine == t.lastResultLine
    ensures forall other :: other != tabId ==>
              Get(WithItems(t, tabId, line, items).lineOutputs, other) == Get(t.lineOutputs, other)
  {
    SetValid(LinesOf(t, tabId), line, items);
    SetValid(t.lineOutputs, tabId, Set(LinesOf(t, tabId), line, items));
  }

  /** Every event keeps the two maps well formed and over the same tabs. */
  lemma AppendConsistent(t: Tables, tabId: string, kind: string, args: seq<JsValue>, hasContainer: bool)
    requires Consistent(t)
    ensures Consistent(Append(t, tabId, kind, args, hasContainer))
  {
    if hasContainer && kind != "error" {
      PrepareKeeps(t, tabId);
      var p := Prepare(t, tabId);
      if kind == "result" && LineFirst(args) {
        var line := args[0].n;
        var r := WithItems(p, tabId, line, ItemsAt(p, tabId, line) + [StringifyWithType(ArgAt(args, 1))]);
        WithItemsKeeps(p, tabId, line, ItemsAt(p, tabId, line) + [StringifyWithType(ArgAt(args, 1))]);
        SetValid(r.lastResultLine, tabId, line);
      } else {
        var target := ConsoleTarget(p, tabId, args);
        WithItemsKeeps(p, tabId, target, ItemsAt(p, tabId, target) + Items(ShownArgs(args)));
      }
    }
  }

  /**
   * An `error` event, or a tab without an output container, leaves the grouping
   * table as it was; any event leaves the other tabs as they were.
   */
  lemma AppendTouchesOneTab(t: Tables, tabId: string, kind: string, args: seq<JsValue>, hasContainer: bool,
                            other: string)
    requires Consistent(t)
    ensures !hasContainer || kind == "error" ==> Append(t, tabId, kind, args, hasContainer) == t
    ensures other != tabId ==>
              Get(Append(t, tabId, kind, args, hasContainer).lineOutputs, other) == Get(t.lineOutputs, other) &&
              Get(Append(t, tabId, kind, args, hasContainer).lastResultLine, other) == Get(t.lastResultLine, other)
  {
    if hasContainer && kind != "error" {
      PrepareKeeps(t, tabId);
      var p := Prepare(t, tabId);
      if kind == "result" && LineFirst(args) {
        var line := args[0].n;
        var r := WithItems(p, tabId, line, ItemsAt(p, tabId, line) + [StringifyWithType(ArgAt(args, 1))]);
        WithItemsKeeps(p, tabId, line, ItemsAt(p, tabId, line) + [StringifyWithType(ArgAt(args, 1))]);
        SetGet(r.lastResultLine, tabId, line, other);
      } else {
        var target := ConsoleTarget(p, tabId, args);
        WithItemsKeeps(p, tabId, target, ItemsAt(p, tabId, target) + Items(ShownArgs(args)));
      }
    }
  }

  /**
   * A `result` event whose first argument is a number adds exactly one item,
   * its second argument, to that line, and makes that line the tab's last
   * result line; the tab's other lines stay.
   */
  lemma ResultAppendsOne(t: Tables, tabId: string, args: seq<JsValue>, l: int)
    requires Consistent(t) && LineFirst(args)
    ensures var r := Append(t, tabId, "result", args, true);
            ItemsAt(r, tabId, args[0].n) == ItemsAt(t, tabId, args[0].n) + [StringifyWithType(ArgAt(args, 1))] &&
            Get(r.lastResultLine, tabId) == Some(args[0].n) &&
            (l != args[0].n ==> ItemsAt(r, tabId, l) == ItemsAt(t, tabId, l))
  {
    PrepareKeeps(t, tabId);
    var p := Prepare(t, tabId);
    var line := args[0].n;
    WithItemsKeeps(p, tabId, line, ItemsAt(p, tabId, line) + [StringifyWithType(ArgAt(args, 1))]);
    var r := WithItems(p, tabId, line, ItemsAt(p, tabId, line) + [StringifyWithType(ArgAt(args, 1))]);
    SetGet(r.lastResultLine, tabId, line, tabId);
  }

  /**
   * Any other event adds one item per argument, less a leading line number,
   * to its target line: that number when it is not 0, else the tab's last
   * result line when that is not 0, else line 1.  The last result line stays.
   */
  lemma ConsoleAppendsEach(t: Tables, tabId: string, kind: string, args: seq<JsValue>, l: int)
    requires Consistent(t) && kind != "error" && !(kind == "result" && LineFirst(args))
    ensures var r := Append(t, tabId, kind, args, true);
            var last := Get(t.lastResultLine, tabId).GetOr(0);
            var target := if LineFirst(args) && args[0].n != 0 then args[0].n else if last != 0 then last else 1;
            ItemsAt(r, tabId, target) == ItemsAt(t, tabId, target) + Items(ShownArgs(args)) &&
            (l != target ==> ItemsAt(r, tabId, l) == ItemsAt(t, tabId, l)) &&
            Get(r.lastResultLine, tabId) == Some(last)
  {
    PrepareKeeps(t, tabId);
    var p := Prepare(t, tabId);
    var target := ConsoleTarget(p, tabId, args);
    WithItemsKeeps(p, tabId, target, ItemsAt(p, tabId, target) + Items(ShownArgs(args)));
  }

  /** The grouping part of `clearOutput`: that tab goes from both maps, the others stay. */
  lemma ClearTabKeeps(t: Tables, tabId: string, other: string)
    requires Consistent(t)
    ensures Consistent(ClearTab(t, tabId))
    ensures !Has(ClearTab(t, tabId).lineOutputs, tabId) && !Has(ClearTab(t, tabId).lastResultLine, tabId)
    ensures other != tabId ==> Get(ClearTab(t, tabId).lineOutputs, other) == Get(t.lineOutputs, other) &&
                               Get(ClearTab(t, tabId).lastResultLine, other) == Get(t.lastResultLine, other)
  {
    DeleteValid(t.lineOutputs, tabId, other);
    DeleteValid(t.lastResultLine, tabId, other);
    var c := ClearTab(t, tabId);
    forall tab
      ensures Has(c.lineOutputs, tab) <==> Has(c.lastResultLine, tab)
    {
      assert Has(t.lineOutputs, tab) <==> Has(t.lastResultLine, tab);
    }
  }

  // ============================================================ rendering

  /** One rendered row: the line number and the items shown on it. */
  datatype Row = Row(lno: int, items: seq<OutputItem>)

  /** The largest of some line numbers. */
  function MaxOf(keys: seq<int>): (m: int)
    requires keys != []
    ensures m in keys && forall k :: k in keys ==> k <= m
  {
    if |keys| == 1 then keys[0]
    else
      var rest := MaxOf(keys[1..]);
      assert keys == [keys[0]] + keys[1..];
      if keys[0] >= rest then keys[0] else rest
  }

  /** `outputs.size > 0 ? Math.max(...outputs.keys()) : 0`. */
  function MaxLine(lines: Lines): int {
    if Keys(lines) == [] then 0 else MaxOf(Keys(lines))
  }

  /** The row for line `i`: its items, none when the line is empty. */
  function RowAt(lines: Lines, i: int): Row {
    Row(i, Get(lines, i).GetOr([]))
  }

  /** The rows `renderOutput` draws: one per line from 1 to the largest line. */
  function Rows(lines: Lines): seq<Row> {
    var count := if MaxLine(lines) > 0 then MaxLine(lines) else 0;
    seq(count, k => RowAt(lines, k + 1))
  }

  /**
   * Every line from 1 to the largest is drawn, in order, with exactly the
   * items stored for it; no line that holds items at a positive number is
   * missed, and a line at 0 or below is never drawn.
   */
  lemma RowsShowEveryLine(lines: Lines, line: int)
    requires OrderedMaps.Valid(lines)
    ensures forall k :: 0 <= k < |Rows(lines)| ==> Rows(lines)[k].lno == k + 1
    ensures Has(lines, line) && line >= 1 ==> line <= |Rows(lines)| && Rows(lines)[line - 1].items == lines.entries[line]
    ensures Has(lines, line) && line >= 1 ==> Rows(lines)[line - 1].lno == line
    ensures 1 <= line <= |Rows(lines)| && !Has(lines, line) ==> Rows(lines)[line - 1].items == []
  {
    if Has(lines, line) && line >= 1 {
      assert line in Keys(lines);
      assert line <= MaxOf(Keys(lines));
    }
  }

  /** Splitting off the last value splits off its item. */
  lemma ItemsSnoc(values: seq<JsValue>, k: nat)
    requires k < |values|
    ensures Items(values[..k + 1]) == Items(values[..k]) + [StringifyWithType(values[k])]
  {
    assert values[..k + 1][..k] == values[..k];
  }

  /** The `for ... of` loop of `appendOutput`: one item pushed per value, in order. */
  method PushEach(items: seq<OutputItem>, values: seq<JsValue>) returns (r: seq<OutputItem>)
    ensures |r| == |items| + |values| && r[..|items|] == items
    ensures forall k :: 0 <= k < |values| ==> r[|items| + k] == StringifyWithType(values[k])
  {
    r := items;
    for k := 0 to |values|
      invariant r == items + Items(values[..k])
    {
      ItemsSnoc(values, k);
      r := r + [StringifyWithType(values[k])];
    }
    assert values[..|values|] == values;
  }

  // ============================================================ the panel

  /** The module-level `lineOutputs` and `lastResultLine` maps, changed in place. */
  class OutputPanel {
    var lineOutputs: OrderedMap<string, Lines>
    var lastResultLine: OrderedMap<string, int>

    function State(): Tables
      reads this
    {
      Tables(lineOutputs, lastResultLine)
    }

    ghost predicate Valid()
      reads this
    {
      Consistent(State())
    }

    constructor ()
      ensures Valid() && State() == NoTables()
    {
      lineOutputs := Empty();
      lastResultLine := Empty();
    }

    /** The bookkeeping of `appendOutput`; `hasContainer` says whether the tab's output element exists. */
    method AppendOutput(tabId: string, kind: string, args: seq<JsValue>, hasContainer: bool)
      requires Valid()
      modifies this
      ensures State() == Append(old(State()), tabId, kind, args, hasContainer)
      ensures Valid()
    {
      AppendConsistent(State(), tabId, kind, args, hasContainer);
      if !hasContainer {
        return;
      }
      if kind == "error" {
        return;
      }
      ghost var t := State();
      if !Has(lineOutputs, tabId) {
        lineOutputs := Set(lineOutputs, tabId, Empty());
        lastResultLine := Set(lastResultLine, tabId, 0);
      }
      assert State() == Prepare(t, tabId);
      ghost var p := State();
      if kind == "result" && LineFirst(args) {
        var resultLine := args[0].n;
        var val := ArgAt(args, 1);
        PushItems(tabId, resultLine, [val]);
        lastResultLine := Set(lastResultLine, tabId, resultLine);
        assert Items([val]) == [StringifyWithType(val)];
        return;
      }
      var consoleLine: Option<int> := None;
      var realArgs := args;
      if LineFirst(args) {
        consoleLine := Some(args[0].n);
        realArgs := args[1..];
      }
      var targetLine := TargetLine(consoleLine, Get(lastResultLine, tabId));
      assert targetLine == ConsoleTarget(p, tabId, args) && realArgs == ShownArgs(args);
      PushItems(tabId, targetLine, realArgs);
    }

    /**
     * `outputs.get(line)!.push(...)` for each value, after creating the line
     * when it is missing; the array pushed into is the one the table holds.
     */
    method PushItems(tabId: string, line: int, values: seq<JsValue>)
      requires Has(lineOutputs, tabId)
      modifies this
      ensures State() == WithItems(old(State()), tabId, line, old(ItemsAt(State(), tabId, line)) + Items(values))
    {
      var outputs := Get(lineOutputs, tabId).value;
      var items := if Has(outputs, line) then outputs.entries[line] else [];
      var pushed := PushEach(items, values);
      assert pushed == items + Items(values);
      lineOutputs := Set(lineOutputs, tabId, Set(outputs, line, pushed));
      assert items == old(ItemsAt(State(), tabId, line));
    }

    /** The bookkeeping of `clearOutput`. */
    method ClearOutput(tabId: string)
      requires Valid()
      modifies this
      ensures Valid() && State() == ClearTab(old(State()), tabId)
    {
      ClearTabKeeps(State(), tabId, tabId);
      lineOutputs := Delete(lineOutputs, tabId);
      lastResultLine := Delete(lastResultLine, tabId);
    }

    /** The rows `renderOutput` draws for a tab, or nothing for a tab without a table. */
    method RenderOutput(tabId: string) returns (rows: Option<seq<Row>>)
      ensures rows.None? <==> !Has(lineOutputs, tabId)
      ensures rows.Some? ==> rows.value == Rows(lineOutputs.entries[tabId])
    {
      var found := Get(lineOutputs, tabId);
      if found.None? {
        return None;
      }
      var outputs := found.value;
      var maxLine := if Size(outputs) > 0 then MaxOf(Keys(outputs)) else 0;
      var drawn: seq<Row> := [];
      var i := 1;
      while i <= maxLine
        invariant 1 <= i <= (if maxLine > 0 then maxLine else 0) + 1
        invariant |drawn| == i - 1 && forall k :: 0 <= k < |drawn| ==> drawn[k] == RowAt(outputs, k + 1)
      {
        drawn := drawn + [RowAt(outputs, i)];
        i := i + 1;
      }
      assert maxLine == MaxLine(outputs);
      assert |drawn| == |Rows(outputs)|;
      assert forall k :: 0 <= k < |drawn| ==> drawn[k] == Rows(outputs)[k];
      return Some(drawn);
    }
  }
}

=== FILE: session.dfy ===
/**
 * One `run` of an execution engine and its `abort`: the pre-flight checks,
 * the recorders and console substitute the compiled program calls, the
 * output ceiling and the clock, the buffer flushed at the end, and the error
 * report when the program throws.
 *
 * The compiled program itself is not modelled: it is given as the sequence
 * of calls it makes into the recorders and the console substitute, each with
 * the milliseconds elapsed since the run started when the call is made, and
 * whether it ends by throwing.  `run` is synchronous (nothing is awaited),
 * so no timer callback and no `abort` from outside can come between two of
 * these calls.
 */
module Session {
  import opened Wrappers
  import opened Lex
  import opened CodeGuards
  import opened Wrapping
  import opened ErrorLocator

  /** `MAX_OUTPUT_LINES` and `EXECUTION_TIMEOUT` (milliseconds). */
  const MaxOutputLines: nat := 1000
  const ExecutionTimeout: nat := 5000

  /** The event kinds a sink receives. */
  datatype Kind = Log | Error | Warn | Info | Result | Security | Magic

  /** The four methods of the console substitute. */
  type ConsoleKind = k: Kind | k.Log? || k.Error? || k.Warn? || k.Info? witness Log

  /** The values the program hands to the recorders, as far as the engines tell them apart. */
  datatype Value =
    | Undefined
    | Number(n: int)
    | Text(s: string)
    | LineTag(line: int)      // the older engine's `{__line: N}` marker object
    | Message(report: Report) // the text `friendly` or `formatLoopError` renders
    | Other(id: nat)          // any other value

  datatype Event = Event(kind: Kind, args: seq<Value>)

  /** `showLineNumbers` and `showUndefined` of `ExecutionOptions` (defaults `true` and `false`). */
  datatype Options = Options(showLineNumbers: bool, showUndefined: bool)

  /** One call the compiled program makes. */
  datatype Call =
    | ConsoleCall(kind: ConsoleKind, args: seq<Value>)
    | RecordResult(val: Value, line: Value)
    | RecordMagic(val: Value, line: Value)

  /** A call and the reading of `Date.now() - started` when it is made. */
  datatype Step = Step(call: Call, elapsed: int)

  /** The compiled program: its calls in order, and the error it ends with, if any. */
  datatype Program = Program(steps: seq<Step>, throws: Option<ErrorReport>)

  /** The older engine hands the program no `recordMagic`, and its instrumentation emits no call to one. */
  predicate LegacyProgram(p: Program) {
    forall i :: 0 <= i < |p.steps| ==> !p.steps[i].call.RecordMagic?
  }

  const DangerText: string := "C\U{00F3}digo potencialmente peligroso detectado"
  const LimitText: string := "L\U{00ED}mite de output alcanzado (" + NatToString(MaxOutputLines) + " l\U{00ED}neas)"
  const TimeoutText: string := "Ejecuci\U{00F3}n detenida por timeout"
  /** The timer's message: `EXECUTION_TIMEOUT / 1000` seconds. */
  const TimerText: string := TimeoutText + " (" + NatToString(ExecutionTimeout / 1000) + "s)"

  // ======================================================= one run's state

  /**
   * What the recorders of one run share: whether its controller is aborted,
   * the `logs` buffer, the `lines` counter, and what the sink has received.
   */
  datatype RunState = RunState(aborted: bool, logs: seq<Event>, lines: nat, out: seq<Event>)

  const Fresh: RunState := RunState(false, [], 0, [])

  /** A security event to the sink, then `abortCtrl.abort()`. */
  function Refuse(st: RunState, text: string): RunState {
    st.(aborted := true, out := st.out + [Event(Security, [Text(text)])])
  }

  /** The ceiling, then the clock, then the entry buffered and counted: the tail every counting recorder shares. */
  function AdmitEntry(st: RunState, elapsed: int, e: Event): RunState {
    if st.lines >= MaxOutputLines then Refuse(st, LimitText)
    else if elapsed > ExecutionTimeout then Refuse(st, TimeoutText)
    else st.(logs := st.logs + [e], lines := st.lines + 1)
  }

  /** The older engine's console: a leading `{__line: N}` becomes the number `N`. */
  function Untag(args: seq<Value>): (r: seq<Value>)
    ensures |r| == |args|
    ensures forall k :: 1 <= k < |args| ==> r[k] == args[k]
  {
    if |args| > 0 && args[0].LineTag? then [Number(args[0].line)] + args[1..] else args
  }

  /** One call, as the current engine's closures handle it. */
  function CurrentStep(opts: Options, st: RunState, s: Step): RunState {
    match s.call
    case ConsoleCall(k, args) => st.(logs := st.logs + [Event(k, args)])
    case RecordResult(v, line) =>
      if st.aborted || (!opts.showUndefined && v == Undefined) then st
      else AdmitEntry(st, s.elapsed, Event(Result, [line, v]))
    case RecordMagic(v, line) =>
      if st.aborted then st else AdmitEntry(st, s.elapsed, Event(Magic, [line, v]))
  }

  /** One call, as the older engine's closures handle it. */
  function LegacyStep(st: RunState, s: Step): RunState
    requires !s.call.RecordMagic?
  {
    match s.call
    case ConsoleCall(k, args) => if st.aborted then st else AdmitEntry(st, s.elapsed, Event(k, Untag(args)))
    case RecordResult(v, line) => if st.aborted then st else AdmitEntry(st, s.elapsed, Event(Result, [line, v]))
  }

  function Apply(engine: Engine, opts: Options, st: RunState, s: Step): RunState
    requires engine == Legacy ==> !s.call.RecordMagic?
  {
    if engine == Current then CurrentStep(opts, st, s) else LegacyStep(st, s)
  }

  /** The calls `steps`, made in order from `st`. */
  function Execute(engine: Engine, opts: Options, st: RunState, steps: seq<Step>): RunState
    requires engine == Legacy ==> forall i :: 0 <= i < |steps| ==> !steps[i].call.RecordMagic?
    decreases |steps|
  {
    if steps == [] then st
    else Apply(engine, opts, Execute(engine, opts, st, steps[..|steps| - 1]), steps[|steps| - 1])
  }

  // ========================================================= a whole run

  /** What the sink is sent before any controller exists: the denylist, then loops written without a body. */
  function Preflight(raw: string): Option<Event> {
    if ContainsDangerousCode(raw) then Some(Event(Security, [Text(DangerText)]))
    else match LoopWithoutBody(raw)
         case Some(d) => Some(Event(Error, [Message(LoopErrorReport(d))]))
         case None => None
  }

  /** The `userStartLine` each engine hands to `friendly`: the current one passes 0. */
  function FriendlyStartLine(engine: Engine): int {
    if engine == Current then 0 else UserStartLine(Legacy)
  }

  /** After the program: its error reported through `friendly`, or else the buffer flushed unless aborted. */
  function Settle(engine: Engine, raw: string, st: RunState, throws: Option<ErrorReport>): (r: RunState)
    ensures r.aborted == st.aborted && r.logs == st.logs && r.lines == st.lines
    ensures |st.out| <= |r.out| && r.out[..|st.out|] == st.out
    ensures throws.Some? ==> |r.out| == |st.out| + 1 && r.out[|st.out|].kind == Error
  {
    match throws
    case Some(e) => st.(out := st.out + [Event(Error, [Message(Friendly(engine, e, raw, FriendlyStartLine(engine)))])])
    case None => if st.aborted then st else st.(out := st.out + st.logs)
  }

  /** What a run sent to its sink, whether its controller ended aborted, and whether its timer is still armed. */
  datatype Outcome = Outcome(out: seq<Event>, aborted: bool, timerArmed: bool)

  /** A run, with the timer cleared on every path (as the older engine does in `finally`). */
  function RunSpec(engine: Engine, raw: string, opts: Options, prog: Program): Outcome
    requires engine == Legacy ==> LegacyProgram(prog)
  {
    match Preflight(raw)
    case Some(ev) => Outcome([ev], false, false)
    case None =>
      var st := Settle(engine, raw, Execute(engine, opts, Fresh, prog.steps), prog.throws);
      Outcome(st.out, st.aborted, false)
  }

  /** The current engine's `run` as written: `clearTimeout` is reached only after a flush. */
  function CurrentRunAsWritten(raw: string, opts: Options, prog: Program): Outcome {
    var o := RunSpec(Current, raw, opts, prog);
    var flushed := prog.throws.None? && !o.aborted;
    o.(timerArmed := Preflight(raw).None? && !flushed)
  }

  /** What the sink has received once `EXECUTION_TIMEOUT` has passed: an armed timer fires unless the run was aborted. */
  function Eventually(o: Outcome): (r: seq<Event>)
    ensures |o.out| <= |r| <= |o.out| + 1 && r[..|o.out|] == o.out
    ensures |r| > |o.out| <==> o.timerArmed && !o.aborted
  {
    if o.timerArmed && !o.aborted then o.out + [Event(Security, [Text(TimerText)])] else o.out
  }

  // ========================================================= properties

  /** The entries `lines` counts: all of them in the older engine, only results and probes in the current one. */
  function Counted(engine: Engine, logs: seq<Event>): nat
    decreases |logs|
  {
    if logs == [] then 0
    else
      var e := logs[|logs| - 1];
      Counted(engine, logs[..|logs| - 1]) + (if engine == Legacy || e.kind == Result || e.kind == Magic then 1 else 0)
  }

  lemma CountedSnoc(engine: Engine, logs: seq<Event>, e: Event)
    ensures Counted(engine, logs + [e]) == Counted(engine, logs) + (if engine == Legacy || e.kind == Result || e.kind == Magic then 1 else 0)
  {
    assert (logs + [e])[..|logs|] == logs;
  }

  /**
   * What holds of every state a run passes through: the ceiling is never
   * passed, `lines` counts exactly the counted entries, and the sink has
   * heard nothing but, once aborted, the one security event that aborted it.
   */
  predicate Sound(engine: Engine, st: RunState) {
    st.lines <= MaxOutputLines && st.lines == Counted(engine, st.logs) &&
    if st.aborted then |st.out| == 1 && st.out[0].kind == Security else st.out == []
  }

  /** The shared tail of the counting recorders keeps a run sound. */
  lemma AdmitKeepsSound(engine: Engine, st: RunState, elapsed: int, e: Event)
    requires Sound(engine, st) && !st.aborted
    requires engine == Legacy || e.kind == Result || e.kind == Magic
    ensures Sound(engine, AdmitEntry(st, elapsed, e))
  {
    CountedSnoc(engine, st.logs, e);
  }

  /** A console entry of the current engine is buffered without being counted. */
  lemma ConsoleKeepsSound(st: RunState, e: Event)
    requires Sound(Current, st) && e.kind != Result && e.kind != Magic
    ensures Sound(Current, st.(logs := st.logs + [e]))
  {
    CountedSnoc(Current, st.logs, e);
  }

  /** Every call keeps a run sound. */
  lemma StepKeepsSound(engine: Engine, opts: Options, st: RunState, s: Step)
    requires engine == Legacy ==> !s.call.RecordMagic?
    requires Sound(engine, st)
    ensures Sound(engine, Apply(engine, opts, st, s))
  {
    if !st.aborted {
      match s.call
      case ConsoleCall(k, args) =>
        if engine == Current {
          ConsoleKeepsSound(st, Event(k, args));
        } else {
          AdmitKeepsSound(engine, st, s.elapsed, Event(k, Untag(args)));
        }
      case RecordResult(v, line) =>
        AdmitKeepsSound(engine, st, s.elapsed, Event(Result, [line, v]));
      case RecordMagic(v, line) =>
        AdmitKeepsSound(engine, st, s.elapsed, Event(Magic, [line, v]));
    }
  }

  /** Every run is sound after any sequence of calls. */
  lemma {:induction false} ExecuteKeepsSound(engine: Engine, opts: Options, steps: seq<Step>)
    requires engine == Legacy ==> forall i :: 0 <= i < |steps| ==> !steps[i].call.RecordMagic?
    ensures Sound(engine, Execute(engine, opts, Fresh, steps))
    decreases |steps|
  {
    if steps != [] {
      var n := |steps| - 1;
      ExecuteKeepsSound(engine, opts, steps[..n]);
      StepKeepsSound(engine, opts, Execute(engine, opts, Fresh, steps[..n]), steps[n]);
    }
  }

  /** The calls that are counted: every call in the older engine; results not filtered out, and probes, in the current one. */
  predicate Counts(engine: Engine, opts: Options, c: Call) {
    match c
    case ConsoleCall(_, _) => engine == Legacy
    case RecordResult(v, _) => engine == Legacy || opts.showUndefined || v != Undefined
    case RecordMagic(_, _) => engine == Current
  }

  /** At the ceiling, a counted call sends one security event and aborts, buffering nothing. */
  lemma CeilingAborts(engine: Engine, opts: Options, st: RunState, s: Step)
    requires Counts(engine, opts, s.call) && !st.aborted && st.lines >= MaxOutputLines
    ensures Apply(engine, opts, st, s) == Refuse(st, LimitText)
  {
  }

  /** Below the ceiling and in time, a counted call buffers exactly one entry and adds exactly 1 to `lines`. */
  lemma AcceptedAddsOne(engine: Engine, opts: Options, st: RunState, s: Step)
    requires Counts(engine, opts, s.call) && !st.aborted && st.lines < MaxOutputLines && s.elapsed <= ExecutionTimeout
    ensures var r := Apply(engine, opts, st, s);
            |r.logs| == |st.logs| + 1 && r.logs[..|st.logs|] == st.logs &&
            r.lines == st.lines + 1 && r.out == st.out && !r.aborted
  {
  }

  /**
   * Once aborted, nothing more reaches the sink or the counter: the older
   * engine ignores every call, the current one still buffers console calls.
   */
  lemma AbortedFreezes(engine: Engine, opts: Options, st: RunState, s: Step)
    requires engine == Legacy ==> !s.call.RecordMagic?
    requires st.aborted
    ensures var r := Apply(engine, opts, st, s);
            r.aborted && r.out == st.out && r.lines == st.lines &&
            (engine == Legacy || !s.call.ConsoleCall? ==> r == st)
  {
  }

  /** The current engine drops `undefined` results unless `showUndefined`; the older one buffers them. */
  lemma UndefinedFilteredOnlyByCurrent(opts: Options, st: RunState, line: Value, elapsed: int)
    requires !st.aborted && st.lines < MaxOutputLines && elapsed <= ExecutionTimeout
    ensures var s := Step(RecordResult(Undefined, line), elapsed);
            (!opts.showUndefined ==> Apply(Current, opts, st, s) == st) &&
            Apply(Legacy, opts, st, s).logs == st.logs + [Event(Result, [line, Undefined])]
  {
  }

  /** The older console turns a leading `{__line: N}` into the number `N` and keeps the other arguments. */
  lemma LegacyTagBecomesNumber(opts: Options, st: RunState, k: ConsoleKind, args: seq<Value>, elapsed: int)
    requires |args| > 0 && args[0].LineTag?
    requires !st.aborted && st.lines < MaxOutputLines && elapsed <= ExecutionTimeout
    ensures var r := Apply(Legacy, opts, st, Step(ConsoleCall(k, args), elapsed));
            r.logs == st.logs + [Event(k, [Number(args[0].line)] + args[1..])]
  {
  }

  /** A run that returns without being aborted sends the sink exactly its buffer, in order. */
  lemma ReturnedRunFlushesInOrder(engine: Engine, raw: string, opts: Options, prog: Program)
    requires engine == Legacy ==> LegacyProgram(prog)
    requires Preflight(raw).None? && prog.throws.None?
    requires !Execute(engine, opts, Fresh, prog.steps).aborted
    ensures RunSpec(engine, raw, opts, prog).out == Execute(engine, opts, Fresh, prog.steps).logs
  {
    ExecuteKeepsSound(engine, opts, prog.steps);
  }

  /** A run aborted by a recorder shows the one security event and nothing it buffered. */
  lemma AbortedRunShowsOnlyTheAlarm(engine: Engine, raw: string, opts: Options, prog: Program)
    requires engine == Legacy ==> LegacyProgram(prog)
    requires Preflight(raw).None? && prog.throws.None?
    requires Execute(engine, opts, Fresh, prog.steps).aborted
    ensures var out := RunSpec(engine, raw, opts, prog).out;
            |out| == 1 && out[0].kind == Security
  {
    ExecuteKeepsSound(engine, opts, prog.steps);
  }

  /**
   * A program that throws shows none of what it buffered: the sink hears at
   * most the security event that aborted it, then the `friendly` report.
   */
  lemma ThrownRunReportsError(engine: Engine, raw: string, opts: Options, prog: Program)
    requires engine == Legacy ==> LegacyProgram(prog)
    requires Preflight(raw).None? && prog.throws.Some?
    ensures var out := RunSpec(engine, raw, opts, prog).out;
            1 <= |out| <= 2 && (|out| == 2 ==> out[0].kind == Security) &&
            out[|out| - 1] == Event(Error, [Message(Friendly(engine, prog.throws.value, raw, FriendlyStartLine(engine)))])
  {
    ExecuteKeepsSound(engine, opts, prog.steps);
  }

  /** Code on the denylist never runs, and neither does any code that extends it. */
  lemma DangerousCodeNeverRuns(engine: Engine, a: string, b: string, opts: Options, prog: Program)
    requires engine == Legacy ==> LegacyProgram(prog)
    requires ContainsDangerousCode(a)
    ensures RunSpec(engine, a + b, opts, prog).out == [Event(Security, [Text(DangerText)])]
  {
    DangerIsMonotone(a, b);
  }

  /**
   * As written, the current engine leaves its timer armed when the program
   * throws: after the error report, `EXECUTION_TIMEOUT` later, comes a
   * timeout event for a run that has already ended, unless the program's
   * own steps aborted the controller (the callback then stays silent).
   */
  lemma ThrowLeavesTimerArmed(raw: string, opts: Options, prog: Program)
    requires Preflight(raw).None? && prog.throws.Some?
    ensures var settled := RunSpec(Current, raw, opts, prog).out;
            var report := Event(Error, [Message(Friendly(Current, prog.throws.value, raw, 0))]);
            |settled| >= 1 && settled[|settled| - 1] == report &&
            Eventually(CurrentRunAsWritten(raw, opts, prog)) ==
              if Execute(Current, opts, Fresh, prog.steps).aborted then settled
              else settled + [Event(Security, [Text(TimerText)])]
    ensures prog.steps == [] ==>
            Eventually(CurrentRunAsWritten(raw, opts, prog)) ==
            [Event(Error, [Message(Friendly(Current, prog.throws.value, raw, 0))]), Event(Security, [Text(TimerText)])]
  {
    ThrownRunReportsError(Current, raw, opts, prog);
    ThrownRunStaysArmed(raw, opts, prog);
    if prog.steps == [] {
      ThrowAtOnceReportsOnly(raw, opts, prog);
    }
  }

  /** A program that throws at once sends only its error report. */
  lemma ThrowAtOnceReportsOnly(raw: string, opts: Options, prog: Program)
    requires Preflight(raw).None? && prog.throws.Some? && prog.steps == []
    ensures !Execute(Current, opts, Fresh, prog.steps).aborted
    ensures RunSpec(Current, raw, opts, prog).out == [Event(Error, [Message(Friendly(Current, prog.throws.value, raw, 0))])]
  {
  }

  /** After a throw the current engine's timer fires after `RunSpec`'s output unless the steps aborted the run. */
  lemma ThrownRunStaysArmed(raw: string, opts: Options, prog: Program)
    requires Preflight(raw).None? && prog.throws.Some?
    ensures var settled := RunSpec(Current, raw, opts, prog).out;
            Eventually(CurrentRunAsWritten(raw, opts, prog)) ==
              if Execute(Current, opts, Fresh, prog.steps).aborted then settled
              else settled + [Event(Security, [Text(TimerText)])]
  {
    var o := CurrentRunAsWritten(raw, opts, prog);
    assert o.timerArmed && o.out == RunSpec(Current, raw, opts, prog).out;
    assert o.aborted == Execute(Current, opts, Fresh, prog.steps).aborted;
  }

  /** With the timer cleared on every path, the error report is the last thing the sink ever hears from that run. */
  lemma ClearedTimerStaysSilent(engine: Engine, raw: string, opts: Options, prog: Program)
    requires engine == Legacy ==> LegacyProgram(prog)
    requires Preflight(raw).None? && prog.throws.Some?
    ensures var out := Eventually(RunSpec(engine, raw, opts, prog));
            |out| >= 1 && out[|out| - 1] == Event(Error, [Message(Friendly(engine, prog.throws.value, raw, FriendlyStartLine(engine)))])
  {
    ThrownRunReportsError(engine, raw, opts, prog);
  }

  /** The checks `run` makes before creating a controller. */
  method CheckBeforeRun(raw: string) returns (pre: Option<Event>)
    ensures pre == Preflight(raw)
  {
    if ContainsDangerousCode(raw) {
      return Some(Event(Security, [Text(DangerText)]));
    }
    var loopWithoutBody := DetectLoopWithoutBody(raw);
    if loopWithoutBody.Some? {
      return Some(Event(Error, [Message(LoopErrorReport(loopWithoutBody.value))]));
    }
    return None;
  }

  // ============================================================ classes

  /** `AbortController`: only its `signal.aborted` flag matters here. */
  class Controller {
    var aborted: bool

    constructor ()
      ensures !aborted
    {
      aborted := false;
    }

    method Abort()
      modifies this
      ensures aborted
    {
      aborted := true;
    }
  }

  /** The closures of one `run`: they share `logs`, `lines`, the run's controller and its sink. */
  class RunSession {
    const engine: Engine
    const opts: Options
    const ctrl: Controller
    var logs: seq<Event>
    var lines: nat
    var out: seq<Event>

    function State(): RunState
      reads this, ctrl
    {
      RunState(ctrl.aborted, logs, lines, out)
    }

    constructor (engine: Engine, opts: Options, ctrl: Controller)
      requires !ctrl.aborted
      ensures this.engine == engine && this.opts == opts && this.ctrl == ctrl
      ensures State() == Fresh
    {
      this.engine := engine;
      this.opts := opts;
      this.ctrl := ctrl;
      logs := [];
      lines := 0;
      out := [];
    }

    /** The checks and the push every counting recorder ends with. */
    method Admit(e: Event, elapsed: int)
      requires !ctrl.aborted
      modifies this, ctrl
      ensures State() == AdmitEntry(old(State()), elapsed, e)
    {
      if lines >= MaxOutputLines {
        out := out + [Event(Security, [Text(LimitText)])];
        ctrl.Abort();
        return;
      }
      if elapsed > ExecutionTimeout {
        out := out + [Event(Security, [Text(TimeoutText)])];
        ctrl.Abort();
        return;
      }
      logs := logs + [e];
      lines := lines + 1;
    }

    /** `console.log|error|warn|info(...args)`. */
    method Console(k: ConsoleKind, args: seq<Value>, elapsed: int)
      modifies this, ctrl
      ensures State() == Apply(engine, opts, old(State()), Step(ConsoleCall(k, args), elapsed))
    {
      if engine == Current {
        if opts.showLineNumbers && |args| > 0 && args[0].Number? {
          var lineNo := args[0];
          var realArgs := args[1..];
          logs := logs + [Event(k, [lineNo] + realArgs)];
          assert [lineNo] + realArgs == args;
        } else {
          logs := logs + [Event(k, args)];
        }
      } else {
        if ctrl.aborted { return; }
        var realArgs := args;
        var lineNo: Option<int> := None;
        if |args| > 0 && args[0].LineTag? {
          lineNo := Some(args[0].line);
          realArgs := args[1..];
        }
        Admit(Event(k, if lineNo.Some? then [Number(lineNo.value)] + realArgs else realArgs), elapsed);
      }
    }

    /** `recordResult(val, line)`. */
    method RecordResult(val: Value, line: Value, elapsed: int)
      modifies this, ctrl
      ensures State() == Apply(engine, opts, old(State()), Step(Call.RecordResult(val, line), elapsed))
    {
      if ctrl.aborted { return; }
      if engine == Current && !opts.showUndefined && val == Undefined { return; }
      Admit(Event(Result, [line, val]), elapsed);
    }

    /** `recordMagic(val, line)`, which only the current engine provides. */
    method RecordMagic(val: Value, line: Value, elapsed: int)
      requires engine == Current
      modifies this, ctrl
      ensures State() == Apply(engine, opts, old(State()), Step(Call.RecordMagic(val, line), elapsed))
    {
      if ctrl.aborted { return; }
      Admit(Event(Magic, [line, val]), elapsed);
    }

    /** `fn(mockConsole, abortCtrl.signal, recordResult, recordMagic)`: the program's calls, in order. */
    method Perform(steps: seq<Step>)
      requires engine == Legacy ==> forall i :: 0 <= i < |steps| ==> !steps[i].call.RecordMagic?
      modifies this, ctrl
      ensures State() == Execute(engine, opts, old(State()), steps)
    {
      var i := 0;
      while i < |steps|
        invariant 0 <= i <= |steps|
        invariant State() == Execute(engine, opts, old(State()), steps[..i])
      {
        var s := steps[i];
        assert steps[..i + 1][..i] == steps[..i];
        match s.call {
          case ConsoleCall(k, args) => Console(k, args, s.elapsed);
          case RecordResult(v, line) => RecordResult(v, line, s.elapsed);
          case RecordMagic(v, line) => RecordMagic(v, line, s.elapsed);
        }
        i := i + 1;
      }
      assert steps[..i] == steps;
    }

    /** After the program returns or throws: the `catch` branch, or the flush unless aborted. */
    method Conclude(raw: string, throws: Option<ErrorReport>)
      modifies this
      ensures State() == Settle(engine, raw, old(State()), throws)
    {
      match throws {
        case Some(e) =>
          var usl := if engine == Current then 0 else UserStartLine(Legacy);
          out := out + [Event(Error, [Message(Friendly(engine, e, raw, usl))])];
        case None =>
          if !ctrl.aborted {
            Flush();
          }
      }
    }

    /** `for (const log of logs) sink(log.type, log.args)`. */
    method Flush()
      modifies this
      ensures out == old(out) + logs && logs == old(logs) && lines == old(lines)
    {
      var i := 0;
      while i < |logs|
        invariant 0 <= i <= |logs| && logs == old(logs) && lines == old(lines)
        invariant out == old(out) + logs[..i]
      {
        out := out + [logs[i]];
        i := i + 1;
      }
      assert logs[..i] == logs;
    }
  }

  /** An execution engine: only its `abortCtrl` field changes between runs. */
  class ExecutionEngine {
    const variant: Engine
    var abortCtrl: Controller?

    constructor (variant: Engine)
      ensures this.variant == variant && abortCtrl == null
    {
      this.variant := variant;
      abortCtrl := null;
    }

    /** `abort`: the running controller, if any, is aborted and forgotten. */
    method Abort()
      modifies this, abortCtrl
      ensures abortCtrl == null
      ensures old(abortCtrl) != null ==> old(abortCtrl).aborted
    {
      if abortCtrl != null {
        abortCtrl.Abort();
        abortCtrl := null;
      }
    }

    /**
     * `run`.  A previous controller is aborted once the pre-flight checks
     * pass, and none is left behind.  The sink hears what `RunSpec` says in
     * both engines; the timer is cleared in `finally` by the older engine,
     * but by the current one only after a flush, as `CurrentRunAsWritten`
     * says.
     */
    method Run(raw: string, opts: Options, prog: Program) returns (o: Outcome)
      requires variant == Legacy ==> LegacyProgram(prog)
      modifies this, abortCtrl
      ensures abortCtrl == if Preflight(raw).Some? then old(abortCtrl) else null
      ensures o.out == RunSpec(variant, raw, opts, prog).out && o.aborted == RunSpec(variant, raw, opts, prog).aborted
      ensures o == if variant == Current then CurrentRunAsWritten(raw, opts, prog) else RunSpec(Legacy, raw, opts, prog)
      ensures old(abortCtrl) != null && Preflight(raw).None? ==> old(abortCtrl).aborted
    {
      var pre := CheckBeforeRun(raw);
      if pre.Some? {
        return Outcome([pre.value], false, false);
      }
      if abortCtrl != null {
        abortCtrl.Abort();
      }
      var ctrl := new Controller();
      abortCtrl := ctrl;
      var session := new RunSession(variant, opts, ctrl);
      var timerArmed := true;
      session.Perform(prog.steps);
      var flushed := prog.throws.None? && !ctrl.aborted;
      session.Conclude(raw, prog.throws);
      if variant == Legacy || flushed {
        timerArmed := false;
      }
      o := Outcome(session.out, ctrl.aborted, timerArmed);
      abortCtrl := null;
    }
  }
}

=== FILE: syntax_transformer.dfy ===
/**
 * The import/export rewriter of the playground's module support: ES
 * `import` statements become calls to `__moduleSystem.resolve`, `export`
 * statements become assignments to `__exports`, and two extractors list the
 * modules a text imports and the names it exports.
 *
 * Every pattern is a fixed regular expression; each is scanned here
 * greedily, and the comment at each scanner says why the greedy scan finds
 * the match the backtracking engine finds.
 */
module SyntaxTransformer {
  import opened Wrappers
  import opened Lex

  /** The half-open range `[start, end)` of a capture. */
  datatype Span = Span(start: nat, end: nat)

  predicate InText(s: string, sp: Span) { sp.start <= sp.end <= |s| }

  function Cut(s: string, sp: Span): string
    requires InText(s, sp)
  {
    s[sp.start..sp.end]
  }

  // ====================================================== splitting lists

  /** `s.split(c)`: the pieces between the separators, at least one. */
  function SplitOn(s: string, c: char): (r: seq<string>)
    ensures |r| >= 1
    ensures forall k :: 0 <= k < |r| ==> c !in r[k]
  {
    if s == [] then [""]
    else if s[0] == c then [""] + SplitOn(s[1..], c)
    else
      var t := SplitOn(s[1..], c);
      [[s[0]] + t[0]] + t[1..]
  }

  /** `pieces.join(sep)`. */
  function JoinWith(ls: seq<string>, sep: string): string {
    if ls == [] then "" else if |ls| == 1 then ls[0] else ls[0] + sep + JoinWith(ls[1..], sep)
  }

  /** `.map((i) => i.trim()).filter(Boolean)`: the trimmed pieces that are not empty, in order. */
  function TrimmedNonEmpty(pieces: seq<string>): (r: seq<string>)
    ensures |r| <= |pieces|
    ensures forall k :: 0 <= k < |r| ==> r[k] != [] && Trim(r[k]) == r[k]
  {
    if pieces == [] then []
    else
      var rest := TrimmedNonEmpty(pieces[1..]);
      var t := Trim(pieces[0]);
      TrimKeeps(t);
      if t == [] then rest else [t] + rest
  }

  /** A list written between braces, `a, b ,c`: its names. */
  function NameList(x: string): seq<string> {
    TrimmedNonEmpty(SplitOn(x, ','))
  }

  /** A text without the separator is one piece. */
  lemma {:induction false} SplitNone(s: string, c: char)
    requires c !in s
    ensures SplitOn(s, c) == [s]
  {
    if s != [] {
      assert c !in s[1..] by { assert forall k :: 0 <= k < |s| - 1 ==> s[1..][k] == s[k + 1]; }
      SplitNone(s[1..], c);
      assert [s[0]] + s[1..] == s;
    }
  }

  /** The first separator ends the first piece. */
  lemma {:induction false} SplitAt(s: string, j: nat, c: char)
    requires j < |s| && s[j] == c && c !in s[..j]
    ensures SplitOn(s, c) == [s[..j]] + SplitOn(s[j + 1..], c)
  {
    if j > 0 {
      assert s[0] == s[..j][0];
      assert s[1..][..j - 1] == s[..j][1..];
      SplitAt(s[1..], j - 1, c);
      assert s[1..][j..] == s[j + 1..];
      assert [s[0]] + s[1..][..j - 1] == s[..j];
    }
  }

  /** Splitting and joining again gives the text back. */
  lemma {:induction false} SplitJoin(s: string, c: char)
    ensures JoinWith(SplitOn(s, c), [c]) == s
    decreases |s|
  {
    if s != [] {
      SplitJoin(s[1..], c);
      var t := SplitOn(s[1..], c);
      if s[0] == c {
        assert SplitOn(s, c) == [""] + t;
        assert s == [c] + s[1..];
      } else {
        JoinHead(s[0], t, [c]);
        assert s == [s[0]] + s[1..];
      }
    }
  }

  /** Gluing a character to the first piece glues it to the joined text. */
  lemma JoinHead(ch: char, t: seq<string>, sep: string)
    requires |t| >= 1
    ensures JoinWith([[ch] + t[0]] + t[1..], sep) == [ch] + JoinWith(t, sep)
  {
    var u := [[ch] + t[0]] + t[1..];
    assert u[1..] == t[1..];
    if |t| > 1 {
      assert JoinWith(u, sep) == u[0] + sep + JoinWith(t[1..], sep);
    }
  }

  /** Names that are already trimmed and non-empty are all kept, in order. */
  lemma {:induction false} CleanNamesKept(names: seq<string>)
    requires forall k :: 0 <= k < |names| ==> names[k] != [] && Trim(names[k]) == names[k]
    ensures TrimmedNonEmpty(names) == names
  {
    if names != [] {
      CleanNamesKept(names[1..]);
    }
  }

  // ================================================== shared sub-patterns

  /** `\s+` at `p`: the end of a non-empty run of spaces. */
  function Spaces1(s: string, p: nat): (r: Option<nat>)
    ensures r.Some? ==> p < r.value <= |s|
  {
    if p < |s| && IsSpace(s[p]) then Some(SkipSpaces(s, p)) else None
  }

  /** `\w+` at `p`: the end of a non-empty run of word characters. */
  function Word1(s: string, p: nat): (r: Option<nat>)
    ensures r.Some? ==> p < r.value <= |s| && AllWord(s[p..r.value])
  {
    if p < |s| && IsWordChar(s[p]) then Some(SkipWord(s, p)) else None
  }

  /** `KEYWORD\s+` at `p`: where what follows the keyword starts. */
  function KeywordThenSpaces(s: string, p: nat, kw: string): (r: Option<nat>)
    ensures r.Some? ==> p + |kw| < r.value <= |s|
  {
    if LitAt(s, p, kw) then Spaces1(s, p + |kw|) else None
  }

  /**
   * `['"]([^'"]+)['"]` at `q`: the module name.  `[^'"]+` cannot run past a
   * quote, so the greedy run to the first quote is the only candidate.
   */
  function Quoted(s: string, q: nat): (r: Option<Span>)
    ensures r.Some? ==> q < r.value.start < r.value.end < |s| && r.value.start == q + 1
  {
    if q < |s| && (s[q] == '\'' || s[q] == '"') then
      var e := FindQuote(s, q + 1);
      if q + 1 < e < |s| then Some(Span(q + 1, e)) else None
    else None
  }

  /** `\s+from\s+['"]([^'"]+)['"]` at `p`: the module name. */
  function FromClause(s: string, p: nat): (r: Option<Span>)
    ensures r.Some? ==> p < r.value.start < r.value.end < |s|
  {
    match Spaces1(s, p)
    case None => None
    case Some(f) =>
      match KeywordThenSpaces(s, f, "from")
      case None => None
      case Some(q) => Quoted(s, q)
  }

  /** `[^}]+\}` after the `{` at `b - 1`: the contents of the braces. */
  function BraceBody(s: string, b: nat): (r: Option<Span>)
    ensures r.Some? ==> b == r.value.start < r.value.end < |s| && s[r.value.end] == '}'
  {
    if b <= |s| then
      var c := FindChar(s, b, '}');
      if b < c < |s| then Some(Span(b, c)) else None
    else None
  }

  // ============================================================ imports

  /** A matched import: the first capture (names, a name, or nothing) and the module name. */
  datatype ImportMatch = ImportMatch(names: Span, source: Span)

  predicate ImportInText(s: string, m: ImportMatch) {
    InText(s, m.names) && InText(s, m.source) && m.source.end < |s|
  }

  /** `import\s+\{([^}]+)\}\s+from\s+['"]([^'"]+)['"]` at `i`. */
  function NamedImport(s: string, i: nat): (r: Option<ImportMatch>)
    ensures r.Some? ==> ImportInText(s, r.value) && i < r.value.source.start
  {
    match KeywordThenSpaces(s, i, "import")
    case None => None
    case Some(b) =>
      if b < |s| && s[b] == '{' then
        match BraceBody(s, b + 1)
        case None => None
        case Some(x) =>
          match FromClause(s, x.end + 1)
          case None => None
          case Some(mod) => Some(ImportMatch(x, mod))
      else None
  }

  /** `import\s+\*\s+as\s+(\w+)\s+from\s+['"]([^'"]+)['"]` at `i`. */
  function NamespaceImport(s: string, i: nat): (r: Option<ImportMatch>)
    ensures r.Some? ==> ImportInText(s, r.value) && i < r.value.source.start
  {
    match KeywordThenSpaces(s, i, "import")
    case None => None
    case Some(b) =>
      match KeywordThenSpaces(s, b, "*")
      case None => None
      case Some(a) =>
        match KeywordThenSpaces(s, a, "as")
        case None => None
        case Some(n) =>
          match Word1(s, n)
          case None => None
          case Some(ne) =>
            match FromClause(s, ne)
            case None => None
            case Some(mod) => Some(ImportMatch(Span(n, ne), mod))
  }

  /** `import\s+(\w+)\s+from\s+['"]([^'"]+)['"]` at `i`. */
  function DefaultImport(s: string, i: nat): (r: Option<ImportMatch>)
    ensures r.Some? ==> ImportInText(s, r.value) && i < r.value.source.start
  {
    match KeywordThenSpaces(s, i, "import")
    case None => None
    case Some(n) =>
      match Word1(s, n)
      case None => None
      case Some(ne) =>
        match FromClause(s, ne)
        case None => None
        case Some(mod) => Some(ImportMatch(Span(n, ne), mod))
  }

  /** `import\s+['"]([^'"]+)['"]` at `i`. */
  function BareImport(s: string, i: nat): (r: Option<ImportMatch>)
    ensures r.Some? ==> ImportInText(s, r.value) && i < r.value.source.start
  {
    match KeywordThenSpaces(s, i, "import")
    case None => None
    case Some(q) =>
      match Quoted(s, q)
      case None => None
      case Some(mod) => Some(ImportMatch(Span(q, q), mod))
  }

  /** The end of an import match: the closing quote is its last character. */
  function ImportEnd(m: Option<ImportMatch>): Option<nat> {
    match m
    case Some(x) => Some(x.source.end + 1)
    case None => None
  }

  function NamedImportEnd(s: string, i: nat): Option<nat> { ImportEnd(NamedImport(s, i)) }
  function NamespaceImportEnd(s: string, i: nat): Option<nat> { ImportEnd(NamespaceImport(s, i)) }
  function DefaultImportEnd(s: string, i: nat): Option<nat> { ImportEnd(DefaultImport(s, i)) }
  function BareImportEnd(s: string, i: nat): Option<nat> { ImportEnd(BareImport(s, i)) }

  const Resolve: string := "__moduleSystem.resolve('"

  /** `const { a, b } = __moduleSystem.resolve('m');` */
  function Destructure(names: string, mod: string): string {
    "const { " + JoinWith(NameList(names), ", ") + " } = " + Resolve + mod + "');"
  }

  function NamedImportText(s: string, i: nat, e: nat): string {
    match NamedImport(s, i)
    case Some(m) => Destructure(Cut(s, m.names), Cut(s, m.source))
    case None => []
  }

  /** `const N = __moduleSystem.resolve('m');` */
  function NamespaceImportText(s: string, i: nat, e: nat): string {
    match NamespaceImport(s, i)
    case Some(m) => "const " + Cut(s, m.names) + " = " + Resolve + Cut(s, m.source) + "');"
    case None => []
  }

  /** `const N = __moduleSystem.resolve('m').default || __moduleSystem.resolve('m');` */
  function DefaultBinding(name: string, mod: string): string {
    "const " + name + " = " + Resolve + mod + "').default || " + Resolve + mod + "');"
  }

  function DefaultImportText(s: string, i: nat, e: nat): string {
    match DefaultImport(s, i)
    case Some(m) => DefaultBinding(Cut(s, m.names), Cut(s, m.source))
    case None => []
  }

  /** `__moduleSystem.resolve('m');` */
  function BareImportText(s: string, i: nat, e: nat): string {
    match BareImport(s, i)
    case Some(m) => Resolve + Cut(s, m.source) + "');"
    case None => []
  }

  /** `transformImports`: the four forms, each replaced everywhere, in this order. */
  function TransformImports(code: string): string {
    var named := ReplaceAll(code, NamedImportEnd, NamedImportText, 0);
    var namespace := ReplaceAll(named, NamespaceImportEnd, NamespaceImportText, 0);
    var default := ReplaceAll(namespace, DefaultImportEnd, DefaultImportText, 0);
    ReplaceAll(default, BareImportEnd, BareImportText, 0)
  }

  /** No import form matches where the text has no `import`. */
  lemma NoImportNoMatch(s: string)
    requires !Contains(s, "import")
    ensures forall k :: 0 <= k < |s| ==>
              NamedImportEnd(s, k).None? && NamespaceImportEnd(s, k).None? &&
              DefaultImportEnd(s, k).None? && BareImportEnd(s, k).None?
  {
    forall k | 0 <= k < |s|
      ensures NamedImportEnd(s, k).None? && NamespaceImportEnd(s, k).None? &&
              DefaultImportEnd(s, k).None? && BareImportEnd(s, k).None?
    {
      assert !LitAt(s, k, "import");
    }
  }

  /** Text without the word `import` passes through `transformImports` unchanged. */
  lemma ImportFreeUnchanged(code: string)
    requires !Contains(code, "import")
    ensures TransformImports(code) == code
  {
    NoImportNoMatch(code);
    ReplaceAllNone(code, NamedImportEnd, NamedImportText);
    ReplaceAllNone(code, NamespaceImportEnd, NamespaceImportText);
    ReplaceAllNone(code, DefaultImportEnd, DefaultImportText);
    ReplaceAllNone(code, BareImportEnd, BareImportText);
  }

  /** `import {NAMES} from 'MODULE'`, written with single spaces. */
  function NamedImportStatement(names: string, mod: string): string {
    "import {" + names + "} from '" + mod + "'"
  }

  /** A module name as the quotes delimit it. */
  predicate ModuleName(mod: string) {
    mod != [] && forall k :: 0 <= k < |mod| ==> mod[k] != '\'' && mod[k] != '"'
  }

  /** The named-import pass turns the statement into a destructuring of the resolved module. */
  lemma NamedImportRewrite(names: string, mod: string)
    requires names != [] && '}' !in names && ModuleName(mod)
    ensures ReplaceAll(NamedImportStatement(names, mod), NamedImportEnd, NamedImportText, 0) == Destructure(names, mod)
  {
    var s := NamedImportStatement(names, mod);
    NamedImportFound(s, names, mod);
    NamedImportMatch(s, Span(8, 8 + |names|), Span(16 + |names|, 16 + |names| + |mod|));
    var text := NamedImportText(s, 0, |s|);
    ReplaceAllMatch(s, NamedImportEnd, NamedImportText, 0, |s|);
    assert ReplaceAll(s, NamedImportEnd, NamedImportText, 0) == text + [];
  }

  /** The named-import pass on a match that covers the whole text. */
  lemma NamedImportMatch(s: string, names: Span, mod: Span)
    requires NamedImport(s, 0) == Some(ImportMatch(names, mod)) && mod.end + 1 == |s|
    ensures NamedImportEnd(s, 0) == Some(|s|)
    ensures NamedImportText(s, 0, |s|) == Destructure(Cut(s, names), Cut(s, mod))
  {
  }

  lemma NamedImportFound(s: string, names: string, mod: string)
    requires names != [] && '}' !in names && ModuleName(mod)
    requires s == NamedImportStatement(names, mod)
    ensures |s| == 17 + |names| + |mod|
    ensures NamedImport(s, 0) == Some(ImportMatch(Span(8, 8 + |names|), Span(16 + |names|, 16 + |names| + |mod|)))
    ensures s[8..8 + |names|] == names && s[16 + |names|..16 + |names| + |mod|] == mod
  {
    NamedImportBraces(s, names, mod);
    NamedImportFrom(s, names, mod);
  }

  lemma NamedImportBraces(s: string, names: string, mod: string)
    requires names != [] && '}' !in names && ModuleName(mod)
    requires s == NamedImportStatement(names, mod)
    ensures KeywordThenSpaces(s, 0, "import") == Some(7) && s[7] == '{'
    ensures BraceBody(s, 8) == Some(Span(8, 8 + |names|))
  {
    assert LitAt(s, 0, "import");
    SkipOneSpace(s, 6);
    FindCharTo(s, 8, 8 + |names|, '}');
  }

  lemma NamedImportFrom(s: string, names: string, mod: string)
    requires names != [] && ModuleName(mod)
    requires s == NamedImportStatement(names, mod)
    ensures FromClause(s, 9 + |names|) == Some(Span(16 + |names|, 16 + |names| + |mod|))
  {
    NamedImportFromKeyword(s, names, mod);
    NamedImportQuoted(s, names, mod);
  }

  lemma NamedImportFromKeyword(s: string, names: string, mod: string)
    requires names != [] && ModuleName(mod)
    requires s == NamedImportStatement(names, mod)
    ensures Spaces1(s, 9 + |names|) == Some(10 + |names|)
    ensures KeywordThenSpaces(s, 10 + |names|, "from") == Some(15 + |names|)
  {
    var n := |names|;
    SkipOneSpace(s, 9 + n);
    assert LitAt(s, 10 + n, "from");
    SkipOneSpace(s, 14 + n);
  }

  lemma NamedImportQuoted(s: string, names: string, mod: string)
    requires names != [] && ModuleName(mod)
    requires s == NamedImportStatement(names, mod)
    ensures Quoted(s, 15 + |names|) == Some(Span(16 + |names|, 16 + |names| + |mod|))
  {
    FindQuoteTo(s, 16 + |names|, 16 + |names| + |mod|);
  }

  /** `import NAME from 'MODULE'`, written with single spaces. */
  function DefaultImportStatement(name: string, mod: string): string {
    "import " + name + " from '" + mod + "'"
  }

  /** The default-import pass binds the name to the module's `default`, or to the module itself. */
  lemma DefaultImportRewrite(name: string, mod: string)
    requires name != [] && AllWord(name) && ModuleName(mod)
    ensures ReplaceAll(DefaultImportStatement(name, mod), DefaultImportEnd, DefaultImportText, 0) == DefaultBinding(name, mod)
  {
    var s := DefaultImportStatement(name, mod);
    DefaultImportFound(s, name, mod);
    ReplaceAllMatch(s, DefaultImportEnd, DefaultImportText, 0, |s|);
    assert ReplaceAll(s, DefaultImportEnd, DefaultImportText, 0) == DefaultImportText(s, 0, |s|) + [];
  }

  lemma DefaultImportFound(s: string, name: string, mod: string)
    requires name != [] && AllWord(name) && ModuleName(mod)
    requires s == DefaultImportStatement(name, mod)
    ensures var n := |name|;
            |s| == 15 + n + |mod| &&
            DefaultImport(s, 0) == Some(ImportMatch(Span(7, 7 + n), Span(14 + n, 14 + n + |mod|))) &&
            s[7..7 + n] == name && s[14 + n..14 + n + |mod|] == mod
  {
    DefaultImportName(s, name, mod);
    DefaultImportFrom(s, name, mod);
  }

  lemma DefaultImportName(s: string, name: string, mod: string)
    requires name != [] && AllWord(name) && ModuleName(mod)
    requires s == DefaultImportStatement(name, mod)
    ensures KeywordThenSpaces(s, 0, "import") == Some(7) && Word1(s, 7) == Some(7 + |name|)
  {
    assert LitAt(s, 0, "import");
    assert s[7] == name[0];
    SkipOneSpace(s, 6);
    assert s[7..7 + |name|] == name;
    SkipWordTo(s, 7, |name|);
  }

  lemma DefaultImportFrom(s: string, name: string, mod: string)
    requires name != [] && ModuleName(mod)
    requires s == DefaultImportStatement(name, mod)
    ensures FromClause(s, 7 + |name|) == Some(Span(14 + |name|, 14 + |name| + |mod|))
  {
    DefaultImportFromKeyword(s, name, mod);
    FindQuoteTo(s, 14 + |name|, 14 + |name| + |mod|);
  }

  lemma DefaultImportFromKeyword(s: string, name: string, mod: string)
    requires name != [] && ModuleName(mod)
    requires s == DefaultImportStatement(name, mod)
    ensures Spaces1(s, 7 + |name|) == Some(8 + |name|)
    ensures KeywordThenSpaces(s, 8 + |name|, "from") == Some(13 + |name|)
  {
    var n := |name|;
    SkipOneSpace(s, 7 + n);
    assert LitAt(s, 8 + n, "from");
    SkipOneSpace(s, 12 + n);
  }

  /** `import * as NAME from 'MODULE'`, written with single spaces. */
  function NamespaceImportStatement(name: string, mod: string): string {
    "import * as " + name + " from '" + mod + "'"
  }

  /** The namespace-import pass binds the name to the whole resolved module. */
  lemma NamespaceImportRewrite(name: string, mod: string)
    requires name != [] && AllWord(name) && ModuleName(mod)
    ensures ReplaceAll(NamespaceImportStatement(name, mod), NamespaceImportEnd, NamespaceImportText, 0) ==
            "const " + name + " = " + Resolve + mod + "');"
  {
    var s := NamespaceImportStatement(name, mod);
    NamespaceImportFound(s, name, mod);
    NamespaceImportMatch(s, Span(12, 12 + |name|), Span(19 + |name|, 19 + |name| + |mod|));
    ReplaceAllMatch(s, NamespaceImportEnd, NamespaceImportText, 0, |s|);
    assert ReplaceAll(s, NamespaceImportEnd, NamespaceImportText, 0) == NamespaceImportText(s, 0, |s|) + [];
  }

  /** The namespace-import pass on a match that covers the whole text. */
  lemma NamespaceImportMatch(s: string, name: Span, mod: Span)
    requires NamespaceImport(s, 0) == Some(ImportMatch(name, mod)) && mod.end + 1 == |s|
    ensures NamespaceImportEnd(s, 0) == Some(|s|)
    ensures NamespaceImportText(s, 0, |s|) == "const " + Cut(s, name) + " = " + Resolve + Cut(s, mod) + "');"
  {
  }

  lemma NamespaceImportFound(s: string, name: string, mod: string)
    requires name != [] && AllWord(name) && ModuleName(mod)
    requires s == NamespaceImportStatement(name, mod)
    ensures var n := |name|;
            |s| == 20 + n + |mod| &&
            NamespaceImport(s, 0) == Some(ImportMatch(Span(12, 12 + n), Span(19 + n, 19 + n + |mod|))) &&
            s[12..12 + n] == name && s[19 + n..19 + n + |mod|] == mod
  {
    NamespaceImportStar(s, name, mod);
    NamespaceImportName(s, name, mod);
    NamespaceImportFrom(s, name, mod);
    assert s[19 + |name|..19 + |name| + |mod|] == mod;
  }

  lemma NamespaceImportStar(s: string, name: string, mod: string)
    requires name != [] && AllWord(name)
    requires s == NamespaceImportStatement(name, mod)
    ensures KeywordThenSpaces(s, 0, "import") == Some(7)
    ensures KeywordThenSpaces(s, 7, "*") == Some(9)
    ensures KeywordThenSpaces(s, 9, "as") == Some(12)
  {
    assert LitAt(s, 0, "import");
    SkipOneSpace(s, 6);
    assert LitAt(s, 7, "*");
    SkipOneSpace(s, 8);
    assert LitAt(s, 9, "as");
    assert s[12] == name[0];
    SkipOneSpace(s, 11);
  }

  lemma NamespaceImportName(s: string, name: string, mod: string)
    requires name != [] && AllWord(name)
    requires s == NamespaceImportStatement(name, mod)
    ensures Word1(s, 12) == Some(12 + |name|) && s[12..12 + |name|] == name
  {
    assert s[12..12 + |name|] == name;
    SkipWordTo(s, 12, |name|);
  }

  lemma NamespaceImportFrom(s: string, name: string, mod: string)
    requires name != [] && ModuleName(mod)
    requires s == NamespaceImportStatement(name, mod)
    ensures FromClause(s, 12 + |name|) == Some(Span(19 + |name|, 19 + |name| + |mod|))
  {
    NamespaceImportFromKeyword(s, name, mod);
    FindQuoteTo(s, 19 + |name|, 19 + |name| + |mod|);
  }

  lemma NamespaceImportFromKeyword(s: string, name: string, mod: string)
    requires name != [] && ModuleName(mod)
    requires s == NamespaceImportStatement(name, mod)
    ensures Spaces1(s, 12 + |name|) == Some(13 + |name|)
    ensures KeywordThenSpaces(s, 13 + |name|, "from") == Some(18 + |name|)
  {
    var n := |name|;
    SkipOneSpace(s, 12 + n);
    assert LitAt(s, 13 + n, "from");
    SkipOneSpace(s, 17 + n);
  }

  /** `import 'MODULE'`, written with a single space. */
  function BareImportStatement(mod: string): string {
    "import '" + mod + "'"
  }

  /** The bare-import pass keeps only the module's evaluation, as a statement. */
  lemma BareImportRewrite(mod: string)
    requires ModuleName(mod)
    ensures ReplaceAll(BareImportStatement(mod), BareImportEnd, BareImportText, 0) == Resolve + mod + "');"
  {
    var s := BareImportStatement(mod);
    BareImportFound(s, mod);
    ReplaceAllMatch(s, BareImportEnd, BareImportText, 0, |s|);
    assert ReplaceAll(s, BareImportEnd, BareImportText, 0) == BareImportText(s, 0, |s|) + [];
  }

  lemma BareImportFound(s: string, mod: string)
    requires ModuleName(mod)
    requires s == BareImportStatement(mod)
    ensures |s| == 9 + |mod| && BareImport(s, 0) == Some(ImportMatch(Span(7, 7), Span(8, 8 + |mod|)))
    ensures s[8..8 + |mod|] == mod
  {
    assert LitAt(s, 0, "import");
    SkipOneSpace(s, 6);
    FindQuoteTo(s, 8, 8 + |mod|);
    assert s[8..8 + |mod|] == mod;
  }

  // ============================================================ exports

  /** `export const|let|var NAME = VALUE;`: the keyword, the name, the value and the end of the match. */
  datatype DeclMatch = DeclMatch(keyword: Span, name: Span, value: Span, end: nat)

  /** `(const|let|var)` at `k`: the end of the keyword (the three differ in their first letter). */
  function DeclKeywordEnd(s: string, k: nat): (r: Option<nat>)
    ensures r.Some? ==> k < r.value <= |s|
  {
    if LitAt(s, k, "const") then Some(k + 5)
    else if LitAt(s, k, "let") || LitAt(s, k, "var") then Some(k + 3)
    else None
  }

  /**
   * `\s*([^;]+);?` after the `=` at `a - 1`: the value and the end of the
   * match.  `\s*` takes every space unless that leaves `[^;]+` nothing to
   * take (a `;` or the end right after the spaces); it then gives back its
   * last space, which becomes the whole value.
   */
  function DeclValue(s: string, a: nat): (r: Option<(Span, nat)>)
    requires a <= |s|
    ensures r.Some? ==> var (v, e) := r.value; a <= v.start < v.end <= e <= |s|
  {
    var b := SkipSpaces(s, a);
    var v := if b < |s| && s[b] != ';' then b else b - 1;
    if (b < |s| && s[b] != ';') || b > a then
      var ve := FindChar(s, v, ';');
      Some((Span(v, ve), if ve < |s| then ve + 1 else ve))
    else None
  }

  /** `export\s+(const|let|var)\s+(\w+)` at `i`: the keyword and the name. */
  function DeclHead(s: string, i: nat): (r: Option<(Span, Span)>)
    ensures r.Some? ==> var (k, n) := r.value;
              i < k.start < k.end < n.start < n.end <= |s| && AllWord(s[n.start..n.end])
  {
    match KeywordThenSpaces(s, i, "export")
    case None => None
    case Some(k) =>
      match DeclKeywordEnd(s, k)
      case None => None
      case Some(ke) =>
        match Spaces1(s, ke)
        case None => None
        case Some(n) =>
          match Word1(s, n)
          case None => None
          case Some(ne) => Some((Span(k, ke), Span(n, ne)))
  }

  /** `export\s+(const|let|var)\s+(\w+)\s*=\s*([^;]+);?` at `i`. */
  function ExportDecl(s: string, i: nat): (r: Option<DeclMatch>)
    ensures r.Some? ==> var m := r.value;
              InText(s, m.keyword) && InText(s, m.name) && InText(s, m.value) && i < m.end <= |s|
  {
    match DeclHead(s, i)
    case None => None
    case Some(head) =>
      match AfterEquals(s, head.1.end)
      case None => None
      case Some(a) =>
        match DeclValue(s, a)
        case None => None
        case Some(ve) => Some(DeclMatch(head.0, head.1, ve.0, ve.1))
  }

  /** `\s*=` at `p`: where what follows the `=` starts. */
  function AfterEquals(s: string, p: nat): (r: Option<nat>)
    ensures r.Some? ==> p < r.value <= |s|
  {
    if p <= |s| then
      var eq := SkipSpaces(s, p);
      if eq < |s| && s[eq] == '=' then Some(eq + 1) else None
    else None
  }

  function ExportDeclEnd(s: string, i: nat): Option<nat> {
    match ExportDecl(s, i)
    case Some(m) => Some(m.end)
    case None => None
  }

  /** `KW NAME = VALUE; __exports.NAME = NAME;` */
  function DeclareAndExport(keyword: string, name: string, value: string): string {
    keyword + " " + name + " = " + value + "; __exports." + name + " = " + name + ";"
  }

  function ExportDeclText(s: string, i: nat, e: nat): string {
    match ExportDecl(s, i)
    case Some(m) => DeclareAndExport(Cut(s, m.keyword), Cut(s, m.name), Cut(s, m.value))
    case None => []
  }

  /** `export\s+function\s+(\w+)\s*\(([^)]*)\)\s*\{` at `i`: the name, the parameters and the end. */
  function ExportFunction(s: string, i: nat): (r: Option<(Span, Span, nat)>)
    ensures r.Some? ==> var (n, p, e) := r.value; InText(s, n) && InText(s, p) && i < e <= |s|
  {
    match KeywordThenSpaces(s, i, "export")
    case None => None
    case Some(f) =>
      match KeywordThenSpaces(s, f, "function")
      case None => None
      case Some(n) =>
        match Word1(s, n)
        case None => None
        case Some(ne) =>
          var o := SkipSpaces(s, ne);
          if o < |s| && s[o] == '(' then
            var c := FindChar(s, o + 1, ')');
            if c < |s| then
              var b := SkipSpaces(s, c + 1);
              if b < |s| && s[b] == '{' then Some((Span(n, ne), Span(o + 1, c), b + 1)) else None
            else None
          else None
  }

  function ExportFunctionEnd(s: string, i: nat): Option<nat> {
    match ExportFunction(s, i)
    case Some(m) => Some(m.2)
    case None => None
  }

  /** `function NAME(PARAMS) {` */
  function ExportFunctionText(s: string, i: nat, e: nat): string {
    match ExportFunction(s, i)
    case Some(m) => "function " + Cut(s, m.0) + "(" + Cut(s, m.1) + ") {"
    case None => []
  }

  /** The index of the first `\n}` at or after `i`, or `|s|`. */
  function FindClose(s: string, i: nat): (j: nat)
    requires i <= |s|
    ensures i <= j <= |s| && (j < |s| ==> LitAt(s, j, "\n}"))
    decreases |s| - i
  {
    if i < |s| && LitAt(s, i, "\n}") then i else if i < |s| then FindClose(s, i + 1) else |s|
  }

  /**
   * `function\s+(\w+)\s*\([^)]*\)\s*\{[\s\S]*?\n\}` at `i`: the name and the
   * end; the lazy `[\s\S]*?` stops at the first `\n}`.
   */
  function FunctionBlock(s: string, i: nat): (r: Option<(Span, nat)>)
    ensures r.Some? ==> InText(s, r.value.0) && i < r.value.1 <= |s| && LitAt(s, i, "function")
  {
    match KeywordThenSpaces(s, i, "function")
    case None => None
    case Some(n) =>
      match Word1(s, n)
      case None => None
      case Some(ne) =>
        var o := SkipSpaces(s, ne);
        if o < |s| && s[o] == '(' then
          var c := FindChar(s, o + 1, ')');
          if c < |s| then
            var b := SkipSpaces(s, c + 1);
            if b < |s| && s[b] == '{' then
              var z := FindClose(s, b + 1);
              if z < |s| then Some((Span(n, ne), z + 2)) else None
            else None
          else None
        else None
  }

  function FunctionBlockEnd(s: string, i: nat): Option<nat> {
    match FunctionBlock(s, i)
    case Some(m) => Some(m.1)
    case None => None
  }

  /** The callback: a match that starts with `export` gets an `__exports` line; any other is kept. */
  function FunctionBlockText(s: string, i: nat, e: nat): string {
    if i <= e <= |s| then
      match FunctionBlock(s, i)
      case Some(m) =>
        var text := s[i..e];
        if LitAt(text, 0, "export") then text + "\n__exports." + Cut(s, m.0) + " = " + Cut(s, m.0) + ";" else text
      case None => s[i..e]
    else []
  }

  /** `export\s+class\s+(\w+)\s*\{` at `i`: the name and the end. */
  function ExportClass(s: string, i: nat): (r: Option<(Span, nat)>)
    ensures r.Some? ==> InText(s, r.value.0) && i < r.value.1 <= |s|
  {
    match KeywordThenSpaces(s, i, "export")
    case None => None
    case Some(c) =>
      match KeywordThenSpaces(s, c, "class")
      case None => None
      case Some(n) =>
        match Word1(s, n)
        case None => None
        case Some(ne) =>
          var b := SkipSpaces(s, ne);
          if b < |s| && s[b] == '{' then Some((Span(n, ne), b + 1)) else None
  }

  function ExportClassEnd(s: string, i: nat): Option<nat> {
    match ExportClass(s, i)
    case Some(m) => Some(m.1)
    case None => None
  }

  /** `class NAME {` */
  function ExportClassText(s: string, i: nat, e: nat): string {
    match ExportClass(s, i)
    case Some(m) => "class " + Cut(s, m.0) + " {"
    case None => []
  }

  /** `export\s+\{([^}]+)\}` at `i`: the contents of the braces. */
  function ExportList(s: string, i: nat): (r: Option<Span>)
    ensures r.Some? ==> i < r.value.start < r.value.end < |s|
  {
    match KeywordThenSpaces(s, i, "export")
    case None => None
    case Some(b) => if b < |s| && s[b] == '{' then BraceBody(s, b + 1) else None
  }

  function ExportListEnd(s: string, i: nat): Option<nat> {
    match ExportList(s, i)
    case Some(x) => Some(x.end + 1)
    case None => None
  }

  /** One `__exports.n = n;` per name. */
  function Assignments(names: seq<string>): (r: seq<string>)
    ensures |r| == |names|
    ensures forall k :: 0 <= k < |names| ==> r[k] == "__exports." + names[k] + " = " + names[k] + ";"
  {
    seq(|names|, k requires 0 <= k < |names| => "__exports." + names[k] + " = " + names[k] + ";")
  }

  /** The assignments, one per line. */
  function ExportListText(s: string, i: nat, e: nat): string {
    match ExportList(s, i)
    case Some(x) => JoinWith(Assignments(NameList(Cut(s, x))), "\n")
    case None => []
  }

  /** The end of the line holding `p`: the first line terminator at or after it, or `|s|`. */
  function LineEnd(s: string, p: nat): (j: nat)
    requires p <= |s|
    ensures p <= j <= |s| && (j < |s| ==> IsLineTerminator(s[j]))
    ensures forall k :: p <= k < j ==> !IsLineTerminator(s[k])
    decreases |s| - p
  {
    if p < |s| && !IsLineTerminator(s[p]) then LineEnd(s, p + 1) else p
  }

  /** The last index in `(a, b)` that holds no line terminator, if any. */
  function LastOnLine(s: string, a: nat, b: nat): (r: Option<nat>)
    requires b <= |s|
    ensures r.Some? ==> a < r.value < b && !IsLineTerminator(s[r.value])
    ensures r.Some? ==> forall k :: r.value < k < b ==> IsLineTerminator(s[k])
    ensures r.None? ==> forall k :: a < k < b ==> IsLineTerminator(s[k])
    decreases b
  {
    if b <= a + 1 then None
    else if !IsLineTerminator(s[b - 1]) then Some(b - 1)
    else LastOnLine(s, a, b - 1)
  }

  /**
   * `export\s+default\s+(.+);?` at `i`: the expression.  `.+` runs to the end
   * of the line and may take a `;`, so `;?` takes nothing.  `\s+` takes every
   * space unless `.+` then has nothing to take; it then gives back spaces
   * until `.+` can take one that is not a line terminator.
   */
  function ExportDefault(s: string, i: nat): (r: Option<Span>)
    ensures r.Some? ==> i < r.value.start < r.value.end <= |s|
  {
    match KeywordThenSpaces(s, i, "export")
    case None => None
    case Some(d) =>
      match KeywordThenSpaces(s, d, "default")
      case None => None
      case Some(b) =>
        if b < |s| && !IsLineTerminator(s[b]) then Some(Span(b, LineEnd(s, b)))
        else
          match LastOnLine(s, d + 7, b)
          case Some(p) => Some(Span(p, LineEnd(s, p)))
          case None => None
  }

  function ExportDefaultEnd(s: string, i: nat): Option<nat> {
    match ExportDefault(s, i)
    case Some(x) => Some(x.end)
    case None => None
  }

  /** `__exports.default = EXPRESSION;` */
  function AssignDefault(expression: string): string {
    "__exports.default = " + expression + ";"
  }

  function ExportDefaultText(s: string, i: nat, e: nat): string {
    match ExportDefault(s, i)
    case Some(x) => AssignDefault(Cut(s, x))
    case None => []
  }

  /** `transformExports`: the six passes, in this order. */
  function TransformExports(code: string): string {
    var decls := ReplaceAll(code, ExportDeclEnd, ExportDeclText, 0);
    var functions := ReplaceAll(decls, ExportFunctionEnd, ExportFunctionText, 0);
    var closed := ReplaceAll(functions, FunctionBlockEnd, FunctionBlockText, 0);
    var classes := ReplaceAll(closed, ExportClassEnd, ExportClassText, 0);
    var lists := ReplaceAll(classes, ExportListEnd, ExportListText, 0);
    ReplaceAll(lists, ExportDefaultEnd, ExportDefaultText, 0)
  }

  /**
   * The pass meant to add `__exports.NAME = NAME;` after exported function
   * bodies never changes anything: every match starts with `function`, so
   * none starts with `export`.
   */
  lemma FunctionPassIsIdentity(s: string)
    ensures ReplaceAll(s, FunctionBlockEnd, FunctionBlockText, 0) == s
  {
    forall j: nat, e: nat | j < e <= |s| && FunctionBlockEnd(s, j) == Some(e)
      ensures FunctionBlockText(s, j, e) == s[j..e]
    {
      FunctionIsNotExport(s, j, e);
    }
    ReplaceAllIdentity(s, FunctionBlockEnd, FunctionBlockText, 0);
  }

  /** A match that starts with `function` does not start with `export`. */
  lemma FunctionIsNotExport(s: string, j: nat, e: nat)
    requires j < e <= |s| && LitAt(s, j, "function")
    ensures !LitAt(s[j..e], 0, "export")
  {
    assert s[j..j + 8][0] == s[j];
    var text := s[j..e];
    assert text[0] == 'f';
    if |text| >= 6 {
      assert text[0..6][0] == 'f';
    }
  }

  /** No export pass matches where the text has no `export`. */
  lemma NoExportNoMatch(s: string)
    requires !Contains(s, "export")
    ensures forall k :: 0 <= k < |s| ==>
              ExportDeclEnd(s, k).None? && ExportFunctionEnd(s, k).None? && ExportClassEnd(s, k).None? &&
              ExportListEnd(s, k).None? && ExportDefaultEnd(s, k).None?
  {
    forall k | 0 <= k < |s|
      ensures ExportDeclEnd(s, k).None? && ExportFunctionEnd(s, k).None? && ExportClassEnd(s, k).None? &&
              ExportListEnd(s, k).None? && ExportDefaultEnd(s, k).None?
    {
      assert !LitAt(s, k, "export");
    }
  }

  /** Text without the word `export` passes through `transformExports` unchanged. */
  lemma ExportFreeUnchanged(code: string)
    requires !Contains(code, "export")
    ensures TransformExports(code) == code
  {
    NoExportNoMatch(code);
    ReplaceAllNone(code, ExportDeclEnd, ExportDeclText);
    ReplaceAllNone(code, ExportFunctionEnd, ExportFunctionText);
    FunctionPassIsIdentity(code);
    ReplaceAllNone(code, ExportClassEnd, ExportClassText);
    ReplaceAllNone(code, ExportListEnd, ExportListText);
    ReplaceAllNone(code, ExportDefaultEnd, ExportDefaultText);
  }

  /** `export KEYWORD NAME = VALUE;`, written with single spaces. */
  function ExportDeclStatement(keyword: string, name: string, value: string): string {
    "export " + keyword + " " + name + " = " + value + ";"
  }

  /** A value the pattern takes whole: it starts with no space and holds no `;`. */
  predicate PlainValue(value: string) {
    value != [] && !IsSpace(value[0]) && ';' !in value
  }

  /** The declaration pass keeps the declaration and assigns the name to `__exports` after it. */
  lemma ExportDeclRewrite(keyword: string, name: string, value: string)
    requires keyword in ["const", "let", "var"] && name != [] && AllWord(name) && PlainValue(value)
    ensures ReplaceAll(ExportDeclStatement(keyword, name, value), ExportDeclEnd, ExportDeclText, 0) ==
            DeclareAndExport(keyword, name, value)
  {
    var s := ExportDeclStatement(keyword, name, value);
    ExportDeclCovers(s, keyword, name, value);
    ReplaceAllMatch(s, ExportDeclEnd, ExportDeclText, 0, |s|);
    assert ReplaceAll(s, ExportDeclEnd, ExportDeclText, 0) == ExportDeclText(s, 0, |s|) + [];
  }

  /** The declaration pattern matches the whole statement and captures its three parts. */
  lemma ExportDeclCovers(s: string, keyword: string, name: string, value: string)
    requires keyword in ["const", "let", "var"] && name != [] && AllWord(name) && PlainValue(value)
    requires s == ExportDeclStatement(keyword, name, value)
    ensures ExportDeclEnd(s, 0) == Some(|s|)
    ensures ExportDeclText(s, 0, |s|) == DeclareAndExport(keyword, name, value)
  {
    var k, n := |keyword|, |name|;
    ExportDeclHead(s, keyword, name, value);
    ExportDeclValue(s, keyword, name, value);
    var m := DeclMatch(Span(7, 7 + k), Span(8 + k, 8 + k + n), Span(11 + k + n, |s| - 1), |s|);
    ExportDeclFound(s, m);
    ExportDeclMatched(s, m);
  }

  lemma ExportDeclHead(s: string, keyword: string, name: string, value: string)
    requires keyword in ["const", "let", "var"] && name != [] && AllWord(name) && PlainValue(value)
    requires s == ExportDeclStatement(keyword, name, value)
    ensures var k, n := |keyword|, |name|;
            DeclHead(s, 0) == Some((Span(7, 7 + k), Span(8 + k, 8 + k + n))) &&
            s[7..7 + k] == keyword && s[8 + k..8 + k + n] == name
  {
    var k, n := |keyword|, |name|;
    ExportDeclKeyword(s, keyword, name, value);
    ExportDeclName(s, keyword, name, value);
    DeclHeadFound(s, 7, 7 + k, 8 + k, 8 + k + n);
  }

  lemma DeclHeadFound(s: string, k: nat, ke: nat, n: nat, ne: nat)
    requires KeywordThenSpaces(s, 0, "export") == Some(k) && DeclKeywordEnd(s, k) == Some(ke)
    requires Spaces1(s, ke) == Some(n) && Word1(s, n) == Some(ne)
    ensures DeclHead(s, 0) == Some((Span(k, ke), Span(n, ne)))
  {
  }

  lemma ExportDeclKeyword(s: string, keyword: string, name: string, value: string)
    requires keyword in ["const", "let", "var"] && name != []
    requires s == ExportDeclStatement(keyword, name, value)
    ensures KeywordThenSpaces(s, 0, "export") == Some(7) && DeclKeywordEnd(s, 7) == Some(7 + |keyword|)
    ensures s[7..7 + |keyword|] == keyword
  {
    assert LitAt(s, 0, "export");
    SkipOneSpace(s, 6);
    assert s[7..7 + |keyword|] == keyword;
    DeclKeywordIs(s, 7, keyword);
  }

  lemma ExportDeclName(s: string, keyword: string, name: string, value: string)
    requires name != [] && AllWord(name)
    requires s == ExportDeclStatement(keyword, name, value)
    ensures var k, n := |keyword|, |name|;
            Spaces1(s, 7 + k) == Some(8 + k) && Word1(s, 8 + k) == Some(8 + k + n) && s[8 + k..8 + k + n] == name
  {
    var k, n := |keyword|, |name|;
    assert s[8 + k..8 + k + n] == name;
    SkipOneSpace(s, 7 + k);
    SkipWordTo(s, 8 + k, n);
  }

  lemma DeclKeywordIs(s: string, k: nat, keyword: string)
    requires keyword in ["const", "let", "var"] && LitAt(s, k, keyword)
    ensures DeclKeywordEnd(s, k) == Some(k + |keyword|)
  {
    assert s[k..k + |keyword|][0] == s[k];
    if keyword != "const" {
      assert s[k] != 'c';
      assert k + 5 <= |s| ==> s[k..k + 5][0] == s[k];
    }
  }

  lemma ExportDeclValue(s: string, keyword: string, name: string, value: string)
    requires name != [] && PlainValue(value)
    requires s == ExportDeclStatement(keyword, name, value)
    ensures var k, n := |keyword|, |name|;
            AfterEquals(s, 8 + k + n) == Some(10 + k + n) &&
            DeclValue(s, 10 + k + n) == Some((Span(11 + k + n, |s| - 1), |s|)) &&
            s[11 + k + n..|s| - 1] == value
  {
    var k, n, v := |keyword|, |name|, |value|;
    SkipOneSpace(s, 8 + k + n);
    ExportDeclValueEnd(s, keyword, name, value);
    assert s[11 + k + n..|s| - 1] == value;
  }

  lemma ExportDeclValueEnd(s: string, keyword: string, name: string, value: string)
    requires name != [] && PlainValue(value)
    requires s == ExportDeclStatement(keyword, name, value)
    ensures var k, n := |keyword|, |name|;
            DeclValue(s, 10 + k + n) == Some((Span(11 + k + n, |s| - 1), |s|))
  {
    var k, n, v := |keyword|, |name|, |value|;
    SkipOneSpace(s, 10 + k + n);
    FindCharTo(s, 11 + k + n, 11 + k + n + v, ';');
  }

  /** The stages of the declaration pattern, put together. */
  lemma ExportDeclFound(s: string, m: DeclMatch)
    requires DeclHead(s, 0) == Some((m.keyword, m.name))
    requires AfterEquals(s, m.name.end).Some? && AfterEquals(s, m.name.end).value <= |s|
    requires DeclValue(s, AfterEquals(s, m.name.end).value) == Some((m.value, m.end))
    ensures ExportDecl(s, 0) == Some(m)
  {
  }

  lemma ExportDeclMatched(s: string, m: DeclMatch)
    requires ExportDecl(s, 0) == Some(m) && m.end == |s|
    ensures ExportDeclEnd(s, 0) == Some(|s|)
    ensures ExportDeclText(s, 0, |s|) == DeclareAndExport(Cut(s, m.keyword), Cut(s, m.name), Cut(s, m.value))
  {
  }

  /** `export function NAME(PARAMS) {`, written with single spaces. */
  function ExportFunctionHeader(name: string, params: string): string {
    "export function " + name + "(" + params + ") {"
  }

  /** The function pass drops `export` from the header and keeps the name and the parameters. */
  lemma ExportFunctionRewrite(name: string, params: string)
    requires name != [] && AllWord(name) && ')' !in params
    ensures ReplaceAll(ExportFunctionHeader(name, params), ExportFunctionEnd, ExportFunctionText, 0) ==
            "function " + name + "(" + params + ") {"
  {
    var s := ExportFunctionHeader(name, params);
    ExportFunctionFound(s, name, params);
    ExportFunctionMatch(s, Span(16, 16 + |name|), Span(17 + |name|, 17 + |name| + |params|));
    ReplaceAllMatch(s, ExportFunctionEnd, ExportFunctionText, 0, |s|);
    assert ReplaceAll(s, ExportFunctionEnd, ExportFunctionText, 0) == ExportFunctionText(s, 0, |s|) + [];
  }

  /** The function pass on a match that covers the whole text. */
  lemma ExportFunctionMatch(s: string, name: Span, params: Span)
    requires ExportFunction(s, 0) == Some((name, params, |s|))
    ensures ExportFunctionEnd(s, 0) == Some(|s|)
    ensures ExportFunctionText(s, 0, |s|) == "function " + Cut(s, name) + "(" + Cut(s, params) + ") {"
  {
  }

  lemma ExportFunctionFound(s: string, name: string, params: string)
    requires name != [] && AllWord(name) && ')' !in params
    requires s == ExportFunctionHeader(name, params)
    ensures var n, p := |name|, |params|;
            |s| == 20 + n + p &&
            ExportFunction(s, 0) == Some((Span(16, 16 + n), Span(17 + n, 17 + n + p), |s|)) &&
            s[16..16 + n] == name && s[17 + n..17 + n + p] == params
  {
    ExportFunctionName(s, name, params);
    ExportFunctionParams(s, name, params);
  }

  lemma ExportFunctionName(s: string, name: string, params: string)
    requires name != [] && AllWord(name)
    requires s == ExportFunctionHeader(name, params)
    ensures KeywordThenSpaces(s, 0, "export") == Some(7) && KeywordThenSpaces(s, 7, "function") == Some(16)
    ensures Word1(s, 16) == Some(16 + |name|) && s[16..16 + |name|] == name
  {
    assert LitAt(s, 0, "export");
    SkipOneSpace(s, 6);
    assert LitAt(s, 7, "function");
    assert s[16] == name[0];
    SkipOneSpace(s, 15);
    assert s[16..16 + |name|] == name;
    SkipWordTo(s, 16, |name|);
  }

  lemma ExportFunctionParams(s: string, name: string, params: string)
    requires ')' !in params
    requires s == ExportFunctionHeader(name, params)
    ensures var n, p := |name|, |params|;
            SkipSpaces(s, 16 + n) == 16 + n && s[16 + n] == '(' &&
            FindChar(s, 17 + n, ')') == 17 + n + p && SkipSpaces(s, 18 + n + p) == 19 + n + p &&
            s[19 + n + p] == '{' && s[17 + n..17 + n + p] == params
  {
    var n, p := |name|, |params|;
    FindCharTo(s, 17 + n, 17 + n + p, ')');
    SkipOneSpace(s, 18 + n + p);
    assert s[17 + n..17 + n + p] == params;
  }

  /** `export class NAME {`, written with single spaces. */
  function ExportClassHeader(name: string): string {
    "export class " + name + " {"
  }

  /** The class pass drops `export` from the header and keeps the name. */
  lemma ExportClassRewrite(name: string)
    requires name != [] && AllWord(name)
    ensures ReplaceAll(ExportClassHeader(name), ExportClassEnd, ExportClassText, 0) == "class " + name + " {"
  {
    var s := ExportClassHeader(name);
    ExportClassFound(s, name);
    ExportClassMatch(s, Span(13, 13 + |name|));
    ReplaceAllMatch(s, ExportClassEnd, ExportClassText, 0, |s|);
    assert ReplaceAll(s, ExportClassEnd, ExportClassText, 0) == ExportClassText(s, 0, |s|) + [];
  }

  /** The class pass on a match that covers the whole text. */
  lemma ExportClassMatch(s: string, name: Span)
    requires ExportClass(s, 0) == Some((name, |s|))
    ensures ExportClassEnd(s, 0) == Some(|s|)
    ensures ExportClassText(s, 0, |s|) == "class " + Cut(s, name) + " {"
  {
  }

  lemma ExportClassFound(s: string, name: string)
    requires name != [] && AllWord(name)
    requires s == ExportClassHeader(name)
    ensures |s| == 15 + |name| && ExportClass(s, 0) == Some((Span(13, 13 + |name|), |s|))
    ensures s[13..13 + |name|] == name
  {
    var n := |name|;
    ExportClassKeywords(s, name);
    ExportClassName(s, name);
    SkipOneSpace(s, 13 + n);
  }

  lemma ExportClassKeywords(s: string, name: string)
    requires name != [] && AllWord(name)
    requires s == ExportClassHeader(name)
    ensures KeywordThenSpaces(s, 0, "export") == Some(7) && KeywordThenSpaces(s, 7, "class") == Some(13)
  {
    assert LitAt(s, 0, "export");
    SkipOneSpace(s, 6);
    assert LitAt(s, 7, "class");
    assert s[13] == name[0];
    SkipOneSpace(s, 12);
  }

  lemma ExportClassName(s: string, name: string)
    requires name != [] && AllWord(name)
    requires s == ExportClassHeader(name)
    ensures Word1(s, 13) == Some(13 + |name|) && s[13..13 + |name|] == name
  {
    assert s[13..13 + |name|] == name;
    SkipWordTo(s, 13, |name|);
  }

  /** `export {NAMES}`. */
  function ExportListStatement(names: string): string {
    "export {" + names + "}"
  }

  /** The list pass turns the braces into one `__exports.n = n;` line per trimmed, non-empty name. */
  lemma ExportListRewrite(names: string)
    requires names != [] && '}' !in names
    ensures ReplaceAll(ExportListStatement(names), ExportListEnd, ExportListText, 0) ==
            JoinWith(Assignments(NameList(names)), "\n")
  {
    var s := ExportListStatement(names);
    ExportListFound(s, names);
    ReplaceAllMatch(s, ExportListEnd, ExportListText, 0, |s|);
    assert ReplaceAll(s, ExportListEnd, ExportListText, 0) == ExportListText(s, 0, |s|) + [];
  }

  lemma ExportListFound(s: string, names: string)
    requires names != [] && '}' !in names
    requires s == ExportListStatement(names)
    ensures ExportList(s, 0) == Some(Span(8, 8 + |names|)) && |s| == 9 + |names| && s[8..8 + |names|] == names
  {
    assert LitAt(s, 0, "export");
    SkipOneSpace(s, 6);
    FindCharTo(s, 8, 8 + |names|, '}');
  }

  /** `export default EXPRESSION`, written with single spaces, the expression on one line. */
  function ExportDefaultStatement(expression: string): string {
    "export default " + expression
  }

  /**
   * The default pass assigns the rest of the line to `__exports.default`; a
   * `;` ending the expression stays in it, so the output then ends in `;;`.
   */
  lemma ExportDefaultRewrite(expression: string)
    requires expression != [] && !IsSpace(expression[0]) && NoLineTerminator(expression)
    ensures ReplaceAll(ExportDefaultStatement(expression), ExportDefaultEnd, ExportDefaultText, 0) ==
            AssignDefault(expression)
  {
    var s := ExportDefaultStatement(expression);
    ExportDefaultFound(s, expression);
    ReplaceAllMatch(s, ExportDefaultEnd, ExportDefaultText, 0, |s|);
    assert ReplaceAll(s, ExportDefaultEnd, ExportDefaultText, 0) == ExportDefaultText(s, 0, |s|) + [];
  }

  lemma ExportDefaultFound(s: string, expression: string)
    requires expression != [] && !IsSpace(expression[0]) && NoLineTerminator(expression)
    requires s == ExportDefaultStatement(expression)
    ensures ExportDefault(s, 0) == Some(Span(15, |s|)) && s[15..] == expression
  {
    assert LitAt(s, 0, "export");
    SkipOneSpace(s, 6);
    assert LitAt(s, 7, "default");
    SkipOneSpace(s, 14);
    assert s[15..] == expression;
    LineEndTo(s, 15);
  }

  /** A line that runs to the end of the text ends there. */
  lemma {:induction false} LineEndTo(s: string, p: nat)
    requires p <= |s| && NoLineTerminator(s[p..])
    ensures LineEnd(s, p) == |s|
    decreases |s| - p
  {
    if p < |s| {
      assert s[p..][0] == s[p];
      assert s[p + 1..] == s[p..][1..];
      LineEndTo(s, p + 1);
    }
  }

  // ========================================================== transform

  /** `TransformOptions`: the two flags may be absent. */
  datatype TransformOptions = TransformOptions(moduleId: string, enableImports: Option<bool>, enableExports: Option<bool>)

  /** `transform`: imports, then exports, each skipped only when its flag is exactly `false`. */
  function Transform(code: string, options: TransformOptions): string {
    var imported := if options.enableImports != Some(false) then TransformImports(code) else code;
    if options.enableExports != Some(false) then TransformExports(imported) else imported
  }

  /** An absent flag counts as enabled; only `false` turns a pass off. */
  lemma TransformFlags(code: string, id: string, imports: Option<bool>, exports: Option<bool>)
    ensures Transform(code, TransformOptions(id, imports, exports)) ==
            var imported := if imports == Some(false) then code else TransformImports(code);
            if exports == Some(false) then imported else TransformExports(imported)
    ensures imports == Some(false) && exports == Some(false) ==> Transform(code, TransformOptions(id, imports, exports)) == code
  {
  }

  /** Text with neither `import` nor `export` comes out of `transform` unchanged, whatever the flags. */
  lemma PlainScriptUnchanged(code: string, options: TransformOptions)
    requires !Contains(code, "import") && !Contains(code, "export")
    ensures Transform(code, options) == code
  {
    ImportFreeUnchanged(code);
    ExportFreeUnchanged(code);
  }

  // ========================================================== extractors

  /**
   * The starts of the successive matches of a global pattern from `i`, as an
   * `exec` or `matchAll` loop finds them: the leftmost match first, each
   * search resuming at the previous match's end.
   */
  function MatchStarts(s: string, end: (string, nat) -> Option<nat>, i: nat): (r: seq<nat>)
    ensures forall k :: 0 <= k < |r| ==> i <= r[k] < |s| && end(s, r[k]).Some?
    decreases |s| - i
  {
    if i >= |s| then []
    else match end(s, i)
      case Some(e) => if i < e <= |s| then [i] + MatchStarts(s, end, e) else MatchStarts(s, end, i + 1)
      case None => MatchStarts(s, end, i + 1)
  }

  /** What a capture group reads at each of the given match starts. */
  function CapturesAt<T>(s: string, starts: seq<nat>, capture: (string, nat) -> T): (r: seq<T>)
    ensures |r| == |starts|
    ensures forall k :: 0 <= k < |starts| ==> r[k] == capture(s, starts[k])
  {
    if starts == [] then [] else [capture(s, starts[0])] + CapturesAt(s, starts[1..], capture)
  }

  /** The captures of every match of a global pattern, in order. */
  function Captures<T>(s: string, end: (string, nat) -> Option<nat>, capture: (string, nat) -> T): seq<T> {
    CapturesAt(s, MatchStarts(s, end, 0), capture)
  }

  /** `while ((match = re.exec(s)) !== null) out.push(capture)`. */
  method ExecAll<T>(s: string, end: (string, nat) -> Option<nat>, capture: (string, nat) -> T)
    returns (r: seq<T>)
    ensures r == Captures(s, end, capture)
  {
    r := [];
    var lastIndex := 0;
    while lastIndex < |s|
      invariant lastIndex <= |s|
      invariant r + CapturesAt(s, MatchStarts(s, end, lastIndex), capture) == Captures(s, end, capture)
      decreases |s| - lastIndex
    {
      ghost var rest := MatchStarts(s, end, lastIndex);
      match end(s, lastIndex) {
        case Some(e) =>
          if lastIndex < e <= |s| {
            assert rest == [lastIndex] + MatchStarts(s, end, e);
            assert rest[1..] == MatchStarts(s, end, e);
            assert CapturesAt(s, rest, capture) == [capture(s, lastIndex)] + CapturesAt(s, rest[1..], capture);
            r := r + [capture(s, lastIndex)];
            lastIndex := e;
          } else {
            lastIndex := lastIndex + 1;
          }
        case None =>
          lastIndex := lastIndex + 1;
      }
    }
  }

  /** `for (const match of s.matchAll(re)) out.push(capture)`. */
  method PushCaptures<T>(out: seq<T>, s: string, end: (string, nat) -> Option<nat>, capture: (string, nat) -> T)
    returns (r: seq<T>)
    ensures r == out + Captures(s, end, capture)
  {
    var starts := MatchStarts(s, end, 0);
    r := out;
    for k := 0 to |starts|
      invariant r == out + CapturesAt(s, starts[..k], capture)
    {
      CapturesSnoc(s, starts[..k + 1], capture);
      assert starts[..k + 1][..k] == starts[..k];
      r := r + [capture(s, starts[k])];
    }
    assert starts[..|starts|] == starts;
  }

  lemma CapturesSnoc<T>(s: string, starts: seq<nat>, capture: (string, nat) -> T)
    requires starts != []
    ensures CapturesAt(s, starts, capture) ==
            CapturesAt(s, starts[..|starts| - 1], capture) + [capture(s, starts[|starts| - 1])]
  {
    var n := |starts|;
    var front := CapturesAt(s, starts[..n - 1], capture);
    var a := CapturesAt(s, starts, capture);
    var b := front + [capture(s, starts[n - 1])];
    forall k | 0 <= k < n
      ensures a[k] == b[k]
    {
      if k < n - 1 {
        assert b[k] == front[k];
      }
    }
  }

  /** No match anywhere from `i` on: the scan finds nothing. */
  lemma {:induction false} NoStarts(s: string, end: (string, nat) -> Option<nat>, i: nat)
    requires forall k :: i <= k < |s| ==> end(s, k).None?
    ensures MatchStarts(s, end, i) == []
    decreases |s| - i
  {
    if i < |s| {
      NoStarts(s, end, i + 1);
    }
  }

  /** Successive matches start in increasing order, each at or past the end of the one before. */
  lemma {:induction false} StartsIncrease(s: string, end: (string, nat) -> Option<nat>, i: nat, k: nat)
    requires 0 < k < |MatchStarts(s, end, i)|
    ensures MatchStarts(s, end, i)[k - 1] < end(s, MatchStarts(s, end, i)[k - 1]).value <= MatchStarts(s, end, i)[k]
    decreases |s| - i
  {
    if i < |s| {
      match end(s, i)
      case Some(e) =>
        if i < e <= |s| {
          var r := MatchStarts(s, end, i);
          assert r == [i] + MatchStarts(s, end, e);
          if k > 1 {
            StartsIncrease(s, end, e, k - 1);
          }
        } else {
          StartsIncrease(s, end, i + 1, k);
        }
      case None =>
        StartsIncrease(s, end, i + 1, k);
    }
  }

  /** `import\s+(?:\{[^}]+\}|\*\s+as\s+\w+|\w+)\s+from\s+['"]([^'"]+)['"]`: the three forms with a `from`, tried in that order. */
  function ImportFrom(s: string, i: nat): (r: Option<ImportMatch>)
    ensures r.Some? ==> ImportInText(s, r.value)
  {
    if NamedImport(s, i).Some? then NamedImport(s, i)
    else if NamespaceImport(s, i).Some? then NamespaceImport(s, i)
    else DefaultImport(s, i)
  }

  function ImportFromEnd(s: string, i: nat): Option<nat> { ImportEnd(ImportFrom(s, i)) }

  /** The module name the import at `i` captures. */
  function ModuleAt(s: string, i: nat): (r: string)
    ensures ImportFromEnd(s, i).Some? ==> r != [] && '\'' !in r && '"' !in r
  {
    match ImportFrom(s, i)
    case Some(m) => Cut(s, m.source)
    case None => []
  }

  /** What `extractImports` lists: the module of each import with a `from`, in order. */
  function ImportedModules(code: string): seq<string> {
    Captures(code, ImportFromEnd, ModuleAt)
  }

  /** `extractImports`: the `exec` loop over the combined pattern. */
  method ExtractImports(code: string) returns (imports: seq<string>)
    ensures imports == ImportedModules(code)
  {
    imports := ExecAll(code, ImportFromEnd, ModuleAt);
  }

  /** Every listed module is a non-empty name without quotes. */
  lemma ImportedAreNames(code: string)
    ensures forall k :: 0 <= k < |ImportedModules(code)| ==>
              ImportedModules(code)[k] != [] && '\'' !in ImportedModules(code)[k] && '"' !in ImportedModules(code)[k]
  {
    var starts := MatchStarts(code, ImportFromEnd, 0);
    forall k | 0 <= k < |ImportedModules(code)|
      ensures ImportedModules(code)[k] != [] && '\'' !in ImportedModules(code)[k] && '"' !in ImportedModules(code)[k]
    {
      assert ImportedModules(code)[k] == ModuleAt(code, starts[k]);
    }
  }

  /** Text without `import` imports nothing. */
  lemma NoImportNoModules(code: string)
    requires !Contains(code, "import")
    ensures ImportedModules(code) == []
  {
    forall k | 0 <= k < |code|
      ensures ImportFromEnd(code, k).None?
    {
      assert !LitAt(code, k, "import");
    }
    NoStarts(code, ImportFromEnd, 0);
  }

  /** `export\s+(?:const|let|var)\s+(\w+)` at `i`: the name. */
  function VarExport(s: string, i: nat): (r: Option<Span>)
    ensures r.Some? ==> i < r.value.start < r.value.end <= |s| && AllWord(s[r.value.start..r.value.end])
  {
    match DeclHead(s, i)
    case None => None
    case Some(head) => Some(head.1)
  }

  /** `export\s+KW\s+(\w+)` at `i` for `function` and `class`: the name. */
  function KeywordExport(s: string, i: nat, kw: string): (r: Option<Span>)
    ensures r.Some? ==> i < r.value.start < r.value.end <= |s| && AllWord(s[r.value.start..r.value.end])
  {
    match KeywordThenSpaces(s, i, "export")
    case None => None
    case Some(k) =>
      match KeywordThenSpaces(s, k, kw)
      case None => None
      case Some(n) =>
        match Word1(s, n)
        case None => None
        case Some(ne) => Some(Span(n, ne))
  }

  function SpanEnd(r: Option<Span>): Option<nat> {
    match r
    case Some(x) => Some(x.end)
    case None => None
  }

  /** The name a match captures, or nothing. */
  function Captured(s: string, r: Option<Span>): string {
    match r
    case Some(x) => if InText(s, x) then Cut(s, x) else []
    case None => []
  }

  function VarExportEnd(s: string, i: nat): Option<nat> { SpanEnd(VarExport(s, i)) }
  function FunctionExportEnd(s: string, i: nat): Option<nat> { SpanEnd(KeywordExport(s, i, "function")) }
  function ClassExportEnd(s: string, i: nat): Option<nat> { SpanEnd(KeywordExport(s, i, "class")) }

  /** The name a declaration export captures: a run of word characters. */
  function VarName(s: string, i: nat): (name: string)
    ensures VarExportEnd(s, i).Some? ==> name != [] && AllWord(name)
  {
    Captured(s, VarExport(s, i))
  }

  function FunctionName(s: string, i: nat): (name: string)
    ensures FunctionExportEnd(s, i).Some? ==> name != [] && AllWord(name)
  {
    Captured(s, KeywordExport(s, i, "function"))
  }

  function ClassName(s: string, i: nat): (name: string)
    ensures ClassExportEnd(s, i).Some? ==> name != [] && AllWord(name)
  {
    Captured(s, KeywordExport(s, i, "class"))
  }

  /** The names of the list at `i`. */
  function ListNames(s: string, i: nat): seq<string> {
    match ExportList(s, i)
    case Some(x) => NameList(Cut(s, x))
    case None => []
  }

  /** `exports.push(...names)` for each list in turn. */
  function Flatten(lists: seq<seq<string>>): seq<string> {
    if lists == [] then [] else Flatten(lists[..|lists| - 1]) + lists[|lists| - 1]
  }

  /** `/export\s+default\s/` finds a match at `i`. */
  predicate DefaultKeywordAt(s: string, i: nat) {
    match KeywordThenSpaces(s, i, "export")
    case None => false
    case Some(d) => LitAt(s, d, "default") && d + 7 < |s| && IsSpace(s[d + 7])
  }

  /** `/export\s+default\s/.test(code)`. */
  predicate MentionsDefault(code: string) {
    exists i: nat :: i < |code| && DefaultKeywordAt(code, i)
  }

  /** The part of `extractExports` that reads declarations: variables, then functions, then classes. */
  function DeclaredNames(code: string): seq<string> {
    Captures(code, VarExportEnd, VarName) + Captures(code, FunctionExportEnd, FunctionName) +
    Captures(code, ClassExportEnd, ClassName)
  }

  /** What `extractExports` lists: declared names, then listed names, then `default`. */
  function ExportedNames(code: string): seq<string> {
    DeclaredNames(code) + Flatten(Captures(code, ExportListEnd, ListNames)) +
    (if MentionsDefault(code) then ["default"] else [])
  }

  /** The four `matchAll` loops. */
  method PushDeclared(code: string) returns (exports: seq<string>)
    ensures exports == DeclaredNames(code)
  {
    ghost var vars := Captures(code, VarExportEnd, VarName);
    ghost var functions := Captures(code, FunctionExportEnd, FunctionName);
    ghost var classes := Captures(code, ClassExportEnd, ClassName);
    exports := PushCaptures([], code, VarExportEnd, VarName);
    assert exports == vars;
    exports := PushCaptures(exports, code, FunctionExportEnd, FunctionName);
    assert exports == vars + functions;
    exports := PushCaptures(exports, code, ClassExportEnd, ClassName);
    assert exports == vars + functions + classes;
  }

  /** `for (const match of lists) out.push(...names)`. */
  method PushLists(out: seq<string>, lists: seq<seq<string>>) returns (r: seq<string>)
    ensures r == out + Flatten(lists)
  {
    r := out;
    for k := 0 to |lists|
      invariant r == out + Flatten(lists[..k])
    {
      assert lists[..k + 1][..k] == lists[..k];
      r := r + lists[k];
    }
    assert lists[..|lists|] == lists;
  }

  /** `extractExports`: the four scans in turn, then the `default` test. */
  method ExtractExports(code: string) returns (exports: seq<string>)
    ensures exports == ExportedNames(code)
  {
    exports := PushDeclared(code);
    exports := PushLists(exports, Captures(code, ExportListEnd, ListNames));
    if MentionsDefault(code) {
      exports := exports + ["default"];
    }
  }

  /** `default` is listed last and only when the text has an `export default`; any other `default` comes from a list. */
  lemma DefaultListedLast(code: string)
    ensures MentionsDefault(code) <==>
              (|ExportedNames(code)| > 0 && ExportedNames(code)[|ExportedNames(code)| - 1] == "default" &&
               |ExportedNames(code)| - 1 == |DeclaredNames(code)| + |Flatten(Captures(code, ExportListEnd, ListNames))|)
  {
  }

  /** Every declared export is a non-empty run of word characters. */
  lemma DeclaredAreWords(code: string)
    ensures forall k :: 0 <= k < |DeclaredNames(code)| ==> DeclaredNames(code)[k] != [] && AllWord(DeclaredNames(code)[k])
  {
  }
}

=== FILE: tabs_manager.dfy ===
/**
 * The tab table: a counter that names new tabs `tab-N` / `Untitled-N`, the
 * id of the active tab, and a `Map` from tab ids to their data.
 */
module Tabs {
  import opened Wrappers
  import opened Lex
  import opened OrderedMaps

  /** `TabData`. */
  datatype TabData = TabData(title: string, content: string, isDirty: bool, file: Option<string>)

  /** `Partial<TabData>`: the fields the caller passes. */
  datatype TabPatch = TabPatch(title: Option<string>, content: Option<string>, isDirty: Option<bool>,
                               file: Option<Option<string>>)

  /** `{ ...cur, ...td }`: each field the patch carries replaces the current one. */
  function Merge(cur: TabData, td: TabPatch): (r: TabData)
    ensures r.title == td.title.GetOr(cur.title) && r.content == td.content.GetOr(cur.content)
    ensures r.isDirty == td.isDirty.GetOr(cur.isDirty) && r.file == td.file.GetOr(cur.file)
  {
    TabData(td.title.GetOr(cur.title), td.content.GetOr(cur.content), td.isDirty.GetOr(cur.isDirty),
            td.file.GetOr(cur.file))
  }

  /** Merging the same patch twice is merging it once; an empty patch changes nothing. */
  lemma MergeIdempotent(cur: TabData, td: TabPatch)
    ensures Merge(Merge(cur, td), td) == Merge(cur, td)
    ensures Merge(cur, TabPatch(None, None, None, None)) == cur
  {
  }

  /** `tab-N`. */
  function TabId(n: nat): (id: string)
    ensures |id| > 4 && id[..4] == "tab-" && id[4..] == NatToString(n)
  {
    "tab-" + NatToString(n)
  }

  /** A new, clean, empty tab numbered `n`. */
  function Untitled(n: nat, content: string): TabData {
    TabData("Untitled-" + NatToString(n), content, false, None)
  }

  /** Different numbers give different ids. */
  lemma TabIdInjective(a: nat, b: nat)
    requires TabId(a) == TabId(b)
    ensures a == b
  {
    assert TabId(a)[4..] == TabId(b)[4..];
    NatToStringInjective(a, b);
  }

  /** The ids a counter at `n` has handed out. */
  ghost function Issued(n: nat): set<string> {
    set k: nat | 1 <= k <= n :: TabId(k)
  }

  /** The next id has not been handed out yet. */
  lemma NextIsFresh(n: nat)
    ensures TabId(n + 1) !in Issued(n)
    ensures Issued(n) <= Issued(n + 1) && TabId(n + 1) in Issued(n + 1)
  {
    if TabId(n + 1) in Issued(n) {
      var k: nat :| 1 <= k <= n && TabId(k) == TabId(n + 1);
      TabIdInjective(k, n + 1);
    }
  }

  /** Every created tab differs from the first one. */
  lemma CreatedIsNotFirst(n: nat)
    requires n >= 2
    ensures TabId(n) != "tab-1"
  {
    assert TabId(1) == "tab-1";
    if TabId(n) == "tab-1" {
      TabIdInjective(n, 1);
    }
  }

  class TabsManager {
    var tabCounter: nat
    var activeTabId: string
    var data: OrderedMap<string, TabData>

    /** The table is a well-formed map whose ids all came from the counter. */
    ghost predicate Valid()
      reads this
    {
      tabCounter >= 1 && OrderedMaps.Valid(data) && forall id :: id in data.entries ==> id in Issued(tabCounter)
    }

    constructor ()
      ensures Valid() && tabCounter == 1 && activeTabId == "tab-1" && data == Empty()
    {
      tabCounter := 1;
      activeTabId := "tab-1";
      data := Empty();
    }

    /** `initFirstTab`: `tab-1` holds a clean `Untitled-1`; the counter stays. */
    method InitFirstTab(content: string) returns (id: string)
      requires Valid()
      modifies this
      ensures Valid() && id == "tab-1"
      ensures data == Set(old(data), "tab-1", TabData("Untitled-1", content, false, None))
      ensures tabCounter == old(tabCounter) && activeTabId == old(activeTabId)
    {
      SetValid(data, "tab-1", TabData("Untitled-1", content, false, None));
      assert TabId(1) == "tab-1" && TabId(1) in Issued(tabCounter);
      data := Set(data, "tab-1", TabData("Untitled-1", content, false, None));
      return "tab-1";
    }

    /** `active`. */
    function Active(): string
      reads this
    {
      activeTabId
    }

    /** `setActive`: any id is accepted, present in the table or not. */
    method SetActive(id: string)
      modifies this
      ensures Active() == id && data == old(data) && tabCounter == old(tabCounter)
    {
      activeTabId := id;
    }

    /** `get`. */
    function GetTab(id: string): (r: Option<TabData>)
      reads this
      ensures r.Some? <==> Has(data, id)
    {
      Get(data, id)
    }

    /** `set`: the patch is merged into an existing tab; an unknown id changes nothing. */
    method SetTab(id: string, td: TabPatch)
      requires Valid()
      modifies this
      ensures Valid() && tabCounter == old(tabCounter) && activeTabId == old(activeTabId)
      ensures Has(old(data), id) ==> data == Set(old(data), id, Merge(old(data).entries[id], td))
      ensures !Has(old(data), id) ==> data == old(data)
      ensures AllIds() == old(AllIds())
    {
      var cur := Get(data, id);
      if cur.Some? {
        SetValid(data, id, Merge(cur.value, td));
        SetKeys(data, id, Merge(cur.value, td));
        data := Set(data, id, Merge(cur.value, td));
      }
    }

    /** `allIds`: each id once, in the order the tabs were first stored. */
    function AllIds(): (ids: seq<string>)
      reads this
      requires Valid()
      ensures forall id :: id in ids <==> Has(data, id)
      ensures Distinct(ids) && |ids| == Size()
    {
      Keys(data)
    }

    /** `create`: the counter moves on and names a tab that is not in the table yet. */
    method Create() returns (id: string)
      requires Valid()
      modifies this
      ensures Valid() && tabCounter == old(tabCounter) + 1 && activeTabId == old(activeTabId)
      ensures id == TabId(tabCounter) && id != "tab-1" && !Has(old(data), id)
      ensures data == Set(old(data), id, Untitled(tabCounter, ""))
      ensures AllIds() == old(AllIds()) + [id] && Size() == old(Size()) + 1
    {
      NextIsFresh(tabCounter);
      CreatedIsNotFirst(tabCounter + 1);
      SetValid(data, TabId(tabCounter + 1), Untitled(tabCounter + 1, ""));
      SetKeys(data, TabId(tabCounter + 1), Untitled(tabCounter + 1, ""));
      tabCounter := tabCounter + 1;
      id := TabId(tabCounter);
      data := Set(data, id, Untitled(tabCounter, ""));
    }

    /** `remove`: only that id goes, and `size` drops by one when it was there. */
    method Remove(id: string)
      requires Valid()
      modifies this
      ensures Valid() && tabCounter == old(tabCounter) && activeTabId == old(activeTabId)
      ensures data == Delete(old(data), id) && !Has(data, id)
      ensures forall other :: other != id ==> Get(data, other) == Get(old(data), other)
      ensures Size() == if Has(old(data), id) then old(Size()) - 1 else old(Size())
    {
      DeleteValid(data, id, id);
      DeleteSize(data, id);
      forall other | other != id
        ensures Get(Delete(data, id), other) == Get(data, other)
      {
        DeleteValid(data, id, other);
      }
      data := Delete(data, id);
    }

    /** `size`. */
    function Size(): nat
      reads this
    {
      OrderedMaps.Size(data)
    }
  }
}

=== FILE: wrap.dfy ===
/**
 * Wrapping user code for execution: the loop-guard chain (`injectLoopGuards`
 * and the same steps inside `wrap`), and the fixed prologue and epilogue
 * around the guarded code, with `userStartLine`.
 *
 * Both engines wrap the same way; they differ only in the text of the
 * prologue and epilogue (the older one names the user function
 * `__original` and calls it inside a `try`).
 */
module Wrapping {
  import opened Wrappers
  import opened Lex
  import opened LoopGuards

  /** The engine whose `wrap` is meant: the one the app uses, or the older class. */
  datatype Engine = Current | Legacy

  // ===================================================== loop guards

  /** The first three guard passes: `while` with a body, `while(…);`, then the `for … in/of` bodies. */
  function BeforeClassicFor(code: string): string {
    var w := GuardWhileLoops(code);
    InsertGuards(w, GuardsFrom(w, 0), 0)
  }

  /**
   * The guard passes in the order both engines run them, ending with the
   * classic `for` headers.  This is the corrected chain: a header whose
   * initialiser holds `in`/`of` is treated as no match.
   */
  function LoopGuarded(code: string): string {
    GuardClassicFor(BeforeClassicFor(code))
  }

  /** The chain as the source writes it, ending with `GuardClassicForAsWritten`. */
  function LoopGuardedAsWritten(code: string): string {
    GuardClassicForAsWritten(BeforeClassicFor(code))
  }

  /**
   * The two chains give the same text unless, after the first three passes,
   * some classic header's initialiser holds a word `in` or `of`.
   */
  lemma ChainsAgreeWithoutInOfInit(code: string)
    requires forall i :: 0 <= i < |BeforeClassicFor(code)| ==> !InOfInitAt(BeforeClassicFor(code), i)
    ensures LoopGuardedAsWritten(code) == LoopGuarded(code)
  {
    PassesAgreeWithoutInOfInit(BeforeClassicFor(code));
  }

  /**
   * `injectLoopGuards`, with the corrected classic-for pass; where no
   * initialiser holds `in`/`of` that is also the chain as written.
   */
  method InjectLoopGuards(code: string) returns (withGuards: string)
    ensures withGuards == LoopGuarded(code)
    ensures (forall i :: 0 <= i < |BeforeClassicFor(code)| ==> !InOfInitAt(BeforeClassicFor(code), i)) ==>
            withGuards == LoopGuardedAsWritten(code)
  {
    withGuards := GuardWhileLoops(code);
    withGuards := InjectForInOfGuards(withGuards);
    withGuards := GuardClassicFor(withGuards);
    if forall i :: 0 <= i < |BeforeClassicFor(code)| ==> !InOfInitAt(BeforeClassicFor(code), i) {
      ChainsAgreeWithoutInOfInit(code);
    }
  }

  /** Code without the words `while` and `for` comes through the guard passes unchanged. */
  lemma LoopFreeCodeUnguarded(code: string)
    requires !Contains(code, "while") && !Contains(code, "for")
    ensures LoopGuarded(code) == code
  {
    WhileFreeUnchanged(code);
    NoForNoGuards(code, 0);
    assert InsertGuards(code, [], 0) == code[0..];
    ClassicFreeUnchanged(code);
  }

  lemma WhileFreeUnchanged(code: string)
    requires !Contains(code, "while")
    ensures GuardWhileLoops(code) == code
  {
    NoWhileHead(code);
    ReplaceAllNone(code, WhileWithBodyEnd, WhileWithBodyText);
    ReplaceAllNone(code, EmptyWhileEnd, EmptyWhileText);
  }

  lemma NoWhileHead(code: string)
    requires !Contains(code, "while")
    ensures forall j :: 0 <= j < |code| ==> WhileWithBodyEnd(code, j).None? && EmptyWhileEnd(code, j).None?
  {
    forall j | 0 <= j < |code| ensures WhileHeadAt(code, j).None? {
    }
  }

  lemma ClassicFreeUnchanged(code: string)
    requires !Contains(code, "for")
    ensures GuardClassicFor(code) == code
  {
    NoClassicHeader(code);
    ReplaceAllNone(code, ClassicForEnd, ClassicForText);
  }

  lemma NoClassicHeader(code: string)
    requires !Contains(code, "for")
    ensures forall j :: 0 <= j < |code| ==> ClassicForEnd(code, j).None?
  {
    forall j | 0 <= j < |code| ensures ForParenAt(code, j).None? {
    }
  }

  // ==================================================== prologue, epilogue

  /** The part of the guard's error message that the error classification looks for. */
  const LoopLimitDetected: string := "Bucle infinito detectado"
  const LoopLimitMessage: string := LoopLimitDetected + " - ejecuci\U{00F3}n detenida por seguridad"
  const UserStart: string := "/*__USER_CODE_START__*/"

  const CountLine: string := "let __loopCount = 0;"
  const MaxLine: string := "const __maxLoops = 100000;"
  const GuardLine: string := "function __loopGuard() {"
  // The two check lines are built from short pieces so that the verifier can see each holds no line break.
  const CheckLine: string := "  if (++__loopCount >= __maxLoops)" + " throw new Error('" + LoopLimitMessage + "');"
  const LegacyCountLine: string := "let __loopCount=0;"
  const LegacyMaxLine: string := "const __maxLoops=100000;"
  const LegacyGuardLine: string := "function __loopGuard(){"
  const LegacyCheckLine: string := "  if(++__loopCount>=__maxLoops)" + " throw new Error('" + LoopLimitMessage + "');"
  const LegacyOpenLine: string := "const __original = function(){"
  const SourceUrlLine: string := "//# sourceURL=playground.js"
  const LegacyCallLine: string := "try { __original(); } catch(e){ throw e; }"

  /** The lines of the prologue between its leading and its trailing line break. */
  function PrologueLines(e: Engine): (r: seq<string>)
    ensures |r| == 8 && r[7] == UserStart
  {
    match e
    case Current => [CountLine, MaxLine, GuardLine, CheckLine, "  return true;", "}", "(function() {", UserStart]
    case Legacy => [LegacyCountLine, LegacyMaxLine, LegacyGuardLine, LegacyCheckLine, "  return true;", "}", LegacyOpenLine, UserStart]
  }

  /** The lines of the epilogue between its leading and its trailing line break. */
  function EpilogueLines(e: Engine): (r: seq<string>)
    ensures |r| >= 2 && r[|r| - 1] == SourceUrlLine
  {
    match e
    case Current => ["})();", SourceUrlLine]
    case Legacy => ["};", LegacyCallLine, SourceUrlLine]
  }

  /** No prologue or epilogue line holds a line break. */
  lemma TemplateLinesAreLines(e: Engine)
    ensures forall k :: 0 <= k < |PrologueLines(e)| ==> '\n' !in PrologueLines(e)[k]
    ensures forall k :: 0 <= k < |EpilogueLines(e)| ==> '\n' !in EpilogueLines(e)[k]
  {
    MessageIsOneLine();
    UserStartIsOneLine();
    SourceUrlIsOneLine();
    ShortLinesAreLines();
    match e
    case Current =>
      CountIsOneLine();
      MaxIsOneLine();
      GuardIsOneLine();
      CheckIsOneLine();
    case Legacy =>
      LegacyCountIsOneLine();
      LegacyMaxIsOneLine();
      LegacyGuardIsOneLine();
      LegacyCheckIsOneLine();
      LegacyOpenIsOneLine();
      LegacyCallIsOneLine();
  }

  lemma DetectedIsOneLine() ensures '\n' !in LoopLimitDetected { }
  lemma MessageIsOneLine() ensures '\n' !in LoopLimitMessage { DetectedIsOneLine(); }
  lemma UserStartIsOneLine() ensures '\n' !in UserStart { }
  lemma SourceUrlIsOneLine() ensures '\n' !in SourceUrlLine { }
  lemma ShortLinesAreLines()
    ensures '\n' !in "  return true;" && '\n' !in "}" && '\n' !in "(function() {" && '\n' !in "})();" && '\n' !in "};"
  {
  }
  lemma CountIsOneLine() ensures '\n' !in CountLine { }
  lemma MaxIsOneLine() ensures '\n' !in MaxLine { }
  lemma GuardIsOneLine() ensures '\n' !in GuardLine { }
  lemma CheckIsOneLine() ensures '\n' !in CheckLine { MessageIsOneLine(); }
  lemma LegacyCountIsOneLine() ensures '\n' !in LegacyCountLine { }
  lemma LegacyMaxIsOneLine() ensures '\n' !in LegacyMaxLine { }
  lemma LegacyGuardIsOneLine() ensures '\n' !in LegacyGuardLine { }
  lemma LegacyCheckIsOneLine() ensures '\n' !in LegacyCheckLine { MessageIsOneLine(); }
  lemma LegacyOpenIsOneLine() ensures '\n' !in LegacyOpenLine { }
  lemma LegacyCallIsOneLine() ensures '\n' !in LegacyCallLine { }

  /** The template starts and ends with a visible character once its outer line breaks are gone. */
  lemma TemplateEnds(e: Engine)
    ensures PrologueLines(e)[0] != [] && PrologueLines(e)[0][0] == 'l'
    ensures SourceUrlLine != [] && SourceUrlLine[|SourceUrlLine| - 1] == 's'
  {
    assert CountLine[0] == 'l' && LegacyCountLine[0] == 'l';
  }

  /** The template text `prefix`: a line break, the prologue lines, a line break. */
  function Prefix(e: Engine): string {
    "\n" + Join(PrologueLines(e)) + "\n"
  }

  function Suffix(e: Engine): string {
    "\n" + Join(EpilogueLines(e)) + "\n"
  }

  /** `` `${prefix}${withGuards}\n${suffix}`.trim() ``. */
  function Wrapped(e: Engine, withGuards: string): string {
    Trim(Prefix(e) + withGuards + "\n" + Suffix(e))
  }

  /** `prefix.split("\n").length`. */
  function UserStartLine(e: Engine): nat {
    |Lines(Prefix(e))|
  }

  /** `wrap`: the declarations normalised, the loops guarded, the result wrapped. */
  method Wrap(code: string, e: Engine) returns (wrapped: string, userStartLine: nat)
    ensures wrapped == Wrapped(e, LoopGuarded(NormalizeForDeclarations(code)))
    ensures userStartLine == UserStartLine(e) == 10
  {
    var normalized := NormalizeForDeclarations(code);
    var withGuards := InjectLoopGuards(normalized);
    wrapped := Wrapped(e, withGuards);
    userStartLine := UserStartLine(e);
    UserStartLineIsTen(e);
  }

  /** The prefix splits into ten pieces, whatever the code: an empty first and last piece around the eight prologue lines. */
  lemma UserStartLineIsTen(e: Engine)
    ensures Lines(Prefix(e)) == [""] + PrologueLines(e) + [""]
    ensures UserStartLine(e) == 10
  {
    TemplateSplits(e);
    BetweenBreaks(Join(PrologueLines(e)));
  }

  lemma BetweenBreaks(p: string)
    ensures Lines("\n" + p + "\n") == [""] + Lines(p) + [""]
  {
    LinesAppend(p, "");
    LeadingBreak(p + "\n" + "");
    assert "\n" + (p + "\n" + "") == "\n" + p + "\n";
  }

  lemma LeadingBreak(x: string)
    ensures Lines("\n" + x) == [""] + Lines(x)
  {
    LinesAppend("", x);
    assert "" + "\n" + x == "\n" + x;
  }

  /**
   * Trimming removes exactly the prefix's leading and the suffix's trailing
   * line break, so the wrapped text is the prologue lines, the guarded
   * code's lines, an empty line and the epilogue lines: the user's line `k`
   * is line `k + 8` of the wrapped text, while `userStartLine` is 10.
   */
  lemma WrappedLines(e: Engine, withGuards: string)
    ensures Lines(Wrapped(e, withGuards)) == PrologueLines(e) + Lines(withGuards) + [""] + EpilogueLines(e)
  {
    var p := Join(PrologueLines(e));
    var q := Join(EpilogueLines(e));
    WrappedIsInner(e, withGuards, p, q);
    TemplateInnerLines(e, withGuards);
  }

  lemma TemplateInnerLines(e: Engine, g: string)
    ensures Lines(Inner(Join(PrologueLines(e)), g, Join(EpilogueLines(e)))) ==
            PrologueLines(e) + Lines(g) + [""] + EpilogueLines(e)
  {
    InnerLines(Join(PrologueLines(e)), g, Join(EpilogueLines(e)));
    TemplateSplits(e);
  }

  lemma TemplateSplits(e: Engine)
    ensures Lines(Join(PrologueLines(e))) == PrologueLines(e) && Lines(Join(EpilogueLines(e))) == EpilogueLines(e)
  {
    TemplateLinesAreLines(e);
    LinesJoin(PrologueLines(e));
    LinesJoin(EpilogueLines(e));
  }

  function Inner(p: string, g: string, q: string): string {
    p + "\n" + (g + "\n" + ("\n" + q))
  }

  lemma InnerLines(p: string, g: string, q: string)
    ensures Lines(Inner(p, g, q)) == Lines(p) + Lines(g) + [""] + Lines(q)
  {
    GuardedThenEpilogue(g, q);
    LinesAppend(p, g + "\n" + ("\n" + q));
  }

  lemma GuardedThenEpilogue(g: string, q: string)
    ensures Lines(g + "\n" + ("\n" + q)) == Lines(g) + [""] + Lines(q)
  {
    LeadingBreak(q);
    LinesAppend(g, "\n" + q);
  }

  lemma WrappedIsInner(e: Engine, g: string, p: string, q: string)
    requires p == Join(PrologueLines(e)) && q == Join(EpilogueLines(e))
    ensures Wrapped(e, g) == Inner(p, g, q)
  {
    Regroup(p, g, q);
    InnerEnds(e, g, p, q);
    TrimOneEach(Inner(p, g, q));
  }

  lemma Regroup(p: string, g: string, q: string)
    ensures ("\n" + p + "\n") + g + "\n" + ("\n" + q + "\n") == "\n" + Inner(p, g, q) + "\n"
  {
  }

  lemma InnerEnds(e: Engine, g: string, p: string, q: string)
    requires p == Join(PrologueLines(e)) && q == Join(EpilogueLines(e))
    ensures Inner(p, g, q) != [] && !IsSpace(Inner(p, g, q)[0]) && !IsSpace(Inner(p, g, q)[|Inner(p, g, q)| - 1])
  {
    TemplateEnds(e);
    JoinFirstChar(PrologueLines(e));
    JoinLastChar(EpilogueLines(e));
    assert Inner(p, g, q)[0] == p[0];
    assert Inner(p, g, q)[|Inner(p, g, q)| - 1] == q[|q| - 1];
  }

  /** A text that starts and ends with a non-space, between two line breaks, trims to itself. */
  lemma TrimOneEach(inner: string)
    requires inner != [] && !IsSpace(inner[0]) && !IsSpace(inner[|inner| - 1])
    ensures Trim("\n" + inner + "\n") == inner
  {
    var x := "\n" + inner + "\n";
    SkipOneSpace(x, 0);
    assert TrimStart(x) == inner + "\n";
    TrimEndAt(inner + "\n", |inner|);
    assert (inner + "\n")[..|inner|] == inner;
  }

  lemma JoinFirstChar(ls: seq<string>)
    requires |ls| >= 1 && ls[0] != []
    ensures Join(ls) != [] && Join(ls)[0] == ls[0][0]
  {
  }

  lemma {:induction false} JoinLastChar(ls: seq<string>)
    requires |ls| >= 1 && ls[|ls| - 1] != []
    ensures Join(ls) != [] && Join(ls)[|Join(ls)| - 1] == ls[|ls| - 1][|ls[|ls| - 1]| - 1]
    decreases |ls|
  {
    if |ls| > 1 {
      JoinLastChar(ls[1..]);
    }
  }
}

=== FILE: wrappers.dfy ===
/** Optional values: JavaScript's `null` / `undefined` results. */
module Wrappers {

  datatype Option<+T> = None | Some(value: T) {
    function GetOr(default: T): T {
      match this
      case Some(v) => v
      case None => default
    }
  }
}
